=== FILE: README.md ===
# media_lens in Dafny

media_lens collects the front pages of a few news sites every day. It keeps
each run in a job directory named by its UTC timestamp. Its pipeline steps
are:

- harvest: scrape and clean the pages;
- extract: the headlines and stories;
- interpret: questions and answers per site, for one job and for a whole week;
- format: an HTML report;
- deploy: the changed pages, using a deploy cursor.

A Flask entry point starts runs in the background and tracks them. An
auditor checks that every job directory is complete and repairs the gaps. A
one-off migration script moves the legacy flat layout (`2025-06-01_120000/`)
to the hierarchical one (`jobs/2025/06/01/120000/`).

This project models the logic of those components as pure Dafny functions
over immutable data and proves what they promise. Storage listings, file
contents, clocks, language-model replies and upload results become
parameters. One module follows each source area:

- **Wrappers**, **Json**, **Text**, **Lists**, **Paths**, **Patterns**: the
  Python behaviour the code relies on:
  - `str.find`, `split`, `join` and `strip`;
  - lexicographic string order;
  - stable `sorted`;
  - `pathlib.Path` parts;
  - a backtracking matcher for the regular expressions `strptime` builds.
- **Calendar**, **Timestamps**, **Instants**, **Zones**, **Weeks**: dates
  and instants, plus the job timestamp formats:
  - the proleptic Gregorian calendar;
  - `strptime`/`strftime` for `%Y-%m-%d_%H%M%S`, `%Y-%m-%d` and
    `%Y-%m-%dT%H:%M:%S+00:00`;
  - `isoformat`/`fromisoformat`;
  - the `%Y-W%U` week key and its display heading.
- **JobIndex** (`job_dir.py`), **Directories** (`directory_manager.py`),
  **RunState** (`common.py`).
- **Deployer** (`deployer.py` and `runner.deploy_output`), **Runner**
  (`runner.py`), **Cloud** (`cloud_entrypoint.py`).
- **Interpreter**, **Headliner**, **Extractor** (`extraction/`),
  **Formatter** (`html_formatter.py`).
- **Cleaner** (`collection/cleaner.py`), **Auditor** (`auditor.py`),
  **Migration** (`migrate_directory_structure.py`).

Where the code and its documentation or tests disagree, the model follows
the code:

- `test_headliner.py` expects an `"error"` key after a failed extraction.
  `LLMHeadlineExtractor.extract` returns `{}` whenever the processed result
  holds `"error"` (`headliner.py:224-225`). `Headliner.Extract` states that
  behaviour. That holds only for a reply that decodes to a JSON object,
  which is how the model represents every reply. If the reply decodes to
  something else, for example the number `5`, then `"error" in res` raises
  `TypeError`. The outer `except` (`headliner.py:228-235`) then returns
  `{"headlines": [], "stories": [], "error": ...}`, which does carry an
  `"error"` key. `Extract`'s promise that the result has no `"error"` key
  is therefore made under that abstraction.
- In `migrate()`, the call to `create_backup` is not guarded by `dry_run`
  (`migrate_directory_structure.py:369-370`). A dry run with `--backup`
  therefore still copies the legacy data under `migration_backup/`.
  `Migration.Migrate` states this.
- A legacy directory name with a trailing newline passes the `$`-anchored
  regular expression of `discover_legacy_directories`, but `strptime`
  rejects it. In `migrate()` that directory fails, and the migration stops
  there. `Migration.NewlineNameFailsToParse` shows such a name.
- `interpret_weekly` calls `interpret_weeks` without `job_dirs_root`
  (`runner.py:164-169`), a parameter the `interpret_weeks` of
  `interpreter.py:333` requires. As written, every weekly run with weeks to
  process therefore raises `TypeError`. The tests
  (`test_interpreter.py:157-159`) pass a `use_rolling_for_current` argument
  that this `interpret_weeks` does not take either. `Interpreter.SelectWeeks`
  and `Interpreter.WeekTasks` follow the `interpret_weeks` of
  `interpreter.py:333-447`. `Runner.WeeklySelection` covers the choice of
  weeks before the call.
- `html_formatter.py` imports `UTC_PATTERN` from `common.py`, which does not
  define it, so the module cannot be imported as it stands. The model covers
  the report's data logic as the function bodies describe it.

## Model

| member | source | states |
|---|---|---|
| Timestamps.Strptime | src/media_lens/common.py:96-104 | a successful parse consumes the whole text, and every format item matches a piece of it (no "unconverted data remains") |
| Timestamps.Check | src/media_lens/common.py:96-104 | `datetime(...)` accepts exactly the valid calendar dates and times, and returns them unchanged |
| Timestamps.ParseFormatCompact | src/media_lens/common.py:51-53 | `strptime` with `%Y-%m-%d_%H%M%S` reads back every timestamp `strftime` writes with it |
| Timestamps.ParseUnpadded | src/media_lens/common.py:96-104 | `strptime` also accepts a month and day written without zero padding, so two different texts parse to the same job time |
| Timestamps.LegacyMatchesCompact | src/media_lens/common.py:12 | on text the legacy job regex accepts, the compact strptime format splits the fields in the same way |
| Timestamps.LegacyCanonical | src/media_lens/common.py:12 | a name the legacy regex accepts and strptime parses is exactly the canonical text of its time |
| Timestamps.LegacyLeadingDigit | src/media_lens/common.py:12 | whatever the legacy regex matches starts with a digit |
| Timestamps.CompactOrder | src/media_lens/job_dir.py:172-176 | string order on zero-padded job timestamps is chronological order |
| Timestamps.InstantInjective | src/media_lens/job_dir.py:166-170 | two valid times at the same instant are the same time, so timestamp equality is instant equality |
| Text.JoinSplit | src/media_lens/job_dir.py:56-58 | joining the pieces of `split('/')` gives back the text |
| Text.SplitJoin | src/media_lens/job_dir.py:56-58 | splitting a join of separator-free pieces gives back the pieces |
| Text.PadOrder | src/media_lens/job_dir.py:172-176 | on equal-width zero-padded fields, string order is numeric order |
| Text.DecimalOfPad | src/media_lens/directory_manager.py:48-51 | reading back a zero-padded field gives the number written |
| Text.PadOfDecimal | src/media_lens/directory_manager.py:48-51 | writing back a parsed digit field gives the digits read |
| Text.Find | src/media_lens/collection/cleaner.py:90-98 | `str.find` gives the first occurrence or -1, and there is no earlier occurrence |
| Text.Strip | src/media_lens/job_dir.py:54 | `strip()` leaves no whitespace at either end and never grows the text |
| Text.StripInfix | src/media_lens/job_dir.py:54 | `strip()` drops only surrounding whitespace: the result is the part of the text at some offset with nothing but whitespace before and after it, so with its non-space ends it is exactly the text between the leading and trailing whitespace, and an all-whitespace text strips to nothing |
| Text.StripIdempotent | src/media_lens/job_dir.py:54 | stripping twice is stripping once |
| Text.SplitOnPrefix | src/media_lens/extraction/interpreter.py:312-313 | the text up to the end of the first `k` pieces of a split splits back into exactly those `k` pieces |
| Text.RStripSet | src/media_lens/extraction/interpreter.py:254 | `rstrip(chars)` keeps a prefix, removes only characters of the set, and leaves a last character outside the set |
| Lists.SortBySorted | src/media_lens/job_dir.py:95-96 | `sort()` by a strict order leaves the list ordered |
| Lists.SortByStable | src/media_lens/presentation/html_formatter.py:77 | the sort is stable: entries with equal keys keep their relative order |
| Lists.Dedup | src/media_lens/runner.py:320-323 | dropping repeats leaves a list without repeats that holds exactly the input's elements |
| Lists.DedupOrder | src/media_lens/runner.py:320-323 | the kept elements appear in the order of their first occurrences |
| Lists.FilterMembers | src/media_lens/job_dir.py:86-93 | filtering keeps exactly the elements that pass the test |
| Lists.FilterIsSubsequence | src/media_lens/job_dir.py:86-93 | filtering keeps the survivors in input order |
| Paths.PartsOfStr | src/media_lens/directory_manager.py:53-56 | printing a `Path` and reading it back gives the same parts |
| Paths.PartsIdempotent | src/media_lens/directory_manager.py:100-101 | normalising a path's parts once normalises them for good |
| Paths.Append | src/media_lens/directory_manager.py:53 | `path / s` appends the parts of a relative `s`; an absolute `s` replaces the path |
| Patterns.MatchItems | src/media_lens/common.py:96-104 | every match the strptime matcher returns is sound: each piece fits its item and the pieces spell the input |
| Patterns.MatchCanonical | src/media_lens/common.py:96-104 | text made of canonical pieces matches with exactly those pieces |
| Patterns.TryAltsFirst | src/media_lens/common.py:96-104 | regex alternation takes the first alternative that fits, like Python's `re` |
| Calendar.FromOrdinal | src/media_lens/common.py:84-92 | `fromordinal(n)` is the date whose ordinal is `n` |
| Calendar.FromOrdinalOfOrdinal | src/media_lens/common.py:84-92 | `fromordinal` undoes `toordinal` |
| Calendar.OrdinalOrder | src/media_lens/directory_manager.py:143 | day ordinal order is calendar order |
| Calendar.DaysBeforeYearClosedForm | src/media_lens/common.py:81-92 | the year-by-year day count agrees with the leap-year rule's closed form |
| Calendar.YearOfUnique | src/media_lens/common.py:84-92 | the year holding a day is unique |
| Instants.IsoRoundTrip | src/media_lens/presentation/deployer.py:31-48 | `fromisoformat` reads back what `isoformat` writes, for naive and aware datetimes, with or without microseconds |
| Instants.FromWallMicrosOfMoment | src/media_lens/presentation/deployer.py:55-68 | a datetime is determined by its wall-clock microsecond count and offset |
| Instants.WallMicrosInjective | src/media_lens/presentation/deployer.py:55-68 | distinct datetimes have distinct microsecond counts |
| Instants.LaterOrder | src/media_lens/presentation/deployer.py:108 | `>` on datetimes of one kind is a strict order |
| Instants.AddDaysUtc | src/media_lens/presentation/deployer.py:64 | adding days to an aware datetime moves its instant by exactly that many days |
| Zones.LocalDate | src/media_lens/common.py:65-71 | the local calendar day of an instant under a zone's offset, or an error when that day is out of range |
| Zones.LocalDateAtZeroOffset | src/media_lens/common.py:65-71 | where the offset is zero, the local day is the UTC day |
| Zones.WeekKeyAt | src/media_lens/common.py:65-71 | `get_week_key` is the `%Y-W%U` key of the local day, failing exactly when the local day fails |
| Weeks.WeekNumber | src/media_lens/common.py:17 | `%U` lies between 0 and 53 |
| Weeks.WeekNumberCountsSundays | src/media_lens/common.py:17 | `%U` counts the Sundays from January 1 up to and including the day |
| Weeks.WeekNumberAtStep | src/media_lens/common.py:17 | moving on one day adds one to the week number exactly on a Sunday |
| Weeks.WeekNumberMonotone | src/media_lens/common.py:17 | within a year, a later day never has a smaller week number |
| Weeks.WeekKeyOrder | src/media_lens/common.py:65-71 | week keys sort in calendar order |
| Weeks.ParseWeekKeyRoundTrip | src/media_lens/common.py:77-79 | the key parsing in `get_week_display` reads back the year and week a key was built from |
| Weeks.DisplayMondayContainsDay | src/media_lens/common.py:73-94 | the corrected heading's Monday lies in the Sunday-to-Saturday week of every day carrying that key |
| Weeks.WeekStartOfKey | src/media_lens/common.py:73-94 | the corrected heading of a key from `get_week_key` names the Monday of that day's week |
| Weeks.AsWrittenHeadingsCollide | src/media_lens/common.py:84-92 | as written, "2025-W00" and "2025-W01" get the same heading |
| Weeks.AsWrittenMissesWeekZero | src/media_lens/common.py:84-92 | as written, week 00 of 2025 is headed by a Monday after January 1, which that week's days do not reach |
| Weeks.CorrectedWeekZero | src/media_lens/common.py:84-92 | corrected, week 00 of 2025 is headed by Monday 2024-12-30 |
| Weeks.KeyOfNewYear2025 | src/media_lens/common.py:65-71 | January 1, 2025 has key "2025-W00" |
| JobIndex.NewJobDir | src/media_lens/job_dir.py:24-37 | a job exists exactly when its timestamp parses; it keeps the given path, text and layout, and its week key is the key of its time |
| JobIndex.Classify | src/media_lens/job_dir.py:54-70 | a classified job keeps its path; it is hierarchical exactly for `jobs/` paths; a legacy job's name is its canonical timestamp |
| JobIndex.FromPath | src/media_lens/job_dir.py:40-70 | `from_path` classifies the stripped path without trailing slashes |
| JobIndex.ClassifyLegacy | src/media_lens/job_dir.py:67-68 | a name the legacy regex accepts is a legacy job with the name as its timestamp |
| JobIndex.FromPathLegacy | src/media_lens/job_dir.py:67-68 | the canonical legacy name of a time is a legacy job at that time |
| JobIndex.FromPathOfHierarchicalPath | src/media_lens/job_dir.py:56-65 | the hierarchical path of a time is a hierarchical job at that time |
| JobIndex.FromPathPadded | src/media_lens/job_dir.py:54 | surrounding whitespace and trailing slashes do not change the result |
| JobIndex.FromPathBadTime | src/media_lens/job_dir.py:56-62 | a `jobs/` path without five parts and a six-digit time part is rejected, even if it would match the legacy pattern |
| JobIndex.LayoutsAgree | src/media_lens/job_dir.py:166-170 | the two layouts of one time are equal jobs with different storage paths |
| JobIndex.CanonicalOrder | src/media_lens/job_dir.py:166-176 | `<` on jobs is chronological order, and `==` is time equality |
| JobIndex.Gather | src/media_lens/job_dir.py:84-93 | the listing fails only if some entry raises something other than `ValueError` |
| JobIndex.CollectMembers | src/media_lens/job_dir.py:84-93 | the collected jobs are exactly the listed entries that parse |
| JobIndex.ListAll | src/media_lens/job_dir.py:74-97 | `list_all` is a permutation of the collected jobs |
| JobIndex.ListAllSorted | src/media_lens/job_dir.py:95-97 | `list_all` is oldest first and holds exactly the listed entries that parse |
| JobIndex.ListAllStable | src/media_lens/job_dir.py:95-97 | jobs with the same timestamp keep their listing order |
| JobIndex.FindLatest | src/media_lens/job_dir.py:100-111 | `find_latest` is None exactly when no listed entry parses |
| JobIndex.FindLatestIsLatest | src/media_lens/job_dir.py:100-111 | the latest job is listed, and no listed job is later than it |
| JobIndex.GroupByWeek | src/media_lens/job_dir.py:114-130 | the dict's keys are distinct and are exactly the keys that have a bucket |
| JobIndex.GroupByWeekOrder | src/media_lens/job_dir.py:125-129 | the dict's keys are the jobs' week keys with repeats dropped, in the order each first appears (`Lists.Dedup`) |
| JobIndex.GroupByWeekBuckets | src/media_lens/job_dir.py:114-130 | each week's bucket is exactly the jobs of that week, in input order, and every job's week has a bucket |
| Directories.NewManager | src/media_lens/directory_manager.py:22-29 | an empty base path is the empty path |
| Directories.GetJobDir | src/media_lens/directory_manager.py:31-56 | fails exactly on an unparsable timestamp; otherwise the base followed by `jobs/YYYY/MM/DD/HHMMSS` of the given time, or of now when none is given |
| Directories.GetJobDirText | src/media_lens/directory_manager.py:48-56 | the job directory of a canonical timestamp is the base's parts followed by the five job segments |
| Directories.JobDirIsHierarchical | src/media_lens/directory_manager.py:31-56 | under the empty base, `get_job_dir` gives the hierarchical path `from_path` recognises |
| Directories.ParseJobTimestamp | src/media_lens/directory_manager.py:90-116 | succeeds exactly when some `jobs` part has four parts after it, and reads them at the first `jobs` |
| Directories.ParseIgnoresRest | src/media_lens/directory_manager.py:100-113 | parts before the first `jobs` and parts after the time part do not matter |
| Directories.JobDirRoundTrip | src/media_lens/directory_manager.py:31-116 | `parse_job_timestamp(get_job_dir(ts))` is the canonical form of `ts` when the base holds no `jobs` part |
| Directories.JobDirRoundTripCanonical | src/media_lens/directory_manager.py:31-116 | for a canonical timestamp, the round trip is the identity |
| Directories.SubDirParts | src/media_lens/directory_manager.py:58-88 | a relative subdirectory extends base/name, and an absolute one replaces it |
| Directories.IntermediateUnderEmptyBase | src/media_lens/directory_manager.py:58-72 | with no base, the intermediate directory is `intermediate` or `intermediate/<sub>` |
| Directories.StagingUnderEmptyBase | src/media_lens/directory_manager.py:74-88 | with no base, the staging directory is `staging` or `staging/<sub>` |
| Directories.Boundaries | src/media_lens/directory_manager.py:157-175 | the range runs from midnight of the start day to the last microsecond of the end day, and fails exactly when a date does not parse |
| Directories.JobMoment | src/media_lens/directory_manager.py:139-141 | a job time marked UTC is the same instant |
| Directories.GetJobsInDateRange | src/media_lens/directory_manager.py:118-155 | fails only on a bad date, is empty when listing fails, and is sorted |
| Directories.SelectMembers | src/media_lens/directory_manager.py:134-150 | a directory is selected exactly when it is listed and its time falls in the window |
| Directories.InWindowIsDayInRange | src/media_lens/directory_manager.py:120-143 | being inside the microsecond window means the job's UTC day lies between the two dates |
| Directories.JobsInRangeMembers | src/media_lens/directory_manager.py:118-155 | the result holds exactly the listed job directories whose UTC day lies between the two dates |
| RunState.RequestStop | src/media_lens/common.py:151-156 | after a stop request, stop is requested and the run id is unchanged; the request changes the state exactly when no stop was pending, so asking twice is asking once |
| RunState.Reset | src/media_lens/common.py:158-162 | after a reset, no stop is pending and the run id is the given one; the state is the one before any run with the new id, so everything before the reset, a stop request included, is forgotten |
| Deployer.GetCursor | src/media_lens/presentation/deployer.py:18-35 | a cursor is read only from an existing cursor file, and is a valid datetime |
| Deployer.UpdateCursor | src/media_lens/presentation/deployer.py:38-52 | writing the cursor touches only the cursor file |
| Deployer.ResetCursor | src/media_lens/presentation/deployer.py:71-83 | resetting removes the cursor file and touches nothing else |
| Deployer.GetAfterUpdate | src/media_lens/presentation/deployer.py:18-52 | reading the cursor after writing it gives back the datetime written |
| Deployer.GetAfterReset | src/media_lens/presentation/deployer.py:18-83 | after a reset, no cursor is read |
| Deployer.IsoFormatUnpadded | src/media_lens/presentation/deployer.py:30 | the `strip()` applied when reading changes nothing in a written cursor |
| Deployer.RewindCursor | src/media_lens/presentation/deployer.py:55-68 | without a cursor nothing changes; otherwise the cursor moves back by that many days and nothing else changes |
| Deployer.FilesToDeploy | src/media_lens/presentation/deployer.py:86-123 | with no cursor every staged file; otherwise exactly the staged files newer than the cursor or with no known time, in staging order |
| Deployer.LatestTime | src/media_lens/runner.py:250-263 | the latest known modification time is at least every known time and at least the previous latest, and is one of them |
| Deployer.StartCursor | src/media_lens/runner.py:237 | a forced deploy starts without a cursor |
| Deployer.AdvanceCursor | src/media_lens/runner.py:265-268 | the cursor moves to the latest time of the uploaded files when one is known, and otherwise stays put; nothing else changes |
| Deployer.DeployNothingNew | src/media_lens/runner.py:240-242 | with a cursor and nothing newer to deploy, the deploy changes nothing |
| Deployer.DeployCursor | src/media_lens/runner.py:224-266 | a deploy touches only the cursor, and moves it exactly when some upload succeeded with a known time |
| Deployer.DeployMovesForward | src/media_lens/runner.py:224-266 | an unforced deploy that moves an aware cursor moves it strictly forward |
| Deployer.AsWrittenDiffers | src/media_lens/runner.py:251 | as written, a forced deploy of a staged file fails; corrected, it sets the cursor to that file's time |
| Deployer.AsWrittenNeverDeploys | src/media_lens/runner.py:251 | as written, a deploy either has nothing to upload and changes nothing, or fails |
| Runner.FromName | src/media_lens/runner.py:33-43 | a step looked up by name has that name |
| Runner.FromNameOfName | src/media_lens/runner.py:33-43 | every step is found by its own name |
| Runner.NameInjective | src/media_lens/runner.py:33-43 | no two steps share a name |
| Runner.NameRequested | src/media_lens/runner.py:375-378 | a step's name is in the names list exactly when the step is in the list |
| Runner.Validate | src/media_lens/runner.py:365-383 | rejects exactly `harvest` combined with `harvest_scrape` or `harvest_clean`, naming the scrape conflict first |
| Runner.Run | src/media_lens/runner.py:419-458 | fails before any step exactly on an invalid combination or an invalid job directory; a result is `error` exactly when it carries an error |
| Runner.PlanOrdered | src/media_lens/runner.py:461-527 | the steps run in the fixed pipeline order, whatever order was requested |
| Runner.PlanAt | src/media_lens/runner.py:461-480 | every planned step was requested, and only the first one may be a harvest kind, the one the `elif` chain picks |
| Runner.ExecuteOutcome | src/media_lens/runner.py:460-536 | the report lists the steps completed before the first stop or failure; `stopped` means a stop was seen and `error` means a step failed |
| Runner.RunOutcome | src/media_lens/runner.py:419-539 | a started run reports its planned steps as they complete, stop or fail |
| Runner.StagesOutcome | src/media_lens/runner.py:482-527 | the later stages run in order until a stop or a failure |
| Runner.AddWeeks | src/media_lens/runner.py:122-145 | the requested weeks come first, in order; the current and previous weeks are appended once each, only when asked and not already present |
| Runner.AddWeeksContents | src/media_lens/runner.py:122-145 | the week list is exactly the requested weeks plus the added ones |
| Runner.WeeklySelection | src/media_lens/runner.py:120-158 | with `today` and the three `is_last_day_of_week()` tests as separate clock readings: nothing runs exactly when the first test reads no Sunday and there are no requested weeks and no overwrite; otherwise the weeks processed are the requested ones, the current week when the second test reads a Sunday, and the missed previous week; calendar boundaries follow the third test |
| Runner.MidnightCrossing | src/media_lens/runner.py:124-133 | a run that passes the Sunday gate and then reads a Monday does not add the current week: at most the previous week is processed |
| Runner.ReinterpretSelection | src/media_lens/runner.py:335-339 | with requested weeks, the weekly step processes exactly those weeks |
| Runner.NextSunday | src/media_lens/runner.py:325-330 | the next Sunday is strictly later, at most seven days on, has no Sunday in between, and keeps the time of day |
| Runner.KeysOf | src/media_lens/runner.py:320-323 | the week keys of the visited dates, one per date, failing exactly when one of them fails |
| Runner.ReinterpretWeeks | src/media_lens/runner.py:299-332 | the dates visited run from the start through successive Sundays up to now, and the weeks are their keys without repeats in first-seen order |
| Runner.CursorAdvance | src/media_lens/runner.py:320-330 | one loop step keeps the walk invariant: the visited dates form the Sunday chain and the keys are their deduplicated week keys |
| Runner.ChainCoversSundays | src/media_lens/runner.py:325-330 | the walk visits every Sunday between its first and last date |
| Runner.ResetCursorChoice | src/media_lens/runner.py:769-782 | `reset-cursor` resets the format cursor unless only `--deploy` is given, and the deploy cursor unless only `--format` is given; at least one is always reset |
| Runner.SummarizeTargets | src/media_lens/runner.py:341-362 | the directories summarised are exactly the legacy-named ones that lack a summary, or all of them when forced |
| Runner.ForceWidens | src/media_lens/runner.py:355-362 | forcing only adds directories, namely the ones that already had a summary |
| Runner.SummarizeCommandAsWritten | src/media_lens/runner.py:741-749 | as written, `--force` makes no difference to what is summarised |
| Runner.SummarizeCommand | src/media_lens/runner.py:741-749 | corrected, `--force` summarises every legacy-named directory |
| Runner.ForceIgnored | src/media_lens/runner.py:741-749 | a directory that has its summary is skipped as written under `--force`, but resummarised when corrected |
| Cloud.Running | src/media_lens/cloud_entrypoint.py:88-93 | the running set is exactly the registered runs marked running |
| Cloud.RunningInsert | src/media_lens/cloud_entrypoint.py:95-104 | registering a new running run adds exactly that id to the running set |
| Cloud.RunningRemove | src/media_lens/cloud_entrypoint.py:56-65 | finishing a running run removes exactly that id from the running set |
| Cloud.ParseSteps | src/media_lens/cloud_entrypoint.py:75-78 | the step names parse exactly when each one names a step, keeping their order |
| Cloud.DefaultStepsParse | src/media_lens/cloud_entrypoint.py:75 | the default steps are harvest, extract, interpret and deploy |
| Cloud.RunPipeline | src/media_lens/cloud_entrypoint.py:69-123 | answers 409 while a run with the same id is still running, 500 on a bad step name, and otherwise 200 after registering the run as running |
| Cloud.RunPipelineCounts | src/media_lens/cloud_entrypoint.py:86-110 | an accepted request adds one running run, and a refused one changes nothing |
| Cloud.RunPipelineKeyed | src/media_lens/cloud_entrypoint.py:95-104 | every registry entry stays filed under its own run id |
| Cloud.FinishRun | src/media_lens/cloud_entrypoint.py:47-67 | a finished run stops running, records the pipeline's status or the error, and no other run changes |
| Cloud.FinishRunCounts | src/media_lens/cloud_entrypoint.py:47-67 | finishing a run leaves one run fewer running and the registry size unchanged |
| Cloud.FinishedPipeline | src/media_lens/cloud_entrypoint.py:47-123 | a run accepted and then finished is no longer running |
| Cloud.RunWeekly | src/media_lens/cloud_entrypoint.py:174-239 | the weekly endpoint resets the run state to the new id, registers the run, and answers 200 |
| Cloud.RunSummarize | src/media_lens/cloud_entrypoint.py:241-297 | the summarise endpoint resets the run state to the new id, registers the run, and answers 200 |
| Cloud.FinishTask | src/media_lens/cloud_entrypoint.py:206-218 | a finished background task records `success` or the error, and no other run changes |
| Cloud.StopRun | src/media_lens/cloud_entrypoint.py:125-147 | 404 for an unknown run, 400 for a finished one, and 200 with a stop request for a running one; only the 200 changes the state |
| Cloud.Status | src/media_lens/cloud_entrypoint.py:149-172 | one run when a known id is asked for, 404 for an unknown id, and otherwise every run with their count |
| Cloud.StatusAfterRun | src/media_lens/cloud_entrypoint.py:69-172 | right after a run is accepted, its status reads running with the requested steps |
| Interpreter.ArticleOf | src/media_lens/extraction/interpreter.py:201-208 | an article's position is the first index in its day equal to it, not necessarily its own index |
| Interpreter.Collect | src/media_lens/extraction/interpreter.py:198-213 | the flattened article list has one entry per article of every day and is empty exactly when every day is |
| Interpreter.TruncateText | src/media_lens/extraction/interpreter.py:310-316 | the truncated text is a prefix: unchanged for 2 to 5 paragraphs, the first 1000 characters for a single paragraph, and otherwise a text that splits into exactly the first five paragraphs and ends where the sixth paragraph's break begins |
| Interpreter.TruncateCut | src/media_lens/extraction/interpreter.py:312-313 | keeping five paragraphs cuts the text at the start of the sixth, and the kept text splits back into those five paragraphs |
| Interpreter.Ranked | src/media_lens/extraction/interpreter.py:321-324 | sorting by position is a permutation of the truncated articles, ordered by position |
| Interpreter.PreProcess | src/media_lens/extraction/interpreter.py:305-330 | keeps at most the limit of truncated articles, ordered by position |
| Interpreter.PreProcessFrom | src/media_lens/extraction/interpreter.py:305-330 | every kept article is the truncation of an input article |
| Interpreter.PreProcessKeepsTop | src/media_lens/extraction/interpreter.py:326 | no dropped article ranks ahead of a kept one |
| Interpreter.PreProcessStable | src/media_lens/extraction/interpreter.py:321-326 | kept articles with the same position are in input order |
| Interpreter.Sanitize | src/media_lens/extraction/interpreter.py:237 | every character left is printable, and already printable text is unchanged |
| Interpreter.SanitizeExact | src/media_lens/extraction/interpreter.py:237 | sanitising keeps exactly the printable characters, in order |
| Interpreter.ReplyBody | src/media_lens/extraction/interpreter.py:232-246 | a reply starting with `[` is sanitised whole; otherwise the text after `</thinking>` is used, or nothing |
| Interpreter.NormalizeQuestion | src/media_lens/extraction/interpreter.py:251-256 | a question ends in exactly one `?`, after its own text stripped of trailing `.!?,:;` |
| Interpreter.NormalizeIdempotent | src/media_lens/extraction/interpreter.py:251-256 | normalising a question twice is normalising it once |
| Interpreter.Labelled | src/media_lens/extraction/interpreter.py:251-260 | an item gains its site, has its question normalised, and keeps every other key |
| Interpreter.BodyItems | src/media_lens/extraction/interpreter.py:247-270 | a parsed reply gives its items labelled; bad JSON gives the could-not-be-processed item; any other failure gives the not-available item |
| Interpreter.ReplyItems | src/media_lens/extraction/interpreter.py:223-277 | a failed model call gives the not-available item; every item carries the site |
| Interpreter.InterpretSite | src/media_lens/extraction/interpreter.py:184-289 | no articles gives no items; otherwise the reply's items, or the weekly fallback when there are none; every item carries the site |
| Interpreter.SelectWeeks | src/media_lens/extraction/interpreter.py:362-378 | requested weeks are kept when they have data; otherwise the current week alone, or every week |
| Interpreter.SelectWeeksOrder | src/media_lens/extraction/interpreter.py:363-367 | requested weeks keep the requested order |
| Interpreter.GatherContent | src/media_lens/extraction/interpreter.py:450-471 | one entry per distinct site, in first-seen order, holding one list per job directory: that directory's articles for the site |
| Interpreter.GatheredJobLists | src/media_lens/extraction/interpreter.py:390-393 | the sum the skip test computes is the number of distinct sites times the number of job directories, so it is zero exactly when there are no sites or no job directories |
| Interpreter.GatheredArticles | src/media_lens/extraction/interpreter.py:450-471 | the gathered content holds no article exactly when no site has an article in any of the job directories |
| Interpreter.Tasks | src/media_lens/extraction/interpreter.py:384-447 | every task is a selected week that passes the content test, and an existing weekly file is reused exactly when overwrite is off |
| Interpreter.TasksOrder | src/media_lens/extraction/interpreter.py:384-447 | the weeks acted on are exactly the selected weeks that pass the content test, in the selected order |
| Interpreter.WeekTasksAsWritten | src/media_lens/extraction/interpreter.py:384-447 | as written: every task is a selected week, and an existing weekly file is reused exactly when overwrite is off |
| Interpreter.WeekTasksAsWrittenOrder | src/media_lens/extraction/interpreter.py:388-393 | as written, a selected week is acted on exactly when there is a site and the week has a job directory, whatever the directories hold, in the selected order |
| Interpreter.WeekTasks | src/media_lens/extraction/interpreter.py:384-447 | corrected: every week acted on has at least one gathered article, and an existing weekly file is reused exactly when overwrite is off |
| Interpreter.WeekTasksOrder | src/media_lens/extraction/interpreter.py:384-447 | corrected: the weeks acted on are exactly the selected weeks in which some site has an article in some job directory, in the selected order |
| Interpreter.EmptyWeekActedOn | src/media_lens/extraction/interpreter.py:388-393 | a week with a site and a job directory but no articles is acted on as written, and skipped when articles are counted |
| Headliner.Tokens | src/media_lens/extraction/headliner.py:139 | the token estimate splits text into maximal word runs and single other non-space characters |
| Headliner.TokensCover | src/media_lens/extraction/headliner.py:139 | the tokens spell the text without its whitespace |
| Headliner.GlueContent | src/media_lens/extraction/headliner.py:146 | re-gluing tokens adds only whitespace |
| Headliner.GlueSpacing | src/media_lens/extraction/headliner.py:146 | the glued text is the tokens' pieces end to end, from the start to the end of the text: an alphanumeric token's piece is one space and then the token, any other token's piece is the token alone; so every whitespace character is a single space directly followed by a letter or digit |
| Headliner.GlueLength | src/media_lens/extraction/headliner.py:146 | the glued text is as long as the tokens together plus one space per alphanumeric token |
| Headliner.GluedTokenAfterSpace | src/media_lens/extraction/headliner.py:146-148 | after stripping, every alphanumeric token but the first still sits right after a space, at the position of its glued space less the stripped one, with exactly the earlier tokens' characters before it |
| Headliner.TruncateHtml | src/media_lens/extraction/headliner.py:130-148 | text within the token limit is unchanged; longer text becomes the first tokens re-glued and stripped, and in it every kept alphanumeric token after the first follows a space, preceded by exactly the earlier kept tokens, and it is exactly as long as the kept tokens plus one space per alphanumeric kept token after the first, so it holds no other whitespace |
| Headliner.TruncateIsPrefix | src/media_lens/extraction/headliner.py:141-148 | without whitespace, the truncated text is a prefix of the original |
| Headliner.Extract | src/media_lens/extraction/headliner.py:214-226 | a processed result holding `error` becomes `{}`, and any other result is returned unchanged |
| Extractor.DomainOf | src/media_lens/extraction/extractor.py:52-56 | the domain is `www.` and the longest dash-free run after it, and it is missing exactly when no such run exists |
| Extractor.ResolveUrl | src/media_lens/extraction/extractor.py:46-60 | a link with a scheme is kept; otherwise it becomes `https://<domain>/` plus the path without one leading slash, or fails without a domain |
| Extractor.CompletedHasScheme | src/media_lens/extraction/extractor.py:60 | a completed link has a scheme |
| Extractor.ResolveIdempotent | src/media_lens/extraction/extractor.py:46-60 | completing a completed link changes nothing |
| Formatter.BuildRow | src/media_lens/presentation/html_formatter.py:66-73 | a row is the first site's question and then each site's answer, and fails exactly on a missing item or key |
| Formatter.AnswerTable | src/media_lens/presentation/html_formatter.py:65-74 | the table has one row per item of the first site, each the question and then every site's answer, and fails on a run without sites or a missing entry |
| Formatter.TableUnique | src/media_lens/presentation/html_formatter.py:65-74 | a table of the question-and-answers shape is the only one for its input |
| Formatter.PerSite | src/media_lens/presentation/html_formatter.py:60-64 | one result per site, in site order |
| Formatter.BuildRun | src/media_lens/presentation/html_formatter.py:52-75 | a run carries its timestamp, sites, extracted results in site order, and its answer table; it fails exactly when a site's item or key is missing |
| Formatter.CollectRuns | src/media_lens/presentation/html_formatter.py:52-75 | the job loop builds one run per job directory, in job order, failing exactly when some run cannot be built |
| Formatter.NewestFirst | src/media_lens/presentation/html_formatter.py:77 | a permutation of the runs, newest first, failing on the first timestamp that does not parse |
| Formatter.NewestFirstStable | src/media_lens/presentation/html_formatter.py:77 | runs with the same time keep their listing order |
| Formatter.GenerateReport | src/media_lens/presentation/html_formatter.py:38-79 | succeeds exactly when every run can be built and every timestamp parses; the runs are then a permutation of the job directories' runs, newest first, each carrying the sites |
| Cleaner.CleanerFor | src/media_lens/collection/cleaner.py:90-98 | the CNN, BBC or Fox cleaner by the first of those names the site contains, and an error otherwise |
| Cleaner.CleanPageEmbeds | src/media_lens/collection/cleaner.py:32-70 | cleaning a page only removes nodes and never invents one |
| Cleaner.CleanPageKeepsMatches | src/media_lens/collection/cleaner.py:32-70 | every element matching a selector survives cleaning |
| Cleaner.CleanPageRelated | src/media_lens/collection/cleaner.py:32-70 | every surviving element matches, contains or lies inside a match |
| Cleaner.CleanPageKeepsSome | src/media_lens/collection/cleaner.py:32-70 | a page with a match still has one after cleaning |
| Cleaner.FirstHead | src/media_lens/collection/cleaner.py:114-116 | a `head` element of the page, absent exactly when the page has none |
| Cleaner.FirstHeadInOrder | src/media_lens/collection/cleaner.py:115 | `soup.head` is the first `head` element in document order, the order `find_all()` visits |
| Cleaner.ClearHeadEmpties | src/media_lens/collection/cleaner.py:114-116 | after clearing, the first `head` is the old one with no children |
| Cleaner.ClearHeadFrame | src/media_lens/collection/cleaner.py:114-116 | clearing removes exactly the first head's descendants: every other node keeps its place in document order |
| Cleaner.ClearHeadCounts | src/media_lens/collection/cleaner.py:114-116 | emptying the head removes exactly its children's tags |
| Cleaner.RemoveTagsSound | src/media_lens/collection/cleaner.py:118-125 | after removal no banned tag is left, and nothing new appears |
| Cleaner.RemoveTagsNone | src/media_lens/collection/cleaner.py:118-125 | a page without banned tags is unchanged |
| Cleaner.CleanHtml | src/media_lens/collection/cleaner.py:106-130 | no banned tag remains, every element is related to a match, and the result is part of the page after the head is cleared and tags removed |
| Cleaner.CleanHtmlKeepsMatches | src/media_lens/collection/cleaner.py:106-130 | every match surviving tag removal survives cleaning |
| Cleaner.FilterTextSound | src/media_lens/collection/cleaner.py:133-167 | filtering keeps every text node, invents nothing, and leaves only supported elements |
| Cleaner.FilterTextIdempotent | src/media_lens/collection/cleaner.py:133-167 | filtering twice is filtering once |
| Cleaner.SupportedFixed | src/media_lens/collection/cleaner.py:133-167 | a page of supported elements is unchanged |
| Cleaner.XPath | src/media_lens/collection/cleaner.py:195-207 | an element's path starts at the document root |
| Cleaner.NearestLink | src/media_lens/collection/cleaner.py:209-216 | the `href` of the closest enclosing link, absent exactly when no ancestor is a link |
| Cleaner.LookAlikeSame | src/media_lens/collection/cleaner.py:195-216 | two look-alike ancestor chains give the same path and link |
| Cleaner.Entries | src/media_lens/collection/cleaner.py:170-227 | every entry has text, a path and a link field, and there are no more entries than text nodes |
| Cleaner.EntriesInOrder | src/media_lens/collection/cleaner.py:170-227 | the entries describe the qualifying text nodes in document order |
| Cleaner.DirectTextFilter | src/media_lens/collection/cleaner.py:189-193 | filtering does not change an element's direct text |
| Cleaner.FilterKeepsEntries | src/media_lens/collection/cleaner.py:133-227 | extraction sees the same entries before and after filtering |
| Cleaner.FilterTextKeepsExtraction | src/media_lens/collection/harvester.py:76-78 | the filtered clean page yields the same extracted entries as the unfiltered one |
| Auditor.StampPrefix | src/media_lens/auditor.py:60-64 | a path's timestamp directory is its first 17 characters when they have the timestamp shape |
| Auditor.Prefixes | src/media_lens/auditor.py:59-64 | every matching file contributes its timestamp prefix, and nothing else is collected |
| Auditor.TimestampDirs | src/media_lens/auditor.py:55-68 | the timestamp directories are strictly increasing and are exactly the prefixes of the listed files |
| Auditor.SortedDistinctIncreasing | src/media_lens/auditor.py:68 | sorting a set's elements gives a strictly increasing list |
| Auditor.FilteredDirs | src/media_lens/auditor.py:66-81 | exactly the listed timestamp directories whose day is within the optional bounds, strictly increasing |
| Auditor.OneDay | src/media_lens/auditor.py:66-81 | bounding both ends by one day keeps exactly that day's directories |
| Auditor.ArticleFileInjective | src/media_lens/auditor.py:167-185 | different story indexes name different article files |
| Auditor.FirstMissingArticle | src/media_lens/auditor.py:167-185 | the first story with a URL whose article file is missing, and every earlier story with a URL has its file |
| Auditor.ExtractionCheck | src/media_lens/auditor.py:153-197 | at most one extraction problem per site, and extraction is queued exactly when one is found |
| Auditor.AuditSite | src/media_lens/auditor.py:118-197 | a missing raw page is one problem; otherwise cleaning is queued exactly when the clean page is missing, and at most two problems arise |
| Auditor.CleanIndependent | src/media_lens/auditor.py:139-166 | the extraction check does not depend on whether the clean page exists |
| Auditor.ArticleFlaggedOnce | src/media_lens/auditor.py:167-185 | a site with stories is flagged for its first missing article at most once |
| Auditor.CollectAudits | src/media_lens/auditor.py:118-197 | the site loop gives each site's problems in site order, and queues, in site order, exactly the sites whose audit asks for cleaning or extraction |
| Auditor.AuditSites | src/media_lens/auditor.py:118-206 | the problems are each site's audit problems in site order, all about this directory and its sites; the queues hold, in site order, exactly the sites needing each repair |
| Auditor.RepairCleaning | src/media_lens/auditor.py:209-255 | corrected: one repair per queued site, naming that site's clean page, successful exactly when the page is cleaned |
| Auditor.StaleCleanPath | src/media_lens/auditor.py:245-255 | as written, a failure right after a success records the previous site's clean page |
| Auditor.UnboundCleanPath | src/media_lens/auditor.py:245-255 | as written, a failure on the first queued site aborts the audit |
| Auditor.RepairExtracting | src/media_lens/auditor.py:258-317 | without an API key nothing is recorded; otherwise one record per queued site, all sharing the outcome of the single extraction run |
| Auditor.AuditDirectory | src/media_lens/auditor.py:105-206 | with the corrected cleaning repair: the problems are the site audits' problems in site order, and the repairs are the cleaning repairs of the queued sites followed by the extraction repairs; all belong to the directory, with at most two problems per site |
| Auditor.DirectoryProblem | src/media_lens/auditor.py:118-206 | a directory reports a problem exactly when auditing one of the sites records it |
| Auditor.CollectDirs | src/media_lens/auditor.py:90-94 | the directory loop gives each directory's problems and repairs in directory order, within the per-site bound |
| Auditor.AuditAll | src/media_lens/auditor.py:90-94 | with the corrected cleaning repair: each audited directory's problems and repairs in directory order, within the per-site bound |
| Auditor.FoundInSomeDirectory | src/media_lens/auditor.py:90-94 | the directory loop reports a problem exactly when auditing some site of some directory records it |
| Auditor.AuditDays | src/media_lens/auditor.py:25-98 | with the corrected cleaning repair: nothing is audited exactly when no directory is in range; otherwise the directories in range are audited in order, their problems and repairs are collected, and the totals count the directories, the problems and the successful repairs |
| Auditor.ProblemReported | src/media_lens/auditor.py:25-98 | `audit_days` reports a problem exactly when auditing some site of some directory in range records it |
| Auditor.RepairsCounted | src/media_lens/auditor.py:97-98 | the repair total equals the repair count exactly when every repair succeeded |
| Migration.IsLegacyName | migrate_directory_structure.py:60-63 | a legacy name is a timestamp-shaped name, or one followed by a single trailing newline that the `$` anchor lets through |
| Migration.LegacyDirectories | migrate_directory_structure.py:54-67 | the legacy directories are exactly the listed legacy names, sorted, with their multiplicities |
| Migration.NewlineNameFailsToParse | migrate_directory_structure.py:63 | a name with a trailing newline is listed as legacy, yet `strptime` rejects it |
| Migration.BucketCharacterised | migrate_directory_structure.py:80-92 | each loose-file kind is described by its suffix and prefix alone, independently of the order of the tests |
| Migration.DiscoverLoose | migrate_directory_structure.py:69-96 | each of the three lists holds exactly the root files of its kind, in the listing's order |
| Migration.LooseCount | migrate_directory_structure.py:69-96 | no file is counted in two kinds |
| Migration.Relocate | migrate_directory_structure.py:165-168 | a moved file lands under the job directory with its path relative to the legacy directory kept |
| Migration.RelocateInjective | migrate_directory_structure.py:165-168 | distinct files under one legacy directory land at distinct paths |
| Migration.MoveAll | migrate_directory_structure.py:165-183 | copying stops at the first failed copy: the copies made are a prefix, and all succeed exactly when every file was copied |
| Migration.JobDirOf | migrate_directory_structure.py:150-152 | the target job directory exists exactly when the legacy name parses |
| Migration.MigrateJob | migrate_directory_structure.py:146-192 | an unparsable name fails; a dry run copies nothing and succeeds when the name parses; otherwise success means the target was created, the listing read, and every file copied to its relocated path |
| Migration.MigrateJobExample | test_migration.py:75-87 | the legacy directory `2025-06-01_120000` moves its page to `jobs/2025/06/01/120000/www.test1.com.html` |
| Migration.MigrateJobs | migrate_directory_structure.py:372-376 | legacy directories migrate in order until the first failure, which stops the loop; the copies are those of the directories tried |
| Migration.DryCopiesNothing | migrate_directory_structure.py:155-157 | a dry run copies nothing across all legacy directories |
| Migration.FindJob | migrate_directory_structure.py:278-313 | no job exactly when no job directory holds the site's clean articles; otherwise the latest such job, the first among equals |
| Migration.FindJobUnique | migrate_directory_structure.py:278-313 | the job found is determined by its key maximality and first position |
| Migration.RemoveSuffix | migrate_directory_structure.py:202 | removing `-interpreted.json` from `<site>-interpreted.json` gives back the site when the suffix occurs only at the end |
| Migration.Transfer | migrate_directory_structure.py:194-276 | every planned file is counted once as moved or as an error; a dry run counts all as moved without copying; otherwise a file is copied exactly when it lands |
| Migration.InterpretedDir | migrate_directory_structure.py:194-230 | an interpreted file has a target exactly when a job is found for its site |
| Migration.OrganizeLoose | migrate_directory_structure.py:194-276 | a dry run copies nothing and counts every file; otherwise there are no errors exactly when every planned file of the three kinds lands |
| Migration.BackupLegacy | migrate_directory_structure.py:110-125 | the legacy part aborts exactly when some directory's backup cannot be created or the directory cannot be listed; every copy lands under `migration_backup/` |
| Migration.LegacyAbortKeepsEarlier | migrate_directory_structure.py:108-125 | when directory `k` is the first that fails, the backup aborts keeping exactly the copies of the directories before it |
| Migration.Backup | migrate_directory_structure.py:98-144 | every backup copy lands under `migration_backup/`; nothing is copied when that directory cannot be created; the backup aborts exactly when a directory it needs cannot be created or listed; the legacy copies come first and stay written when a later part aborts |
| Migration.DeleteEach | migrate_directory_structure.py:324-351 | a path counts as deleted exactly when its deletion returned true, and the failures are zero exactly when every call returned |
| Migration.Cleanup | migrate_directory_structure.py:315-353 | a dry run or a run without `--delete-old` deletes nothing; otherwise a file or directory is deleted exactly when its deletion succeeded |
| Migration.MoveAndClean | migrate_directory_structure.py:372-394 | a failed job directory stops the migration with one error and no deletions; otherwise success means no errors, and a live run migrates every legacy directory |
| Migration.Migrate | migrate_directory_structure.py:355-394 | nothing to migrate gives an empty success; success means no errors and no aborted backup; an aborted backup keeps the copies it wrote and nothing is moved or deleted after it; a dry run copies and deletes nothing; deletions touch only loose root files and legacy directories; backups go under `migration_backup/`, even on a dry run |

## Left out

- HTML parsing and serialising (BeautifulSoup): pages are trees of elements and text nodes; a node's identity stands in for bs4 object equality. bs4 compares elements structurally (`element == match`, `element in match.descendants`), so in `<body><div class="headline"><a href="/x">X</a></div><a href="/x">X</a></body>` `cleaner.py:44-70` keeps the second `<a>`, which equals the kept one inside the `div`, while `CleanPage` drops it.
- Comments and other bs4 node kinds, and CSS selectors other than the forms the site cleaners use: a bare tag name and `[attr*="…"]`, optionally on a tag (`h2[data-testid*="headline"]` at `cleaner.py:81`). The cleaners use nothing else.
- Unicode classes in regular expressions and `str.isalnum`/`isdigit`: the model uses ASCII letters and digits.
- `urllib.parse` details beyond finding a scheme (control characters, ports, netlocs): the extractor only asks whether a scheme exists.
- JSON values: a JSON object is a map from keys to strings; parsing and `json.dumps` are inputs.
- The language-model calls (extraction, interpretation, summaries): their replies are inputs.
- Jinja2 rendering of the report and weekly pages: only the report data is modelled.
- Time zones: `America/Los_Angeles` is replaced by a caller-supplied offset for each instant.
- The clock: each reading of the current time is a separate input. `Runner.WeeklySelection` takes `today` as a datetime and the three later `is_last_day_of_week()` calls as three separate Sunday readings.
- Storage and the file system: listings, existence checks, reads, writes, copies, deletions and modification times are inputs. A failing root listing in the auditor and the migration is not modelled; the listing is given.
- Flask, threads and `asyncio`: the registry of runs is a map, and a background task is a call that finishes later.
- Logging, `print` and the audit report text (`_generate_audit_report`): they produce no data the rest of the program reads.
- `print_migration_summary` and the migration script's argument parsing and `main`: presentation and wiring.
- `runner.main`'s argument parsing beyond the `summarize` and `reset-cursor` branches: wiring.
- `DirectoryManager.get_jobs_by_pattern`: it only forwards to the storage adapter's glob search.
- `upload_html_content_from_storage` and `upload_file` (FTP): an upload's success is an input.
- Interpreter prompt text and the 30-second pauses between sites: text constants and timing.
- `Zones.LocalDate`: days outside years 1 to 9999 give an error instead of Python's `OverflowError` message text.
- ParseNat: accepts only a non-empty run of ASCII digits. Python's `int()` (`common.py:78-79`) also accepts surrounding whitespace, a sign and underscores between digits. The keys parsed come from `get_week_key`, which writes plain digits, so nothing in the modelled flow reaches the difference.
- `Instants.IsoParse`: accepts only the forms `isoformat` writes, not every input `fromisoformat` accepts.
- RunPipelineCounts: "a refused request changes nothing" is about the run registry only. `cloud_entrypoint.py:80-83` replaces the process-wide `common.SITES` with the request's `sites` before the 409 check, so a refused request still changes the site list; the model has no global site list, and `RunRequest` has no `sites` field.
- Parts: folds any run of leading slashes into the one root `/`. `PurePosixPath` keeps exactly two leading slashes as the root `//`. No path the modelled flow builds starts with `//`.
- DiscoverLoose: states which files each list holds and that each keeps the listing's order, not how often a name repeats; a root listing names each file once.
- AuditDirectory: built on the corrected `RepairCleaning`. As written, a first queued site that fails to clean raises `UnboundLocalError` (`auditor.py:245-255`); `Auditor.UnboundCleanPath` shows that case.
- AuditAll: built on `AuditDirectory` with the corrected repair. As written, nothing at `auditor.py:90-94` catches that `UnboundLocalError`, so it would end the directory loop.
- AuditDays: always returns totals, because it is built on the corrected repair. As written, `audit_days` raises the `UnboundLocalError` of a first-site cleaning failure instead.

## Findings

| source | as written | input that shows it | evidently intended | confidence | as-written member | corrected member |
|---|---|---|---|---|---|---|
| src/media_lens/common.py:84-92 | a negative `7 * week - weekday(Jan 1)` is pushed forward by a week, so week 00 gets week 01's Monday | "2025-W00" and "2025-W01" both give "Week of Jan 06, 2025" | week 00 is headed by the Monday of the week holding January 1 (Dec 30, 2024) | not executed | Weeks.AsWrittenHeadingsCollide | Weeks.WeekStartOfKey |
| src/media_lens/runner.py:251 | `upload_html_content_from_storage(storage_path=...)` leaves out the required `remote_path` | any deploy with a file to upload raises `TypeError` | each staged file is uploaded and the cursor advances | not executed | Deployer.AsWrittenDiffers | Deployer.DeployCursor |
| src/media_lens/runner.py:741-749 | both branches call `summarize_all()` without `force` | `summarize --force` with a directory that has `daily_news.txt` | `--force` resummarises every job directory | not executed | Runner.ForceIgnored | Runner.SummarizeCommand |
| src/media_lens/auditor.py:245-255 | the failure record uses `clean_html_path`, which is set only after cleaning succeeds | sites ["a", "b"] where "b" fails while reading: its record names a's clean page; a first-site failure raises `UnboundLocalError` | each failure names its own site's clean page | not executed | Auditor.StaleCleanPath | Auditor.RepairCleaning |
| src/media_lens/extraction/interpreter.py:390-393 | the skip test sums `len(v)` over the per-site lists, and `_gather_content` puts one list per job directory in each, so it counts job lists, not articles | sites ["www.cnn.com"] and a week whose one job directory has no `www.cnn.com-clean-article-*.json`: the sum is 1, so the week is interpreted or its weekly file reused | a week in which no site has an article is skipped ("Skip if no content found") | not executed | Interpreter.EmptyWeekActedOn | Interpreter.WeekTasksOrder |

=== FILE: auditor.dfy ===
/** The completeness audit of the job directories: which directories are
    audited, the problems recorded for each site, the repairs queued, and
    the totals of the audit report. Storage, the cleaning and extraction
    runs behind a repair, and the report text are inputs or left out. */
module Auditor {
  import opened Wrappers
  import opened Text
  import opened Lists
  import opened Calendar
  import opened Timestamps
  import opened Json
  import Directories

  // ---------------------------------------------------------------------
  // Directories to audit
  // ---------------------------------------------------------------------

  /** The text `\d{4}-\d{2}-\d{2}_\d{6}` matches, 17 characters long. */
  predicate StampShape(s: string) {
    |s| == 17 && AllDigits(s[..4]) && s[4] == '-' && AllDigits(s[5..7]) && s[7] == '-' &&
    AllDigits(s[8..10]) && s[10] == '_' && AllDigits(s[11..])
  }

  /** The group of `re.match(r'(\d{4}-\d{2}-\d{2}_\d{6})', path)`. */
  function StampPrefix(path: string): (r: Option<string>)
    ensures r.Some? <==> |path| >= 17 && StampShape(path[..17])
    ensures r.Some? ==> r.value == path[..17]
  {
    if |path| >= 17 && StampShape(path[..17]) then Some(path[..17]) else None
  }

  /** The prefixes of the listed paths, in listing order. */
  function Prefixes(files: seq<string>): (r: seq<string>)
    ensures forall i :: 0 <= i < |files| && StampPrefix(files[i]).Some? ==> StampPrefix(files[i]).value in r
    ensures forall j :: 0 <= j < |r| ==> exists i :: 0 <= i < |files| && StampPrefix(files[i]) == Some(r[j])
  {
    if |files| == 0 then []
    else
      var rest := Prefixes(files[1..]);
      assert forall j :: 0 <= j < |rest| ==> exists i :: 1 <= i < |files| && StampPrefix(files[i]) == Some(rest[j]) by {
        forall j | 0 <= j < |rest|
          ensures exists i :: 1 <= i < |files| && StampPrefix(files[i]) == Some(rest[j])
        {
          var i :| 0 <= i < |files[1..]| && StampPrefix(files[1..][i]) == Some(rest[j]);
          assert files[1..][i] == files[i + 1];
        }
      }
      match StampPrefix(files[0])
      case Some(p) => [p] + rest
      case None => rest
  }

  /** Strictly increasing in code-point order: sorted and without repeats. */
  predicate Increasing(s: seq<string>) {
    forall i, j :: 0 <= i < j < |s| ==> LexLess(s[i], s[j])
  }

  lemma {:induction false} DistinctCount(s: seq<string>, x: string)
    requires Distinct(s)
    ensures multiset(s)[x] <= 1
  {
    if |s| > 0 {
      assert s == [s[0]] + s[1..];
      assert Distinct(s[1..]);
      DistinctCount(s[1..], x);
      if x == s[0] {
        assert x !in s[1..];
      }
    }
  }

  /** A permutation of a list without repeats has none either. */
  lemma DistinctPermutation(r: seq<string>, s: seq<string>)
    requires multiset(r) == multiset(s) && Distinct(s)
    ensures Distinct(r)
  {
    forall i, j | 0 <= i < j < |r|
      ensures r[i] != r[j]
    {
      DistinctCount(s, r[i]);
      assert r == r[..j] + r[j..];
      assert r[i] in r[..j] && r[j] in r[j..];
      assert multiset(r)[r[i]] == multiset(r[..j])[r[i]] + multiset(r[j..])[r[i]];
    }
  }

  /** Sorted and without repeats is strictly increasing throughout. */
  lemma {:induction false} SortedDistinctIncreasing(s: seq<string>)
    requires SortedBy(s, Directories.Identity, LexLess) && Distinct(s)
    ensures Increasing(s)
  {
    forall i | 0 < i < |s|
      ensures LexLess(s[i - 1], s[i])
    {
      LexLessTotal(s[i - 1], s[i]);
    }
    forall i, j | 0 <= i < j < |s|
      ensures LexLess(s[i], s[j])
    {
      Chain(s, i, j);
    }
  }

  lemma {:induction false} Chain(s: seq<string>, i: int, j: int)
    requires forall k :: 0 < k < |s| ==> LexLess(s[k - 1], s[k])
    requires 0 <= i < j < |s|
    ensures LexLess(s[i], s[j])
    decreases j - i
  {
    if j > i + 1 {
      Chain(s, i, j - 1);
      LexLessTransitive(s[i], s[j - 1], s[j]);
    }
  }

  /** Some listed path starts with the timestamp `d`. */
  predicate Listed(files: seq<string>, d: string) {
    exists i :: 0 <= i < |files| && StampPrefix(files[i]) == Some(d)
  }

  /** `sorted(timestamp_dirs)`: the distinct timestamp prefixes of the
      listed paths, in increasing order. */
  function TimestampDirs(files: seq<string>): (r: seq<string>)
    ensures Increasing(r)
    ensures forall d :: d in r <==> Listed(files, d)
  {
    var found := Dedup(Prefixes(files));
    SortedPrefixes(found);
    PrefixesListed(files);
    SortBy(found, Directories.Identity, LexLess)
  }

  lemma PrefixesListed(files: seq<string>)
    ensures forall d :: d in Dedup(Prefixes(files)) <==> Listed(files, d)
  {
    var ps := Prefixes(files);
    forall d
      ensures d in Dedup(ps) <==> Listed(files, d)
    {
      if d in ps {
        var j :| 0 <= j < |ps| && ps[j] == d;
      }
      if Listed(files, d) {
        var i :| 0 <= i < |files| && StampPrefix(files[i]) == Some(d);
      }
    }
  }

  lemma SortedPrefixes(found: seq<string>)
    requires Distinct(found)
    ensures Increasing(SortBy(found, Directories.Identity, LexLess))
    ensures forall x :: x in SortBy(found, Directories.Identity, LexLess) <==> x in found
  {
    var r := SortBy(found, Directories.Identity, LexLess);
    Directories.SortStrings(found);
    DistinctPermutation(r, found);
    SortedDistinctIncreasing(r);
    forall x
      ensures x in r <==> x in found
    {
      assert x in r <==> x in multiset(r);
    }
  }

  /** The directory's day lies within the bounds, both included; a missing
      bound does not limit. A directory whose name does not parse is
      skipped. */
  predicate InDateRange(start: Option<Date>, end: Option<Date>, dir: string) {
    ParseCompact(dir).Ok? &&
    (start.None? || !DateLess(DateOf(ParseCompact(dir).value), start.value)) &&
    (end.None? || !DateLess(end.value, DateOf(ParseCompact(dir).value)))
  }

  function InRange(start: Option<Date>, end: Option<Date>): string -> bool {
    dir => InDateRange(start, end, dir)
  }

  lemma {:induction false} FilterIncreasing(s: seq<string>, keep: string -> bool)
    requires Increasing(s)
    ensures Increasing(Filter(s, keep))
  {
    if |s| > 0 {
      FilterIncreasing(s[1..], keep);
      var rest := Filter(s[1..], keep);
      forall j | 0 <= j < |rest|
        ensures LexLess(s[0], rest[j])
      {
        FilterMembers(s[1..], keep, rest[j]);
        var k :| 0 <= k < |s[1..]| && s[1..][k] == rest[j];
        assert s[k + 1] == rest[j];
      }
    }
  }

  /** The directories `audit_days` audits, in order. */
  function FilteredDirs(files: seq<string>, start: Option<Date>, end: Option<Date>): (r: seq<string>)
    ensures Increasing(r)
    ensures forall d :: d in r <==> Listed(files, d) && InDateRange(start, end, d)
  {
    var all := TimestampDirs(files);
    FilterIncreasing(all, InRange(start, end));
    assert forall d :: d in Filter(all, InRange(start, end)) <==> d in all && InDateRange(start, end, d) by {
      forall d ensures d in Filter(all, InRange(start, end)) <==> d in all && InDateRange(start, end, d) {
        FilterMembers(all, InRange(start, end), d);
      }
    }
    Filter(all, InRange(start, end))
  }

  /** With the same first and last day, exactly that day's directories
      are audited. */
  lemma OneDay(files: seq<string>, day: Date, d: string)
    ensures d in FilteredDirs(files, Some(day), Some(day)) <==>
      Listed(files, d) && ParseCompact(d).Ok? && DateOf(ParseCompact(d).value) == day
  {
    if ParseCompact(d).Ok? {
      var t := DateOf(ParseCompact(d).value);
      if !DateLess(t, day) && !DateLess(day, t) {
        assert t == day;
      }
    }
  }

  // ---------------------------------------------------------------------
  // One site of one directory
  // ---------------------------------------------------------------------

  datatype ProblemKind =
    | MissingRawHtml
    | MissingCleanHtml
    | MissingExtractedJson
    | MissingArticleFile
    | CorruptedExtractedJson

  datatype Problem = Problem(directory: string, site: string, kind: ProblemKind, file: string, repairable: bool)

  function RawHtml(dir: string, site: string): string { dir + "/" + site + ".html" }
  function CleanHtml(dir: string, site: string): string { dir + "/" + site + "-clean.html" }
  function ExtractedJson(dir: string, site: string): string { dir + "/" + site + "-clean-extracted.json" }

  /** `str(n)` for a natural number. */
  function Decimal(n: nat): (s: string)
    ensures |s| > 0 && AllDigits(s)
    ensures DecimalValue(s) == n
  {
    if n < 10 then [DigitChar(n)]
    else
      var s := Decimal(n / 10) + [DigitChar(n % 10)];
      assert s[..|s| - 1] == Decimal(n / 10);
      s
  }

  function ArticleFile(dir: string, site: string, idx: nat): string {
    dir + "/" + site + "-clean-article-" + Decimal(idx) + ".json"
  }

  /** Different stories of a site are checked against different files. */
  lemma ArticleFileInjective(dir: string, site: string, i: nat, j: nat)
    requires ArticleFile(dir, site, i) == ArticleFile(dir, site, j)
    ensures i == j
  {
    var head := dir + "/" + site + "-clean-article-";
    var a, b := ArticleFile(dir, site, i), ArticleFile(dir, site, j);
    assert a == head + Decimal(i) + ".json" && b == head + Decimal(j) + ".json";
    assert Decimal(i) == a[|head|..|a| - 5];
  }

  /** `story.get("url")` is truthy. */
  predicate HasUrl(story: Object) {
    "url" in story && story["url"] != ""
  }

  /** Story `k` has a url but its article file is missing. */
  predicate ArticleMissing(stories: seq<Object>, k: nat, dir: string, site: string, present: string -> bool)
    requires k < |stories|
  {
    HasUrl(stories[k]) && !present(ArticleFile(dir, site, k))
  }

  /** A story from `from` on whose url is set and whose article file is
      missing: the first such one. */
  function FirstMissingArticle(stories: seq<Object>, from: nat, dir: string, site: string,
                               present: string -> bool): (r: Option<nat>)
    ensures r.Some? ==> from <= r.value < |stories| && ArticleMissing(stories, r.value, dir, site, present)
    ensures forall k :: from <= k < |stories| && (r.None? || k < r.value) ==>
      !ArticleMissing(stories, k, dir, site, present)
    decreases |stories| - from
  {
    if from >= |stories| then None
    else if ArticleMissing(stories, from, dir, site, present) then Some(from)
    else FirstMissingArticle(stories, from + 1, dir, site, present)
  }

  /** What auditing one site records: its problems and whether it is
      queued for cleaning and for extraction. */
  datatype SiteAudit = SiteAudit(problems: seq<Problem>, clean: bool, extract: bool)

  /** The checks on the extracted JSON: missing, unreadable (any failure of
      `read_json` or of walking its stories), or a story whose article file
      is missing, flagged once. */
  function ExtractionCheck(dir: string, site: string, present: string -> bool,
                           readStories: string -> Result<seq<Object>>): (r: (seq<Problem>, bool))
    ensures |r.0| <= 1 && (r.1 <==> |r.0| == 1)
  {
    var path := ExtractedJson(dir, site);
    if !present(path) then ([Problem(dir, site, MissingExtractedJson, path, true)], true)
    else
      match readStories(path)
      case Err(_) => ([Problem(dir, site, CorruptedExtractedJson, path, true)], true)
      case Ok(stories) =>
        match FirstMissingArticle(stories, 0, dir, site, present)
        case Some(idx) => ([Problem(dir, site, MissingArticleFile, ArticleFile(dir, site, idx), true)], true)
        case None => ([], false)
  }

  predicate Flags(problems: seq<Problem>, kind: ProblemKind) {
    exists i :: 0 <= i < |problems| && problems[i].kind == kind
  }

  /** One iteration of the site loop of `_audit_single_directory`. */
  function AuditSite(dir: string, site: string, present: string -> bool,
                     readStories: string -> Result<seq<Object>>): (r: SiteAudit)
    ensures !present(RawHtml(dir, site)) ==>
      r == SiteAudit([Problem(dir, site, MissingRawHtml, RawHtml(dir, site), false)], false, false)
    ensures present(RawHtml(dir, site)) ==> (r.clean <==> !present(CleanHtml(dir, site)))
    ensures present(RawHtml(dir, site)) ==> (Flags(r.problems, MissingCleanHtml) <==> !present(CleanHtml(dir, site)))
    ensures present(RawHtml(dir, site)) ==>
      (r.extract <==> !present(ExtractedJson(dir, site)) || readStories(ExtractedJson(dir, site)).Err? ||
                      FirstMissingArticle(readStories(ExtractedJson(dir, site)).value, 0, dir, site, present).Some?)
    ensures |r.problems| <= 2
    ensures forall i :: 0 <= i < |r.problems| ==>
      r.problems[i].directory == dir && r.problems[i].site == site &&
      (r.problems[i].repairable <==> r.problems[i].kind != MissingRawHtml)
  {
    if !present(RawHtml(dir, site)) then
      SiteAudit([Problem(dir, site, MissingRawHtml, RawHtml(dir, site), false)], false, false)
    else
      var cleaning := if present(CleanHtml(dir, site)) then [] else [Problem(dir, site, MissingCleanHtml, CleanHtml(dir, site), true)];
      var check := ExtractionCheck(dir, site, present, readStories);
      var problems := cleaning + check.0;
      assert forall i :: 0 <= i < |check.0| ==> check.0[i].kind != MissingCleanHtml;
      assert |cleaning| > 0 ==> problems[0].kind == MissingCleanHtml;
      assert forall i :: |cleaning| <= i < |problems| ==> problems[i] == check.0[i - |cleaning|];
      SiteAudit(problems, !present(CleanHtml(dir, site)), check.1)
  }

  /** A missing article file is reported once per site, for the first story
      with a url whose file is missing. */
  lemma ArticleFlaggedOnce(dir: string, site: string, present: string -> bool,
                           readStories: string -> Result<seq<Object>>)
    requires present(RawHtml(dir, site)) && present(ExtractedJson(dir, site))
    requires readStories(ExtractedJson(dir, site)).Ok?
    ensures var stories := readStories(ExtractedJson(dir, site)).value;
      var probs := AuditSite(dir, site, present, readStories).problems;
      forall i :: 0 <= i < |probs| && probs[i].kind == MissingArticleFile ==>
        exists k :: 0 <= k < |stories| && probs[i].file == ArticleFile(dir, site, k) &&
          HasUrl(stories[k]) && !present(ArticleFile(dir, site, k)) &&
          (forall m :: 0 <= m < k ==> !HasUrl(stories[m]) || present(ArticleFile(dir, site, m)))
  {
    var stories := readStories(ExtractedJson(dir, site)).value;
    var probs := AuditSite(dir, site, present, readStories).problems;
    var cleaning := if present(CleanHtml(dir, site)) then [] else [Problem(dir, site, MissingCleanHtml, CleanHtml(dir, site), true)];
    var check := ExtractionCheck(dir, site, present, readStories);
    assert probs == cleaning + check.0;
    var idx := FirstMissingArticle(stories, 0, dir, site, present);
    forall i | 0 <= i < |probs| && probs[i].kind == MissingArticleFile
      ensures exists k :: (0 <= k < |stories| && probs[i].file == ArticleFile(dir, site, k) &&
                           HasUrl(stories[k]) && !present(ArticleFile(dir, site, k)) &&
                           (forall m :: 0 <= m < k ==> !HasUrl(stories[m]) || present(ArticleFile(dir, site, m))))
    {
      assert i >= |cleaning|;
      assert probs[i] == check.0[i - |cleaning|];
      assert idx.Some? && probs[i].file == ArticleFile(dir, site, idx.value);
      var k := idx.value;
      forall m | 0 <= m < k ensures !HasUrl(stories[m]) || present(ArticleFile(dir, site, m)) {
        assert !ArticleMissing(stories, m, dir, site, present);
      }
      assert ArticleMissing(stories, k, dir, site, present);
    }
  }

  lemma {:induction false} SuffixDiffers(head: string, a: string, b: string)
    requires |a| > 0 && |b| > 0 && a[0] != b[0]
    ensures head + a != head + b
  {
    assert (head + a)[|head|] == a[0] && (head + b)[|head|] == b[0];
  }

  /** The paths other than the clean page's are not the clean page. */
  lemma PathsDiffer(dir: string, site: string, idx: nat)
    ensures RawHtml(dir, site) != CleanHtml(dir, site)
    ensures ExtractedJson(dir, site) != CleanHtml(dir, site)
    ensures ArticleFile(dir, site, idx) != CleanHtml(dir, site)
  {
    RawNotClean(dir, site);
    ExtractedNotClean(dir, site);
    ArticleNotClean(dir, site, idx);
  }

  lemma RawNotClean(dir: string, site: string)
    ensures RawHtml(dir, site) != CleanHtml(dir, site)
  {
    var head := dir + "/" + site;
    assert RawHtml(dir, site) == head + ".html" && CleanHtml(dir, site) == head + "-clean.html";
    SuffixDiffers(head, ".html", "-clean.html");
  }

  lemma ExtractedNotClean(dir: string, site: string)
    ensures ExtractedJson(dir, site) != CleanHtml(dir, site)
  {
    var mid := dir + "/" + site + "-clean";
    assert CleanHtml(dir, site) == mid + ".html";
    assert ExtractedJson(dir, site) == mid + "-extracted.json";
    SuffixDiffers(mid, "-extracted.json", ".html");
  }

  lemma ArticleNotClean(dir: string, site: string, idx: nat)
    ensures ArticleFile(dir, site, idx) != CleanHtml(dir, site)
  {
    var mid := dir + "/" + site + "-clean";
    var tail := "-article-" + Decimal(idx) + ".json";
    assert CleanHtml(dir, site) == mid + ".html";
    assert ArticleFile(dir, site, idx) == mid + tail;
    SuffixDiffers(mid, tail, ".html");
  }

  /** Agreeing on every path but `path`. */
  ghost predicate AgreeExcept(e1: string -> bool, e2: string -> bool, path: string) {
    forall p :: p != path ==> e1(p) == e2(p)
  }

  lemma {:induction false} FirstMissingAgree(stories: seq<Object>, from: nat, dir: string, site: string,
                                             e1: string -> bool, e2: string -> bool)
    requires AgreeExcept(e1, e2, CleanHtml(dir, site))
    ensures FirstMissingArticle(stories, from, dir, site, e1) == FirstMissingArticle(stories, from, dir, site, e2)
    decreases |stories| - from
  {
    if from < |stories| {
      PathsDiffer(dir, site, from);
      FirstMissingAgree(stories, from + 1, dir, site, e1, e2);
    }
  }

  /** Whether the clean page exists does not change the extracted-JSON
      checks or the extraction queueing. */
  lemma CleanIndependent(dir: string, site: string, e1: string -> bool, e2: string -> bool,
                         readStories: string -> Result<seq<Object>>)
    requires AgreeExcept(e1, e2, CleanHtml(dir, site)) && e1(RawHtml(dir, site))
    ensures AuditSite(dir, site, e1, readStories).extract == AuditSite(dir, site, e2, readStories).extract
    ensures ExtractionCheck(dir, site, e1, readStories) == ExtractionCheck(dir, site, e2, readStories)
  {
    PathsDiffer(dir, site, 0);
    var path := ExtractedJson(dir, site);
    if e1(path) && readStories(path).Ok? {
      FirstMissingAgree(readStories(path).value, 0, dir, site, e1, e2);
    }
  }

  // ---------------------------------------------------------------------
  // One directory, and its repairs
  // ---------------------------------------------------------------------

  /** What auditing one directory records before its repairs run. */
  datatype DirAudit = DirAudit(problems: seq<Problem>, toClean: seq<string>, toExtract: seq<string>)

  /** Auditing each site of directory `dir`. */
  function AuditOf(dir: string, present: string -> bool, readStories: string -> Result<seq<Object>>): string -> SiteAudit {
    (x: string) => AuditSite(dir, x, present, readStories)
  }

  /** The problems a per-site audit records for a site. */
  function ProblemsOf(audit: string -> SiteAudit): string -> seq<Problem> {
    (x: string) => audit(x).problems
  }

  /** Whether a per-site audit queues the site's clean page for regeneration. */
  function CleanOf(audit: string -> SiteAudit): string -> bool {
    (x: string) => audit(x).clean
  }

  /** Whether a per-site audit queues the site for extraction. */
  function ExtractOf(audit: string -> SiteAudit): string -> bool {
    (x: string) => audit(x).extract
  }

  /** A per-site audit of `dir` that records at most two problems per site,
      each about that site of `dir`. */
  ghost predicate AuditsWithin(dir: string, audit: string -> SiteAudit) {
    forall x :: |audit(x).problems| <= 2 &&
      forall i :: 0 <= i < |audit(x).problems| ==> audit(x).problems[i].directory == dir && audit(x).problems[i].site == x
  }

  /** The site loop over a given per-site audit: the sites' problems one
      after another, and the sites queued for each repair, in site order. */
  function CollectAudits(dir: string, sites: seq<string>, audit: string -> SiteAudit): (r: DirAudit)
    requires AuditsWithin(dir, audit)
    ensures r.problems == FlatMap(sites, ProblemsOf(audit))
    ensures r.toClean == Filter(sites, CleanOf(audit))
    ensures r.toExtract == Filter(sites, ExtractOf(audit))
    ensures |r.problems| <= 2 * |sites|
    ensures forall i :: 0 <= i < |r.problems| ==> r.problems[i].directory == dir && r.problems[i].site in sites
  {
    if |sites| == 0 then DirAudit([], [], [])
    else
      var site := sites[0];
      var one := audit(site);
      var rest := CollectAudits(dir, sites[1..], audit);
      var problems := one.problems + rest.problems;
      assert forall i :: |one.problems| <= i < |problems| ==> problems[i] == rest.problems[i - |one.problems|];
      FlatMapStep(sites, ProblemsOf(audit), one.problems);
      FilterStep(sites, CleanOf(audit), one.clean);
      FilterStep(sites, ExtractOf(audit), one.extract);
      DirAudit(problems,
               (if one.clean then [site] else []) + rest.toClean,
               (if one.extract then [site] else []) + rest.toExtract)
  }

  /** The site loop of `_audit_single_directory`. */
  function AuditSites(dir: string, sites: seq<string>, present: string -> bool,
                      readStories: string -> Result<seq<Object>>): (r: DirAudit)
    ensures r.problems == FlatMap(sites, ProblemsOf(AuditOf(dir, present, readStories)))
    ensures r.toClean == Filter(sites, CleanOf(AuditOf(dir, present, readStories)))
    ensures r.toExtract == Filter(sites, ExtractOf(AuditOf(dir, present, readStories)))
    ensures |r.problems| <= 2 * |sites|
    ensures forall i :: 0 <= i < |r.problems| ==> r.problems[i].directory == dir && r.problems[i].site in sites
    ensures forall x :: x in r.toClean <==> x in sites && AuditSite(dir, x, present, readStories).clean
    ensures forall x :: x in r.toExtract <==> x in sites && AuditSite(dir, x, present, readStories).extract
  {
    var audit := AuditOf(dir, present, readStories);
    var r := CollectAudits(dir, sites, audit);
    assert forall x :: x in r.toClean <==> x in sites && AuditSite(dir, x, present, readStories).clean by {
      forall x { FilterMembers(sites, CleanOf(audit), x); }
    }
    assert forall x :: x in r.toExtract <==> x in sites && AuditSite(dir, x, present, readStories).extract by {
      forall x { FilterMembers(sites, ExtractOf(audit), x); }
    }
    r
  }

  datatype RepairKind = RepairCleanHtml | RepairExtraction

  datatype Repair = Repair(directory: string, site: string, kind: RepairKind, file: string, success: bool)

  /** How regenerating one clean page goes: it succeeds, fails before the
      clean page's path is computed (reading the raw page, choosing the
      site cleaner or cleaning raises), or fails on the write. */
  datatype Stage = Cleaned | FailsBeforePath | FailsOnWrite

  /** `_repair_cleaning` as intended: one repair per queued site, naming
      that site's clean page. */
  function RepairCleaning(dir: string, sites: seq<string>, stage: (string, string) -> Stage): (r: seq<Repair>)
    ensures |r| == |sites|
    ensures forall i :: 0 <= i < |sites| ==>
      r[i] == Repair(dir, sites[i], RepairCleanHtml, CleanHtml(dir, sites[i]), stage(dir, sites[i]) == Cleaned)
  {
    if |sites| == 0 then []
    else
      [Repair(dir, sites[0], RepairCleanHtml, CleanHtml(dir, sites[0]), stage(dir, sites[0]) == Cleaned)]
      + RepairCleaning(dir, sites[1..], stage)
  }

  /** `_repair_cleaning` as written: the failure record names
      `clean_html_path`, which the loop assigns only once the page has been
      cleaned. A failure before that names the previous site's page, or,
      on the first such item, raises `UnboundLocalError` out of the
      handler. */
  function RepairCleaningAsWritten(dir: string, sites: seq<string>, stage: (string, string) -> Stage,
                                   lastPath: Option<string>): (r: Result<seq<Repair>>)
    ensures r.Ok? ==> |r.value| == |sites|
  {
    if |sites| == 0 then Ok([])
    else
      var site := sites[0];
      match stage(dir, site)
      case Cleaned =>
        var rest := RepairCleaningAsWritten(dir, sites[1..], stage, Some(CleanHtml(dir, site)));
        if rest.Err? then rest else Ok([Repair(dir, site, RepairCleanHtml, CleanHtml(dir, site), true)] + rest.value)
      case FailsOnWrite =>
        var rest := RepairCleaningAsWritten(dir, sites[1..], stage, Some(CleanHtml(dir, site)));
        if rest.Err? then rest else Ok([Repair(dir, site, RepairCleanHtml, CleanHtml(dir, site), false)] + rest.value)
      case FailsBeforePath =>
        if lastPath.None? then Err("UnboundLocalError: clean_html_path")
        else
          var rest := RepairCleaningAsWritten(dir, sites[1..], stage, lastPath);
          if rest.Err? then rest else Ok([Repair(dir, site, RepairCleanHtml, lastPath.value, false)] + rest.value)
  }

  /** Cleaning succeeds for `first` and fails early for every other site. */
  function OnlyCleans(first: string): (string, string) -> Stage {
    (d: string, s: string) => if s == first then Cleaned else FailsBeforePath
  }

  /** A failure right after a success records the wrong site's page. */
  lemma StaleCleanPath()
    ensures var r := RepairCleaningAsWritten("d", ["a", "b"], OnlyCleans("a"), None);
      r.Ok? && r.value[1].site == "b" && r.value[1].file == CleanHtml("d", "a") && r.value[1].file != CleanHtml("d", "b")
  {
    var stage := OnlyCleans("a");
    assert stage("d", "a") == Cleaned && stage("d", "b") == FailsBeforePath;
    assert ["a", "b"][1..] == ["b"];
    assert ["b"][1..] == [];
    assert RepairCleaningAsWritten("d", [], stage, Some(CleanHtml("d", "a"))) == Ok([]);
    var last := Some(CleanHtml("d", "a"));
    var failed := Repair("d", "b", RepairCleanHtml, CleanHtml("d", "a"), false);
    assert RepairCleaningAsWritten("d", ["b"], stage, last) == Ok([failed] + []);
    assert [failed] + [] == [failed];
    assert CleanHtml("d", "a")[2] != CleanHtml("d", "b")[2];
  }

  /** A failure on the first queued site aborts the audit. */
  lemma UnboundCleanPath()
    ensures RepairCleaningAsWritten("d", ["b"], OnlyCleans("a"), None).Err?
  {
    assert OnlyCleans("a")("d", "b") == FailsBeforePath;
  }

  /** `_repair_extraction` for one directory: without an API key nothing is
      recorded; otherwise the one extraction run of the directory succeeds
      or fails for every queued site together. */
  function RepairExtracting(dir: string, sites: seq<string>, apiKey: bool, extractOk: string -> bool): (r: seq<Repair>)
    ensures !apiKey ==> r == []
    ensures apiKey ==> |r| == |sites|
    ensures apiKey ==> forall i :: 0 <= i < |sites| ==>
      r[i] == Repair(dir, sites[i], RepairExtraction, ExtractedJson(dir, sites[i]), extractOk(dir))
  {
    if !apiKey || |sites| == 0 then []
    else
      [Repair(dir, sites[0], RepairExtraction, ExtractedJson(dir, sites[0]), extractOk(dir))]
      + RepairExtracting(dir, sites[1..], apiKey, extractOk)
  }

  /** The environment of an audit: storage, and the outcomes of the repair
      runs. */
  datatype World = World(present: string -> bool, readStories: string -> Result<seq<Object>>,
                         stage: (string, string) -> Stage, apiKey: bool, extractOk: string -> bool)

  /** `_audit_single_directory`: the site problems, then the cleaning
      repairs, then the extraction repairs. */
  function AuditDirectory(dir: string, sites: seq<string>, w: World): (r: (seq<Problem>, seq<Repair>))
    ensures r.0 == FlatMap(sites, ProblemsOf(AuditOf(dir, w.present, w.readStories)))
    ensures r.1 == RepairCleaning(dir, Filter(sites, CleanOf(AuditOf(dir, w.present, w.readStories))), w.stage)
                 + RepairExtracting(dir, Filter(sites, ExtractOf(AuditOf(dir, w.present, w.readStories))), w.apiKey, w.extractOk)
    ensures |r.0| <= 2 * |sites|
    ensures forall i :: 0 <= i < |r.0| ==> r.0[i].directory == dir
    ensures forall i :: 0 <= i < |r.1| ==> r.1[i].directory == dir && r.1[i].site in sites
  {
    var audit := AuditSites(dir, sites, w.present, w.readStories);
    var cleaning := RepairCleaning(dir, audit.toClean, w.stage);
    var extracting := RepairExtracting(dir, audit.toExtract, w.apiKey, w.extractOk);
    CleaningIn(dir, audit.toClean, w.stage, sites);
    ExtractingIn(dir, audit.toExtract, w.apiKey, w.extractOk, sites);
    RepairsInConcat(cleaning, extracting, dir, sites);
    (audit.problems, cleaning + extracting)
  }

  /** Every repair is for directory `dir` and one of `sites`. */
  predicate RepairsIn(rs: seq<Repair>, dir: string, sites: seq<string>) {
    forall i :: 0 <= i < |rs| ==> rs[i].directory == dir && rs[i].site in sites
  }

  lemma CleaningIn(dir: string, toClean: seq<string>, stage: (string, string) -> Stage, sites: seq<string>)
    requires forall x :: x in toClean ==> x in sites
    ensures RepairsIn(RepairCleaning(dir, toClean, stage), dir, sites)
  {
    var rs := RepairCleaning(dir, toClean, stage);
    assert forall i :: 0 <= i < |rs| ==> rs[i].site == toClean[i];
  }

  lemma ExtractingIn(dir: string, toExtract: seq<string>, apiKey: bool, extractOk: string -> bool, sites: seq<string>)
    requires forall x :: x in toExtract ==> x in sites
    ensures RepairsIn(RepairExtracting(dir, toExtract, apiKey, extractOk), dir, sites)
  {
    var rs := RepairExtracting(dir, toExtract, apiKey, extractOk);
    assert forall i :: 0 <= i < |rs| ==> rs[i].site == toExtract[i];
  }

  lemma RepairsInConcat(a: seq<Repair>, b: seq<Repair>, dir: string, sites: seq<string>)
    requires RepairsIn(a, dir, sites) && RepairsIn(b, dir, sites)
    ensures RepairsIn(a + b, dir, sites)
  {
    assert forall i :: |a| <= i < |a + b| ==> (a + b)[i] == b[i - |a|];
  }

  // ---------------------------------------------------------------------
  // audit_days
  // ---------------------------------------------------------------------

  datatype AuditData = AuditData(directories: seq<string>, problems: seq<Problem>, repairs: seq<Repair>,
                                 totalDirectories: nat, totalProblems: nat, totalRepairs: nat)

  predicate Succeeded(r: Repair) { r.success }

  /** Auditing each directory for `sites`. */
  function DirAuditOf(sites: seq<string>, w: World): string -> (seq<Problem>, seq<Repair>) {
    (d: string) => AuditDirectory(d, sites, w)
  }

  /** The problems a per-directory audit finds in a directory. */
  function FoundOf(audit: string -> (seq<Problem>, seq<Repair>)): string -> seq<Problem> {
    (d: string) => audit(d).0
  }

  /** The repairs a per-directory audit makes in a directory. */
  function RepairedOf(audit: string -> (seq<Problem>, seq<Repair>)): string -> seq<Repair> {
    (d: string) => audit(d).1
  }

  /** A per-directory audit that finds at most two problems per site and
      records problems and repairs only for the directory audited and for
      `sites`. */
  ghost predicate DirAuditsWithin(sites: seq<string>, audit: string -> (seq<Problem>, seq<Repair>)) {
    forall d :: |audit(d).0| <= 2 * |sites| &&
      (forall i :: 0 <= i < |audit(d).0| ==> audit(d).0[i].directory == d) &&
      RepairsIn(audit(d).1, d, sites)
  }

  /** The directory loop over a given per-directory audit: each
      directory's problems and repairs in turn. */
  function CollectDirs(dirs: seq<string>, sites: seq<string>, audit: string -> (seq<Problem>, seq<Repair>)):
    (r: (seq<Problem>, seq<Repair>))
    requires DirAuditsWithin(sites, audit)
    ensures r.0 == FlatMap(dirs, FoundOf(audit))
    ensures r.1 == FlatMap(dirs, RepairedOf(audit))
    ensures |r.0| <= 2 * |sites| * |dirs|
    ensures forall i :: 0 <= i < |r.0| ==> r.0[i].directory in dirs
    ensures forall i :: 0 <= i < |r.1| ==> r.1[i].directory in dirs && r.1[i].site in sites
  {
    if |dirs| == 0 then ([], [])
    else
      var one := audit(dirs[0]);
      var rest := CollectDirs(dirs[1..], sites, audit);
      Bound(|one.0|, |rest.0|, |sites|, |dirs|);
      InDirs(dirs, one.0, rest.0, sites, one.1, rest.1);
      FlatMapStep(dirs, FoundOf(audit), one.0);
      FlatMapStep(dirs, RepairedOf(audit), one.1);
      (one.0 + rest.0, one.1 + rest.1)
  }

  /** The directory loop of `audit_days`: problems and repairs of each
      directory in turn. */
  function AuditAll(dirs: seq<string>, sites: seq<string>, w: World): (r: (seq<Problem>, seq<Repair>))
    ensures r.0 == FlatMap(dirs, FoundOf(DirAuditOf(sites, w)))
    ensures r.1 == FlatMap(dirs, RepairedOf(DirAuditOf(sites, w)))
    ensures |r.0| <= 2 * |sites| * |dirs|
    ensures forall i :: 0 <= i < |r.0| ==> r.0[i].directory in dirs
    ensures forall i :: 0 <= i < |r.1| ==> r.1[i].directory in dirs && r.1[i].site in sites
  {
    CollectDirs(dirs, sites, DirAuditOf(sites, w))
  }

  lemma Bound(a: nat, b: nat, n: nat, k: nat)
    requires k > 0 && a <= 2 * n && b <= 2 * n * (k - 1)
    ensures a + b <= 2 * n * k
  {
    assert 2 * n * k == 2 * n + 2 * n * (k - 1);
  }

  lemma InDirs(dirs: seq<string>, p1: seq<Problem>, p2: seq<Problem>, sites: seq<string>, r1: seq<Repair>, r2: seq<Repair>)
    requires |dirs| > 0
    requires forall i :: 0 <= i < |p1| ==> p1[i].directory == dirs[0]
    requires forall i :: 0 <= i < |p2| ==> p2[i].directory in dirs[1..]
    requires forall i :: 0 <= i < |r1| ==> r1[i].directory == dirs[0] && r1[i].site in sites
    requires forall i :: 0 <= i < |r2| ==> r2[i].directory in dirs[1..] && r2[i].site in sites
    ensures forall i :: 0 <= i < |p1 + p2| ==> (p1 + p2)[i].directory in dirs
    ensures forall i :: 0 <= i < |r1 + r2| ==> (r1 + r2)[i].directory in dirs && (r1 + r2)[i].site in sites
  {
    forall i | 0 <= i < |p1 + p2|
      ensures (p1 + p2)[i].directory in dirs
    {
      if i >= |p1| {
        assert (p1 + p2)[i] == p2[i - |p1|];
      }
    }
    forall i | 0 <= i < |r1 + r2|
      ensures (r1 + r2)[i].directory in dirs && (r1 + r2)[i].site in sites
    {
      if i >= |r1| {
        assert (r1 + r2)[i] == r2[i - |r1|];
      }
    }
  }

  /** `audit_days` without the report text: nothing when no directory is
      in range, else the audited directories, everything found and
      repaired, and the totals. */
  function AuditDays(files: seq<string>, start: Option<Date>, end: Option<Date>, sites: seq<string>,
                     w: World): (r: Option<AuditData>)
    ensures r.None? <==> FilteredDirs(files, start, end) == []
    ensures r.Some? ==> r.value.directories == FilteredDirs(files, start, end)
    ensures r.Some? ==> r.value.problems == FlatMap(r.value.directories, FoundOf(DirAuditOf(sites, w)))
    ensures r.Some? ==> r.value.repairs == FlatMap(r.value.directories, RepairedOf(DirAuditOf(sites, w)))
    ensures r.Some? ==> r.value.totalDirectories == |r.value.directories|
    ensures r.Some? ==> r.value.totalProblems == |r.value.problems|
    ensures r.Some? ==> r.value.totalRepairs == |Filter(r.value.repairs, Succeeded)|
    ensures r.Some? ==> r.value.totalProblems <= 2 * |sites| * r.value.totalDirectories
    ensures r.Some? ==> forall i :: 0 <= i < |r.value.problems| ==> r.value.problems[i].directory in r.value.directories
  {
    var dirs := FilteredDirs(files, start, end);
    if |dirs| == 0 then None
    else
      var found := AuditAll(dirs, sites, w);
      Some(AuditData(dirs, found.0, found.1, |dirs|, |found.0|, |Filter(found.1, Succeeded)|))
  }

  /** A problem is reported for a directory exactly when auditing one of
      the sites records it. */
  lemma DirectoryProblem(d: string, sites: seq<string>, w: World, p: Problem)
    ensures p in AuditDirectory(d, sites, w).0 <==>
      exists s :: s in sites && p in AuditSite(d, s, w.present, w.readStories).problems
  {
    var audit := AuditOf(d, w.present, w.readStories);
    FlatMapMembers(sites, ProblemsOf(audit), p);
    if p in AuditDirectory(d, sites, w).0 {
      var k :| 0 <= k < |sites| && p in ProblemsOf(audit)(sites[k]);
      assert sites[k] in sites && p in AuditSite(d, sites[k], w.present, w.readStories).problems;
    }
    if exists s :: s in sites && p in AuditSite(d, s, w.present, w.readStories).problems {
      var s :| s in sites && p in AuditSite(d, s, w.present, w.readStories).problems;
      var k :| 0 <= k < |sites| && sites[k] == s;
      assert p in ProblemsOf(audit)(sites[k]);
    }
  }

  /** The problems auditing each site of a directory records. */
  function SiteProblemsIn(w: World): string -> string -> seq<Problem> {
    (d: string) => ProblemsOf(AuditOf(d, w.present, w.readStories))
  }

  /** The directory loop reports a problem exactly when auditing some site
      of some directory records it. */
  lemma FoundInSomeDirectory(dirs: seq<string>, sites: seq<string>, w: World, p: Problem)
    ensures p in AuditAll(dirs, sites, w).0 <==>
      exists d, s :: d in dirs && s in sites && p in AuditSite(d, s, w.present, w.readStories).problems
  {
    var outer := FoundOf(DirAuditOf(sites, w));
    var inner := SiteProblemsIn(w);
    assert forall d :: outer(d) == FlatMap(sites, inner(d)) by {
      forall d ensures outer(d) == FlatMap(sites, inner(d)) {
        assert outer(d) == AuditDirectory(d, sites, w).0;
      }
    }
    FlatMapNested(dirs, sites, outer, inner, p);
    assert AuditAll(dirs, sites, w).0 == FlatMap(dirs, outer);
    assert forall d, s :: inner(d)(s) == AuditSite(d, s, w.present, w.readStories).problems;
  }

  /** `audit_days` reports a problem exactly when auditing some site of
      some directory in range records it. */
  lemma ProblemReported(files: seq<string>, start: Option<Date>, end: Option<Date>, sites: seq<string>,
                        w: World, p: Problem)
    ensures AuditDays(files, start, end, sites, w).Some? ==>
      (p in AuditDays(files, start, end, sites, w).value.problems <==>
       exists d, s :: d in FilteredDirs(files, start, end) && s in sites &&
                      p in AuditSite(d, s, w.present, w.readStories).problems)
  {
    var dirs := FilteredDirs(files, start, end);
    FoundInSomeDirectory(dirs, sites, w, p);
  }

  /** Only successful repairs are counted, so the count never exceeds the
      repairs made. */
  lemma RepairsCounted(files: seq<string>, start: Option<Date>, end: Option<Date>, sites: seq<string>, w: World)
    ensures AuditDays(files, start, end, sites, w).Some? ==>
      var a := AuditDays(files, start, end, sites, w).value;
      a.totalRepairs <= |a.repairs| &&
      (a.totalRepairs == |a.repairs| <==> forall i :: 0 <= i < |a.repairs| ==> a.repairs[i].success)
  {
    if AuditDays(files, start, end, sites, w).Some? {
      var a := AuditDays(files, start, end, sites, w).value;
      CountAll(a.repairs);
    }
  }

  lemma {:induction false} CountAll(rs: seq<Repair>)
    ensures |Filter(rs, Succeeded)| == |rs| <==> forall i :: 0 <= i < |rs| ==> rs[i].success
  {
    if |rs| > 0 {
      CountAll(rs[1..]);
      if !rs[0].success {
        assert |Filter(rs, Succeeded)| == |Filter(rs[1..], Succeeded)| <= |rs[1..]|;
      } else {
        assert forall i :: 1 <= i < |rs| ==> rs[i] == rs[1..][i - 1];
      }
    }
  }
}

=== FILE: calendar.dfy ===
/** The proleptic Gregorian calendar of Python's `datetime.date`:
    day ordinals (`date.toordinal()`, 0001-01-01 is day 1), their inverse
    (`date.fromordinal`), and `date.weekday()` (Monday is 0, Sunday is 6).
    Ordinals are defined for every integer so that time-zone shifts near
    the ends of the supported range stay total; `IsValidDate` is the range
    Python accepts. */
module Calendar {

  datatype Date = Date(year: int, month: int, day: int)

  const MinYear: int := 1
  const MaxYear: int := 9999

  predicate IsLeap(y: int) {
    y % 4 == 0 && (y % 100 != 0 || y % 400 == 0)
  }

  function YearLength(y: int): int {
    if IsLeap(y) then 366 else 365
  }

  /** Days in month `m` of a leap or a common year. */
  function MonthLength(leap: bool, m: int): (n: int)
    requires 1 <= m <= 12
    ensures 28 <= n <= 31
  {
    if m == 2 then (if leap then 29 else 28)
    else if m == 4 || m == 6 || m == 9 || m == 11 then 30
    else 31
  }

  function DaysInMonth(y: int, m: int): (n: int)
    requires 1 <= m <= 12
    ensures 28 <= n <= 31
  {
    MonthLength(IsLeap(y), m)
  }

  /** A real day of the calendar, in any year. */
  predicate IsCalendarDate(d: Date) {
    1 <= d.month <= 12 && 1 <= d.day <= DaysInMonth(d.year, d.month)
  }

  /** A day Python's `date` can represent. */
  predicate IsValidDate(d: Date) {
    IsCalendarDate(d) && MinYear <= d.year <= MaxYear
  }

  // ---------------------------------------------------------------------
  // Days before a year
  // ---------------------------------------------------------------------

  /** Days in the years before `y`, counted from 0001-01-01: each year
      adds its own length, going forwards from year 1 and backwards below it. */
  function DaysBeforeYear(y: int): int
    decreases if y >= 1 then y - 1 else 1 - y
  {
    if y == 1 then 0
    else if y > 1 then DaysBeforeYear(y - 1) + YearLength(y - 1)
    else DaysBeforeYear(y + 1) - YearLength(y)
  }

  /** The closed form CPython's `_days_before_year` computes. */
  function DaysBeforeYearClosed(y: int): int {
    var x := y - 1;
    365 * x + x / 4 - x / 100 + x / 400
  }

  lemma DivStep4(y: int)
    ensures y / 4 - (y - 1) / 4 == (if y % 4 == 0 then 1 else 0)
  {
  }

  lemma DivStep100(y: int)
    ensures y / 100 - (y - 1) / 100 == (if y % 100 == 0 then 1 else 0)
  {
  }

  lemma DivStep400(y: int)
    ensures y / 400 - (y - 1) / 400 == (if y % 400 == 0 then 1 else 0)
  {
  }

  lemma DaysBeforeYearClosedStep(y: int)
    ensures DaysBeforeYearClosed(y + 1) == DaysBeforeYearClosed(y) + YearLength(y)
  {
    DivStep4(y);
    DivStep100(y);
    DivStep400(y);
  }

  /** The year-by-year count and the leap-rule closed form agree. */
  lemma {:induction false} DaysBeforeYearClosedForm(y: int)
    ensures DaysBeforeYear(y) == DaysBeforeYearClosed(y)
    decreases if y >= 1 then y - 1 else 1 - y
  {
    if y > 1 {
      DaysBeforeYearClosedForm(y - 1);
      DaysBeforeYearClosedStep(y - 1);
    } else if y < 1 {
      DaysBeforeYearClosedForm(y + 1);
      DaysBeforeYearClosedStep(y);
    }
  }

  lemma DaysBeforeYearStep(y: int)
    ensures DaysBeforeYear(y + 1) == DaysBeforeYear(y) + YearLength(y)
  {
  }

  lemma {:induction false} DaysBeforeYearGrows(a: int, b: int)
    requires a <= b
    ensures DaysBeforeYear(b) - DaysBeforeYear(a) >= 365 * (b - a)
    decreases b - a
  {
    if a < b {
      DaysBeforeYearGrows(a, b - 1);
      DaysBeforeYearStep(b - 1);
    }
  }

  lemma {:induction false} DaysBeforeYearBound(y: int)
    requires y >= 1
    ensures 0 <= DaysBeforeYear(y) <= 366 * (y - 1)
    decreases y
  {
    if y > 1 {
      DaysBeforeYearBound(y - 1);
    }
  }

  // ---------------------------------------------------------------------
  // Days before a month
  // ---------------------------------------------------------------------

  /** Days in the months before `m` (CPython's `_DAYS_BEFORE_MONTH` table,
      plus one after February in a leap year); `m == 13` gives the year. */
  function DaysBeforeMonth(leap: bool, m: int): int
    requires 1 <= m <= 13
  {
    [0, 31, 59, 90, 120, 151, 181, 212, 243, 273, 304, 334, 365][m - 1]
      + (if leap && m > 2 then 1 else 0)
  }

  /** The table is the running sum of the month lengths. */
  lemma DaysBeforeMonthStep(leap: bool, m: int)
    requires 1 <= m <= 12
    ensures DaysBeforeMonth(leap, m + 1) == DaysBeforeMonth(leap, m) + MonthLength(leap, m)
  {
  }

  lemma DaysBeforeMonthFull(leap: bool)
    ensures DaysBeforeMonth(leap, 13) == if leap then 366 else 365
  {
  }

  lemma DaysBeforeMonthGrows(leap: bool, a: int, b: int)
    requires 1 <= a < b <= 13
    ensures DaysBeforeMonth(leap, a) < DaysBeforeMonth(leap, b)
  {
  }

  function MonthFrom(leap: bool, r: int, m: int): (k: int)
    requires 1 <= m <= 12
    requires DaysBeforeMonth(leap, m) < r <= DaysBeforeMonth(leap, 13)
    ensures m <= k <= 12
    ensures DaysBeforeMonth(leap, k) < r <= DaysBeforeMonth(leap, k + 1)
    decreases 13 - m
  {
    if r <= DaysBeforeMonth(leap, m + 1) then m else MonthFrom(leap, r, m + 1)
  }

  lemma {:induction false} MonthFromUnique(leap: bool, r: int, m: int, k: int)
    requires 1 <= m <= k <= 12
    requires DaysBeforeMonth(leap, m) < r <= DaysBeforeMonth(leap, 13)
    requires DaysBeforeMonth(leap, k) < r <= DaysBeforeMonth(leap, k + 1)
    ensures MonthFrom(leap, r, m) == k
    decreases k - m
  {
    if m < k {
      if m + 1 < k {
        DaysBeforeMonthGrows(leap, m + 1, k);
      }
      MonthFromUnique(leap, r, m + 1, k);
    }
  }

  // ---------------------------------------------------------------------
  // Day ordinals
  // ---------------------------------------------------------------------

  /** Python's `date.toordinal()`. */
  function Ordinal(d: Date): int
    requires IsCalendarDate(d)
  {
    DaysBeforeYear(d.year) + DaysBeforeMonth(IsLeap(d.year), d.month) + d.day
  }

  lemma DayWithinYear(leap: bool, m: int, day: int)
    requires 1 <= m <= 12 && 1 <= day <= MonthLength(leap, m)
    ensures DaysBeforeMonth(leap, m) < DaysBeforeMonth(leap, m) + day <= DaysBeforeMonth(leap, m + 1)
    ensures DaysBeforeMonth(leap, m + 1) <= DaysBeforeMonth(leap, 13)
  {
    DaysBeforeMonthStep(leap, m);
  }

  lemma OrdinalWithinYear(d: Date)
    requires IsCalendarDate(d)
    ensures DaysBeforeYear(d.year) < Ordinal(d) <= DaysBeforeYear(d.year + 1)
  {
    DaysBeforeYearStep(d.year);
    DaysBeforeMonthFull(IsLeap(d.year));
    DayWithinYear(IsLeap(d.year), d.month, d.day);
  }

  function YearUp(n: int, y: int): (r: int)
    requires DaysBeforeYear(y) < n
    ensures DaysBeforeYear(r) < n <= DaysBeforeYear(r + 1)
    decreases n - DaysBeforeYear(y)
  {
    DaysBeforeYearStep(y);
    if n <= DaysBeforeYear(y + 1) then y else YearUp(n, y + 1)
  }

  function YearDown(n: int, y: int): (r: int)
    requires n <= DaysBeforeYear(y + 1)
    ensures DaysBeforeYear(r) < n <= DaysBeforeYear(r + 1)
    decreases DaysBeforeYear(y + 1) - n
  {
    DaysBeforeYearStep(y);
    if DaysBeforeYear(y) < n then y else YearDown(n, y - 1)
  }

  /** The year holding day `n`. */
  function YearOf(n: int): (y: int)
    ensures DaysBeforeYear(y) < n <= DaysBeforeYear(y + 1)
  {
    if n >= 1 then
      DaysBeforeYearBound((n - 1) / 366 + 1);
      YearUp(n, (n - 1) / 366 + 1)
    else
      YearDown(n, 0)
  }

  lemma YearOfUnique(n: int, y: int)
    requires DaysBeforeYear(y) < n <= DaysBeforeYear(y + 1)
    ensures YearOf(n) == y
  {
    var z := YearOf(n);
    if z < y {
      DaysBeforeYearGrows(z + 1, y);
    } else if z > y {
      DaysBeforeYearGrows(y + 1, z);
    }
  }

  /** Python's `date.fromordinal(n)`, extended to every integer. */
  function FromOrdinal(n: int): (d: Date)
    ensures IsCalendarDate(d) && Ordinal(d) == n
  {
    var y := YearOf(n);
    var leap := IsLeap(y);
    DaysBeforeMonthFull(leap);
    DaysBeforeYearStep(y);
    var r := n - DaysBeforeYear(y);
    var m := MonthFrom(leap, r, 1);
    DaysBeforeMonthStep(leap, m);
    Date(y, m, r - DaysBeforeMonth(leap, m))
  }

  /** `fromordinal` undoes `toordinal`. */
  lemma FromOrdinalOfOrdinal(d: Date)
    requires IsCalendarDate(d)
    ensures FromOrdinal(Ordinal(d)) == d
  {
    var n := Ordinal(d);
    var leap := IsLeap(d.year);
    OrdinalWithinYear(d);
    YearOfUnique(n, d.year);
    var r := n - DaysBeforeYear(d.year);
    assert r == DaysBeforeMonth(leap, d.month) + d.day;
    DaysBeforeMonthFull(leap);
    DayWithinYear(leap, d.month, d.day);
    MonthFromUnique(leap, r, 1, d.month);
  }

  lemma OrdinalInjective(a: Date, b: Date)
    requires IsCalendarDate(a) && IsCalendarDate(b)
    requires Ordinal(a) == Ordinal(b)
    ensures a == b
  {
    FromOrdinalOfOrdinal(a);
    FromOrdinalOfOrdinal(b);
  }

  /** Calendar order: year, then month, then day. */
  predicate DateLess(a: Date, b: Date) {
    a.year < b.year
    || (a.year == b.year && a.month < b.month)
    || (a.year == b.year && a.month == b.month && a.day < b.day)
  }

  lemma DateLessOrdinal(a: Date, b: Date)
    requires IsCalendarDate(a) && IsCalendarDate(b) && DateLess(a, b)
    ensures Ordinal(a) < Ordinal(b)
  {
    if a.year < b.year {
      OrdinalWithinYear(a);
      OrdinalWithinYear(b);
      DaysBeforeYearGrows(a.year + 1, b.year);
    } else if a.month < b.month {
      var leap := IsLeap(a.year);
      DayWithinYear(leap, a.month, a.day);
      if a.month + 1 < b.month {
        DaysBeforeMonthGrows(leap, a.month + 1, b.month);
      }
    }
  }

  /** Day ordinal order is calendar order. */
  lemma OrdinalOrder(a: Date, b: Date)
    requires IsCalendarDate(a) && IsCalendarDate(b)
    ensures Ordinal(a) < Ordinal(b) <==> DateLess(a, b)
  {
    if DateLess(a, b) {
      DateLessOrdinal(a, b);
    } else if a != b {
      DateLessOrdinal(b, a);
    }
  }

  /** Ordinal of the first and the last representable day. */
  const MinOrdinal: int := 1
  const MaxOrdinal: int := 3652059

  lemma ValidRange(d: Date)
    requires IsCalendarDate(d)
    ensures IsValidDate(d) <==> MinOrdinal <= Ordinal(d) <= MaxOrdinal
  {
    OrdinalWithinYear(d);
    assert DaysBeforeYear(MaxYear + 1) == MaxOrdinal by {
      DaysBeforeYearClosedForm(MaxYear + 1);
    }
    if d.year < MinYear {
      DaysBeforeYearGrows(d.year + 1, MinYear);
    } else if d.year > MaxYear {
      DaysBeforeYearGrows(MaxYear + 1, d.year);
    } else {
      DaysBeforeYearBound(d.year);
      DaysBeforeYearGrows(d.year + 1, MaxYear + 1);
    }
  }

  // ---------------------------------------------------------------------
  // Weekdays
  // ---------------------------------------------------------------------

  /** Python's `weekday()` of day `n`: Monday is 0, Sunday is 6. */
  function Weekday(n: int): (w: int)
    ensures 0 <= w < 7
  {
    (n + 6) % 7
  }

  /** Python's `is_last_day_of_week`: the day is a Sunday. */
  predicate IsSunday(n: int) {
    Weekday(n) == 6
  }

  /** 0-based day of the year (C's `tm_yday`). */
  function DayOfYear(d: Date): (k: int)
    requires IsCalendarDate(d)
    ensures 0 <= k < YearLength(d.year)
  {
    OrdinalWithinYear(d);
    DaysBeforeYearStep(d.year);
    Ordinal(d) - DaysBeforeYear(d.year) - 1
  }

  /** `d + timedelta(days=k)` on the extended calendar. */
  function AddDays(d: Date, k: int): (e: Date)
    requires IsCalendarDate(d)
    ensures IsCalendarDate(e) && Ordinal(e) == Ordinal(d) + k
  {
    FromOrdinal(Ordinal(d) + k)
  }

  lemma Concrete2025()
    ensures DaysBeforeYear(2025) == 739251
    ensures Weekday(Ordinal(Date(2025, 1, 1))) == 2
    ensures IsSunday(Ordinal(Date(2025, 6, 8)))
  {
    DaysBeforeYearClosedForm(2025);
  }
}

=== FILE: cleaner.dfy ===
/** Front-page cleaning over an abstract document tree: dropping the page
    head and decorative or interactive elements, the site-specific cleaner
    that keeps only what relates to headline selectors, the filter that
    keeps elements carrying text, and the extraction of text entries with
    their paths and links. Parsing and serialising HTML are not modelled:
    a document is its sequence of top-level nodes. */
module Cleaner {
  import opened Wrappers
  import opened Text
  import Lists

  /** A parsed node: a string, or an element with its tag, its multi-valued
      `class` attribute, its other attributes and its children. */
  datatype Node =
    | Str(s: string)
    | Element(tag: string, classes: seq<string>, attrs: map<string, string>, children: seq<Node>)

  // ---------------------------------------------------------------------
  // Selectors and the site cleaners
  // ---------------------------------------------------------------------

  /** The CSS selectors the site cleaners use: `[attr*="sub"]`, optionally
      restricted to one tag, and a bare tag name. */
  datatype Selector = AttrContains(onTag: Option<string>, attr: string, sub: string) | TagIs(name: string)

  /** An attribute's text; `class` is the space-joined class list. */
  function AttrOf(e: Node, attr: string): Option<string>
    requires e.Element?
  {
    if attr == "class" then (if |e.classes| > 0 then Some(Join(e.classes, " ")) else None)
    else if attr in e.attrs then Some(e.attrs[attr]) else None
  }

  predicate Selects(sel: Selector, e: Node)
    requires e.Element?
  {
    match sel
    case TagIs(name) => e.tag == name
    case AttrContains(onTag, attr, sub) =>
      (onTag.None? || e.tag == onTag.value) && |sub| > 0 &&
      AttrOf(e, attr).Some? && Contains(AttrOf(e, attr).value, sub)
  }

  predicate IsMatch(sels: seq<Selector>, e: Node) {
    e.Element? && exists k :: 0 <= k < |sels| && Selects(sels[k], e)
  }

  const CnnSelectors: seq<Selector> := [AttrContains(None, "class", "headline")]
  const BbcSelectors: seq<Selector> := [AttrContains(Some("h2"), "data-testid", "headline")]
  const FoxSelectors: seq<Selector> := [TagIs("article")]

  /** `cleaner_for_site`: the first of `cnn`, `bbc`, `foxnews` that occurs
      in the site name picks the selectors. */
  function CleanerFor(site: string): (r: Result<seq<Selector>>)
    ensures Contains(site, "cnn") ==> r == Ok(CnnSelectors)
    ensures !Contains(site, "cnn") && Contains(site, "bbc") ==> r == Ok(BbcSelectors)
    ensures !Contains(site, "cnn") && !Contains(site, "bbc") && Contains(site, "foxnews") ==> r == Ok(FoxSelectors)
    ensures r.Err? <==> !Contains(site, "cnn") && !Contains(site, "bbc") && !Contains(site, "foxnews")
    ensures r.Err? ==> r.error == site + " is not a valid site"
  {
    if Find(site, "cnn") >= 0 then Ok(CnnSelectors)
    else if Find(site, "bbc") >= 0 then Ok(BbcSelectors)
    else if Find(site, "foxnews") >= 0 then Ok(FoxSelectors)
    else Err(site + " is not a valid site")
  }

  // ---------------------------------------------------------------------
  // Trees
  // ---------------------------------------------------------------------

  /** `e` is one of `nodes` or lies somewhere below one of them. */
  predicate Occurs(e: Node, nodes: seq<Node>)
    decreases nodes
  {
    |nodes| > 0 &&
    (e == nodes[0] || (nodes[0].Element? && Occurs(e, nodes[0].children)) || Occurs(e, nodes[1..]))
  }

  /** Some element at or below `nodes` matches. */
  predicate HasMatch(sels: seq<Selector>, nodes: seq<Node>)
    decreases nodes
  {
    |nodes| > 0 &&
    (IsMatch(sels, nodes[0]) || (nodes[0].Element? && HasMatch(sels, nodes[0].children)) || HasMatch(sels, nodes[1..]))
  }

  /** `out` is `nodes` with some element subtrees cut away and the
      children of the kept elements cut the same way; strings are never
      cut on their own. */
  predicate Embeds(out: seq<Node>, nodes: seq<Node>)
    decreases nodes
  {
    if |nodes| == 0 then out == []
    else if nodes[0].Str? then |out| > 0 && out[0] == nodes[0] && Embeds(out[1..], nodes[1..])
    else
      Embeds(out, nodes[1..]) ||
      (|out| > 0 && out[0].Element? && out[0].tag == nodes[0].tag && out[0].classes == nodes[0].classes &&
       out[0].attrs == nodes[0].attrs && Embeds(out[0].children, nodes[0].children) && Embeds(out[1..], nodes[1..]))
  }

  lemma {:induction false} EmbedsRefl(nodes: seq<Node>)
    ensures Embeds(nodes, nodes)
    decreases nodes
  {
    if |nodes| > 0 {
      EmbedsRefl(nodes[1..]);
      if nodes[0].Element? {
        EmbedsRefl(nodes[0].children);
      }
    }
  }

  /** No element of the tree has a tag from `tags`. */
  predicate NoTag(nodes: seq<Node>, tags: set<string>)
    decreases nodes
  {
    |nodes| == 0 ||
    ((nodes[0].Element? ==> nodes[0].tag !in tags && NoTag(nodes[0].children, tags)) && NoTag(nodes[1..], tags))
  }

  /** Cutting subtrees cannot bring a tag in. */
  lemma {:induction false} EmbedsNoTag(out: seq<Node>, nodes: seq<Node>, tags: set<string>)
    requires Embeds(out, nodes) && NoTag(nodes, tags)
    ensures NoTag(out, tags)
    decreases nodes
  {
    if |nodes| > 0 {
      if nodes[0].Str? {
        EmbedsNoTag(out[1..], nodes[1..], tags);
      } else if Embeds(out, nodes[1..]) {
        EmbedsNoTag(out, nodes[1..], tags);
      } else {
        EmbedsNoTag(out[0].children, nodes[0].children, tags);
        EmbedsNoTag(out[1..], nodes[1..], tags);
      }
    }
  }

  // ---------------------------------------------------------------------
  // PatternBasedCleaner.clean_page
  // ---------------------------------------------------------------------

  /** Keep every element that matches, lies inside a match or contains a
      match; drop every other element with its subtree. */
  function CleanPage(sels: seq<Selector>, nodes: seq<Node>): (r: seq<Node>)
    decreases nodes
  {
    if |nodes| == 0 then []
    else
      var n := nodes[0];
      var rest := CleanPage(sels, nodes[1..]);
      if n.Str? || IsMatch(sels, n) then [n] + rest
      else if HasMatch(sels, n.children) then [n.(children := CleanPage(sels, n.children))] + rest
      else rest
  }

  /** Every kept element is a match (kept whole) or an ancestor of a match
      whose children are kept under the same rule. */
  predicate Related(sels: seq<Selector>, nodes: seq<Node>)
    decreases nodes
  {
    |nodes| == 0 ||
    ((nodes[0].Element? && !IsMatch(sels, nodes[0]) ==>
        HasMatch(sels, nodes[0].children) && Related(sels, nodes[0].children))
     && Related(sels, nodes[1..]))
  }

  lemma {:induction false} CleanPageEmbeds(sels: seq<Selector>, nodes: seq<Node>)
    ensures Embeds(CleanPage(sels, nodes), nodes)
    decreases nodes
  {
    if |nodes| > 0 {
      var n, out := nodes[0], CleanPage(sels, nodes);
      CleanPageEmbeds(sels, nodes[1..]);
      if n.Str? {
        assert out[1..] == CleanPage(sels, nodes[1..]);
      } else if IsMatch(sels, n) {
        EmbedsRefl(n.children);
        assert out[1..] == CleanPage(sels, nodes[1..]);
      } else if HasMatch(sels, n.children) {
        CleanPageEmbeds(sels, n.children);
        assert out[1..] == CleanPage(sels, nodes[1..]);
      }
    }
  }

  /** A match anywhere in the tree survives cleaning as it was. */
  lemma {:induction false} CleanPageKeepsMatches(sels: seq<Selector>, nodes: seq<Node>, e: Node)
    requires Occurs(e, nodes) && IsMatch(sels, e)
    ensures Occurs(e, CleanPage(sels, nodes))
    decreases nodes
  {
    var n, out := nodes[0], CleanPage(sels, nodes);
    if e == n {
      assert out[0] == e;
    } else if n.Element? && Occurs(e, n.children) {
      if !IsMatch(sels, n) {
        MatchFound(sels, n.children, e);
        CleanPageKeepsMatches(sels, n.children, e);
        assert out[0] == n.(children := CleanPage(sels, n.children));
      }
    } else {
      CleanPageKeepsMatches(sels, nodes[1..], e);
      if n.Str? || IsMatch(sels, n) || HasMatch(sels, n.children) {
        assert out[1..] == CleanPage(sels, nodes[1..]);
      }
    }
  }

  lemma {:induction false} MatchFound(sels: seq<Selector>, nodes: seq<Node>, e: Node)
    requires Occurs(e, nodes) && IsMatch(sels, e)
    ensures HasMatch(sels, nodes)
    decreases nodes
  {
    if e != nodes[0] {
      if nodes[0].Element? && Occurs(e, nodes[0].children) {
        MatchFound(sels, nodes[0].children, e);
      } else {
        MatchFound(sels, nodes[1..], e);
      }
    }
  }

  /** Nothing unrelated to a match survives cleaning. */
  lemma {:induction false} CleanPageRelated(sels: seq<Selector>, nodes: seq<Node>)
    ensures Related(sels, CleanPage(sels, nodes))
    decreases nodes
  {
    if |nodes| > 0 {
      var n, out := nodes[0], CleanPage(sels, nodes);
      CleanPageRelated(sels, nodes[1..]);
      if n.Str? || IsMatch(sels, n) {
        assert out[1..] == CleanPage(sels, nodes[1..]);
      } else if HasMatch(sels, n.children) {
        CleanPageRelated(sels, n.children);
        CleanPageKeepsSome(sels, n.children);
        assert out[1..] == CleanPage(sels, nodes[1..]);
      }
    }
  }

  /** A tree with a match still has one after cleaning. */
  lemma {:induction false} CleanPageKeepsSome(sels: seq<Selector>, nodes: seq<Node>)
    requires HasMatch(sels, nodes)
    ensures HasMatch(sels, CleanPage(sels, nodes))
    decreases nodes
  {
    var n, out := nodes[0], CleanPage(sels, nodes);
    if IsMatch(sels, n) {
      assert out[0] == n;
    } else if n.Element? && HasMatch(sels, n.children) {
      CleanPageKeepsSome(sels, n.children);
      assert out[0] == n.(children := CleanPage(sels, n.children));
    } else {
      CleanPageKeepsSome(sels, nodes[1..]);
      if n.Str? {
        assert out[1..] == CleanPage(sels, nodes[1..]);
      }
    }
  }

  // ---------------------------------------------------------------------
  // WebpageCleaner.clean_html
  // ---------------------------------------------------------------------

  /** The number of elements tagged `t` in the tree. */
  function TagCount(nodes: seq<Node>, t: string): nat
    decreases nodes
  {
    if |nodes| == 0 then 0
    else
      (if nodes[0].Element? then (if nodes[0].tag == t then 1 else 0) + TagCount(nodes[0].children, t) else 0)
      + TagCount(nodes[1..], t)
  }

  /** `soup.head`: the first `head` element in document order. */
  function FirstHead(nodes: seq<Node>): (r: Option<Node>)
    ensures r.Some? ==> r.value.Element? && r.value.tag == "head" && Occurs(r.value, nodes)
    ensures r.None? <==> TagCount(nodes, "head") == 0
    decreases nodes
  {
    if |nodes| == 0 then None
    else
      var n := nodes[0];
      if n.Element? && n.tag == "head" then Some(n)
      else if n.Element? && FirstHead(n.children).Some? then FirstHead(n.children)
      else FirstHead(nodes[1..])
  }

  /** `soup.head.clear()`: the first head loses its children. */
  function ClearHead(nodes: seq<Node>): (r: seq<Node>)
    ensures FirstHead(nodes).None? ==> r == nodes
    decreases nodes
  {
    if |nodes| == 0 then []
    else
      var n := nodes[0];
      if n.Element? && n.tag == "head" then [n.(children := [])] + nodes[1..]
      else if n.Element? && FirstHead(n.children).Some? then [n.(children := ClearHead(n.children))] + nodes[1..]
      else [n] + ClearHead(nodes[1..])
  }

  /** After clearing, the first head is the old one without children. */
  lemma {:induction false} ClearHeadEmpties(nodes: seq<Node>)
    requires FirstHead(nodes).Some?
    ensures FirstHead(ClearHead(nodes)) == Some(FirstHead(nodes).value.(children := []))
    decreases nodes
  {
    var n, r := nodes[0], ClearHead(nodes);
    if n.Element? && n.tag == "head" {
      assert r[0] == n.(children := []);
    } else if n.Element? && FirstHead(n.children).Some? {
      ClearHeadEmpties(n.children);
      assert r[0] == n.(children := ClearHead(n.children));
    } else {
      ClearHeadEmpties(nodes[1..]);
      assert r[0] == n && r[1..] == ClearHead(nodes[1..]);
    }
  }

  /** Clearing takes away the content of the first head and nothing else. */
  lemma {:induction false} ClearHeadCounts(nodes: seq<Node>, t: string)
    requires FirstHead(nodes).Some?
    ensures TagCount(ClearHead(nodes), t) + TagCount(FirstHead(nodes).value.children, t) == TagCount(nodes, t)
    decreases nodes
  {
    var n, r := nodes[0], ClearHead(nodes);
    if n.Element? && n.tag == "head" {
      assert r[0] == n.(children := []) && r[1..] == nodes[1..];
    } else if n.Element? && FirstHead(n.children).Some? {
      ClearHeadCounts(n.children, t);
      assert r[0] == n.(children := ClearHead(n.children)) && r[1..] == nodes[1..];
    } else {
      ClearHeadCounts(nodes[1..], t);
      assert r[0] == n && r[1..] == ClearHead(nodes[1..]);
    }
  }

  predicate IsHead(n: Node) { n.Element? && n.tag == "head" }

  predicate HeadPlace(p: Place) { IsHead(p.node) }

  /** `soup.head` is the first `head` that `find_all()` would visit. */
  lemma {:induction false} FirstHeadInOrder(trail: seq<Node>, nodes: seq<Node>)
    ensures var heads := Lists.Filter(Located(trail, nodes), HeadPlace);
            FirstHead(nodes) == if |heads| == 0 then None else Some(heads[0].node)
    decreases nodes
  {
    if |nodes| > 0 {
      var n := nodes[0];
      var tail := Located(trail, nodes[1..]);
      FirstHeadInOrder(trail, nodes[1..]);
      if n.Element? {
        var below := Located(trail + [n], n.children);
        FirstHeadInOrder(trail + [n], n.children);
        assert Located(trail, nodes) == [Place(trail, n)] + below + tail;
        Lists.FilterConcat([Place(trail, n)] + below, tail, HeadPlace);
        Lists.FilterConcat([Place(trail, n)], below, HeadPlace);
        Lists.FilterSingle(Place(trail, n), HeadPlace);
      } else {
        assert Located(trail, nodes) == tail;
      }
    }
  }

  lemma NoHeadConcat(x: Node, a: seq<Node>, b: seq<Node>)
    requires !IsHead(x)
    requires forall k :: 0 <= k < |a| ==> !IsHead(a[k])
    requires forall k :: 0 <= k < |b| ==> !IsHead(b[k])
    ensures forall k :: 0 <= k < |[x] + a + b| ==> !IsHead(([x] + a + b)[k])
  {
    forall k | 0 <= k < |[x] + a + b| ensures !IsHead(([x] + a + b)[k]) {
      if 0 < k <= |a| {
        assert ([x] + a + b)[k] == a[k - 1];
      } else if k > |a| {
        assert ([x] + a + b)[k] == b[k - 1 - |a|];
      }
    }
  }

  /** A node without its children: a string, or an element's own tag and
      attributes. */
  function Bare(n: Node): Node {
    if n.Str? then n else n.(children := [])
  }

  /** Every node of the tree, bare, in document order. */
  function Outline(nodes: seq<Node>): seq<Node>
    decreases nodes
  {
    if |nodes| == 0 then []
    else
      var n := nodes[0];
      [Bare(n)] + (if n.Element? then Outline(n.children) else []) + Outline(nodes[1..])
  }

  lemma {:induction false} NoHeadOutline(nodes: seq<Node>)
    requires TagCount(nodes, "head") == 0
    ensures forall k :: 0 <= k < |Outline(nodes)| ==> !IsHead(Outline(nodes)[k])
    decreases nodes
  {
    if |nodes| > 0 {
      var n := nodes[0];
      var own := if n.Element? then Outline(n.children) else [];
      NoHeadOutline(nodes[1..]);
      if n.Element? {
        NoHeadOutline(n.children);
      }
      NoHeadConcat(Bare(n), own, Outline(nodes[1..]));
    }
  }

  lemma {:induction false} OutlineCons(n: Node, rest: seq<Node>)
    ensures Outline([n] + rest) == [Bare(n)] + (if n.Element? then Outline(n.children) else []) + Outline(rest)
  {
    assert ([n] + rest)[0] == n && ([n] + rest)[1..] == rest;
  }

  /** `cleared` is `whole` without the descendants of `h`, which is the
      first head of `whole`: `pre` comes before it and `post` after its
      subtree. */
  predicate Splits(whole: seq<Node>, cleared: seq<Node>, h: Node, pre: seq<Node>, post: seq<Node>)
    requires h.Element?
  {
    whole == pre + [Bare(h)] + Outline(h.children) + post
    && cleared == pre + [Bare(h)] + post
    && forall k :: 0 <= k < |pre| ==> !IsHead(pre[k])
  }

  lemma {:induction false} SplitsAround(front: seq<Node>, whole: seq<Node>, cleared: seq<Node>, back: seq<Node>, h: Node, pre: seq<Node>, post: seq<Node>)
    requires h.Element? && Splits(whole, cleared, h, pre, post)
    requires forall k :: 0 <= k < |front| ==> !IsHead(front[k])
    ensures Splits(front + whole + back, front + cleared + back, h, front + pre, post + back)
  {
    var p := front + pre;
    forall k | 0 <= k < |p| ensures !IsHead(p[k]) {
      if k >= |front| {
        assert p[k] == pre[k - |front|];
      }
    }
  }

  lemma {:induction false} SplitsWitness(whole: seq<Node>, cleared: seq<Node>, h: Node, pre: seq<Node>, post: seq<Node>)
    requires h.Element? && Splits(whole, cleared, h, pre, post)
    ensures exists pre, post :: Splits(whole, cleared, h, pre, post)
  {
  }

  /** Clearing removes the first head's descendants from the document and
      leaves every other node, and the order of all of them, as it was. */
  lemma {:induction false} ClearHeadFrame(nodes: seq<Node>)
    requires FirstHead(nodes).Some?
    ensures exists pre, post :: Splits(Outline(nodes), Outline(ClearHead(nodes)), FirstHead(nodes).value, pre, post)
    decreases nodes
  {
    var n := nodes[0];
    if n.Element? && n.tag == "head" {
      FrameHere(nodes);
    } else if n.Element? && FirstHead(n.children).Some? {
      ClearHeadFrame(n.children);
      var pre, post :| Splits(Outline(n.children), Outline(ClearHead(n.children)), FirstHead(n.children).value, pre, post);
      FrameBelow(nodes, pre, post);
    } else {
      ClearHeadFrame(nodes[1..]);
      var pre, post :| Splits(Outline(nodes[1..]), Outline(ClearHead(nodes[1..])), FirstHead(nodes[1..]).value, pre, post);
      FrameAfter(nodes, pre, post);
    }
  }

  /** The first node is the head. */
  lemma {:induction false} FrameHere(nodes: seq<Node>)
    requires |nodes| > 0 && IsHead(nodes[0])
    ensures exists pre, post :: Splits(Outline(nodes), Outline(ClearHead(nodes)), FirstHead(nodes).value, pre, post)
  {
    var n, tail := nodes[0], nodes[1..];
    var n' := n.(children := []);
    assert nodes == [n] + tail;
    assert ClearHead(nodes) == [n'] + tail;
    OutlineCons(n, tail);
    OutlineCons(n', tail);
    HeadSplit(n, Outline(tail));
    SplitsWitness(Outline(nodes), Outline(ClearHead(nodes)), n, [], Outline(tail));
  }

  lemma {:induction false} HeadSplit(h: Node, rest: seq<Node>)
    requires h.Element?
    ensures Splits([Bare(h)] + Outline(h.children) + rest, [Bare(h.(children := []))] + Outline([]) + rest, h, [], rest)
  {
    assert [] + [Bare(h)] + Outline(h.children) + rest == [Bare(h)] + Outline(h.children) + rest;
  }

  /** The head is inside the first node. */
  lemma {:induction false} FrameBelow(nodes: seq<Node>, pre: seq<Node>, post: seq<Node>)
    requires |nodes| > 0 && nodes[0].Element? && !IsHead(nodes[0]) && FirstHead(nodes[0].children).Some?
    requires Splits(Outline(nodes[0].children), Outline(ClearHead(nodes[0].children)), FirstHead(nodes[0].children).value, pre, post)
    ensures exists pre, post :: Splits(Outline(nodes), Outline(ClearHead(nodes)), FirstHead(nodes).value, pre, post)
  {
    var n, tail := nodes[0], nodes[1..];
    var h := FirstHead(n.children).value;
    assert nodes == [n] + tail;
    OutlineCons(n, tail);
    var n' := n.(children := ClearHead(n.children));
    assert ClearHead(nodes) == [n'] + tail;
    OutlineCons(n', tail);
    assert Bare(n') == Bare(n);
    SplitsAround([Bare(n)], Outline(n.children), Outline(ClearHead(n.children)), Outline(tail), h, pre, post);
    SplitsWitness(Outline(nodes), Outline(ClearHead(nodes)), h, [Bare(n)] + pre, post + Outline(tail));
  }

  /** The head comes after the first node and its subtree. */
  lemma {:induction false} FrameAfter(nodes: seq<Node>, pre: seq<Node>, post: seq<Node>)
    requires |nodes| > 0 && !IsHead(nodes[0]) && (nodes[0].Element? ==> FirstHead(nodes[0].children).None?)
    requires FirstHead(nodes[1..]).Some?
    requires Splits(Outline(nodes[1..]), Outline(ClearHead(nodes[1..])), FirstHead(nodes[1..]).value, pre, post)
    ensures exists pre, post :: Splits(Outline(nodes), Outline(ClearHead(nodes)), FirstHead(nodes).value, pre, post)
  {
    var n, tail := nodes[0], nodes[1..];
    var h := FirstHead(tail).value;
    assert nodes == [n] + tail;
    OutlineCons(n, tail);
    var own := if n.Element? then Outline(n.children) else [];
    var front := [Bare(n)] + own;
    if n.Element? {
      NoHeadOutline(n.children);
    }
    assert forall k :: 0 <= k < |front| ==> !IsHead(front[k]) by {
      forall k | 0 <= k < |front| ensures !IsHead(front[k]) {
        if k > 0 {
          assert front[k] == own[k - 1];
        }
      }
    }
    assert ClearHead(nodes) == [n] + ClearHead(tail);
    OutlineCons(n, ClearHead(tail));
    SplitsAround(front, Outline(tail), Outline(ClearHead(tail)), [], h, pre, post);
    assert front + Outline(tail) + [] == Outline(nodes);
    assert front + Outline(ClearHead(tail)) + [] == Outline(ClearHead(nodes));
    SplitsWitness(Outline(nodes), Outline(ClearHead(nodes)), h, front + pre, post + []);
  }

  /** Technical, interactive and decorative elements. */
  const Banned: set<string> := {"script", "style", "iframe", "noscript", "form", "button", "input", "svg", "path", "img"}

  /** Decomposing every element whose tag is in `tags`, with its subtree. */
  function RemoveTags(tags: set<string>, nodes: seq<Node>): (r: seq<Node>)
    decreases nodes
  {
    if |nodes| == 0 then []
    else
      var n := nodes[0];
      var rest := RemoveTags(tags, nodes[1..]);
      if n.Str? then [n] + rest
      else if n.tag in tags then rest
      else [n.(children := RemoveTags(tags, n.children))] + rest
  }

  /** No element with a removed tag is left, and what is left is the
      original tree with subtrees cut away. */
  lemma {:induction false} RemoveTagsSound(tags: set<string>, nodes: seq<Node>)
    ensures NoTag(RemoveTags(tags, nodes), tags)
    ensures Embeds(RemoveTags(tags, nodes), nodes)
    decreases nodes
  {
    if |nodes| > 0 {
      var n, r := nodes[0], RemoveTags(tags, nodes);
      RemoveTagsSound(tags, nodes[1..]);
      if n.Str? {
        assert r[0] == n && r[1..] == RemoveTags(tags, nodes[1..]);
      } else if n.tag !in tags {
        RemoveTagsSound(tags, n.children);
        assert r[0] == n.(children := RemoveTags(tags, n.children)) && r[1..] == RemoveTags(tags, nodes[1..]);
      }
    }
  }

  /** A tree without those tags is left as it is. */
  lemma {:induction false} RemoveTagsNone(tags: set<string>, nodes: seq<Node>)
    requires NoTag(nodes, tags)
    ensures RemoveTags(tags, nodes) == nodes
    decreases nodes
  {
    if |nodes| > 0 {
      RemoveTagsNone(tags, nodes[1..]);
      if nodes[0].Element? {
        RemoveTagsNone(tags, nodes[0].children);
      }
      assert nodes == [nodes[0]] + nodes[1..];
    }
  }

  /** `clean_html` without the parsing and printing: clear the head, drop
      the banned elements, then apply the site cleaner. */
  function CleanHtml(sels: seq<Selector>, nodes: seq<Node>): (r: seq<Node>)
    ensures NoTag(r, Banned)
    ensures Related(sels, r)
    ensures Embeds(r, RemoveTags(Banned, ClearHead(nodes)))
  {
    var stripped := RemoveTags(Banned, ClearHead(nodes));
    RemoveTagsSound(Banned, ClearHead(nodes));
    CleanPageEmbeds(sels, stripped);
    CleanPageRelated(sels, stripped);
    EmbedsNoTag(CleanPage(sels, stripped), stripped, Banned);
    CleanPage(sels, stripped)
  }

  /** Every match that survives the head and banned-tag removal is kept. */
  lemma CleanHtmlKeepsMatches(sels: seq<Selector>, nodes: seq<Node>, e: Node)
    requires Occurs(e, RemoveTags(Banned, ClearHead(nodes))) && IsMatch(sels, e)
    ensures Occurs(e, CleanHtml(sels, nodes))
  {
    CleanPageKeepsMatches(sels, RemoveTags(Banned, ClearHead(nodes)), e);
  }

  // ---------------------------------------------------------------------
  // WebpageCleaner.filter_text_elements
  // ---------------------------------------------------------------------

  /** The tags that display text. */
  const TextElements: set<string> := {"span", "p", "div", "h1", "h2", "h3", "h4", "h5", "h6"}

  /** The number of text-tag elements in the tree. */
  function TextCount(nodes: seq<Node>): nat
    decreases nodes
  {
    if |nodes| == 0 then 0
    else
      (if nodes[0].Element? then (if nodes[0].tag in TextElements then 1 else 0) + TextCount(nodes[0].children) else 0)
      + TextCount(nodes[1..])
  }

  /** Keep an element that is a text tag or has one below it; every other
      element goes with its subtree. Strings stay where they are. */
  function FilterText(nodes: seq<Node>): (r: seq<Node>)
    decreases nodes
  {
    if |nodes| == 0 then []
    else
      var n := nodes[0];
      var rest := FilterText(nodes[1..]);
      if n.Str? then [n] + rest
      else if n.tag in TextElements || TextCount(n.children) > 0 then [n.(children := FilterText(n.children))] + rest
      else rest
  }

  /** Every surviving element that is not a text tag has one below it. */
  predicate Supported(nodes: seq<Node>)
    decreases nodes
  {
    |nodes| == 0 ||
    ((nodes[0].Element? ==>
        (nodes[0].tag in TextElements || TextCount(nodes[0].children) > 0) && Supported(nodes[0].children))
     && Supported(nodes[1..]))
  }

  /** Filtering keeps every text-tag element, cuts only subtrees, and
      leaves no unsupported element. */
  lemma {:induction false} FilterTextSound(nodes: seq<Node>)
    ensures TextCount(FilterText(nodes)) == TextCount(nodes)
    ensures Embeds(FilterText(nodes), nodes)
    ensures Supported(FilterText(nodes))
    decreases nodes
  {
    if |nodes| > 0 {
      var n, r := nodes[0], FilterText(nodes);
      FilterTextSound(nodes[1..]);
      if n.Str? {
        assert r[0] == n && r[1..] == FilterText(nodes[1..]);
      } else if n.tag in TextElements || TextCount(n.children) > 0 {
        FilterTextSound(n.children);
        assert r[0] == n.(children := FilterText(n.children)) && r[1..] == FilterText(nodes[1..]);
      }
    }
  }

  /** Filtering twice is filtering once. */
  lemma {:induction false} FilterTextIdempotent(nodes: seq<Node>)
    ensures FilterText(FilterText(nodes)) == FilterText(nodes)
  {
    FilterTextSound(nodes);
    SupportedFixed(FilterText(nodes));
  }

  lemma {:induction false} SupportedFixed(nodes: seq<Node>)
    requires Supported(nodes)
    ensures FilterText(nodes) == nodes
    decreases nodes
  {
    if |nodes| > 0 {
      SupportedFixed(nodes[1..]);
      if nodes[0].Element? {
        SupportedFixed(nodes[0].children);
      }
      assert nodes == [nodes[0]] + nodes[1..];
    }
  }

  // ---------------------------------------------------------------------
  // WebpageCleaner.extract_text_elements
  // ---------------------------------------------------------------------

  /** The name of the parsed document itself, the outermost step of every
      path. */
  const Document := "[document]"

  /** One path step: the tag, qualified by the class list if there is one,
      else by a non-empty `id`. */
  function Step(n: Node): string {
    if n.Str? then ""
    else if |n.classes| > 0 then n.tag + "[@class=\"" + Join(n.classes, " ") + "\"]"
    else if "id" in n.attrs && n.attrs["id"] != "" then n.tag + "[@id=\"" + n.attrs["id"] + "\"]"
    else n.tag
  }

  function Steps(trail: seq<Node>): (r: seq<string>)
    ensures |r| == |trail| && forall k :: 0 <= k < |trail| ==> r[k] == Step(trail[k])
  {
    seq(|trail|, k requires 0 <= k < |trail| => Step(trail[k]))
  }

  /** The path of the last element of `trail`, whose ancestors are the
      rest of it, outermost first. */
  function XPath(trail: seq<Node>): (r: string)
    ensures StartsWith(r, "//" + Document)
  {
    var parts := [Document] + Steps(trail);
    var r := "//" + Join(parts, "/");
    assert r[..|"//" + Document|] == "//" + Document;
    r
  }

  /** An `a` element with a non-empty `href`. */
  predicate IsLink(n: Node) {
    n.Element? && n.tag == "a" && "href" in n.attrs && n.attrs["href"] != ""
  }

  /** The `href` of the innermost link among the ancestors in `trail`. */
  function NearestLink(trail: seq<Node>): (r: Option<string>)
    ensures r.None? <==> forall k :: 0 <= k < |trail| ==> !IsLink(trail[k])
    ensures r.Some? ==> exists k :: 0 <= k < |trail| && IsLink(trail[k]) && r.value == trail[k].attrs["href"] &&
                                    (forall j :: k < j < |trail| ==> !IsLink(trail[j]))
  {
    var k := Lists.LastWhere(trail, IsLink);
    if k < 0 then None else Some(trail[k].attrs["href"])
  }

  /** The text of the string children, each stripped, skipping those that
      start as a comment marker. */
  function DirectText(children: seq<Node>): string
    decreases children
  {
    if |children| == 0 then "" else Piece(children[0]) + DirectText(children[1..])
  }

  function Piece(n: Node): string {
    if n.Str? && !StartsWith(Strip(n.s), "<!--") then Strip(n.s) else ""
  }

  /** A text-tag element with some direct text. */
  predicate Qualifies(n: Node) {
    n.Element? && n.tag in TextElements && Strip(DirectText(n.children)) != ""
  }

  datatype Entry = Entry(path: string, text: string, url: Option<string>)

  function EntryAt(trail: seq<Node>, n: Node): Entry
    requires n.Element?
  {
    Entry(XPath(trail + [n]), Strip(DirectText(n.children)), NearestLink(trail))
  }

  /** An entry as extraction emits it: stripped non-empty text, a path from
      the document root, and no empty link. */
  predicate WellFormed(e: Entry) {
    |e.text| > 0 && !IsSpace(e.text[0]) && !IsSpace(e.text[|e.text| - 1]) &&
    StartsWith(e.path, "//" + Document) && (e.url.None? || |e.url.value| > 0)
  }

  lemma EntryAtWellFormed(trail: seq<Node>, n: Node)
    requires Qualifies(n)
    ensures WellFormed(EntryAt(trail, n))
  {
    var link := NearestLink(trail);
    if link.Some? {
      var k :| 0 <= k < |trail| && IsLink(trail[k]) && link.value == trail[k].attrs["href"];
    }
  }

  /** The entries of `nodes`, whose ancestors are `trail`, in document
      order. */
  function Entries(trail: seq<Node>, nodes: seq<Node>): (r: seq<Entry>)
    ensures forall i :: 0 <= i < |r| ==> WellFormed(r[i])
    ensures |r| <= TextCount(nodes)
    decreases nodes
  {
    if |nodes| == 0 then []
    else
      var n := nodes[0];
      var own := if Qualifies(n) then EntryAtWellFormed(trail, n); [EntryAt(trail, n)] else [];
      var below := if n.Element? then Entries(trail + [n], n.children) else [];
      var rest := Entries(trail, nodes[1..]);
      assert |own| + |below| + |rest| <= TextCount(nodes);
      AllWellFormed(own, below, rest);
      own + below + rest
  }

  lemma AllWellFormed(a: seq<Entry>, b: seq<Entry>, c: seq<Entry>)
    requires forall i :: 0 <= i < |a| ==> WellFormed(a[i])
    requires forall i :: 0 <= i < |b| ==> WellFormed(b[i])
    requires forall i :: 0 <= i < |c| ==> WellFormed(c[i])
    ensures forall i :: 0 <= i < |a + b + c| ==> WellFormed((a + b + c)[i])
  {
  }

  /** An element in document order, with its ancestors. */
  datatype Place = Place(trail: seq<Node>, node: Node)

  /** `find_all()`: every element, each before its descendants and after
      its preceding siblings' subtrees. */
  function Located(trail: seq<Node>, nodes: seq<Node>): seq<Place>
    decreases nodes
  {
    if |nodes| == 0 then []
    else
      var n := nodes[0];
      (if n.Element? then [Place(trail, n)] + Located(trail + [n], n.children) else [])
      + Located(trail, nodes[1..])
  }

  predicate QualifiedPlace(p: Place) { Qualifies(p.node) }

  predicate AllElements(places: seq<Place>) {
    forall i :: 0 <= i < |places| ==> places[i].node.Element?
  }

  function Describe(places: seq<Place>): seq<Entry>
    requires AllElements(places)
  {
    if |places| == 0 then [] else [EntryAt(places[0].trail, places[0].node)] + Describe(places[1..])
  }

  lemma {:induction false} DescribeConcat(a: seq<Place>, b: seq<Place>)
    requires AllElements(a) && AllElements(b)
    ensures AllElements(a + b)
    ensures Describe(a + b) == Describe(a) + Describe(b)
  {
    forall i | 0 <= i < |a + b|
      ensures (a + b)[i].node.Element?
    {
      if i < |a| {
        assert (a + b)[i] == a[i];
      } else {
        assert (a + b)[i] == b[i - |a|];
      }
    }
    if |a| > 0 {
      assert (a + b)[1..] == a[1..] + b;
      assert AllElements(a[1..]);
      DescribeConcat(a[1..], b);
    } else {
      assert a + b == b;
    }
  }

  /** Extraction is the entry of every qualifying element, taken in the
      order `find_all` visits the elements. */
  lemma {:induction false} EntriesInOrder(trail: seq<Node>, nodes: seq<Node>)
    ensures Entries(trail, nodes) == Describe(Lists.Filter(Located(trail, nodes), QualifiedPlace))
    decreases nodes
  {
    if |nodes| > 0 {
      var n := nodes[0];
      EntriesInOrder(trail, nodes[1..]);
      var tail := Located(trail, nodes[1..]);
      if n.Element? {
        EntriesInOrder(trail + [n], n.children);
        var below := Located(trail + [n], n.children);
        assert Located(trail, nodes) == [Place(trail, n)] + below + tail;
        Lists.FilterConcat([Place(trail, n)] + below, tail, QualifiedPlace);
        Lists.FilterConcat([Place(trail, n)], below, QualifiedPlace);
        var head := Lists.Filter([Place(trail, n)], QualifiedPlace);
        assert Lists.Filter([Place(trail, n)] + below, QualifiedPlace) == head + Lists.Filter(below, QualifiedPlace);
        DescribeConcat(head + Lists.Filter(below, QualifiedPlace), Lists.Filter(tail, QualifiedPlace));
        DescribeConcat(head, Lists.Filter(below, QualifiedPlace));
        assert Describe(head) == if Qualifies(n) then [EntryAt(trail, n)] else [];
      } else {
        assert Located(trail, nodes) == tail;
      }
    }
  }

  /** Two ancestor lists that agree on everything but the children. */
  predicate LookAlike(a: seq<Node>, b: seq<Node>) {
    |a| == |b| &&
    forall k :: 0 <= k < |a| ==>
      a[k].Element? == b[k].Element? &&
      (a[k].Element? ==> a[k].tag == b[k].tag && a[k].classes == b[k].classes && a[k].attrs == b[k].attrs)
  }

  lemma LookAlikeSame(a: seq<Node>, b: seq<Node>)
    requires LookAlike(a, b)
    ensures XPath(a) == XPath(b) && NearestLink(a) == NearestLink(b)
  {
    assert Steps(a) == Steps(b);
    assert forall k :: 0 <= k < |a| ==> IsLink(a[k]) == IsLink(b[k]);
    Lists.LastWhereSame(a, b, IsLink);
  }

  lemma {:induction false} DirectTextFilter(children: seq<Node>)
    ensures DirectText(FilterText(children)) == DirectText(children)
    decreases children
  {
    if |children| > 0 {
      DirectTextFilter(children[1..]);
      var n, r := children[0], FilterText(children);
      var rest := FilterText(children[1..]);
      if n.Str? {
        assert r == [n] + rest;
        DirectTextCons(n, rest);
      } else if n.tag in TextElements || TextCount(n.children) > 0 {
        var m := n.(children := FilterText(n.children));
        assert r == [m] + rest;
        DirectTextCons(m, rest);
      }
    }
  }

  lemma DirectTextCons(n: Node, rest: seq<Node>)
    ensures DirectText([n] + rest) == Piece(n) + DirectText(rest)
  {
    assert ([n] + rest)[1..] == rest;
  }

  lemma {:induction false} NoTextNoEntries(trail: seq<Node>, nodes: seq<Node>)
    requires TextCount(nodes) == 0
    ensures Entries(trail, nodes) == []
  {
  }

  /** Filtering to text elements loses no entry: every entry's element,
      its direct text and its ancestors' tags and attributes survive. */
  lemma {:induction false} FilterKeepsEntries(t1: seq<Node>, t2: seq<Node>, nodes: seq<Node>)
    requires LookAlike(t1, t2)
    ensures Entries(t1, FilterText(nodes)) == Entries(t2, nodes)
    decreases nodes
  {
    if |nodes| > 0 {
      var n, r := nodes[0], FilterText(nodes);
      FilterKeepsEntries(t1, t2, nodes[1..]);
      if n.Str? {
        assert r[0] == n && r[1..] == FilterText(nodes[1..]);
      } else if n.tag in TextElements || TextCount(n.children) > 0 {
        var m := n.(children := FilterText(n.children));
        assert r[0] == m && r[1..] == FilterText(nodes[1..]);
        DirectTextFilter(n.children);
        assert LookAlike(t1 + [m], t2 + [n]);
        LookAlikeSame(t1 + [m], t2 + [n]);
        LookAlikeSame(t1, t2);
        FilterKeepsEntries(t1 + [m], t2 + [n], n.children);
      } else {
        NoTextNoEntries(t2 + [n], n.children);
      }
    }
  }

  /** What the harvester stores as the clean page and what is later read
      from it yield the same text entries. */
  lemma FilterTextKeepsExtraction(nodes: seq<Node>)
    ensures Entries([], FilterText(nodes)) == Entries([], nodes)
  {
    FilterKeepsEntries([], [], nodes);
  }
}

=== FILE: cloud.dfy ===
/** The run registry of cloud_entrypoint.py: the `active_runs` dictionary
    and how the `/run`, `/weekly`, `/summarize`, `/stop` and `/status`
    endpoints and the background task change or read it. Flask, threads,
    the clock and the uuid generator are outside the model: the request
    body, the generated id and the start time are inputs, and a background
    task's outcome is handed to `FinishRun`. */
module Cloud {
  import opened Wrappers
  import Lists
  import Runner
  import RunState

  /** What an entry was started for, with the fields only that kind has. */
  datatype Kind =
    | Pipeline(steps: seq<string>, completed: seq<string>)
    | Weekly(currentWeekOnly: bool, overwrite: bool, specificWeeks: Option<seq<string>>)
    | Summary(force: bool)

  /** One value of `active_runs`. */
  datatype Entry = Entry(runId: string, status: string, running: bool, kind: Kind, error: Option<string>, startTime: int)

  type Registry = map<string, Entry>

  /** A JSON reply and its HTTP status code. */
  datatype Reply = Reply(code: int, status: string, message: string, runId: Option<string>)

  /** Every entry is filed under its own id. */
  predicate Keyed(reg: Registry) {
    forall id :: id in reg ==> reg[id].runId == id
  }

  /** The ids of the entries still running. */
  function Running(reg: Registry): (ids: set<string>)
    ensures ids <= reg.Keys
    ensures forall id :: id in ids <==> id in reg && reg[id].running
  {
    set id | id in reg && reg[id].running
  }

  lemma RunningBound(reg: Registry)
    ensures |Running(reg)| <= |reg|
  {
    Lists.SubsetSize(Running(reg), reg.Keys);
    assert |reg.Keys| == |reg|;
  }

  /** Filing a running entry under an id not running before adds that id to
      the running ones. */
  lemma RunningInsert(reg: Registry, id: string, e: Entry)
    requires e.running && (id !in reg || !reg[id].running)
    ensures Running(reg[id := e]) == Running(reg) + {id} && id !in Running(reg)
  {
  }

  /** Stopping a running entry takes its id off the running ones. */
  lemma RunningRemove(reg: Registry, id: string, e: Entry)
    requires !e.running && id in reg && reg[id].running
    ensures Running(reg) == Running(reg[id := e]) + {id} && id !in Running(reg[id := e])
  {
  }

  // ---------------------------------------------------------------------
  // POST /run
  // ---------------------------------------------------------------------

  /** The `steps` a `/run` body gets when it names none. */
  const DefaultSteps: seq<string> := ["harvest", "extract", "interpret", "deploy"]

  /** The parsed body of a `/run` request: `steps` and `run_id` when given. */
  datatype RunRequest = RunRequest(steps: Option<seq<string>>, runId: Option<string>)

  /** `[Steps(step) for step in requested_steps]`: the steps, or the first
      value the enum rejects. */
  function ParseSteps(names: seq<string>): (r: Result<seq<Runner.Step>>)
    ensures r.Ok? <==> forall i :: 0 <= i < |names| ==> Runner.FromName(names[i]).Some?
    ensures r.Ok? ==> Runner.Names(r.value) == names
    ensures r.Err? ==> exists i :: 0 <= i < |names| && Runner.FromName(names[i]).None?
                                   && r.error == UnknownStep(names[i])
  {
    if |names| == 0 then Ok([])
    else
      match Runner.FromName(names[0])
      case None => Err(UnknownStep(names[0]))
      case Some(s) =>
        match ParseSteps(names[1..])
        case Err(e) =>
          var i :| 0 <= i < |names[1..]| && Runner.FromName(names[1..][i]).None? && e == UnknownStep(names[1..][i]);
          assert names[i + 1] == names[1..][i];
          Err(e)
        case Ok(rest) =>
          assert names == [names[0]] + names[1..];
          Ok([s] + rest)
  }

  /** The `ValueError` message of `Steps(value)` for an unknown value. */
  function UnknownStep(name: string): string {
    "'" + name + "' is not a valid Steps"
  }

  /** The default steps are harvest, extract, interpret and deploy. */
  lemma DefaultStepsParse()
    ensures ParseSteps(DefaultSteps) == Ok([Runner.Harvest, Runner.Extract, Runner.Interpret, Runner.Deploy])
  {
    Runner.FromNameOfName(Runner.Harvest);
    Runner.FromNameOfName(Runner.Extract);
    Runner.FromNameOfName(Runner.Interpret);
    Runner.FromNameOfName(Runner.Deploy);
    var n0, n1, n2, n3 := DefaultSteps, DefaultSteps[1..], DefaultSteps[2..], DefaultSteps[3..];
    assert n3[1..] == [] && n2[1..] == n3 && n1[1..] == n2 && n0[1..] == n1;
    assert n0[0] == Runner.Name(Runner.Harvest) && n1[0] == Runner.Name(Runner.Extract);
    assert n2[0] == Runner.Name(Runner.Interpret) && n3[0] == Runner.Name(Runner.Deploy);
    assert Runner.FromName(n0[0]) == Some(Runner.Harvest) && Runner.FromName(n1[0]) == Some(Runner.Extract);
    assert Runner.FromName(n2[0]) == Some(Runner.Interpret) && Runner.FromName(n3[0]) == Some(Runner.Deploy);
    assert [Runner.Deploy] + [] == [Runner.Deploy];
    assert ParseSteps(n3) == Ok([Runner.Deploy]);
    assert [Runner.Interpret] + [Runner.Deploy] == [Runner.Interpret, Runner.Deploy];
    assert ParseSteps(n2) == Ok([Runner.Interpret, Runner.Deploy]);
    assert [Runner.Extract] + [Runner.Interpret, Runner.Deploy] == [Runner.Extract, Runner.Interpret, Runner.Deploy];
    assert ParseSteps(n1) == Ok([Runner.Extract, Runner.Interpret, Runner.Deploy]);
    assert [Runner.Harvest] + [Runner.Extract, Runner.Interpret, Runner.Deploy]
        == [Runner.Harvest, Runner.Extract, Runner.Interpret, Runner.Deploy];
  }

  /** `run_pipeline`: the registry afterwards and the reply. An unknown step
      is a 500 before the id is looked at; an id whose entry is still
      running is a 409; otherwise a fresh running entry replaces whatever
      the id held. `freshId` is the generated `uuid4()[:8]`, `clock` the
      `time.time()` reading. */
  function RunPipeline(reg: Registry, req: RunRequest, freshId: string, clock: int): (out: (Registry, Reply))
    ensures var names := req.steps.GetOr(DefaultSteps);
            ParseSteps(names).Err? ==> out.0 == reg && out.1.code == 500
    ensures var id := req.runId.GetOr(freshId);
            ParseSteps(req.steps.GetOr(DefaultSteps)).Ok? && id in reg && reg[id].running ==>
              out.0 == reg && out.1.code == 409
    ensures var id := req.runId.GetOr(freshId);
            ParseSteps(req.steps.GetOr(DefaultSteps)).Ok? && !(id in reg && reg[id].running) ==>
              out.1.code == 200
    ensures out.1.code == 200 ==>
              var id := req.runId.GetOr(freshId);
              out.1.runId == Some(id) && (id !in reg || !reg[id].running)
              && out.0 == reg[id := Entry(id, "running", true, Pipeline(req.steps.GetOr(DefaultSteps), []), None, clock)]
    ensures out.1.code in {200, 409, 500}
  {
    var names := req.steps.GetOr(DefaultSteps);
    match ParseSteps(names)
    case Err(e) => (reg, Reply(500, "error", "Failed to start pipeline: " + e, None))
    case Ok(steps) =>
      var id := req.runId.GetOr(freshId);
      if id in reg && reg[id].running then
        (reg, Reply(409, "error", "Run with ID " + id + " is already in progress", None))
      else
        var entry := Entry(id, "running", true, Pipeline(Runner.Names(steps), []), None, clock);
        (reg[id := entry], Reply(200, "accepted", "Pipeline run started with ID: " + id, Some(id)))
  }

  /** An accepted run adds one running entry; the registry grows by one
      unless the id held a finished entry. Every other reply changes
      nothing. */
  lemma RunPipelineCounts(reg: Registry, req: RunRequest, freshId: string, clock: int)
    ensures var out := RunPipeline(reg, req, freshId, clock);
            var id := req.runId.GetOr(freshId);
            out.1.code == 200 ==>
              |Running(out.0)| == |Running(reg)| + 1
              && |out.0| == if id in reg then |reg| else |reg| + 1
    ensures var out := RunPipeline(reg, req, freshId, clock);
            out.1.code != 200 ==> out.0 == reg
  {
    var out := RunPipeline(reg, req, freshId, clock);
    var id := req.runId.GetOr(freshId);
    if out.1.code == 200 {
      RunningInsert(reg, id, out.0[id]);
      assert out.0 == reg[id := out.0[id]];
    }
  }

  /** Registering keeps every entry under its own id. */
  lemma RunPipelineKeyed(reg: Registry, req: RunRequest, freshId: string, clock: int)
    requires Keyed(reg)
    ensures Keyed(RunPipeline(reg, req, freshId, clock).0)
  {
  }

  // ---------------------------------------------------------------------
  // run_task_async
  // ---------------------------------------------------------------------

  /** `run_task_async` once `run` has returned or raised: the status and
      completed steps of the result (its error only when non-empty), or
      status `"error"` with the exception's message; in every case the entry
      stops running. Other entries are left alone. */
  function FinishRun(reg: Registry, id: string, outcome: Result<Runner.RunResult>): (r: Registry)
    requires id in reg
    ensures r.Keys == reg.Keys && !r[id].running
    ensures forall other :: other in reg && other != id ==> r[other] == reg[other]
    ensures r[id].runId == reg[id].runId && r[id].startTime == reg[id].startTime
    ensures outcome.Err? ==> r[id].status == "error" && r[id].error == Some(outcome.error)
    ensures outcome.Ok? ==> r[id].status == Runner.StatusName(outcome.value.status)
    ensures outcome.Ok? && reg[id].kind.Pipeline? ==>
              r[id].kind == Pipeline(reg[id].kind.steps, Runner.Names(outcome.value.completed))
    ensures outcome.Ok? ==>
              r[id].error == if outcome.value.error.Some? && outcome.value.error.value != "" then outcome.value.error
                             else reg[id].error
  {
    var e := reg[id];
    var done := match outcome
      case Err(msg) => e.(status := "error", error := Some(msg))
      case Ok(res) =>
        var kind := match e.kind
          case Pipeline(steps, _) => Pipeline(steps, Runner.Names(res.completed))
          case other => other;
        var error := if res.error.Some? && res.error.value != "" then res.error else e.error;
        e.(status := Runner.StatusName(res.status), kind := kind, error := error);
    reg[id := done.(running := false)]
  }

  /** Finishing a running entry takes one off the running count and keeps
      the registry's size and keys. */
  lemma FinishRunCounts(reg: Registry, id: string, outcome: Result<Runner.RunResult>)
    requires id in reg && reg[id].running
    ensures |Running(FinishRun(reg, id, outcome))| == |Running(reg)| - 1
    ensures |FinishRun(reg, id, outcome)| == |reg|
    ensures Keyed(reg) ==> Keyed(FinishRun(reg, id, outcome))
  {
    var r := FinishRun(reg, id, outcome);
    assert r == reg[id := r[id]];
    RunningRemove(reg, id, r[id]);
  }

  /** The run the registry started ends with the result of
      `Runner.Run`: an error result or a raised validation or job-directory
      error both leave status `"error"`. */
  lemma FinishedPipeline(reg: Registry, req: RunRequest, freshId: string, clock: int,
                         outcome: Result<Runner.RunResult>)
    requires RunPipeline(reg, req, freshId, clock).1.code == 200
    ensures var id := req.runId.GetOr(freshId);
            var after := RunPipeline(reg, req, freshId, clock).0;
            id in after
            && var done := FinishRun(after, id, outcome);
               !done[id].running && done[id].kind.Pipeline?
               && (outcome.Err? || outcome.value.status == Runner.Failed ==> done[id].status == "error")
  {
  }

  // ---------------------------------------------------------------------
  // POST /weekly and POST /summarize
  // ---------------------------------------------------------------------

  /** The parsed body of a `/weekly` request. */
  datatype WeeklyRequest = WeeklyRequest(currentWeekOnly: Option<bool>, overwrite: Option<bool>,
                                         specificWeeks: Option<seq<string>>, runId: Option<string>)

  /** `run_weekly`: always accepted; the entry replaces whatever the id held,
      running or not, and the stop flag is reset for it. `freshId` is the
      generated `weekly-` id. */
  function RunWeekly(reg: Registry, state: RunState.State, req: WeeklyRequest, freshId: string, clock: int)
    : (out: (Registry, RunState.State, Reply))
    ensures var id := req.runId.GetOr(freshId);
            out.0 == reg[id := Entry(id, "running", true,
                                     Weekly(req.currentWeekOnly.GetOr(true), req.overwrite.GetOr(false), req.specificWeeks),
                                     None, clock)]
    ensures !RunState.StopRequested(out.1) && RunState.RunId(out.1) == Some(req.runId.GetOr(freshId))
    ensures out.2.code == 200 && out.2.runId == Some(req.runId.GetOr(freshId))
  {
    var id := req.runId.GetOr(freshId);
    var kind := Weekly(req.currentWeekOnly.GetOr(true), req.overwrite.GetOr(false), req.specificWeeks);
    (reg[id := Entry(id, "running", true, kind, None, clock)],
     RunState.Reset(state, Some(id)),
     Reply(200, "accepted", "Weekly processing started with ID: " + id, Some(id)))
  }

  /** `run_summarize`: like `run_weekly`, for a `summary-` id. */
  function RunSummarize(reg: Registry, state: RunState.State, force: Option<bool>, runId: Option<string>,
                        freshId: string, clock: int): (out: (Registry, RunState.State, Reply))
    ensures var id := runId.GetOr(freshId);
            out.0 == reg[id := Entry(id, "running", true, Summary(force.GetOr(false)), None, clock)]
    ensures !RunState.StopRequested(out.1) && RunState.RunId(out.1) == Some(runId.GetOr(freshId))
    ensures out.2.code == 200 && out.2.runId == Some(runId.GetOr(freshId))
  {
    var id := runId.GetOr(freshId);
    (reg[id := Entry(id, "running", true, Summary(force.GetOr(false)), None, clock)],
     RunState.Reset(state, Some(id)),
     Reply(200, "accepted", "Summarization started with ID: " + id, Some(id)))
  }

  /** `run_weekly_async` and `run_summarize_async` once their work has
      returned (`Ok`) or raised (`Err`). */
  function FinishTask(reg: Registry, id: string, outcome: Result<()>): (r: Registry)
    requires id in reg
    ensures r.Keys == reg.Keys && !r[id].running && r[id].kind == reg[id].kind
    ensures forall other :: other in reg && other != id ==> r[other] == reg[other]
    ensures outcome.Ok? ==> r[id].status == "success" && r[id].error == reg[id].error
    ensures outcome.Err? ==> r[id].status == "error" && r[id].error == Some(outcome.error)
  {
    var e := reg[id];
    var done := if outcome.Ok? then e.(status := "success") else e.(status := "error", error := Some(outcome.error));
    reg[id := done.(running := false)]
  }

  // ---------------------------------------------------------------------
  // POST /stop/<run_id>
  // ---------------------------------------------------------------------

  /** `stop_run`: 404 for an unknown id, 400 for a finished run, otherwise
      the global stop flag is raised (for whichever run is current) and the
      request accepted. The registry is never changed. */
  function StopRun(reg: Registry, state: RunState.State, id: string): (out: (RunState.State, Reply))
    ensures out.1.code == 404 <==> id !in reg
    ensures out.1.code == 400 <==> id in reg && !reg[id].running
    ensures out.1.code == 200 <==> id in reg && reg[id].running
    ensures out.1.code == 200 ==> RunState.StopRequested(out.0) && RunState.RunId(out.0) == RunState.RunId(state)
    ensures out.1.code != 200 ==> out.0 == state
  {
    if id !in reg then (state, Reply(404, "error", "No run found with ID: " + id, None))
    else if !reg[id].running then (state, Reply(400, "error", "Run " + id + " is not currently running", None))
    else (RunState.RequestStop(state), Reply(200, "accepted", "Stop requested for run " + id, None))
  }

  // ---------------------------------------------------------------------
  // GET /status
  // ---------------------------------------------------------------------

  /** The replies of `get_status`. */
  datatype StatusReply =
    | OneRun(entry: Entry)
    | NoRun(message: string)
    | AllRuns(activeRuns: nat, totalRuns: nat, runs: Registry)

  /** `get_status`: one entry for a known `run_id`, 404 for an unknown one,
      and otherwise (no `run_id`, or an empty one) the counts and every
      entry. */
  function Status(reg: Registry, runId: Option<string>): (r: StatusReply)
    ensures r.OneRun? <==> runId.Some? && runId.value != "" && runId.value in reg
    ensures r.OneRun? ==> r.entry == reg[runId.value]
    ensures r.NoRun? <==> runId.Some? && runId.value != "" && runId.value !in reg
    ensures r.AllRuns? ==> r.totalRuns == |reg| && r.runs == reg
                           && r.activeRuns == |Running(reg)| <= r.totalRuns
  {
    if runId.Some? && runId.value != "" && runId.value in reg then OneRun(reg[runId.value])
    else if runId.Some? && runId.value != "" then NoRun("No run found with ID: " + runId.value)
    else
      RunningBound(reg);
      AllRuns(|Running(reg)|, |reg|, reg)
  }

  /** A run accepted by `/run` is reported running by `/status` until its
      task finishes, and not after. */
  lemma StatusAfterRun(reg: Registry, req: RunRequest, freshId: string, clock: int, outcome: Result<Runner.RunResult>)
    requires RunPipeline(reg, req, freshId, clock).1.code == 200
    ensures var id := req.runId.GetOr(freshId);
            var after := RunPipeline(reg, req, freshId, clock).0;
            (id != "" ==> Status(after, Some(id)).OneRun? && Status(after, Some(id)).entry.running)
            && (id != "" ==> Status(FinishRun(after, id, outcome), Some(id)).OneRun?
                             && !Status(FinishRun(after, id, outcome), Some(id)).entry.running)
            && Status(after, None).activeRuns == Status(reg, None).activeRuns + 1
  {
    RunPipelineCounts(reg, req, freshId, clock);
  }
}

=== FILE: deployer.dfy ===
/** The deploy cursor (presentation/deployer.py) and the cursor bookkeeping
    of `deploy_output` (runner.py). Storage is a map from path to text;
    modification times and upload outcomes are inputs. */
module Deployer {
  import opened Wrappers
  import opened Text
  import opened Lists
  import opened Timestamps
  import opened Instants

  type Store = map<string, string>

  const CursorPath: string := "deploy_cursor.txt"

  /** Every path of `a` other than `p` is in `b` with the same text, and the
      other way round. */
  predicate SameExcept(a: Store, b: Store, p: string) {
    (forall q :: q in a && q != p ==> q in b && b[q] == a[q])
    && (forall q :: q in b && q != p ==> q in a)
  }

  /** `get_deploy_cursor()`: the cursor file's text, stripped and read with
      `fromisoformat`; `None` when there is no file or the text is not a
      datetime. */
  function GetCursor(store: Store): (c: Option<Moment>)
    ensures c.Some? ==> ValidMoment(c.value) && CursorPath in store
  {
    if CursorPath in store then IsoParse(Strip(store[CursorPath])) else None
  }

  /** `update_deploy_cursor(t)`: the file now holds `t.isoformat()`. */
  function UpdateCursor(store: Store, t: Moment): (s: Store)
    requires ValidMoment(t)
    ensures CursorPath in s && SameExcept(store, s, CursorPath)
  {
    store[CursorPath := IsoFormat(t)]
  }

  /** `reset_deploy_cursor()`: the cursor file is deleted if present. */
  function ResetCursor(store: Store): (s: Store)
    ensures CursorPath !in s && SameExcept(store, s, CursorPath)
  {
    store - {CursorPath}
  }

  /** `isoformat()` text starts and ends with a digit, so `strip()` keeps it. */
  lemma IsoFormatUnpadded(t: Moment)
    requires ValidMoment(t)
    ensures Strip(IsoFormat(t)) == IsoFormat(t)
  {
    var s := IsoFormat(t);
    var c, f, o := ClockText(t.wall), FractionText(t.micro), OffsetText(t.offset);
    assert s == c + f + o;
    assert s[0] == Pad4(t.wall.year)[0];
    assert IsDigit(s[0]);
    if |o| > 0 {
      assert s[|s| - 1] == o[5];
      var a := if t.offset.value < 0 then -t.offset.value else t.offset.value;
      assert o[5] == Pad2(a % 60)[1];
    } else if |f| > 0 {
      assert s[|s| - 1] == f[6] == Pad6(t.micro)[5];
    } else {
      assert s[|s| - 1] == c[18] == Pad2(t.wall.second)[1];
    }
    StripUnpadded(s);
  }

  /** What `update_deploy_cursor` writes, `get_deploy_cursor` reads back. */
  lemma GetAfterUpdate(store: Store, t: Moment)
    requires ValidMoment(t)
    ensures GetCursor(UpdateCursor(store, t)) == Some(t)
  {
    IsoFormatUnpadded(t);
    IsoRoundTrip(t);
  }

  /** After a reset there is no cursor. */
  lemma GetAfterReset(store: Store)
    ensures GetCursor(ResetCursor(store)) == None
  {
  }

  /** `rewind_deploy_cursor(days)`: the cursor moved `days` days back, or the
      store untouched when there is no cursor; `OverflowError` when the
      shift leaves the representable range. */
  function RewindCursor(store: Store, days: int): (r: Result<Store>)
    ensures GetCursor(store).None? ==> r == Ok(store)
    ensures r.Ok? && GetCursor(store).Some? ==>
              var was := GetCursor(store).value;
              var now := GetCursor(r.value);
              now.Some? && now.value.offset == was.offset
              && WallMicros(now.value) == WallMicros(was) - days * MicrosPerDay
    ensures r.Ok? ==> SameExcept(store, r.value, CursorPath)
  {
    match GetCursor(store)
    case None => Ok(store)
    case Some(c) =>
      match AddDaysTo(c, -days)
      case Err(e) => Err(e)
      case Ok(n) =>
        GetAfterUpdate(store, n);
        Ok(UpdateCursor(store, n))
  }

  // ---------------------------------------------------------------------
  // Choosing the files to upload
  // ---------------------------------------------------------------------

  /** The modification time storage reports for `f`, `None` when it has none
      or raises. */
  function MTime(mtimes: map<string, Moment>, f: string): Option<Moment> {
    if f in mtimes then Some(mtimes[f]) else None
  }

  predicate ValidTimes(mtimes: map<string, Moment>) {
    forall f :: f in mtimes ==> ValidMoment(mtimes[f])
  }

  /** Whether a staged file with modification time `mt` is uploaded under
      `cursor`: strictly later files are, and so are files whose time is
      unknown or cannot be compared with the cursor (the `TypeError` of an
      aware/naive comparison is caught and the file included to be safe). */
  predicate Keep(cursor: Moment, mt: Option<Moment>)
    requires ValidMoment(cursor) && (mt.Some? ==> ValidMoment(mt.value))
  {
    match mt
    case None => true
    case Some(t) =>
      match Later(t, cursor)
      case Err(_) => true
      case Ok(later) => later
  }

  /** `get_files_to_deploy(cursor)` over the staged `*.html` listing. */
  function FilesToDeploy(staged: seq<string>, mtimes: map<string, Moment>, cursor: Option<Moment>): (r: seq<string>)
    requires ValidTimes(mtimes) && (cursor.Some? ==> ValidMoment(cursor.value))
    ensures cursor.None? ==> r == staged
    ensures forall f :: f in r <==> f in staged && (cursor.None? || Keep(cursor.value, MTime(mtimes, f)))
    ensures IsSubsequence(r, staged)
  {
    if |staged| == 0 then []
    else
      var f := staged[0];
      var rest := FilesToDeploy(staged[1..], mtimes, cursor);
      assert staged == [f] + staged[1..];
      if cursor.None? || Keep(cursor.value, MTime(mtimes, f)) then
        assert ([f] + rest)[1..] == rest;
        [f] + rest
      else
        SubsequenceCons(f, rest, staged[1..]);
        rest
  }

  // ---------------------------------------------------------------------
  // deploy_output
  // ---------------------------------------------------------------------

  /** Storage reports aware (UTC) modification times. */
  predicate AwareTimes(mtimes: map<string, Moment>) {
    ValidTimes(mtimes) && forall f :: f in mtimes ==> mtimes[f].offset.Some?
  }

  /** The running maximum `deploy_output` keeps over the uploaded files'
      modification times: a file's time replaces the current one only when
      strictly later, so the first of equal times wins. */
  function LatestTime(files: seq<string>, mtimes: map<string, Moment>, latest: Option<Moment>): (r: Option<Moment>)
    requires AwareTimes(mtimes) && (latest.Some? ==> ValidMoment(latest.value) && latest.value.offset.Some?)
    ensures r.Some? ==> ValidMoment(r.value) && r.value.offset.Some?
    ensures r.Some? ==> r == latest || exists f :: f in files && f in mtimes && mtimes[f] == r.value
    ensures r.None? <==> latest.None? && forall f :: f in files ==> f !in mtimes
    ensures r.Some? ==> forall f :: f in files && f in mtimes ==> UtcMicros(mtimes[f]) <= UtcMicros(r.value)
    ensures r.Some? && latest.Some? ==> UtcMicros(latest.value) <= UtcMicros(r.value)
  {
    if |files| == 0 then latest
    else
      var f := files[0];
      var next :=
        if f in mtimes && (latest.None? || UtcMicros(mtimes[f]) > UtcMicros(latest.value)) then Some(mtimes[f])
        else latest;
      var r := LatestTime(files[1..], mtimes, next);
      assert forall g :: g in files ==> g == f || g in files[1..];
      r
  }

  /** The cursor `deploy_output` starts from: none when `force_full`. */
  function StartCursor(store: Store, forceFull: bool): (c: Option<Moment>)
    ensures c.Some? ==> ValidMoment(c.value)
    ensures forceFull ==> c.None?
  {
    if forceFull then None else GetCursor(store)
  }

  /** The files `deploy_output` uploads successfully, given the set of
      uploads that succeed. */
  function Uploaded(store: Store, staged: seq<string>, mtimes: map<string, Moment>,
                    uploaded: set<string>, forceFull: bool): (ok: seq<string>)
    requires AwareTimes(mtimes)
  {
    Filter(FilesToDeploy(staged, mtimes, StartCursor(store, forceFull)), f => f in uploaded)
  }

  /** The cursor update after the upload loop: to the latest modification
      time among the successful uploads, when there is one. */
  function Advance(store: Store, ok: seq<string>, mtimes: map<string, Moment>): (s: Store)
    requires AwareTimes(mtimes)
  {
    var latest := LatestTime(ok, mtimes, None);
    if |ok| > 0 && latest.Some? then UpdateCursor(store, latest.value) else store
  }

  /** `deploy_output(force_full)` with every upload call completing. */
  function DeployOutput(store: Store, staged: seq<string>, mtimes: map<string, Moment>,
                        uploaded: set<string>, forceFull: bool): (s: Store)
    requires AwareTimes(mtimes)
  {
    var cursor := StartCursor(store, forceFull);
    if |FilesToDeploy(staged, mtimes, cursor)| == 0 && cursor.Some? then store
    else Advance(store, Uploaded(store, staged, mtimes, uploaded, forceFull), mtimes)
  }

  /** The cursor moves exactly when some successful upload has a known
      modification time, and then to the latest such time; nothing else in
      storage changes. */
  lemma AdvanceCursor(store: Store, ok: seq<string>, mtimes: map<string, Moment>)
    requires AwareTimes(mtimes)
    ensures SameExcept(store, Advance(store, ok, mtimes), CursorPath)
    ensures (exists f :: f in ok && f in mtimes) ==>
              var c := GetCursor(Advance(store, ok, mtimes));
              c.Some? && (exists f :: f in ok && f in mtimes && mtimes[f] == c.value)
              && forall f :: f in ok && f in mtimes ==> UtcMicros(mtimes[f]) <= UtcMicros(c.value)
    ensures (forall f :: f in ok ==> f !in mtimes) ==> Advance(store, ok, mtimes) == store
  {
    var latest := LatestTime(ok, mtimes, None);
    if latest.Some? {
      GetAfterUpdate(store, latest.value);
    }
  }

  /** With a cursor and nothing new, `deploy_output` changes nothing. */
  lemma DeployNothingNew(store: Store, staged: seq<string>, mtimes: map<string, Moment>, uploaded: set<string>)
    requires AwareTimes(mtimes) && GetCursor(store).Some?
    requires FilesToDeploy(staged, mtimes, GetCursor(store)) == []
    ensures DeployOutput(store, staged, mtimes, uploaded, false) == store
  {
  }

  /** A deploy writes nothing but the cursor, and moves it to the latest
      modification time among the files it uploaded, when any has one. */
  lemma DeployCursor(store: Store, staged: seq<string>, mtimes: map<string, Moment>,
                     uploaded: set<string>, forceFull: bool)
    requires AwareTimes(mtimes)
    ensures SameExcept(store, DeployOutput(store, staged, mtimes, uploaded, forceFull), CursorPath)
    ensures var ok := Uploaded(store, staged, mtimes, uploaded, forceFull);
            (exists f :: f in ok && f in mtimes) ==>
              var c := GetCursor(DeployOutput(store, staged, mtimes, uploaded, forceFull));
              c.Some? && (exists f :: f in ok && f in mtimes && mtimes[f] == c.value)
              && forall f :: f in ok && f in mtimes ==> UtcMicros(mtimes[f]) <= UtcMicros(c.value)
  {
    var ok := Uploaded(store, staged, mtimes, uploaded, forceFull);
    AdvanceCursor(store, ok, mtimes);
  }

  /** Without `force_full`, a deploy from an aware cursor only moves it
      forward: every file it uploads is newer than the cursor or has no
      known time. */
  lemma DeployMovesForward(store: Store, staged: seq<string>, mtimes: map<string, Moment>, uploaded: set<string>,
                            before: Moment, after: Option<Moment>)
    requires AwareTimes(mtimes)
    requires GetCursor(store) == Some(before) && before.offset.Some?
    requires after == GetCursor(DeployOutput(store, staged, mtimes, uploaded, false)) && after != Some(before)
    ensures after.Some? && after.value.offset.Some? && UtcMicros(after.value) > UtcMicros(before)
  {
    var files := FilesToDeploy(staged, mtimes, Some(before));
    var ok := Uploaded(store, staged, mtimes, uploaded, false);
    assert ok == Filter(files, g => g in uploaded);
    var s := DeployOutput(store, staged, mtimes, uploaded, false);
    assert s == store || s == Advance(store, ok, mtimes);
    AdvanceCursor(store, ok, mtimes);
    assert exists f :: f in ok && f in mtimes;
    var f :| f in ok && f in mtimes && mtimes[f] == after.value;
    FilterMembers(files, g => g in uploaded, f);
    var t := mtimes[f];
    assert Keep(before, Some(t));
    var l := Later(t, before);
    assert l.Ok? && l.value;
    assert UtcMicros(t) > UtcMicros(before);
  }

  /** `deploy_output` as written calls `upload_html_content_from_storage`
      without its `remote_path` argument, so the first upload raises
      `TypeError`; the cursor is never written. */
  function DeployOutputAsWritten(store: Store, staged: seq<string>, mtimes: map<string, Moment>, forceFull: bool): (r: Result<Store>)
    requires AwareTimes(mtimes)
  {
    if |FilesToDeploy(staged, mtimes, StartCursor(store, forceFull))| == 0 then Ok(store)
    else Err("upload_html_content_from_storage() missing 1 required positional argument: 'remote_path'")
  }

  /** As written, a deploy either has nothing to upload or fails, and the
      cursor never moves. */
  lemma AsWrittenNeverDeploys(store: Store, staged: seq<string>, mtimes: map<string, Moment>, forceFull: bool)
    requires AwareTimes(mtimes)
    ensures var r := DeployOutputAsWritten(store, staged, mtimes, forceFull);
            (r.Ok? ==> r.value == store)
            && (r.Err? <==> |FilesToDeploy(staged, mtimes, StartCursor(store, forceFull))| > 0)
  {
  }

  /** A forced deploy of a staged file with a known time that uploads
      advances the cursor in the corrected model, while as written it
      fails. */
  lemma AsWrittenDiffers(f: string, t: Moment)
    requires ValidMoment(t) && t.offset.Some?
    ensures DeployOutputAsWritten(map[], [f], map[f := t], true).Err?
    ensures GetCursor(DeployOutput(map[], [f], map[f := t], {f}, true)) == Some(t)
  {
    var ok := Uploaded(map[], [f], map[f := t], {f}, true);
    assert f in ok by { FilterMembers([f], g => g in {f}, f); }
    AdvanceCursor(map[], ok, map[f := t]);
  }
}

=== FILE: directories.dfy ===
/** The directory layout (directory_manager.py): where a job's files,
    the intermediate data and the website staging area live under a base
    path, the way back from a job path to its timestamp, and the listing of
    the jobs that fall in a range of days. */
module Directories {
  import opened Wrappers
  import opened Text
  import opened Lists
  import opened Calendar
  import opened Timestamps
  import opened Instants
  import opened Paths
  import JobIndex

  /** A `DirectoryManager`, held as the parts of its base path. */
  datatype DirectoryManager = DirectoryManager(base: seq<string>)

  /** `DirectoryManager(base_path)`: an empty base is `Path("")`, which has
      no parts at all. */
  function NewManager(basePath: string): (dm: DirectoryManager)
    ensures WellFormed(dm.base)
    ensures basePath == "" ==> dm.base == []
  {
    DirectoryManager(Parts(basePath))
  }

  /** `path / s1 / s2 / ...`, one segment at a time. */
  function AppendAll(ps: seq<string>, segs: seq<string>): seq<string>
    decreases |segs|
  {
    if |segs| == 0 then ps else AppendAll(Append(ps, segs[0]), segs[1..])
  }

  /** A single component reads back as itself. */
  lemma PartsOfComponent(c: string)
    requires IsComponent(c)
    ensures Parts(c) == [c] && !StartsWith(c, "/")
  {
    PartsOfStr([c]);
  }

  lemma AppendComponent(ps: seq<string>, c: string)
    requires IsComponent(c)
    ensures Append(ps, c) == ps + [c]
  {
    PartsOfComponent(c);
  }

  /** Appending plain components extends the parts by those components. */
  lemma {:induction false} AppendComponents(ps: seq<string>, segs: seq<string>)
    requires forall i :: 0 <= i < |segs| ==> IsComponent(segs[i])
    ensures AppendAll(ps, segs) == ps + segs
    decreases |segs|
  {
    if |segs| == 0 {
      assert ps + segs == ps;
    } else {
      var head, tail := segs[0], segs[1..];
      AppendComponentFirst(ps, segs);
      AppendComponents(ps + [head], tail);
      HeadThenTail(ps, segs);
    }
  }

  lemma HeadThenTail(ps: seq<string>, segs: seq<string>)
    requires |segs| > 0
    ensures ps + [segs[0]] + segs[1..] == ps + segs
  {
    assert segs == [segs[0]] + segs[1..];
  }

  lemma AppendComponentFirst(ps: seq<string>, segs: seq<string>)
    requires |segs| > 0 && IsComponent(segs[0])
    ensures AppendAll(ps, segs) == AppendAll(ps + [segs[0]], segs[1..])
  {
    AppendComponent(ps, segs[0]);
  }

  // ---------------------------------------------------------------------
  // get_job_dir and parse_job_timestamp
  // ---------------------------------------------------------------------

  /** `jobs`, then the `%Y`, `%m`, `%d` and `%H%M%S` renderings of `t`. */
  function JobSegments(t: Timestamp): seq<string>
    requires Valid(t)
  {
    ["jobs", Pad4(t.year), Pad2(t.month), Pad2(t.day), Pad2(t.hour) + Pad2(t.minute) + Pad2(t.second)]
  }

  lemma JobSegmentsAreComponents(t: Timestamp)
    requires Valid(t)
    ensures forall i :: 0 <= i < 5 ==> IsComponent(JobSegments(t)[i])
  {
    var segs := JobSegments(t);
    forall i | 1 <= i < 5 ensures IsComponent(segs[i]) {
      DigitsAreComponent(segs[i]);
    }
    assert "jobs"[0] != '/' && "jobs"[1] != '/' && "jobs"[2] != '/' && "jobs"[3] != '/';
  }

  lemma DigitsAreComponent(s: string)
    requires |s| > 0 && AllDigits(s)
    ensures IsComponent(s)
  {
    assert forall k :: 0 <= k < |s| ==> s[k] != '/' && IsDigit(s[k]);
    assert s[0] != "."[0];
  }

  /** `get_job_dir(timestamp)`: the job time is `now` when no timestamp is
      given, else the timestamp as `strptime` reads it (a `ValueError` when
      it does not parse). */
  function GetJobDir(dm: DirectoryManager, timestamp: Option<string>, now: Timestamp): (r: Result<string>)
    requires WellFormed(dm.base) && Valid(now)
    ensures r.Err? <==> timestamp.Some? && ParseCompact(timestamp.value).Err?
    ensures r.Ok? ==> var t := if timestamp.Some? then ParseCompact(timestamp.value).value else now;
                      Parts(r.value) == dm.base + JobSegments(t)
  {
    var parsed := if timestamp.Some? then ParseCompact(timestamp.value) else Ok(now);
    match parsed
    case Err(e) => Err(e)
    case Ok(t) =>
      var ps := AppendAll(dm.base, JobSegments(t));
      JobSegmentsAreComponents(t);
      AppendComponents(dm.base, JobSegments(t));
      PartsOfStr(ps);
      Ok(Str(ps))
  }

  function ParseFailure(jobDir: string): string {
    "Could not parse timestamp from job directory: " + jobDir
  }

  /** The first `jobs` part of `ps` is at `i` and four parts follow it. */
  predicate FirstJobsAt(ps: seq<string>, i: int) {
    0 <= i && i + 4 < |ps| && ps[i] == "jobs" && "jobs" !in ps[..i]
  }

  /** `parse_job_timestamp(job_dir)`: the four parts after the first `jobs`
      part, put together as `Y-M-D_T` with no check of what they hold. */
  function ParseJobTimestamp(jobDir: string): (r: Result<string>)
    ensures r.Ok? <==> exists i :: FirstJobsAt(Parts(jobDir), i)
    ensures forall i :: FirstJobsAt(Parts(jobDir), i) ==>
              var ps := Parts(jobDir);
              r == Ok(StampOf(ps[i + 1], ps[i + 2], ps[i + 3], ps[i + 4]))
    ensures r.Err? ==> r.error == ParseFailure(jobDir)
  {
    StampFromParts(Parts(jobDir), ParseFailure(jobDir))
  }

  /** The body of `parse_job_timestamp` on the path's parts `ps`. */
  function StampFromParts(ps: seq<string>, failure: string): (r: Result<string>)
    ensures r.Ok? <==> exists i :: FirstJobsAt(ps, i)
    ensures forall i :: FirstJobsAt(ps, i) ==> r == Ok(StampOf(ps[i + 1], ps[i + 2], ps[i + 3], ps[i + 4]))
    ensures r.Err? ==> r.error == failure
  {
    if |ps| >= 4 && "jobs" in ps then
      var i := IndexOf(ps, "jobs");
      FirstJobsUnique(ps, i);
      if i + 4 < |ps| then
        assert FirstJobsAt(ps, i);
        Ok(StampOf(ps[i + 1], ps[i + 2], ps[i + 3], ps[i + 4]))
      else Err(failure)
    else
      assert forall k :: FirstJobsAt(ps, k) ==> ps[k] in ps;
      Err(failure)
  }

  lemma FirstJobsUnique(ps: seq<string>, i: int)
    requires 0 <= i < |ps| && ps[i] == "jobs" && "jobs" !in ps[..i]
    ensures forall k :: FirstJobsAt(ps, k) ==> k == i
  {
    assert forall k :: 0 <= k < i ==> ps[..i][k] == ps[k];
    assert forall k :: i < k <= |ps| ==> ps[..k][i] == ps[i];
  }

  /** Whatever precedes the first `jobs` part and follows the four parts
      after it is ignored, and the four parts are taken as they are. */
  lemma ParseIgnoresRest(pre: seq<string>, y: string, m: string, d: string, tp: string, rest: seq<string>)
    requires WellFormed(pre + ["jobs", y, m, d, tp] + rest)
    requires "jobs" !in pre
    ensures ParseJobTimestamp(Str(pre + ["jobs", y, m, d, tp] + rest)) == Ok(StampOf(y, m, d, tp))
  {
    var ps := pre + ["jobs", y, m, d, tp] + rest;
    PartsOfStr(ps);
    var i := |pre|;
    assert ps[..i] == pre;
    assert ps[i] == "jobs" && ps[i + 1] == y && ps[i + 2] == m && ps[i + 3] == d && ps[i + 4] == tp;
    assert FirstJobsAt(ps, i);
  }

  /** The job directory of a timestamp gives back the timestamp, in its
      zero-padded form, provided no part of the base path is `jobs`. */
  lemma JobDirRoundTrip(dm: DirectoryManager, ts: string, now: Timestamp)
    requires WellFormed(dm.base) && Valid(now) && "jobs" !in dm.base
    requires ParseCompact(ts).Ok?
    ensures GetJobDir(dm, Some(ts), now).Ok?
    ensures ParseJobTimestamp(GetJobDir(dm, Some(ts), now).value) == Ok(FormatCompact(ParseCompact(ts).value))
  {
    var t := ParseCompact(ts).value;
    var ps := dm.base + JobSegments(t);
    var path := GetJobDir(dm, Some(ts), now).value;
    assert Parts(path) == ps;
    var i := |dm.base|;
    assert ps[..i] == dm.base;
    assert FirstJobsAt(ps, i);
    StampOfFields(t);
  }

  /** For a zero-padded timestamp the round trip is exact. */
  lemma JobDirRoundTripCanonical(dm: DirectoryManager, t: Timestamp, now: Timestamp)
    requires WellFormed(dm.base) && Valid(now) && "jobs" !in dm.base && Valid(t)
    ensures GetJobDir(dm, Some(FormatCompact(t)), now).Ok?
    ensures ParseJobTimestamp(GetJobDir(dm, Some(FormatCompact(t)), now).value) == Ok(FormatCompact(t))
  {
    ParseFormatCompact(t);
    JobDirRoundTrip(dm, FormatCompact(t), now);
  }

  /** The job directory is the printed base path followed by the job's
      segments. */
  lemma GetJobDirText(dm: DirectoryManager, t: Timestamp, now: Timestamp)
    requires WellFormed(dm.base) && Valid(now) && Valid(t)
    ensures GetJobDir(dm, Some(FormatCompact(t)), now) == Ok(Str(dm.base + JobSegments(t)))
  {
    ParseFormatCompact(t);
    JobSegmentsAreComponents(t);
    AppendComponents(dm.base, JobSegments(t));
  }

  /** With an empty base, the job directory is `jobs/YYYY/MM/DD/HHMMSS`,
      the hierarchical path `JobDir.from_path` reads back. */
  lemma JobDirIsHierarchical(t: Timestamp, now: Timestamp)
    requires Valid(t) && Valid(now)
    ensures GetJobDir(NewManager(""), Some(FormatCompact(t)), now) == Ok(JobIndex.HierarchicalPath(t))
  {
    var dm := NewManager("");
    GetJobDirText(dm, t, now);
    var segs := JobSegments(t);
    assert dm.base + segs == segs;
    assert Str(segs) == Join(segs, "/") by {
      assert segs[0] == "jobs";
    }
    JoinFive(segs[0], segs[1], segs[2], segs[3], segs[4], "/");
    assert "jobs" + "/" == "jobs/";
  }

  /** The directory `name`, or `name/subdir` when `subdir` is not empty, under
      the base path. */
  function SubDir(dm: DirectoryManager, name: string, subdir: string): string {
    if subdir != "" then Str(Append(Append(dm.base, name), subdir))
    else Str(Append(dm.base, name))
  }

  /** `get_intermediate_dir(subdir)`. */
  function IntermediateDir(dm: DirectoryManager, subdir: string): string {
    SubDir(dm, "intermediate", subdir)
  }

  /** `get_staging_dir(subdir)`. */
  function StagingDir(dm: DirectoryManager, subdir: string): string {
    SubDir(dm, "staging", subdir)
  }

  /** The sub-directory is the base's parts, then `name`, then the parts of
      `subdir`; an absolute `subdir` replaces the whole path, as `/` on
      paths does. */
  lemma SubDirParts(dm: DirectoryManager, name: string, subdir: string)
    requires WellFormed(dm.base) && IsComponent(name)
    ensures !StartsWith(subdir, "/") ==> Parts(SubDir(dm, name, subdir)) == dm.base + [name] + Parts(subdir)
    ensures StartsWith(subdir, "/") ==> Parts(SubDir(dm, name, subdir)) == Parts(subdir)
  {
    PartsOfComponent(name);
    var ps := Append(dm.base, name);
    assert ps == dm.base + [name];
    if subdir == "" {
      assert Split("", '/') == [""];
      assert Filter([""], IsComponent) == [] by { FilterSingle("", IsComponent); }
      assert Parts(subdir) == [];
      PartsOfStr(ps);
    } else {
      PartsOfStr(Append(ps, subdir));
    }
  }

  /** With an empty base: `name`, and `name/s` for a plain `s`. */
  lemma SubDirUnderEmptyBase(name: string, s: string)
    requires IsComponent(name) && IsComponent(s)
    ensures SubDir(DirectoryManager([]), name, "") == name
    ensures SubDir(DirectoryManager([]), name, s) == name + "/" + s
  {
    AppendComponent([], name);
    AppendComponent([name], s);
    assert [] + [name] == [name];
    assert [name] + [s] == [name, s];
    assert s != "";
    assert Str([name, s]) == Join([name, s], "/");
    assert Join([name, s], "/") == name + "/" + Join([s], "/");
  }

  /** The same, for the manager built from an empty base path. */
  lemma NamedUnderEmptyBase(name: string, s: string)
    requires IsComponent(name) && IsComponent(s)
    ensures SubDir(NewManager(""), name, "") == name
    ensures SubDir(NewManager(""), name, s) == name + "/" + s
  {
    assert NewManager("") == DirectoryManager([]);
    SubDirUnderEmptyBase(name, s);
  }

  lemma NamesAreComponents()
    ensures IsComponent("jobs") && IsComponent("intermediate") && IsComponent("staging")
  {
  }

  /** `get_intermediate_dir` with an empty base. */
  lemma IntermediateUnderEmptyBase(s: string)
    requires IsComponent(s)
    ensures IntermediateDir(NewManager(""), "") == "intermediate"
    ensures IntermediateDir(NewManager(""), s) == "intermediate/" + s
  {
    NamesAreComponents();
    NamedUnderEmptyBase("intermediate", s);
    assert "intermediate" + "/" == "intermediate/";
  }

  /** `get_staging_dir` with an empty base. */
  lemma StagingUnderEmptyBase(s: string)
    requires IsComponent(s)
    ensures StagingDir(NewManager(""), "") == "staging"
    ensures StagingDir(NewManager(""), s) == "staging/" + s
  {
    NamesAreComponents();
    NamedUnderEmptyBase("staging", s);
    assert "staging" + "/" == "staging/";
  }

  // ---------------------------------------------------------------------
  // get_date_range_boundaries and get_jobs_in_date_range
  // ---------------------------------------------------------------------

  /** `get_date_range_boundaries(start_date, end_date)`: midnight UTC of the
      first day and the last microsecond of the last day. */
  function Boundaries(startDate: string, endDate: string): (r: Result<(Moment, Moment)>)
    ensures r.Ok? <==> ParseDate(startDate).Ok? && ParseDate(endDate).Ok?
    ensures r.Ok? ==> ValidMoment(r.value.0) && ValidMoment(r.value.1)
                      && r.value.0.offset == Some(0) && r.value.1.offset == Some(0)
    ensures r.Ok? ==> UtcMicros(r.value.0) == (Ordinal(ParseDate(startDate).value) - 1) * MicrosPerDay
    ensures r.Ok? ==> UtcMicros(r.value.1) == Ordinal(ParseDate(endDate).value) * MicrosPerDay - 1
  {
    match ParseDate(startDate)
    case Err(e) => Err(e)
    case Ok(s) =>
      match ParseDate(endDate)
      case Err(e) => Err(e)
      case Ok(d) =>
        var lo := Moment(Timestamp(s.year, s.month, s.day, 0, 0, 0), 0, Some(0));
        var hi := Moment(Timestamp(d.year, d.month, d.day, 23, 59, 59), 999999, Some(0));
        Ok((lo, hi))
  }

  /** The UTC instant of a job time read by `strptime`. */
  function JobMoment(t: Timestamp): (m: Moment)
    requires Valid(t)
    ensures ValidMoment(m) && m.offset == Some(0) && UtcMicros(m) == InstantOf(t)
  {
    Moment(t, 0, Some(0))
  }

  /** The job time of a listed directory: its path parses, and then its
      timestamp does; `None` where either raises. */
  function JobTime(dir: string): (r: Option<Timestamp>)
    ensures r.Some? ==> Valid(r.value)
    ensures r.Some? <==> ParseJobTimestamp(dir).Ok? && ParseCompact(ParseJobTimestamp(dir).value).Ok?
  {
    match ParseJobTimestamp(dir)
    case Err(_) => None
    case Ok(ts) =>
      match ParseCompact(ts)
      case Err(_) => None
      case Ok(t) => Some(t)
  }

  /** The body of the listing loop: the directory parses and its time lies
      in `[lo, hi]`. */
  predicate InWindow(lo: int, hi: int, dir: string) {
    JobTime(dir).Some? && lo <= UtcMicros(JobMoment(JobTime(dir).value)) <= hi
  }

  function Keeps(lo: int, hi: int): string -> bool {
    dir => InWindow(lo, hi, dir)
  }

  function Identity(s: string): string {
    s
  }

  /** `str(base_path / "jobs")`, the directory whose listing is searched. */
  function JobsBase(dm: DirectoryManager): string {
    Str(Append(dm.base, "jobs"))
  }

  /** `get_jobs_in_date_range(start_date, end_date, storage)`. `list` is the
      storage's `list_directories`, `None` where it raises; that failure is
      logged and yields no jobs, while a bad date raises. */
  function GetJobsInDateRange(dm: DirectoryManager, startDate: string, endDate: string,
                              list: string -> Option<seq<string>>): (r: Result<seq<string>>)
    ensures r.Ok? <==> Boundaries(startDate, endDate).Ok?
    ensures r.Ok? && list(JobsBase(dm)).None? ==> r.value == []
    ensures r.Ok? ==> SortedBy(r.value, Identity, LexLess)
  {
    match Boundaries(startDate, endDate)
    case Err(e) => Err(e)
    case Ok(b) => Ok(Select(list(JobsBase(dm)), UtcMicros(b.0), UtcMicros(b.1)))
  }

  /** The listing loop and the final `sorted`: the listed directories whose
      job time lies in `[lo, hi]`, in string order. */
  function Select(listing: Option<seq<string>>, lo: int, hi: int): (r: seq<string>)
    ensures SortedBy(r, Identity, LexLess)
    ensures listing.None? ==> r == []
  {
    match listing
    case None => []
    case Some(dirs) =>
      var kept := Filter(dirs, Keeps(lo, hi));
      SortStrings(kept);
      SortBy(kept, Identity, LexLess)
  }

  lemma SelectMembers(listing: Option<seq<string>>, lo: int, hi: int, dir: string)
    ensures dir in Select(listing, lo, hi) <==> listing.Some? && dir in listing.value && InWindow(lo, hi, dir)
  {
    if listing.Some? {
      var kept := Filter(listing.value, Keeps(lo, hi));
      FilterPermutationMembers(SortBy(kept, Identity, LexLess), listing.value, Keeps(lo, hi), dir);
    }
  }

  /** `sorted` on strings orders them by code point. */
  lemma SortStrings(s: seq<string>)
    ensures SortedBy(SortBy(s, Identity, LexLess), Identity, LexLess)
  {
    forall i, j | 0 <= i < |s| && 0 <= j < |s| && LexLess(Identity(s[i]), Identity(s[j]))
      ensures !LexLess(Identity(s[j]), Identity(s[i]))
    {
      LexLessAsymmetric(s[i], s[j]);
    }
    SortBySorted(s, Identity, LexLess);
  }

  /** A job time lies within the boundaries exactly when its day is one of
      the days from the first to the last, both included. */
  lemma WindowIsDays(s: Date, e: Date, t: Timestamp)
    requires IsValidDate(s) && IsValidDate(e) && Valid(t)
    ensures (Ordinal(s) - 1) * MicrosPerDay <= InstantOf(t) <= Ordinal(e) * MicrosPerDay - 1
            <==> Ordinal(s) <= Ordinal(DateOf(t)) <= Ordinal(e)
  {
    var n := Ordinal(DateOf(t));
    var r := SecondOfDay(t) * MicrosPerSecond;
    assert 0 <= r < MicrosPerDay;
    assert InstantOf(t) == (n - 1) * MicrosPerDay + r;
    DayBounds(Ordinal(s) - 1, n - 1, r);
    DayBounds(n - 1, Ordinal(e) - 1, r);
  }

  lemma DayBounds(a: int, b: int, r: int)
    requires 0 <= r < MicrosPerDay
    ensures a * MicrosPerDay <= b * MicrosPerDay + r <==> a <= b
    ensures b * MicrosPerDay + r <= a * MicrosPerDay + MicrosPerDay - 1 <==> b <= a
  {
    if a > b {
      assert a * MicrosPerDay >= (b + 1) * MicrosPerDay;
    }
    if b > a {
      assert b * MicrosPerDay >= (a + 1) * MicrosPerDay;
    }
  }

  /** The directory's path and timestamp parse, and the job's day is one
      of the days from `s` to `e`. */
  predicate DayInRange(s: Date, e: Date, dir: string)
    requires IsValidDate(s) && IsValidDate(e)
  {
    JobTime(dir).Some? && Ordinal(s) <= Ordinal(DateOf(JobTime(dir).value)) <= Ordinal(e)
  }

  /** The listing loop's test is the day test. */
  lemma InWindowIsDayInRange(s: Date, e: Date, dir: string)
    requires IsValidDate(s) && IsValidDate(e)
    ensures InWindow((Ordinal(s) - 1) * MicrosPerDay, Ordinal(e) * MicrosPerDay - 1, dir) <==> DayInRange(s, e, dir)
  {
    if JobTime(dir).Some? {
      JobInWindow(s, e, JobTime(dir).value, (Ordinal(s) - 1) * MicrosPerDay, Ordinal(e) * MicrosPerDay - 1);
    }
  }

  lemma JobInWindow(s: Date, e: Date, t: Timestamp, lo: int, hi: int)
    requires IsValidDate(s) && IsValidDate(e) && Valid(t)
    requires lo == (Ordinal(s) - 1) * MicrosPerDay && hi == Ordinal(e) * MicrosPerDay - 1
    ensures lo <= UtcMicros(JobMoment(t)) <= hi <==> Ordinal(s) <= Ordinal(DateOf(t)) <= Ordinal(e)
  {
    WindowIsDays(s, e, t);
  }

  /** A listed directory is returned exactly when its path and timestamp
      parse and the job's day is within `[start_date, end_date]`. */
  lemma JobsInRangeMembers(dm: DirectoryManager, startDate: string, endDate: string,
                           list: string -> Option<seq<string>>, dir: string)
    requires GetJobsInDateRange(dm, startDate, endDate, list).Ok?
    ensures ParseDate(startDate).Ok? && ParseDate(endDate).Ok?
    ensures dir in GetJobsInDateRange(dm, startDate, endDate, list).value
            <==> list(JobsBase(dm)).Some? && dir in list(JobsBase(dm)).value
                 && DayInRange(ParseDate(startDate).value, ParseDate(endDate).value, dir)
  {
    var b := Boundaries(startDate, endDate).value;
    var sd, ed := ParseDate(startDate).value, ParseDate(endDate).value;
    var lo, hi := UtcMicros(b.0), UtcMicros(b.1);
    assert GetJobsInDateRange(dm, startDate, endDate, list).value == Select(list(JobsBase(dm)), lo, hi);
    SelectMembers(list(JobsBase(dm)), lo, hi, dir);
    InWindowIsDayInRange(sd, ed, dir);
  }
}

=== FILE: extractor.dfy ===
/** Completing the relative story links found on a front page, using the
    site domain carried by the extraction file's name. */
module Extractor {
  import opened Wrappers
  import opened Text

  predicate AsciiLetter(c: char) {
    ('a' <= c <= 'z') || ('A' <= c <= 'Z')
  }

  /** The characters `urllib.parse` accepts in a scheme. */
  predicate SchemeChar(c: char) {
    AsciiLetter(c) || ('0' <= c <= '9') || c == '+' || c == '-' || c == '.'
  }

  /** `urlparse(url).scheme` is non-empty: the text before the first `:`
      is non-empty, starts with a letter and holds only scheme characters. */
  predicate HasScheme(url: string) {
    var i := Find(url, ":");
    i > 0 && AsciiLetter(url[0]) && forall j :: 0 <= j < i ==> SchemeChar(url[j])
  }

  const DomainPrefix := "www."
  const NoDomain := "Cannot extract domain from filename"

  /** The length of the run of characters other than `-` that starts `s`. */
  function UntilDash(s: string): (n: nat)
    ensures n <= |s|
    ensures forall i :: 0 <= i < n ==> s[i] != '-'
    ensures n == |s| || s[n] == '-'
  {
    if |s| > 0 && s[0] != '-' then 1 + UntilDash(s[1..]) else 0
  }

  /** The group of `re.match(r'^(www\.[^-]+)', filename)`. */
  function DomainOf(filename: string): (r: Result<string>)
    ensures r.Ok? <==> StartsWith(filename, DomainPrefix) && |filename| > |DomainPrefix| && filename[|DomainPrefix|] != '-'
    ensures r.Err? ==> r.error == NoDomain
    ensures r.Ok? ==> StartsWith(filename, r.value) && StartsWith(r.value, DomainPrefix)
    ensures r.Ok? ==> |r.value| > |DomainPrefix| && forall i :: |DomainPrefix| <= i < |r.value| ==> r.value[i] != '-'
    ensures r.Ok? ==> |r.value| == |filename| || filename[|r.value|] == '-'
  {
    if StartsWith(filename, DomainPrefix) && |filename| > |DomainPrefix| && filename[|DomainPrefix|] != '-' then
      var n := UntilDash(filename[|DomainPrefix|..]);
      var domain := filename[..|DomainPrefix| + n];
      assert domain[..|DomainPrefix|] == DomainPrefix;
      Ok(domain)
    else Err(NoDomain)
  }

  /** `url[1:] if url.startswith('/') else url`. */
  function DropSlash(url: string): (r: string)
    ensures StartsWith(url, "/") ==> r == url[1..]
    ensures !StartsWith(url, "/") ==> r == url
  {
    if StartsWith(url, "/") then url[1..] else url
  }

  /** `ContextExtractor._process_relative_url`: a link with a scheme is
      kept; any other link becomes `https://<domain>/<path>`, with at most
      one leading `/` of the path dropped; a file name without a domain is
      an error. */
  function ResolveUrl(url: string, filename: string): (r: Result<string>)
    ensures HasScheme(url) ==> r == Ok(url)
    ensures !HasScheme(url) && DomainOf(filename).Err? ==> r == Err(NoDomain)
    ensures !HasScheme(url) && DomainOf(filename).Ok? ==>
      r.Ok? && StartsWith(r.value, "https://" + DomainOf(filename).value + "/")
      && r.value[|"https://" + DomainOf(filename).value + "/"|..] == DropSlash(url)
  {
    if HasScheme(url) then Ok(url)
    else
      match DomainOf(filename)
      case Err(e) => Err(e)
      case Ok(domain) =>
        var head := "https://" + domain + "/";
        var r := head + DropSlash(url);
        assert r[..|head|] == head && r[|head|..] == DropSlash(url);
        Ok(r)
  }

  /** A completed link has the `https` scheme. */
  lemma CompletedHasScheme(domain: string, path: string)
    ensures HasScheme("https://" + domain + "/" + path)
  {
    var u := "https://" + domain + "/" + path;
    assert OccursAt(u, ":", 5);
    forall j | 0 <= j < 5 ensures !OccursAt(u, ":", j) {
      assert u[j] == "https"[j];
    }
    assert Find(u, ":") == 5;
  }

  /** Completing a link twice changes nothing: the first pass yields a link
      with a scheme. */
  lemma ResolveIdempotent(url: string, filename: string)
    requires ResolveUrl(url, filename).Ok?
    ensures ResolveUrl(ResolveUrl(url, filename).value, filename) == ResolveUrl(url, filename)
  {
    if !HasScheme(url) {
      var domain := DomainOf(filename).value;
      CompletedHasScheme(domain, DropSlash(url));
      assert ResolveUrl(url, filename).value == "https://" + domain + "/" + DropSlash(url);
    }
  }
}

=== FILE: formatter.dfy ===
/** The report model behind the HTML page: per run, the extracted and
    interpreted results of every site, the interpreted results turned into
    a question-by-site answer table, and the runs ordered newest first.
    Rendering the page with its template is not modelled. */
module Formatter {
  import opened Wrappers
  import Lists
  import opened Json
  import opened Timestamps

  /** One run of the report, after the answer table has replaced the raw
      interpreted lists. */
  datatype Run = Run(timestamp: string, sites: seq<string>, extracted: seq<Object>, table: seq<seq<string>>)

  const IndexError := "list index out of range"
  const MissingQuestion := "KeyError: 'question'"
  const MissingAnswer := "KeyError: 'answer'"

  /** Row `i` can be built: the first site's item `i` has a question and
      every site has an item `i` with an answer. */
  predicate RowOk(interpreted: seq<seq<Object>>, i: nat)
    requires |interpreted| > 0 && i < |interpreted[0]|
  {
    "question" in interpreted[0][i] &&
    forall j :: 0 <= j < |interpreted| ==> i < |interpreted[j]| && "answer" in interpreted[j][i]
  }

  /** The table is exactly: one row per item of the first site, made of the
      first site's question and then each site's answer at that index. */
  predicate IsTable(interpreted: seq<seq<Object>>, table: seq<seq<string>>)
    requires |interpreted| > 0
  {
    |table| == |interpreted[0]| &&
    forall i :: 0 <= i < |table| ==>
      RowOk(interpreted, i) && |table[i]| == |interpreted| + 1 &&
      table[i][0] == interpreted[0][i]["question"] &&
      forall j :: 0 <= j < |interpreted| ==> table[i][j + 1] == interpreted[j][i]["answer"]
  }

  /** Row `i` of the answer table: the first site's question, then each
      site's answer at that index. */
  function Row(interpreted: seq<seq<Object>>, i: nat): seq<string>
    requires |interpreted| > 0 && i < |interpreted[0]| && RowOk(interpreted, i)
  {
    [interpreted[0][i]["question"]] + seq(|interpreted|, j requires 0 <= j < |interpreted| => interpreted[j][i]["answer"])
  }

  /** Every row of the first site's list can be built. */
  predicate TableOk(interpreted: seq<seq<Object>>) {
    |interpreted| > 0 && forall i :: 0 <= i < |interpreted[0]| ==> RowOk(interpreted, i)
  }

  /** The answer table as a whole, one `Row` per item of the first site. */
  function TableOf(interpreted: seq<seq<Object>>): seq<seq<string>>
    requires TableOk(interpreted)
  {
    seq(|interpreted[0]|, i requires 0 <= i < |interpreted[0]| => Row(interpreted, i))
  }

  /** A table meeting `IsTable` is the one `TableOf` builds. */
  lemma TableUnique(interpreted: seq<seq<Object>>, table: seq<seq<string>>)
    requires |interpreted| > 0 && IsTable(interpreted, table)
    ensures TableOk(interpreted) && table == TableOf(interpreted)
  {
    forall i | 0 <= i < |table|
      ensures table[i] == TableOf(interpreted)[i]
    {
      assert table[i] == Row(interpreted, i);
    }
  }

  /** One row, built left to right as the report does: the question, then
      the answers site by site, failing at the first missing item or key. */
  method BuildRow(interpreted: seq<seq<Object>>, i: nat) returns (r: Result<seq<string>>)
    requires |interpreted| > 0 && i < |interpreted[0]|
    ensures r.Ok? <==> RowOk(interpreted, i)
    ensures r.Ok? ==> |r.value| == |interpreted| + 1 && r.value[0] == interpreted[0][i]["question"]
    ensures r.Ok? ==> forall j :: 0 <= j < |interpreted| ==> r.value[j + 1] == interpreted[j][i]["answer"]
  {
    if "question" !in interpreted[0][i] {
      return Err(MissingQuestion);
    }
    var row := [interpreted[0][i]["question"]];
    var j := 0;
    while j < |interpreted|
      invariant 0 <= j <= |interpreted|
      invariant |row| == j + 1 && row[0] == interpreted[0][i]["question"]
      invariant forall k :: 0 <= k < j ==> i < |interpreted[k]| && "answer" in interpreted[k][i]
      invariant forall k :: 0 <= k < j ==> row[k + 1] == interpreted[k][i]["answer"]
    {
      if i >= |interpreted[j]| {
        return Err(IndexError);
      }
      if "answer" !in interpreted[j][i] {
        return Err(MissingAnswer);
      }
      row := row + [interpreted[j][i]["answer"]];
      j := j + 1;
    }
    return Ok(row);
  }

  /** The answer table of one run; a run without sites fails on the first
      site's list. */
  method AnswerTable(interpreted: seq<seq<Object>>) returns (r: Result<seq<seq<string>>>)
    ensures r.Ok? <==> |interpreted| > 0 && forall i :: 0 <= i < |interpreted[0]| ==> RowOk(interpreted, i)
    ensures r.Ok? ==> IsTable(interpreted, r.value)
    ensures r.Ok? ==> r.value == TableOf(interpreted)
  {
    if |interpreted| == 0 {
      return Err(IndexError);
    }
    var table: seq<seq<string>> := [];
    var i := 0;
    while i < |interpreted[0]|
      invariant 0 <= i <= |interpreted[0]|
      invariant |table| == i
      invariant forall k :: 0 <= k < i ==>
        RowOk(interpreted, k) && |table[k]| == |interpreted| + 1 && table[k][0] == interpreted[0][k]["question"] &&
        forall j :: 0 <= j < |interpreted| ==> table[k][j + 1] == interpreted[j][k]["answer"]
    {
      var row := BuildRow(interpreted, i);
      if row.Err? {
        return Err(row.error);
      }
      table := table + [row.value];
      i := i + 1;
    }
    TableUnique(interpreted, table);
    return Ok(table);
  }

  /** The per-site results of one job, in site order. */
  function PerSite<T>(job: string, sites: seq<string>, read: (string, string) -> T): (r: seq<T>)
    ensures |r| == |sites|
    ensures forall k :: 0 <= k < |sites| ==> r[k] == read(job, sites[k])
  {
    seq(|sites|, k requires 0 <= k < |sites| => read(job, sites[k]))
  }

  /** The answer table of a job can be built from its interpreted files. */
  predicate RunOk(job: string, sites: seq<string>, interpretedOf: (string, string) -> seq<Object>) {
    TableOk(PerSite(job, sites, interpretedOf))
  }

  /** The run a job yields when its table can be built. */
  function RunOf(job: string, sites: seq<string>, extractedOf: (string, string) -> Object,
                 interpretedOf: (string, string) -> seq<Object>): Run
    requires RunOk(job, sites, interpretedOf)
  {
    Run(job, sites, PerSite(job, sites, extractedOf), TableOf(PerSite(job, sites, interpretedOf)))
  }

  /** The run of every job, in the order the jobs were given. */
  function RunsOf(jobs: seq<string>, sites: seq<string>, extractedOf: (string, string) -> Object,
                  interpretedOf: (string, string) -> seq<Object>): seq<Run>
    requires forall i :: 0 <= i < |jobs| ==> RunOk(jobs[i], sites, interpretedOf)
  {
    seq(|jobs|, i requires 0 <= i < |jobs| => RunOf(jobs[i], sites, extractedOf, interpretedOf))
  }

  /** One run of `generate_report`. `extractedOf` and `interpretedOf` stand
      for reading a site's `-clean-extracted.json` and `-interpreted.json`
      files in a job directory. */
  method BuildRun(job: string, sites: seq<string>, extractedOf: (string, string) -> Object,
                  interpretedOf: (string, string) -> seq<Object>) returns (r: Result<Run>)
    ensures var interpreted := PerSite(job, sites, interpretedOf);
      r.Ok? <==> |sites| > 0 && forall i :: 0 <= i < |interpreted[0]| ==> RowOk(interpreted, i)
    ensures r.Ok? ==> r.value.timestamp == job && r.value.sites == sites
    ensures r.Ok? ==> |r.value.extracted| == |sites|
    ensures r.Ok? ==> forall k :: 0 <= k < |sites| ==> r.value.extracted[k] == extractedOf(job, sites[k])
    ensures r.Ok? ==> IsTable(PerSite(job, sites, interpretedOf), r.value.table)
    ensures r.Ok? <==> RunOk(job, sites, interpretedOf)
    ensures r.Ok? ==> r.value == RunOf(job, sites, extractedOf, interpretedOf)
  {
    var table := AnswerTable(PerSite(job, sites, interpretedOf));
    if table.Err? {
      return Err(table.error);
    }
    return Ok(Run(job, sites, PerSite(job, sites, extractedOf), table.value));
  }

  // ---------------------------------------------------------------------
  // Newest first
  // ---------------------------------------------------------------------

  /** The sort key of a run: the instant its timestamp names under
      `%Y-%m-%dT%H:%M:%S+00:00`. */
  function RunInstant(run: Run): int {
    match ParseUtc(run.timestamp)
    case Ok(t) => InstantOf(t)
    case Err(_) => 0
  }

  function Later(x: int, y: int): bool { x > y }

  predicate BadStamp(run: Run) {
    ParseUtc(run.timestamp).Err?
  }

  predicate AllParse(runs: seq<Run>) {
    forall i :: 0 <= i < |runs| ==> !BadStamp(runs[i])
  }

  /** `sorted(runs, key=..., reverse=True)`: newest first, runs with the
      same instant in their original order. */
  function NewestFirst(runs: seq<Run>): (r: Result<seq<Run>>)
    ensures r.Ok? <==> AllParse(runs)
    ensures r.Err? ==> r == Err(ParseUtc(runs[Lists.FirstWhere(runs, BadStamp)].timestamp).error)
    ensures r.Ok? ==> multiset(r.value) == multiset(runs)
    ensures r.Ok? ==> forall i :: 0 < i < |r.value| ==> RunInstant(r.value[i]) <= RunInstant(r.value[i - 1])
  {
    if !AllParse(runs) then Err(ParseUtc(runs[Lists.FirstWhere(runs, BadStamp)].timestamp).error)
    else
      Lists.SortBySorted(runs, RunInstant, Later);
      Ok(Lists.SortBy(runs, RunInstant, Later))
  }

  /** Runs with the same instant keep the order the job directories were
      listed in. */
  lemma NewestFirstStable(runs: seq<Run>, k: int)
    requires AllParse(runs)
    ensures Lists.Filter(NewestFirst(runs).value, Lists.KeyIs(RunInstant, k)) == Lists.Filter(runs, Lists.KeyIs(RunInstant, k))
  {
    Lists.SortByStable(runs, RunInstant, Later, k);
  }

  /** `generate_report` without the rendering: every job's run, newest
      first. */
  method GenerateReport(jobs: seq<string>, sites: seq<string>, extractedOf: (string, string) -> Object,
                        interpretedOf: (string, string) -> seq<Object>) returns (r: Result<seq<Run>>)
    ensures r.Ok? <==> (forall i :: 0 <= i < |jobs| ==> RunOk(jobs[i], sites, interpretedOf)) &&
                       AllParse(RunsOf(jobs, sites, extractedOf, interpretedOf))
    ensures r.Ok? ==> multiset(r.value) == multiset(RunsOf(jobs, sites, extractedOf, interpretedOf))
    ensures r.Ok? ==> |r.value| == |jobs|
    ensures r.Ok? ==> forall i :: 0 < i < |r.value| ==> RunInstant(r.value[i]) <= RunInstant(r.value[i - 1])
    ensures r.Ok? ==> forall i :: 0 <= i < |r.value| ==> r.value[i].timestamp in jobs && r.value[i].sites == sites
    ensures r.Ok? ==> forall i :: 0 <= i < |jobs| ==> exists k :: 0 <= k < |r.value| && r.value[k].timestamp == jobs[i]
  {
    var runs := CollectRuns(jobs, sites, extractedOf, interpretedOf);
    if runs.Err? {
      return Err(runs.error);
    }
    r := NewestFirst(runs.value);
    if r.Ok? {
      SameRuns(runs.value, r.value, jobs, sites);
    }
  }

  /** The job loop of `generate_report`: each job's run in job order,
      failing at the first job whose table cannot be built. */
  method CollectRuns(jobs: seq<string>, sites: seq<string>, extractedOf: (string, string) -> Object,
                     interpretedOf: (string, string) -> seq<Object>) returns (r: Result<seq<Run>>)
    ensures r.Ok? <==> forall i :: 0 <= i < |jobs| ==> RunOk(jobs[i], sites, interpretedOf)
    ensures r.Ok? ==> r.value == RunsOf(jobs, sites, extractedOf, interpretedOf)
    ensures r.Ok? ==> |r.value| == |jobs| && forall k :: 0 <= k < |jobs| ==> r.value[k].timestamp == jobs[k] && r.value[k].sites == sites
  {
    var runs: seq<Run> := [];
    var i := 0;
    while i < |jobs|
      invariant 0 <= i <= |jobs|
      invariant |runs| == i
      invariant forall k :: 0 <= k < i ==> RunOk(jobs[k], sites, interpretedOf)
      invariant forall k :: 0 <= k < i ==> runs[k] == RunOf(jobs[k], sites, extractedOf, interpretedOf)
    {
      var run := BuildRun(jobs[i], sites, extractedOf, interpretedOf);
      if run.Err? {
        return Err(run.error);
      }
      runs := runs + [run.value];
      i := i + 1;
    }
    assert runs == RunsOf(jobs, sites, extractedOf, interpretedOf);
    return Ok(runs);
  }

  lemma SameRuns(runs: seq<Run>, sorted: seq<Run>, jobs: seq<string>, sites: seq<string>)
    requires multiset(sorted) == multiset(runs) && |runs| == |jobs|
    requires forall k :: 0 <= k < |runs| ==> runs[k].timestamp == jobs[k] && runs[k].sites == sites
    ensures |sorted| == |jobs|
    ensures forall i :: 0 <= i < |sorted| ==> sorted[i].timestamp in jobs && sorted[i].sites == sites
    ensures forall i :: 0 <= i < |jobs| ==> exists k :: 0 <= k < |sorted| && sorted[k].timestamp == jobs[i]
  {
    assert |multiset(sorted)| == |multiset(runs)|;
    forall i | 0 <= i < |sorted|
      ensures sorted[i].timestamp in jobs && sorted[i].sites == sites
    {
      assert sorted[i] in multiset(runs);
      var k :| 0 <= k < |runs| && runs[k] == sorted[i];
    }
    forall i | 0 <= i < |jobs|
      ensures exists k :: 0 <= k < |sorted| && sorted[k].timestamp == jobs[i]
    {
      assert runs[i] in multiset(sorted);
      var k :| 0 <= k < |sorted| && sorted[k] == runs[i];
    }
  }
}

=== FILE: headliner.dfy ===
/** The deterministic parts of headline extraction: the token-count cut of
    the page text handed to the model, and the gate that turns a failed
    extraction into an empty result. */
module Headliner {
  import opened Text
  import Lists
  import opened Json

  /** The page is cut to this many tokens before extraction. */
  const ExtractTokens := 25000

  /** `str.isalnum()` for one character (ASCII letters and digits). */
  predicate AlnumChar(c: char) {
    ('a' <= c <= 'z') || ('A' <= c <= 'Z') || ('0' <= c <= '9')
  }

  /** A character of the regex class `\w`. */
  predicate WordChar(c: char) {
    AlnumChar(c) || c == '_'
  }

  predicate NotSpace(c: char) { !IsSpace(c) }

  /** `str.isalnum()`: non-empty and all letters or digits. */
  predicate IsAlnum(t: string) {
    |t| > 0 && forall i :: 0 <= i < |t| ==> AlnumChar(t[i])
  }

  /** What `re.findall(r'\w+|\S', s)` returns: a maximal `\w` run, or one
      character that is neither a word character nor whitespace. */
  predicate IsToken(t: string) {
    |t| > 0 &&
    ((forall i :: 0 <= i < |t| ==> WordChar(t[i])) || (|t| == 1 && !WordChar(t[0]) && !IsSpace(t[0])))
  }

  /** The length of the `\w` run that starts `s`. */
  function WordRun(s: string): (n: nat)
    ensures n <= |s|
    ensures forall i :: 0 <= i < n ==> WordChar(s[i])
    ensures n == |s| || !WordChar(s[n])
  {
    if |s| > 0 && WordChar(s[0]) then 1 + WordRun(s[1..]) else 0
  }

  /** `re.findall(r'\w+|\S', s)`. */
  function Tokens(s: string): (ts: seq<string>)
    ensures forall i :: 0 <= i < |ts| ==> IsToken(ts[i])
    decreases |s|
  {
    if |s| == 0 then []
    else if IsSpace(s[0]) then Tokens(s[1..])
    else if WordChar(s[0]) then
      var n := WordRun(s);
      [s[..n]] + Tokens(s[n..])
    else [s[..1]] + Tokens(s[1..])
  }

  function Concat(ts: seq<string>): string {
    if |ts| == 0 then "" else ts[0] + Concat(ts[1..])
  }

  lemma {:induction false} ConcatAppend(a: seq<string>, b: seq<string>)
    ensures Concat(a + b) == Concat(a) + Concat(b)
  {
    if |a| > 0 {
      ConcatAppend(a[1..], b);
      assert (a + b)[1..] == a[1..] + b;
    } else {
      assert a + b == b;
    }
  }

  lemma NoneSurvive(s: string)
    requires forall i :: 0 <= i < |s| ==> IsSpace(s[i])
    ensures Lists.Filter(s, NotSpace) == []
  {
    if |s| > 0 {
      NoneSurvive(s[1..]);
    }
  }

  /** The tokens are the non-whitespace characters of the text, in order:
      tokenizing loses the whitespace and nothing else. */
  lemma {:induction false} TokensCover(s: string)
    ensures Concat(Tokens(s)) == Lists.Filter(s, NotSpace)
    decreases |s|
  {
    if |s| > 0 {
      if IsSpace(s[0]) {
        TokensCover(s[1..]);
      } else {
        var n := if WordChar(s[0]) then WordRun(s) else 1;
        TokensCover(s[n..]);
        TokenThenRest(s, n);
      }
    }
  }

  /** `''.join(t if not t.isalnum() else ' ' + t for t in ts)`. */
  function Glue(ts: seq<string>): string {
    if |ts| == 0 then ""
    else (if IsAlnum(ts[0]) then " " + ts[0] else ts[0]) + Glue(ts[1..])
  }

  predicate AllTokens(ts: seq<string>) {
    forall i :: 0 <= i < |ts| ==> IsToken(ts[i])
  }

  /** Gluing adds whitespace only: its non-space content is the tokens'. */
  lemma {:induction false} GlueContent(ts: seq<string>)
    requires AllTokens(ts)
    ensures Lists.Filter(Glue(ts), NotSpace) == Concat(ts)
  {
    if |ts| > 0 {
      GlueContent(ts[1..]);
      var t := ts[0];
      Lists.FilterAll(t, NotSpace);
      var head := if IsAlnum(t) then " " + t else t;
      assert Glue(ts) == head + Glue(ts[1..]);
      Lists.FilterConcat(head, Glue(ts[1..]), NotSpace);
      if IsAlnum(t) {
        SpaceThen(t);
      }
      assert Lists.Filter(head, NotSpace) == t;
    }
  }

  lemma SpaceThen(t: string)
    requires forall i :: 0 <= i < |t| ==> NotSpace(t[i])
    ensures Lists.Filter(" " + t, NotSpace) == t
  {
    assert (" " + t)[1..] == t;
    Lists.FilterAll(t, NotSpace);
  }

  /** The only whitespace gluing puts in is one space right before each
      alphanumeric token. */
  predicate SpacedBeforeAlnum(g: string) {
    forall i :: 0 <= i < |g| && IsSpace(g[i]) ==> g[i] == ' ' && i + 1 < |g| && AlnumChar(g[i + 1])
  }

  /** Where token `i`'s piece begins in the glued text. */
  function GlueAt(ts: seq<string>, i: nat): nat
    requires i <= |ts|
  {
    |Glue(ts[..i])|
  }

  /** The space gluing puts before a token: one before an alphanumeric
      token, none before any other. */
  function Pad(t: string): string {
    if IsAlnum(t) then " " else ""
  }

  /** Gluing works token by token: the first `i` pieces, then the rest. */
  lemma {:induction false} GlueSplit(ts: seq<string>, i: nat)
    requires i <= |ts|
    ensures Glue(ts) == Glue(ts[..i]) + Glue(ts[i..])
    decreases i
  {
    if i == 0 {
      assert ts[..0] == [] && ts[0..] == ts;
    } else {
      GlueSplit(ts[1..], i - 1);
      assert ts[..i][1..] == ts[1..][..i - 1];
      assert ts[1..][i - 1..] == ts[i..];
    }
  }

  /** An alphanumeric token's piece is a space and then the token. */
  lemma SpaceOpensAlnum(ts: seq<string>, i: nat)
    requires i < |ts| && IsAlnum(ts[i])
    ensures GlueAt(ts, i) < |Glue(ts)| && Glue(ts)[GlueAt(ts, i)] == ' '
    ensures OccursAt(Glue(ts), ts[i], GlueAt(ts, i) + 1)
  {
    GlueSplit(ts, i);
    var tail := ts[i..];
    assert tail[0] == ts[i] && tail[1..] == ts[i + 1..];
    assert Glue(tail) == " " + ts[i] + Glue(ts[i + 1..]);
    var g := Glue(ts);
    var at := GlueAt(ts, i);
    assert g == Glue(ts[..i]) + (" " + ts[i] + Glue(ts[i + 1..]));
    assert g[at + 1..at + 1 + |ts[i]|] == ts[i];
  }

  /** Gluing lays the pieces end to end: token `i`'s piece is its pad and
      then the token, and token `i + 1`'s piece starts right after it. */
  lemma {:induction false} GluePiece(ts: seq<string>, i: nat)
    requires i < |ts|
    ensures GlueAt(ts, i + 1) == GlueAt(ts, i) + |Pad(ts[i])| + |ts[i]| <= |Glue(ts)|
    ensures OccursAt(Glue(ts), Pad(ts[i]) + ts[i], GlueAt(ts, i))
  {
    GlueFront(ts, i);
    GlueAround(ts, i);
    PieceOccurs(Glue(ts), Glue(ts[..i]), Pad(ts[i]) + ts[i], Glue(ts[i + 1..]));
  }

  lemma {:induction false} GlueFront(ts: seq<string>, i: nat)
    requires i < |ts|
    ensures Glue(ts[..i + 1]) == Glue(ts[..i]) + (Pad(ts[i]) + ts[i])
  {
    var front := ts[..i + 1];
    assert front[..i] == ts[..i] && front[i..] == [ts[i]];
    GlueSplit(front, i);
    GlueOne(ts[i]);
  }

  lemma {:induction false} GlueAround(ts: seq<string>, i: nat)
    requires i < |ts|
    ensures Glue(ts) == Glue(ts[..i]) + ((Pad(ts[i]) + ts[i]) + Glue(ts[i + 1..]))
  {
    GlueSplit(ts, i);
    var tail := ts[i..];
    assert tail[0] == ts[i] && tail[1..] == ts[i + 1..];
    GlueCons(tail);
    Regroup(Glue(ts), Glue(ts[..i]), Glue(tail), Pad(ts[i]), ts[i], Glue(ts[i + 1..]));
  }

  lemma Regroup(g: string, front: string, tail: string, pad: string, t: string, rest: string)
    requires g == front + tail && tail == pad + (t + rest)
    ensures g == front + ((pad + t) + rest)
  {
  }

  lemma PieceOccurs(g: string, a: string, piece: string, b: string)
    requires g == a + (piece + b)
    ensures |a| + |piece| <= |g| && OccursAt(g, piece, |a|)
  {
    assert g[|a|..|a| + |piece|] == piece;
  }

  /** The glued text is the pieces and nothing else: each token in turn,
      behind one space when it is alphanumeric and directly otherwise, the
      last piece ending the text; so its only whitespace is those spaces. */
  lemma {:induction false} GlueSpacing(ts: seq<string>)
    requires AllTokens(ts)
    ensures SpacedBeforeAlnum(Glue(ts))
    ensures GlueAt(ts, 0) == 0 && GlueAt(ts, |ts|) == |Glue(ts)|
    ensures forall i :: 0 <= i < |ts| ==> GlueAt(ts, i + 1) == GlueAt(ts, i) + |Pad(ts[i])| + |ts[i]|
    ensures forall i :: 0 <= i < |ts| && IsAlnum(ts[i]) ==>
      GlueAt(ts, i) < |Glue(ts)| && Glue(ts)[GlueAt(ts, i)] == ' ' && OccursAt(Glue(ts), ts[i], GlueAt(ts, i) + 1)
    ensures forall i :: 0 <= i < |ts| && !IsAlnum(ts[i]) ==> OccursAt(Glue(ts), ts[i], GlueAt(ts, i))
  {
    GlueSpaced(ts);
    assert ts[..0] == [] && ts[..|ts|] == ts;
    forall i | 0 <= i < |ts|
      ensures GlueAt(ts, i + 1) == GlueAt(ts, i) + |Pad(ts[i])| + |ts[i]|
    {
      GluePiece(ts, i);
    }
    forall i | 0 <= i < |ts| && IsAlnum(ts[i])
      ensures GlueAt(ts, i) < |Glue(ts)| && Glue(ts)[GlueAt(ts, i)] == ' ' && OccursAt(Glue(ts), ts[i], GlueAt(ts, i) + 1)
    {
      SpaceOpensAlnum(ts, i);
    }
    forall i | 0 <= i < |ts| && !IsAlnum(ts[i])
      ensures OccursAt(Glue(ts), ts[i], GlueAt(ts, i))
    {
      GluePiece(ts, i);
      assert Pad(ts[i]) + ts[i] == ts[i];
    }
  }

  lemma {:induction false} GlueSpaced(ts: seq<string>)
    requires AllTokens(ts)
    ensures SpacedBeforeAlnum(Glue(ts))
  {
    if |ts| > 0 {
      GlueSpaced(ts[1..]);
      var t, rest := ts[0], Glue(ts[1..]);
      var head := if IsAlnum(t) then " " + t else t;
      assert forall i :: 0 <= i < |t| ==> !IsSpace(t[i]);
      assert Glue(ts) == head + rest;
      forall i | 0 <= i < |head + rest| && IsSpace((head + rest)[i])
        ensures (head + rest)[i] == ' ' && i + 1 < |head + rest| && AlnumChar((head + rest)[i + 1])
      {
        if i >= |head| {
          assert (head + rest)[i] == rest[i - |head|];
        } else {
          assert IsAlnum(t) && i == 0;
        }
      }
    }
  }

  /** The glued text is the tokens' characters and one space per
      alphanumeric token. */
  lemma {:induction false} GlueLength(ts: seq<string>)
    ensures |Glue(ts)| == |Concat(ts)| + |Lists.Filter(ts, IsAlnum)|
  {
    if |ts| > 0 {
      GlueLength(ts[1..]);
      GlueCons(ts);
      Lists.FilterStep(ts, IsAlnum, IsAlnum(ts[0]));
    }
  }

  /** Stripping keeps the non-space content and the spacing rule. */
  lemma StripKeeps(g: string)
    requires SpacedBeforeAlnum(g)
    ensures Lists.Filter(Strip(g), NotSpace) == Lists.Filter(g, NotSpace)
    ensures SpacedBeforeAlnum(Strip(g))
  {
    StripKeepsContent(g);
    StripKeepsSpacing(g);
  }

  lemma StripKeepsContent(g: string)
    ensures Lists.Filter(Strip(g), NotSpace) == Lists.Filter(g, NotSpace)
  {
    var right := RStripSpace(g);
    var r := LStripSpace(right);
    var k := |right| - |r|;
    assert right == right[..k] + r;
    assert g == right[..k] + r + g[|right|..];
    SurroundedKeeps(right[..k], r, g[|right|..]);
  }

  /** Whitespace around `m` adds nothing to its non-space content. */
  lemma SurroundedKeeps(a: string, m: string, b: string)
    requires forall i :: 0 <= i < |a| ==> IsSpace(a[i])
    requires forall i :: 0 <= i < |b| ==> IsSpace(b[i])
    ensures Lists.Filter(a + m + b, NotSpace) == Lists.Filter(m, NotSpace)
  {
    NoneSurvive(a);
    NoneSurvive(b);
    Lists.FilterConcat(a + m, b, NotSpace);
    Lists.FilterConcat(a, m, NotSpace);
  }

  lemma StripKeepsSpacing(g: string)
    requires SpacedBeforeAlnum(g)
    ensures SpacedBeforeAlnum(Strip(g))
  {
    var right := RStripSpace(g);
    var r := LStripSpace(right);
    var k := |right| - |r|;
    assert forall i :: 0 <= i < |r| ==> r[i] == g[k + i];
    forall i | 0 <= i < |r| && IsSpace(r[i])
      ensures r[i] == ' ' && i + 1 < |r| && AlnumChar(r[i + 1])
    {
      assert IsSpace(g[k + i]);
    }
  }

  /** One space opens the glued text when the first token is alphanumeric. */
  function Lead(ts: seq<string>): nat {
    if |ts| > 0 && IsAlnum(ts[0]) then 1 else 0
  }

  lemma TokenNoSpace(t: string)
    requires IsToken(t)
    ensures forall i :: 0 <= i < |t| ==> !IsSpace(t[i])
  {
  }

  lemma GlueOne(t: string)
    ensures Glue([t]) == Pad(t) + t
  {
    assert [t][1..] == [];
    if !IsAlnum(t) {
      assert "" + t == t;
    }
  }

  /** The glued text ends in the last token's last character. */
  lemma GlueEnds(ts: seq<string>)
    requires AllTokens(ts) && |ts| > 0
    ensures |Glue(ts)| > 0 && !IsSpace(Glue(ts)[|Glue(ts)| - 1])
  {
    var n := |ts| - 1;
    GlueSplit(ts, n);
    assert ts[n..] == [ts[n]];
    GlueOne(ts[n]);
    TokenNoSpace(ts[n]);
    EndsOnLast(Glue(ts), Glue(ts[..n]), Pad(ts[n]), ts[n]);
  }

  lemma EndsOnLast(g: string, a: string, pad: string, t: string)
    requires g == a + (pad + t) && |t| > 0 && !IsSpace(t[|t| - 1])
    ensures |g| > 0 && !IsSpace(g[|g| - 1])
  {
    assert g[|g| - 1] == t[|t| - 1];
  }

  lemma GlueCons(ts: seq<string>)
    requires |ts| > 0
    ensures Glue(ts) == Pad(ts[0]) + (ts[0] + Glue(ts[1..])) && Lead(ts) == |Pad(ts[0])|
  {
    if !IsAlnum(ts[0]) {
      assert "" + (ts[0] + Glue(ts[1..])) == ts[0] + Glue(ts[1..]);
    }
  }

  /** Stripping the glued text removes exactly its opening space. */
  lemma GlueStrip(ts: seq<string>)
    requires AllTokens(ts)
    ensures Lead(ts) <= |Glue(ts)| && Strip(Glue(ts)) == Glue(ts)[Lead(ts)..]
  {
    if |ts| > 0 {
      GlueCons(ts);
      TokenNoSpace(ts[0]);
      GlueEnds(ts);
      StripOpeningSpace(Pad(ts[0]), ts[0], Glue(ts[1..]), Glue(ts), Lead(ts));
    }
  }

  /** A text made of some whitespace and then a part that starts with a
      non-space and ends the text on a non-space strips to that part. */
  lemma StripOpeningSpace(pad: string, t: string, rest: string, g: string, lead: nat)
    requires g == pad + (t + rest) && |pad| == lead && forall k :: 0 <= k < |pad| ==> IsSpace(pad[k])
    requires |t| > 0 && !IsSpace(t[0]) && |g| > 0 && !IsSpace(g[|g| - 1])
    ensures lead <= |g| && Strip(g) == g[lead..]
  {
    var core := t + rest;
    assert core[0] == t[0] && core[|core| - 1] == g[|g| - 1];
    assert pad + core + "" == g;
    StripPadded(pad, core, "");
    Lists.DropFront(pad, core);
  }

  /** Where token `i` of a glue, less its opening space, begins. */
  function StrippedAt(ts: seq<string>, i: nat): int
    requires i <= |ts|
  {
    GlueAt(ts, i) - Lead(ts)
  }

  /** After the strip, every alphanumeric token but the first sits right
      after a space that follows exactly the content of the tokens before
      it. */
  lemma GluedTokenAfterSpace(ts: seq<string>, i: nat)
    requires AllTokens(ts) && 0 < i < |ts| && IsAlnum(ts[i])
    ensures SpacedTokenAt(Strip(Glue(ts)), StrippedAt(ts, i), ts[i], Concat(ts[..i]))
  {
    GlueStrip(ts);
    LeadPrefix(ts, i);
    GluePrefix(ts, i);
    BeforeContent(ts[..i], Glue(ts[..i]), Glue(ts[..i])[Lead(ts)..]);
    SpacedAfterLead(ts, i, Strip(Glue(ts)), Lead(ts), StrippedAt(ts, i), Concat(ts[..i]));
  }

  lemma SpacedAfterLead(ts: seq<string>, i: nat, r: string, lead: nat, p: int, c: string)
    requires i < |ts| && IsAlnum(ts[i]) && lead <= GlueAt(ts, i) && p == GlueAt(ts, i) - lead
    requires GlueAt(ts, i) <= |Glue(ts)| && r == Glue(ts)[lead..]
    requires Glue(ts)[..GlueAt(ts, i)] == Glue(ts[..i]) && Lists.Filter(Glue(ts[..i])[lead..], NotSpace) == c
    ensures SpacedTokenAt(r, p, ts[i], c)
  {
    SpaceCarried(ts, i, r, lead, p);
    ShiftedContent(r, Glue(ts), lead, GlueAt(ts, i), p, Glue(ts[..i]), c);
  }

  lemma LeadPrefix(ts: seq<string>, i: nat)
    requires 0 < i <= |ts|
    ensures Lead(ts[..i]) == Lead(ts) && Lead(ts) <= |Glue(ts[..i])|
  {
    assert ts[..i][0] == ts[0];
    GlueCons(ts[..i]);
  }

  lemma GluePrefix(ts: seq<string>, i: nat)
    requires i <= |ts|
    ensures GlueAt(ts, i) <= |Glue(ts)| && Glue(ts)[..GlueAt(ts, i)] == Glue(ts[..i])
  {
    GlueSplit(ts, i);
    Lists.DropFront(Glue(ts[..i]), Glue(ts[i..]));
  }

  /** A space at `p`, the token `t` right after it, and the content `c`
      before it. */
  predicate SpacedTokenAt(r: string, p: int, t: string, c: string) {
    0 <= p < |r| && r[p] == ' ' && OccursAt(r, t, p + 1) && Lists.Filter(r[..p], NotSpace) == c
  }

  /** An alphanumeric token's opening space survives dropping the first
      `lead` characters, `lead` places further left. */
  lemma SpaceCarried(ts: seq<string>, i: nat, r: string, lead: nat, p: int)
    requires i < |ts| && IsAlnum(ts[i]) && lead <= GlueAt(ts, i) && p == GlueAt(ts, i) - lead
    requires lead <= |Glue(ts)| && r == Glue(ts)[lead..]
    ensures 0 <= p < |r| && r[p] == ' ' && OccursAt(r, ts[i], p + 1)
  {
    SpaceOpensAlnum(ts, i);
    Lists.SliceShift(Glue(ts), lead, p + 1, p + 1 + |ts[i]|);
  }

  /** What comes before position `at`, less its first `lead` characters,
      is what comes before `at - lead` once those characters are dropped. */
  lemma ShiftedContent(r: string, g: string, lead: nat, at: nat, p: int, before: string, c: string)
    requires lead <= at <= |g| && p == at - lead && r == g[lead..]
    requires g[..at] == before && Lists.Filter(before[lead..], NotSpace) == c
    ensures 0 <= p <= |r| && Lists.Filter(r[..p], NotSpace) == c
  {
    Lists.DropTake(g, lead, at);
  }

  /** The glued first tokens, less their opening space, carry exactly
      those tokens' content. */
  lemma BeforeContent(ts: seq<string>, before: string, rest: string)
    requires AllTokens(ts) && before == Glue(ts) && Lead(ts) <= |before| && rest == before[Lead(ts)..]
    ensures Lists.Filter(rest, NotSpace) == Concat(ts)
  {
    var lead := Lead(ts);
    assert before == before[..lead] + rest;
    assert forall k :: 0 <= k < |before[..lead]| ==> IsSpace(before[..lead][k]) by {
      if lead == 1 {
        GlueCons(ts);
        assert before[0] == ' ';
      }
    }
    NoneSurvive(before[..lead]);
    Lists.FilterConcat(before[..lead], rest, NotSpace);
    GlueContent(ts);
  }

  /** The spacing of a stripped glue, for every alphanumeric token but the
      first. */
  lemma StrippedSpacing(ts: seq<string>)
    requires AllTokens(ts)
    ensures forall i :: 0 < i < |ts| && IsAlnum(ts[i]) ==>
      SpacedTokenAt(Strip(Glue(ts)), StrippedAt(ts, i), ts[i], Concat(ts[..i]))
  {
    forall i | 0 < i < |ts| && IsAlnum(ts[i])
      ensures SpacedTokenAt(Strip(Glue(ts)), StrippedAt(ts, i), ts[i], Concat(ts[..i]))
    {
      GluedTokenAfterSpace(ts, i);
    }
  }

  /** `HeadlineExtractor._truncate_html`: text of at most `maxTokens`
      tokens is kept as it is; longer text is rebuilt from its first
      `maxTokens` tokens (Python slice semantics) and stripped. */
  function TruncateHtml(html: string, maxTokens: int): (r: string)
    ensures |Tokens(html)| <= maxTokens ==> r == html
    ensures |Tokens(html)| > maxTokens ==>
      Lists.Filter(r, NotSpace) == Concat(Lists.Take(Tokens(html), maxTokens))
    ensures |Tokens(html)| > maxTokens ==> SpacedBeforeAlnum(r)
    ensures |Tokens(html)| > maxTokens ==> |r| == 0 || (!IsSpace(r[0]) && !IsSpace(r[|r| - 1]))
    ensures |Tokens(html)| > maxTokens ==> var kept := Lists.Take(Tokens(html), maxTokens);
      forall i :: 0 < i < |kept| && IsAlnum(kept[i]) ==> SpacedTokenAt(r, StrippedAt(kept, i), kept[i], Concat(kept[..i]))
    ensures |Tokens(html)| > maxTokens ==> var kept := Lists.Take(Tokens(html), maxTokens);
      |r| == |Concat(kept)| + |Lists.Filter(kept, IsAlnum)| - Lead(kept)
  {
    var tokens := Tokens(html);
    if |tokens| <= maxTokens then html
    else
      var kept := Lists.Take(tokens, maxTokens);
      assert AllTokens(kept);
      GlueContent(kept);
      GlueSpacing(kept);
      StripKeeps(Glue(kept));
      StrippedSpacing(kept);
      GlueStrip(kept);
      GlueLength(kept);
      Strip(Glue(kept))
  }

  /** The content of a cut page is a prefix of the page's non-space content. */
  lemma TruncateIsPrefix(html: string, maxTokens: int)
    requires |Tokens(html)| > maxTokens
    ensures StartsWith(Lists.Filter(html, NotSpace), Lists.Filter(TruncateHtml(html, maxTokens), NotSpace))
  {
    var tokens := Tokens(html);
    var kept := Lists.Take(tokens, maxTokens);
    var rest := tokens[|kept|..];
    KeptThenRest(tokens, kept);
    ConcatAppend(kept, rest);
    TokensCover(html);
    PrefixOfJoined(Concat(kept), Concat(rest));
  }

  lemma WordNotSpace(c: char)
    requires WordChar(c)
    ensures !IsSpace(c)
  {
  }

  /** One token, then the tokens of the rest. */
  lemma TokenThenRest(s: string, n: nat)
    requires |s| > 0 && !IsSpace(s[0]) && n == (if WordChar(s[0]) then WordRun(s) else 1)
    requires Concat(Tokens(s[n..])) == Lists.Filter(s[n..], NotSpace)
    ensures Concat(Tokens(s)) == Lists.Filter(s, NotSpace)
  {
    var t, rest := s[..n], s[n..];
    TokenHasNoSpace(s, n);
    Lists.FilterAll(t, NotSpace);
    CutAt(s, n);
    Lists.FilterConcat(t, rest, NotSpace);
    assert Tokens(s) == [t] + Tokens(rest);
    ConcatCons(t, Tokens(rest));
  }

  lemma TokenHasNoSpace(s: string, n: nat)
    requires |s| > 0 && !IsSpace(s[0]) && n == (if WordChar(s[0]) then WordRun(s) else 1)
    ensures forall i :: 0 <= i < |s[..n]| ==> NotSpace(s[..n][i])
  {
    forall i | 0 <= i < n ensures NotSpace(s[..n][i]) {
      if i > 0 {
        WordNotSpace(s[i]);
      }
    }
  }

  lemma ConcatCons(t: string, ts: seq<string>)
    ensures Concat([t] + ts) == t + Concat(ts)
  {
    assert ([t] + ts)[1..] == ts;
  }

  lemma CutAt(s: string, n: nat)
    requires n <= |s|
    ensures s == s[..n] + s[n..]
  {
  }

  lemma KeptThenRest(tokens: seq<string>, kept: seq<string>)
    requires |kept| <= |tokens| && kept == tokens[..|kept|]
    ensures tokens == kept + tokens[|kept|..]
  {
  }

  lemma PrefixOfJoined(a: string, b: string)
    ensures StartsWith(a + b, a)
  {
    assert (a + b)[..|a|] == a;
  }

  /** `LLMHeadlineExtractor.extract`: `process` stands for the cached
      two-step model call and JSON decoding; a result carrying an `error`
      key becomes the empty object. */
  function Extract(content: string, process: string -> Object): (r: Object)
    ensures "error" !in r
    ensures "error" in process(TruncateHtml(content, ExtractTokens)) ==> r == map[]
    ensures "error" !in process(TruncateHtml(content, ExtractTokens)) ==>
      r == process(TruncateHtml(content, ExtractTokens))
  {
    var res := process(TruncateHtml(content, ExtractTokens));
    if "error" in res then map[] else res
  }
}

=== FILE: instants.dfy ===
/** Datetimes to the microsecond, aware (carrying a UTC offset) or naive,
    with the arithmetic and comparisons the deploy cursor needs, and their
    ISO 8601 text: Python's `datetime.isoformat()` and the part of
    `datetime.fromisoformat()` that reads that text back. */
module Instants {
  import opened Wrappers
  import opened Text
  import opened Calendar
  import opened Timestamps

  const MinutesPerDay: int := 1440
  const MicrosPerMinute: int := 60000000
  /** `timedelta` refuses more days than this either way. */
  const MaxDeltaDays: int := 999999999
  /** One past the last wall reading a `datetime` can hold, in microseconds
      since 0001-01-01T00:00. */
  const WallLimit: int := 315537897600000000

  /** A wall-clock reading to the microsecond. `offset` is the UTC offset of
      an aware datetime in minutes east of Greenwich, `None` for a naive one. */
  datatype Moment = Moment(wall: Timestamp, micro: int, offset: Option<int>)

  /** A UTC offset `timezone(timedelta(...))` accepts: strictly within a day. */
  predicate ValidOffset(offset: Option<int>) {
    offset.Some? ==> -MinutesPerDay < offset.value < MinutesPerDay
  }

  predicate ValidMoment(m: Moment) {
    Valid(m.wall) && 0 <= m.micro < MicrosPerSecond && ValidOffset(m.offset)
  }

  /** Microseconds of the wall reading since 0001-01-01T00:00. */
  function WallMicros(m: Moment): (n: int)
    requires ValidMoment(m)
    ensures 0 <= n < WallLimit
  {
    ValidRange(DateOf(m.wall));
    InstantOf(m.wall) + m.micro
  }

  /** The UTC instant of an aware datetime, in microseconds. */
  function UtcMicros(m: Moment): int
    requires ValidMoment(m) && m.offset.Some?
  {
    WallMicros(m) - m.offset.value * MicrosPerMinute
  }

  /** Splitting a count of seconds within a day into hours, minutes, seconds. */
  lemma ClockSplit(secs: int)
    requires 0 <= secs < SecondsPerDay
    ensures 0 <= secs / 3600 < 24 && 0 <= secs / 60 % 60 < 60 && 0 <= secs % 60 < 60
    ensures 3600 * (secs / 3600) + 60 * (secs / 60 % 60) + secs % 60 == secs
  {
    assert secs / 60 / 60 == secs / 3600;
  }

  /** The wall reading `n` microseconds after 0001-01-01T00:00. */
  function FromWallMicros(n: int, offset: Option<int>): (m: Moment)
    requires 0 <= n < WallLimit && ValidOffset(offset)
    ensures ValidMoment(m) && WallMicros(m) == n && m.offset == offset
  {
    var day := n / MicrosPerDay;
    var rest := n % MicrosPerDay;
    var d := FromOrdinal(day + 1);
    ValidRange(d);
    var secs := rest / MicrosPerSecond;
    ClockSplit(secs);
    var t := Timestamp(d.year, d.month, d.day, secs / 3600, secs / 60 % 60, secs % 60);
    assert SecondOfDay(t) == secs;
    Moment(t, rest % MicrosPerSecond, offset)
  }

  /** A wall reading is determined by its microsecond count. */
  lemma WallMicrosInjective(a: Moment, b: Moment)
    requires ValidMoment(a) && ValidMoment(b) && a.offset == b.offset
    requires WallMicros(a) == WallMicros(b)
    ensures a == b
  {
    var sa, sb := SecondOfDay(a.wall) * MicrosPerSecond + a.micro, SecondOfDay(b.wall) * MicrosPerSecond + b.micro;
    var da, db := Ordinal(DateOf(a.wall)) - 1, Ordinal(DateOf(b.wall)) - 1;
    assert WallMicros(a) == da * MicrosPerDay + sa && 0 <= sa < MicrosPerDay;
    assert WallMicros(b) == db * MicrosPerDay + sb && 0 <= sb < MicrosPerDay;
    SplitUnique(da, sa, db, sb, MicrosPerDay);
    SplitUnique(SecondOfDay(a.wall), a.micro, SecondOfDay(b.wall), b.micro, MicrosPerSecond);
    InstantInjective(a.wall, b.wall);
  }

  /** Quotient and remainder are unique. */
  lemma SplitUnique(q1: int, r1: int, q2: int, r2: int, d: int)
    requires d > 0 && 0 <= r1 < d && 0 <= r2 < d && q1 * d + r1 == q2 * d + r2
    ensures q1 == q2 && r1 == r2
  {
    var k := q1 - q2;
    assert k * d == r2 - r1 by {
      assert k * d == q1 * d - q2 * d;
    }
  }

  /** Reading a moment's microsecond count back gives the moment. */
  lemma FromWallMicrosOfMoment(m: Moment)
    requires ValidMoment(m)
    ensures FromWallMicros(WallMicros(m), m.offset) == m
  {
    WallMicrosInjective(FromWallMicros(WallMicros(m), m.offset), m);
  }

  // ---------------------------------------------------------------------
  // Arithmetic and comparison
  // ---------------------------------------------------------------------

  /** `m + timedelta(days=days)`: an `OverflowError` when `days` is too
      large for a `timedelta` or the date leaves 0001-01-01..9999-12-31;
      the time of day and the offset are kept. */
  function AddDaysTo(m: Moment, days: int): (r: Result<Moment>)
    requires ValidMoment(m)
    ensures r.Ok? <==> -MaxDeltaDays <= days <= MaxDeltaDays && 0 <= WallMicros(m) + days * MicrosPerDay < WallLimit
    ensures r.Ok? ==> ValidMoment(r.value) && r.value.offset == m.offset
                      && WallMicros(r.value) == WallMicros(m) + days * MicrosPerDay
    ensures r.Ok? ==> Ordinal(DateOf(r.value.wall)) == Ordinal(DateOf(m.wall)) + days
                      && SecondOfDay(r.value.wall) == SecondOfDay(m.wall) && r.value.micro == m.micro
  {
    var n := Ordinal(DateOf(m.wall)) + days;
    ValidRange(DateOf(m.wall));
    if !(-MaxDeltaDays <= days <= MaxDeltaDays) then Err("days must have magnitude <= 999999999")
    else if !(MinOrdinal <= n <= MaxOrdinal) then Err("date value out of range")
    else
      var d := FromOrdinal(n);
      ValidRange(d);
      Ok(Moment(Timestamp(d.year, d.month, d.day, m.wall.hour, m.wall.minute, m.wall.second), m.micro, m.offset))
  }

  /** Python's `a > b` on datetimes: aware ones compare as UTC instants,
      naive ones by wall clock, and mixing the two raises `TypeError`. */
  function Later(a: Moment, b: Moment): (r: Result<bool>)
    requires ValidMoment(a) && ValidMoment(b)
    ensures r.Err? <==> a.offset.Some? != b.offset.Some?
    ensures r.Ok? && a.offset == b.offset ==> (r.value <==> WallMicros(a) > WallMicros(b))
    ensures r.Ok? && a.offset.Some? ==> (r.value <==> UtcMicros(a) > UtcMicros(b))
  {
    if a.offset.Some? && b.offset.Some? then Ok(UtcMicros(a) > UtcMicros(b))
    else if a.offset.None? && b.offset.None? then Ok(WallMicros(a) > WallMicros(b))
    else Err("can't compare offset-naive and offset-aware datetimes")
  }

  /** `Later` is a strict order on datetimes of one kind. */
  lemma LaterOrder(a: Moment, b: Moment, c: Moment)
    requires ValidMoment(a) && ValidMoment(b) && ValidMoment(c)
    requires a.offset.Some? == b.offset.Some? == c.offset.Some?
    ensures !(Later(a, b).value && Later(b, a).value)
    ensures Later(a, b).value && Later(b, c).value ==> Later(a, c).value
  {
  }

  // ---------------------------------------------------------------------
  // ISO 8601 text
  // ---------------------------------------------------------------------

  /** `YYYY-MM-DDTHH:MM:SS`. */
  function ClockText(t: Timestamp): (s: string)
    requires Valid(t)
    ensures |s| == 19
  {
    Pad4(t.year) + "-" + Pad2(t.month) + "-" + Pad2(t.day) + "T"
    + Pad2(t.hour) + ":" + Pad2(t.minute) + ":" + Pad2(t.second)
  }

  /** `.ffffff`, left out when the microseconds are zero. */
  function FractionText(micro: int): (s: string)
    requires 0 <= micro < MicrosPerSecond
    ensures |s| == 0 || |s| == 7
  {
    if micro == 0 then "" else "." + Pad6(micro)
  }

  /** `+HH:MM` or `-HH:MM` for an aware datetime, nothing for a naive one. */
  function OffsetText(offset: Option<int>): (s: string)
    requires ValidOffset(offset)
    ensures |s| == 0 || |s| == 6
  {
    match offset
    case None => ""
    case Some(o) =>
      var a := if o < 0 then -o else o;
      [if o < 0 then '-' else '+'] + Pad2(a / 60) + ":" + Pad2(a % 60)
  }

  /** `m.isoformat()`. */
  function IsoFormat(m: Moment): (s: string)
    requires ValidMoment(m)
    ensures 19 <= |s| <= 32
  {
    ClockText(m.wall) + FractionText(m.micro) + OffsetText(m.offset)
  }

  /** The date and time fields are digits and the separators are in place;
      `fromisoformat` takes any character between date and time. */
  predicate ClockShape(c: string)
    requires |c| == 19
  {
    AllDigits(c[0..4]) && c[4] == '-' && AllDigits(c[5..7]) && c[7] == '-' && AllDigits(c[8..10])
    && AllDigits(c[11..13]) && c[13] == ':' && AllDigits(c[14..16]) && c[16] == ':' && AllDigits(c[17..19])
  }

  function ClockFields(c: string): (t: Timestamp)
    requires |c| == 19 && ClockShape(c)
  {
    Timestamp(DecimalValue(c[0..4]), DecimalValue(c[5..7]), DecimalValue(c[8..10]),
              DecimalValue(c[11..13]), DecimalValue(c[14..16]), DecimalValue(c[17..19]))
  }

  /** An optional `.fff` or `.ffffff`: the microseconds and the text after. */
  function ReadFraction(r: string): (p: Option<(int, string)>)
    ensures p.Some? ==> 0 <= p.value.0 < MicrosPerSecond && |p.value.1| <= |r|
  {
    assert Pow10(3) == 1000 && Pow10(6) == MicrosPerSecond;
    if |r| == 0 || r[0] != '.' then Some((0, r))
    else if |r| >= 7 && AllDigits(r[1..7]) && (|r| == 7 || !IsDigit(r[7])) then Some((DecimalValue(r[1..7]), r[7..]))
    else if |r| >= 4 && AllDigits(r[1..4]) && (|r| == 4 || !IsDigit(r[4])) then Some((1000 * DecimalValue(r[1..4]), r[4..]))
    else None
  }

  /** Nothing (a naive datetime) or a whole `+HH:MM` / `-HH:MM`. */
  function ReadOffset(r: string): (p: Option<Option<int>>)
  {
    if |r| == 0 then Some(None)
    else if |r| == 6 && (r[0] == '+' || r[0] == '-') && AllDigits(r[1..3]) && r[3] == ':' && AllDigits(r[4..6])
            && DecimalValue(r[4..6]) < 60 then
      var minutes := 60 * DecimalValue(r[1..3]) + DecimalValue(r[4..6]);
      Some(Some(if r[0] == '-' then -minutes else minutes))
    else None
  }

  /** `datetime.fromisoformat(s)` for text shaped
      `YYYY-MM-DD?HH:MM:SS[.fff|.ffffff][+HH:MM|-HH:MM]`; `None` for the
      `ValueError` it raises on bad text or an impossible date, time or
      offset. */
  function IsoParse(s: string): (r: Option<Moment>)
    ensures r.Some? ==> ValidMoment(r.value)
  {
    if |s| < 19 || !ClockShape(s[..19]) then None
    else
      match ReadFraction(s[19..])
      case None => None
      case Some((micro, rest)) =>
        match ReadOffset(rest)
        case None => None
        case Some(offset) =>
          var m := Moment(ClockFields(s[..19]), micro, offset);
          if ValidMoment(m) then Some(m) else None
  }

  lemma ClockTextShape(t: Timestamp)
    requires Valid(t)
    ensures ClockShape(ClockText(t)) && ClockFields(ClockText(t)) == t
  {
    var c := ClockText(t);
    assert c[0..4] == Pad4(t.year) && c[4] == '-' && c[5..7] == Pad2(t.month) && c[7] == '-';
    assert c[8..10] == Pad2(t.day) && c[11..13] == Pad2(t.hour) && c[13] == ':';
    assert c[14..16] == Pad2(t.minute) && c[16] == ':' && c[17..19] == Pad2(t.second);
    DecimalOfPad(t.year, 4);
    DecimalOfPad(t.month, 2);
    DecimalOfPad(t.day, 2);
    DecimalOfPad(t.hour, 2);
    DecimalOfPad(t.minute, 2);
    DecimalOfPad(t.second, 2);
  }

  lemma ReadOffsetText(offset: Option<int>)
    requires ValidOffset(offset)
    ensures ReadOffset(OffsetText(offset)) == Some(offset)
  {
    if offset.Some? {
      var o := offset.value;
      var a := if o < 0 then -o else o;
      var hv, mv := a / 60, a % 60;
      assert hv < 24 && mv < 60 && 60 * hv + mv == a;
      var sign := if o < 0 then '-' else '+';
      var h, mm := Pad2(hv), Pad2(mv);
      assert OffsetText(offset) == [sign] + h + ":" + mm;
      OffsetSlices(sign, h, mm);
      DecimalOfPad(hv, 2);
      DecimalOfPad(mv, 2);
      ReadOffsetFields(sign, h, mm);
    }
  }

  lemma ReadOffsetFields(sign: char, h: string, mm: string)
    requires sign == '+' || sign == '-'
    requires |h| == 2 && |mm| == 2 && AllDigits(h) && AllDigits(mm) && DecimalValue(mm) < 60
    ensures var minutes := 60 * DecimalValue(h) + DecimalValue(mm);
            ReadOffset([sign] + h + ":" + mm) == Some(Some(if sign == '-' then -minutes else minutes))
  {
    OffsetSlices(sign, h, mm);
  }

  lemma OffsetSlices(sign: char, h: string, mm: string)
    requires |h| == 2 && |mm| == 2
    ensures var r := [sign] + h + ":" + mm; |r| == 6 && r[0] == sign && r[1..3] == h && r[3] == ':' && r[4..6] == mm
  {
  }

  lemma ReadFractionText(micro: int, tail: string)
    requires 0 <= micro < MicrosPerSecond
    requires |tail| == 0 || tail[0] == '+' || tail[0] == '-'
    ensures ReadFraction(FractionText(micro) + tail) == Some((micro, tail))
  {
    var r := FractionText(micro) + tail;
    if micro != 0 {
      assert r[1..7] == Pad6(micro);
      assert r[7..] == tail;
      DecimalOfPad(micro, 6);
    } else {
      assert r == tail;
    }
  }

  lemma HeadTail(c: string, rest: string)
    ensures (c + rest)[..|c|] == c && (c + rest)[|c|..] == rest
  {
  }

  /** `fromisoformat` reads back what `isoformat` writes. */
  lemma IsoRoundTrip(m: Moment)
    requires ValidMoment(m)
    ensures IsoParse(IsoFormat(m)) == Some(m)
  {
    var c, f, o := ClockText(m.wall), FractionText(m.micro), OffsetText(m.offset);
    HeadTail(c, f + o);
    assert IsoFormat(m) == c + (f + o);
    ClockTextShape(m.wall);
    ReadFractionText(m.micro, o);
    ReadOffsetText(m.offset);
  }

  /** A shift by whole days moves the UTC instant of an aware datetime by
      the same amount. */
  lemma AddDaysUtc(m: Moment, days: int)
    requires ValidMoment(m) && m.offset.Some? && AddDaysTo(m, days).Ok?
    ensures UtcMicros(AddDaysTo(m, days).value) == UtcMicros(m) + days * MicrosPerDay
  {
  }
}

=== FILE: interpreter.dfy ===
/** The deterministic parts of the weekly LLM interpretation: gathering a
    site's articles with their positions, truncating and ranking them,
    cleaning the model's reply, labelling the question/answer items, and
    choosing which weeks to interpret. The model itself, JSON decoding and
    the file system are parameters. */
module Interpreter {
  import opened Wrappers
  import opened Text
  import Lists
  import opened Json

  /** One article of a site, as `interpret_site_content` flattens it. */
  datatype Article = Article(title: string, text: string, site: string, position: Option<int>)

  const MaxArticlesPerSite := 50
  const MaxParagraphs := 5
  const ParagraphBreak := "\n\n"
  const MaxChars := 1000
  /** The rank given to an article without a position. */
  const UnknownPosition := 999

  function Min(a: int, b: int): int { if a <= b then a else b }

  // ---------------------------------------------------------------------
  // Collecting a site's articles
  // ---------------------------------------------------------------------

  /** The `j`-th article of one job's list. Its position is that of the
      FIRST article of the list equal to it, so duplicates share the rank
      of their first copy. */
  function ArticleOf(site: string, day: seq<Object>, j: nat): (a: Article)
    requires j < |day|
    ensures a.site == site
    ensures a.title == Get(day[j], "title") && a.text == Get(day[j], "text")
    ensures a.position.Some? && 0 <= a.position.value <= j
    ensures day[a.position.value] == day[j]
    ensures forall i :: 0 <= i < a.position.value ==> day[i] != day[j]
  {
    Article(Get(day[j], "title"), Get(day[j], "text"), site, Some(Lists.IndexOf(day, day[j])))
  }

  function FromDay(site: string, day: seq<Object>): (r: seq<Article>)
    ensures |r| == |day|
    ensures forall j :: 0 <= j < |day| ==> r[j] == ArticleOf(site, day, j)
  {
    seq(|day|, j requires 0 <= j < |day| => ArticleOf(site, day, j))
  }

  /** Total number of articles over all job lists. */
  function Count(content: seq<seq<Object>>): nat {
    if |content| == 0 then 0 else |content[0]| + Count(content[1..])
  }

  /** The flattened articles of a site, job list by job list. */
  function Collect(site: string, content: seq<seq<Object>>): (r: seq<Article>)
    ensures |r| == Count(content)
    ensures |r| == 0 <==> forall d :: 0 <= d < |content| ==> |content[d]| == 0
    ensures forall i :: 0 <= i < |r| ==> r[i].site == site && r[i].position.Some?
  {
    if |content| == 0 then []
    else
      var rest := Collect(site, content[1..]);
      assert forall d :: 1 <= d < |content| ==> content[d] == content[1..][d - 1];
      FromDay(site, content[0]) + rest
  }

  // ---------------------------------------------------------------------
  // Truncation and ranking
  // ---------------------------------------------------------------------

  function Paragraphs(t: string): (parts: seq<string>)
    ensures |parts| >= 1
  {
    SplitOn(t, ParagraphBreak)
  }

  /** The first five paragraphs of a text; a text with no paragraph break
      is cut to its first 1000 characters instead. */
  function TruncateText(t: string): (r: string)
    ensures StartsWith(t, r)
    ensures 2 <= |Paragraphs(t)| <= MaxParagraphs ==> r == t
    ensures |Paragraphs(t)| == 1 ==> r == t[..Min(MaxChars, |t|)]
    ensures |Paragraphs(t)| > MaxParagraphs ==>
      OccursAt(t, ParagraphBreak, |r|) && Paragraphs(r) == Paragraphs(t)[..MaxParagraphs]
  {
    var parts := Paragraphs(t);
    var kept := Join(parts[..Min(MaxParagraphs, |parts|)], ParagraphBreak);
    TruncateCut(t);
    if |parts| <= 1 then kept[..Min(MaxChars, |kept|)] else kept
  }

  lemma TruncateCut(t: string)
    ensures var parts := Paragraphs(t);
      var kept := Join(parts[..Min(MaxParagraphs, |parts|)], ParagraphBreak);
      (|parts| <= MaxParagraphs ==> kept == t) &&
      (|parts| > MaxParagraphs ==> StartsWith(t, kept) && OccursAt(t, ParagraphBreak, |kept|) &&
                                   Paragraphs(kept) == parts[..MaxParagraphs])
  {
    var parts := Paragraphs(t);
    JoinSplitOn(t, ParagraphBreak);
    if |parts| > MaxParagraphs {
      JoinSplitAt(parts, ParagraphBreak, MaxParagraphs);
      SplitOnPrefix(t, ParagraphBreak, MaxParagraphs);
      var kept := Join(parts[..MaxParagraphs], ParagraphBreak);
      assert t[..|kept|] == kept;
    } else {
      assert parts[..|parts|] == parts;
    }
  }

  function Truncated(a: Article): Article {
    a.(text := TruncateText(a.text))
  }

  function TruncateAll(articles: seq<Article>): (r: seq<Article>)
    ensures |r| == |articles|
    ensures forall i :: 0 <= i < |r| ==> r[i] == Truncated(articles[i])
  {
    seq(|articles|, i requires 0 <= i < |articles| => Truncated(articles[i]))
  }

  /** The sort key: the position, with a missing one ranked at 999. */
  function Rank(a: Article): int {
    a.position.GetOr(UnknownPosition)
  }

  function Below(x: int, y: int): bool { x < y }

  function Ranked(articles: seq<Article>): (r: seq<Article>)
    ensures multiset(r) == multiset(TruncateAll(articles))
    ensures |r| == |articles|
    ensures Lists.SortedBy(r, Rank, Below)
  {
    assert |multiset(Lists.SortBy(TruncateAll(articles), Rank, Below))| == |multiset(TruncateAll(articles))|;
    Lists.SortBySorted(TruncateAll(articles), Rank, Below);
    Lists.SortBy(TruncateAll(articles), Rank, Below)
  }

  /** `_pre_process_articles`: truncate every text, stable-sort by rank and
      keep the first `maxArticles`. */
  function PreProcess(maxArticles: int, articles: seq<Article>): (r: seq<Article>)
    ensures maxArticles >= 0 ==> |r| == Min(maxArticles, |articles|)
    ensures Lists.SortedBy(r, Rank, Below)
    ensures multiset(r) <= multiset(TruncateAll(articles))
  {
    TakeRanked(Ranked(articles), maxArticles);
    Lists.Take(Ranked(articles), maxArticles)
  }

  /** A prefix of a ranked list is ranked and drawn from it. */
  lemma TakeRanked(s: seq<Article>, n: int)
    ensures Lists.SortedBy(s, Rank, Below) ==> Lists.SortedBy(Lists.Take(s, n), Rank, Below)
    ensures multiset(Lists.Take(s, n)) <= multiset(s)
  {
    var r := Lists.Take(s, n);
    assert s == r + s[|r|..];
    assert multiset(s) == multiset(r) + multiset(s[|r|..]);
  }

  /** Every selected article is the truncation of an input article. */
  lemma PreProcessFrom(maxArticles: int, articles: seq<Article>, i: int)
    requires 0 <= i < |PreProcess(maxArticles, articles)|
    ensures exists j :: 0 <= j < |articles| && PreProcess(maxArticles, articles)[i] == Truncated(articles[j])
  {
    var r := PreProcess(maxArticles, articles);
    assert r[i] in multiset(r);
    assert r[i] in multiset(TruncateAll(articles));
    var j :| 0 <= j < |articles| && TruncateAll(articles)[j] == r[i];
  }

  /** Ranks never decrease along a sorted list, not just between neighbours. */
  lemma {:induction false} SortedRanks(s: seq<Article>, i: int, j: int)
    requires Lists.SortedBy(s, Rank, Below)
    requires 0 <= i <= j < |s|
    ensures Rank(s[i]) <= Rank(s[j])
    decreases j - i
  {
    if i < j {
      SortedRanks(s, i, j - 1);
    }
  }

  /** Every kept article ranks no lower than every dropped one. */
  lemma PreProcessKeepsTop(maxArticles: int, articles: seq<Article>, i: int, j: int)
    requires 0 <= i < |PreProcess(maxArticles, articles)| <= j < |articles|
    ensures Rank(PreProcess(maxArticles, articles)[i]) <= Rank(Ranked(articles)[j])
  {
    assert PreProcess(maxArticles, articles) == Lists.Take(Ranked(articles), maxArticles);
    SortedRanks(Ranked(articles), i, j);
  }

  /** Articles of equal rank keep their input order: among the articles of
      one rank, the kept ones are a prefix of the input's. */
  lemma PreProcessStable(maxArticles: int, articles: seq<Article>, k: int)
    ensures var kept := Lists.Filter(PreProcess(maxArticles, articles), Lists.KeyIs(Rank, k));
      var all := Lists.Filter(TruncateAll(articles), Lists.KeyIs(Rank, k));
      |kept| <= |all| && all[..|kept|] == kept
  {
    var sorted := Ranked(articles);
    Lists.SortByStable(TruncateAll(articles), Rank, Below, k);
    var r := PreProcess(maxArticles, articles);
    Lists.FilterPrefix(sorted, |r|, Lists.KeyIs(Rank, k));
  }

  // ---------------------------------------------------------------------
  // The model's reply
  // ---------------------------------------------------------------------

  /** The characters the reply cleaning keeps. */
  predicate Printable(c: char) {
    c as int >= 32 || c == '\n' || c == '\r' || c == '\t'
  }

  /** Drop every control character other than newline, carriage return
      and tab. */
  function Sanitize(s: string): (r: string)
    ensures forall i :: 0 <= i < |r| ==> Printable(r[i])
    ensures (forall i :: 0 <= i < |s| ==> Printable(s[i])) ==> r == s
  {
    SanitizeClean(s);
    Lists.Filter(s, Printable)
  }

  lemma SanitizeClean(s: string)
    ensures (forall i :: 0 <= i < |s| ==> Printable(s[i])) ==> Lists.Filter(s, Printable) == s
  {
    if forall i :: 0 <= i < |s| ==> Printable(s[i]) {
      Lists.FilterAll(s, Printable);
    }
  }

  /** Sanitizing keeps exactly the printable characters, in order. */
  lemma SanitizeExact(s: string, c: char)
    ensures c in Sanitize(s) <==> c in s && Printable(c)
    ensures Lists.IsSubsequence(Sanitize(s), s)
  {
    Lists.FilterMembers(s, Printable, c);
    Lists.FilterIsSubsequence(s, Printable);
  }

  const ThinkingEnd := "</thinking>"

  /** What is handed to the JSON decoder: the whole reply when it starts
      with `[` after whitespace, otherwise everything after the first
      `</thinking>`, sanitized either way; `None` for any other reply. */
  function ReplyBody(reply: string): (r: Option<string>)
    ensures StartsWith(Strip(reply), "[") ==> r == Some(Sanitize(reply))
    ensures !StartsWith(Strip(reply), "[") ==>
      (r.Some? <==> exists i :: OccursAt(reply, ThinkingEnd, i))
    ensures !StartsWith(Strip(reply), "[") && r.Some? ==>
      exists i :: OccursAt(reply, ThinkingEnd, i)
        && (forall j :: 0 <= j < i ==> !OccursAt(reply, ThinkingEnd, j))
        && r.value == Sanitize(reply[i + |ThinkingEnd|..])
  {
    if StartsWith(Strip(reply), "[") then Some(Sanitize(reply))
    else if Contains(reply, ThinkingEnd) then
      var i := Find(reply, ThinkingEnd);
      Some(Sanitize(reply[i + |ThinkingEnd|..]))
    else
      ContainsIff(reply, ThinkingEnd);
      None
  }

  const TrailingPunctuation := {'.', '!', '?', ',', ':', ';'}

  /** `question.rstrip('.!?,:;') + '?'`. */
  function NormalizeQuestion(q: string): (r: string)
    ensures |r| >= 1 && EndsWith(r, "?")
    ensures StartsWith(q, r[..|r| - 1])
    ensures |r| == 1 || r[|r| - 2] !in TrailingPunctuation
    ensures forall i :: |r| - 1 <= i < |q| ==> q[i] in TrailingPunctuation
  {
    var stem := RStripSet(q, TrailingPunctuation);
    assert (stem + "?")[..|stem|] == stem;
    stem + "?"
  }

  lemma NormalizeIdempotent(q: string)
    ensures NormalizeQuestion(NormalizeQuestion(q)) == NormalizeQuestion(q)
  {
    var stem := RStripSet(q, TrailingPunctuation);
    if |stem| > 0 {
      RStripSetPadded(stem, "?", TrailingPunctuation);
    } else {
      assert RStripSet("?"[..0], TrailingPunctuation) == "";
    }
  }

  /** What the JSON decoder makes of a body. */
  datatype Decoded = Items(items: seq<Object>) | BadJson | Broken

  /** One decoded item with its question normalized (when it has one) and
      its site recorded. */
  function Labelled(item: Object, site: string): (r: Object)
    ensures "site" in r && r["site"] == site
    ensures "question" in r <==> "question" in item
    ensures "question" in item ==> r["question"] == NormalizeQuestion(item["question"])
    ensures forall k :: k != "site" && k != "question" ==>
      (k in r <==> k in item) && (k in item ==> r[k] == item[k])
  {
    var asked := if "question" in item then item["question" := NormalizeQuestion(item["question"])] else item;
    asked["site" := site]
  }

  function LabelAll(items: seq<Object>, site: string): (r: seq<Object>)
    ensures |r| == |items|
    ensures forall i :: 0 <= i < |r| ==> r[i] == Labelled(items[i], site)
  {
    seq(|items|, i requires 0 <= i < |items| => Labelled(items[i], site))
  }

  function Fallback(question: string, answer: string, site: string): (r: Object)
    ensures "site" in r && r["site"] == site
  {
    map["question" := question, "answer" := answer, "site" := site]
  }

  // The fallback texts are written as short pieces: the verifier's cost
  // for a string literal grows with the square of its length.

  function CouldNotProcess(site: string): Object {
    Fallback("Analysis for " + site + " could not" + " be processed",
      "Due to technical" + " limitations, the" + " analysis for " + site + " could not" + " be processed.", site)
  }

  function NotAvailable(site: string): Object {
    Fallback("Analysis for " + site + " not available",
      "The analysis for " + site + " is currently" + " unavailable due" + " to system" + " limitations.", site)
  }

  function WeeklyFallback(site: string): Object {
    Fallback("Weekly analysis" + " could not" + " be processed",
      "Due to technical" + " limitations, the" + " weekly analysis" + " could not" + " be processed" + " for this site.", site)
  }

  /** The text handed to the model for one selected article. */
  function Payload(a: Article): string {
    "<article site='" + a.site + "'>\nTITLE: " + a.title + "\nTEXT: " + a.text + "\n</article>\n"
  }

  function Payloads(articles: seq<Article>): (r: seq<string>)
    ensures |r| == |articles|
  {
    seq(|articles|, i requires 0 <= i < |articles| => Payload(articles[i]))
  }

  /** The items a non-empty decoder input yields: undecodable JSON gives
      the "could not be processed" item, any other decoding failure the
      "not available" item, and decoded items come back labelled. */
  function BodyItems(site: string, body: string, decode: string -> Decoded): (r: seq<Object>)
    ensures forall i :: 0 <= i < |r| ==> "site" in r[i] && r[i]["site"] == site
    ensures decode(body) == BadJson ==> r == [CouldNotProcess(site)]
    ensures decode(body) == Broken ==> r == [NotAvailable(site)]
    ensures decode(body).Items? ==> |r| == |decode(body).items|
    ensures decode(body).Items? ==> forall i :: 0 <= i < |r| && "question" in decode(body).items[i] ==>
      "question" in r[i] && EndsWith(r[i]["question"], "?")
  {
    match decode(body)
    case BadJson => [CouldNotProcess(site)]
    case Broken => [NotAvailable(site)]
    case Items(items) => LabelAll(items, site)
  }

  /** The items one model reply yields, before the empty-result fallback:
      a failed call gives the "not available" item and a reply with nothing
      to decode gives none. */
  function ReplyItems(site: string, reply: Result<string>, decode: string -> Decoded): (r: seq<Object>)
    ensures forall i :: 0 <= i < |r| ==> "site" in r[i] && r[i]["site"] == site
    ensures reply.Err? ==> r == [NotAvailable(site)]
    ensures reply.Ok? ==> var body := ReplyBody(reply.value);
      (body.None? || body.value == "" ==> r == []) &&
      (body.Some? && body.value != "" ==> r == BodyItems(site, body.value, decode))
  {
    match reply
    case Err(_) => [NotAvailable(site)]
    case Ok(text) =>
      var body := ReplyBody(text);
      if body.None? || body.value == "" then [] else BodyItems(site, body.value, decode)
  }

  /** What the model is shown for a site: one payload per selected article. */
  function Prompt(site: string, content: seq<seq<Object>>): seq<string> {
    Payloads(PreProcess(MaxArticlesPerSite, Collect(site, content)))
  }

  /** `interpret_site_content`. `model` stands for the LLM call on the
      payloads of the selected articles, `decode` for `json.loads`. A site
      without articles yields nothing; otherwise there is always at least
      one item, every item names the site, and an empty yield becomes the
      weekly fallback item. */
  function InterpretSite(site: string, content: seq<seq<Object>>,
                         model: seq<string> -> Result<string>, decode: string -> Decoded): (r: seq<Object>)
    ensures Count(content) == 0 <==> r == []
    ensures forall i :: 0 <= i < |r| ==> "site" in r[i] && r[i]["site"] == site
    ensures Count(content) > 0 ==>
      var items := ReplyItems(site, model(Prompt(site, content)), decode);
      (items == [] ==> r == [WeeklyFallback(site)]) && (items != [] ==> r == items)
  {
    if Count(content) == 0 then []
    else
      var results := ReplyItems(site, model(Prompt(site, content)), decode);
      if |results| == 0 then [WeeklyFallback(site)] else results
  }

  // ---------------------------------------------------------------------
  // Choosing weeks
  // ---------------------------------------------------------------------

  /** Python's truthiness of an optional list. */
  predicate Given(weeks: Option<seq<string>>) {
    weeks.Some? && |weeks.value| > 0
  }

  /** The weeks `interpret_weeks` looks at, given the weeks that have job
      directories (in directory order), the current week and the flags. */
  function SelectWeeks(available: seq<string>, current: string, currentWeekOnly: bool,
                       specific: Option<seq<string>>): (r: seq<string>)
    ensures forall i :: 0 <= i < |r| ==> r[i] in available
    ensures Lists.Distinct(available) ==> Lists.Distinct(r)
    ensures Given(specific) ==> Lists.Distinct(r)
    ensures Given(specific) ==> forall w :: w in r <==> w in specific.value && w in available
    ensures !Given(specific) && currentWeekOnly ==>
      (current in available ==> r == [current]) && (current !in available ==> r == [])
    ensures !Given(specific) && !currentWeekOnly ==> r == available
  {
    if Given(specific) then
      var present := Lists.Filter(specific.value, w => w in available);
      var r := Lists.Dedup(present);
      assert forall w :: w in r <==> w in present;
      forall w ensures w in present <==> w in specific.value && w in available {
        Lists.FilterMembers(specific.value, w => w in available, w);
      }
      r
    else if currentWeekOnly then
      if current in available then [current] else []
    else available
  }

  /** Named weeks are taken in the order they were named. */
  lemma SelectWeeksOrder(available: seq<string>, current: string, currentWeekOnly: bool,
                         specific: seq<string>, i: int, j: int)
    requires |specific| > 0
    requires 0 <= i < j < |SelectWeeks(available, current, currentWeekOnly, Some(specific))|
    ensures var r := SelectWeeks(available, current, currentWeekOnly, Some(specific));
      r[i] in specific && r[j] in specific && Lists.IndexOf(specific, r[i]) < Lists.IndexOf(specific, r[j])
  {
    var keep := (w: string) => w in available;
    var present := Lists.Filter(specific, keep);
    var r := Lists.Dedup(present);
    assert SelectWeeks(available, current, currentWeekOnly, Some(specific)) == r;
    Lists.DedupOrder(present, i, j);
    Lists.FilterIndexOrder(specific, keep, r[i], r[j]);
  }

  /** What happens to a selected week. */
  datatype WeekTask = Reuse(week: string) | Interpret(week: string)

  // ---------------------------------------------------------------------
  // Gathering a week's content
  // ---------------------------------------------------------------------

  /** What `_gather_content` gathers for one site: one list per job
      directory. */
  type SiteContent = (string, seq<seq<Object>>)

  /** `_gather_content`: for each site, one list per job directory of that
      site's clean articles there. The result is a dict, which keeps the
      place a key was first inserted, so a repeated site appears once.
      `articles(dir, site)` stands for reading the sorted
      `<site>-clean-article-*.json` files of `dir`. */
  function GatherContent(dirs: seq<string>, sites: seq<string>, articles: (string, string) -> seq<Object>)
    : (r: seq<SiteContent>)
    ensures |r| == |Lists.Dedup(sites)|
    ensures forall i :: 0 <= i < |r| ==> r[i].0 in sites && |r[i].1| == |dirs|
    ensures forall i, d :: 0 <= i < |r| && 0 <= d < |dirs| ==> r[i].1[d] == articles(dirs[d], r[i].0)
    ensures forall i :: 0 <= i < |r| ==> r[i].0 == Lists.Dedup(sites)[i]
  {
    var keys := Lists.Dedup(sites);
    seq(|keys|, i requires 0 <= i < |keys| =>
        (keys[i], seq(|dirs|, d requires 0 <= d < |dirs| => articles(dirs[d], keys[i]))))
  }

  /** Every site has its entry. */
  lemma GatherCovers(dirs: seq<string>, sites: seq<string>, articles: (string, string) -> seq<Object>, site: string)
    requires site in sites
    ensures exists i :: 0 <= i < |GatherContent(dirs, sites, articles)| && GatherContent(dirs, sites, articles)[i].0 == site
  {
    var keys := Lists.Dedup(sites);
    var k :| 0 <= k < |sites| && sites[k] == site;
    assert site in keys;
    var i :| 0 <= i < |keys| && keys[i] == site;
    assert GatherContent(dirs, sites, articles)[i].0 == site;
  }

  /** `sum([len(v) for v in all_content.values()])`: the number of per-job
      lists gathered, whatever they hold. */
  function JobLists(content: seq<SiteContent>): nat {
    if |content| == 0 then 0 else |content[0].1| + JobLists(content[1..])
  }

  /** The number of articles gathered over all sites and job directories. */
  function Articles(content: seq<SiteContent>): nat {
    if |content| == 0 then 0 else Count(content[0].1) + Articles(content[1..])
  }

  lemma {:induction false} JobListsCount(content: seq<SiteContent>, n: nat)
    requires forall i :: 0 <= i < |content| ==> |content[i].1| == n
    ensures JobLists(content) == |content| * n
  {
    if |content| > 0 {
      assert forall i :: 0 <= i < |content| - 1 ==> content[1..][i] == content[i + 1];
      JobListsCount(content[1..], n);
      assert |content| * n == n + (|content| - 1) * n;
    }
  }

  /** As written, the content test counts one list per distinct site and
      job directory, so it finds no content only when there are no sites or
      no job directories, whatever the directories hold. */
  lemma GatheredJobLists(dirs: seq<string>, sites: seq<string>, articles: (string, string) -> seq<Object>)
    ensures JobLists(GatherContent(dirs, sites, articles)) == |Lists.Dedup(sites)| * |dirs|
    ensures JobLists(GatherContent(dirs, sites, articles)) == 0 <==> |sites| == 0 || |dirs| == 0
  {
    var r := GatherContent(dirs, sites, articles);
    JobListsCount(r, |dirs|);
    var n := |Lists.Dedup(sites)|;
    if |sites| > 0 {
      assert sites[0] in Lists.Dedup(sites);
      assert n > 0;
      if |dirs| > 0 {
        assert n * |dirs| >= |dirs|;
      }
    } else {
      assert n == 0;
    }
  }

  lemma CountZero(content: seq<seq<Object>>)
    ensures Count(content) == 0 <==> forall d :: 0 <= d < |content| ==> content[d] == []
  {
    assert |Collect("", content)| == Count(content);
  }

  lemma {:induction false} ArticlesZero(content: seq<SiteContent>)
    ensures Articles(content) == 0 <==>
      forall i, d :: 0 <= i < |content| && 0 <= d < |content[i].1| ==> content[i].1[d] == []
  {
    if |content| > 0 {
      assert forall i :: 0 <= i < |content| - 1 ==> content[1..][i] == content[i + 1];
      ArticlesZero(content[1..]);
      CountZero(content[0].1);
    }
  }

  /** Counting articles, a week finds no content exactly when no site has
      an article in any of the week's job directories. */
  lemma GatheredArticles(dirs: seq<string>, sites: seq<string>, articles: (string, string) -> seq<Object>)
    ensures Articles(GatherContent(dirs, sites, articles)) == 0 <==>
      forall site, d :: site in sites && 0 <= d < |dirs| ==> articles(dirs[d], site) == []
  {
    var r := GatherContent(dirs, sites, articles);
    ArticlesZero(r);
    if Articles(r) == 0 {
      forall site, d | site in sites && 0 <= d < |dirs| ensures articles(dirs[d], site) == [] {
        GatherCovers(dirs, sites, articles, site);
        var i :| 0 <= i < |r| && r[i].0 == site;
        assert r[i].1[d] == articles(dirs[d], site);
      }
    }
  }

  // ---------------------------------------------------------------------
  // The per-week decisions
  // ---------------------------------------------------------------------

  /** The loop over the selected weeks: a week `hasContent` rejects is
      skipped; an existing weekly file is reused unless `overwrite`, and
      any other week is interpreted. */
  function Tasks(selected: seq<string>, hasContent: string -> bool,
                 fileExists: string -> bool, overwrite: bool): (r: seq<WeekTask>)
    ensures |r| <= |selected|
    ensures forall i :: 0 <= i < |r| ==> hasContent(r[i].week)
    ensures forall i :: 0 <= i < |r| ==> (r[i].Reuse? <==> fileExists(r[i].week) && !overwrite)
    ensures forall i :: 0 <= i < |r| ==> r[i].week in selected
  {
    if |selected| == 0 then []
    else
      var w := selected[0];
      var rest := Tasks(selected[1..], hasContent, fileExists, overwrite);
      assert forall v :: v in selected[1..] ==> v in selected;
      if !hasContent(w) then rest
      else
        var task := if fileExists(w) && !overwrite then Reuse(w) else Interpret(w);
        var r := [task] + rest;
        assert forall i :: 1 <= i < |r| ==> r[i] == rest[i - 1];
        r
  }

  function Weeks(tasks: seq<WeekTask>): (r: seq<string>)
    ensures |r| == |tasks|
    ensures forall i :: 0 <= i < |r| ==> r[i] == tasks[i].week
  {
    seq(|tasks|, i requires 0 <= i < |tasks| => tasks[i].week)
  }

  /** The weeks acted on are exactly the selected weeks with content, in
      the selected order. */
  lemma {:induction false} TasksOrder(selected: seq<string>, hasContent: string -> bool,
                                      fileExists: string -> bool, overwrite: bool)
    ensures Weeks(Tasks(selected, hasContent, fileExists, overwrite)) == Lists.Filter(selected, hasContent)
  {
    if |selected| > 0 {
      var w := selected[0];
      TasksOrder(selected[1..], hasContent, fileExists, overwrite);
      var rest := Tasks(selected[1..], hasContent, fileExists, overwrite);
      if hasContent(w) {
        WeeksCons(if fileExists(w) && !overwrite then Reuse(w) else Interpret(w), rest);
      }
    }
  }

  lemma WeeksCons(t: WeekTask, rest: seq<WeekTask>)
    ensures Weeks([t] + rest) == [t.week] + Weeks(rest)
  {
  }

  /** The content test as written: some per-job list was gathered for the
      week's job directories `weekDirs(w)`. */
  function HasJobLists(weekDirs: string -> seq<string>, sites: seq<string>,
                       articles: (string, string) -> seq<Object>): string -> bool {
    w => JobLists(GatherContent(weekDirs(w), sites, articles)) > 0
  }

  /** The content test as its comment describes it: some article was
      gathered. */
  function HasArticles(weekDirs: string -> seq<string>, sites: seq<string>,
                       articles: (string, string) -> seq<Object>): string -> bool {
    w => Articles(GatherContent(weekDirs(w), sites, articles)) > 0
  }

  /** The per-week decisions of `interpret_weeks` as written. */
  function WeekTasksAsWritten(selected: seq<string>, weekDirs: string -> seq<string>, sites: seq<string>,
                              articles: (string, string) -> seq<Object>, fileExists: string -> bool,
                              overwrite: bool): (r: seq<WeekTask>)
    ensures forall i :: 0 <= i < |r| ==> r[i].week in selected
    ensures forall i :: 0 <= i < |r| ==> (r[i].Reuse? <==> fileExists(r[i].week) && !overwrite)
  {
    Tasks(selected, HasJobLists(weekDirs, sites, articles), fileExists, overwrite)
  }

  /** As written, a selected week is skipped exactly when there are no
      sites or the week has no job directories, in the selected order. */
  lemma WeekTasksAsWrittenOrder(selected: seq<string>, weekDirs: string -> seq<string>, sites: seq<string>,
                                articles: (string, string) -> seq<Object>, fileExists: string -> bool, overwrite: bool)
    ensures Weeks(WeekTasksAsWritten(selected, weekDirs, sites, articles, fileExists, overwrite))
         == Lists.Filter(selected, HasJobLists(weekDirs, sites, articles))
    ensures forall w :: HasJobLists(weekDirs, sites, articles)(w) <==> |sites| > 0 && |weekDirs(w)| > 0
  {
    TasksOrder(selected, HasJobLists(weekDirs, sites, articles), fileExists, overwrite);
    forall w ensures HasJobLists(weekDirs, sites, articles)(w) <==> |sites| > 0 && |weekDirs(w)| > 0 {
      GatheredJobLists(weekDirs(w), sites, articles);
    }
  }

  /** The per-week decisions, with weeks skipped when no article was
      gathered: a week without articles is skipped, an existing weekly file
      is reused unless `overwrite`, and any other week is interpreted. */
  function WeekTasks(selected: seq<string>, weekDirs: string -> seq<string>, sites: seq<string>,
                     articles: (string, string) -> seq<Object>, fileExists: string -> bool,
                     overwrite: bool): (r: seq<WeekTask>)
    ensures |r| <= |selected|
    ensures forall i :: 0 <= i < |r| ==> Articles(GatherContent(weekDirs(r[i].week), sites, articles)) > 0
    ensures forall i :: 0 <= i < |r| ==> (r[i].Reuse? <==> fileExists(r[i].week) && !overwrite)
    ensures forall i :: 0 <= i < |r| ==> r[i].week in selected
  {
    Tasks(selected, HasArticles(weekDirs, sites, articles), fileExists, overwrite)
  }

  /** The weeks acted on are exactly the selected weeks in which some site
      has an article in some job directory, in the selected order. */
  lemma WeekTasksOrder(selected: seq<string>, weekDirs: string -> seq<string>, sites: seq<string>,
                       articles: (string, string) -> seq<Object>, fileExists: string -> bool, overwrite: bool)
    ensures Weeks(WeekTasks(selected, weekDirs, sites, articles, fileExists, overwrite))
         == Lists.Filter(selected, HasArticles(weekDirs, sites, articles))
    ensures forall w :: HasArticles(weekDirs, sites, articles)(w) <==>
      exists site, d :: site in sites && 0 <= d < |weekDirs(w)| && articles(weekDirs(w)[d], site) != []
  {
    TasksOrder(selected, HasArticles(weekDirs, sites, articles), fileExists, overwrite);
    forall w ensures HasArticles(weekDirs, sites, articles)(w) <==>
      exists site, d :: site in sites && 0 <= d < |weekDirs(w)| && articles(weekDirs(w)[d], site) != []
    {
      GatheredArticles(weekDirs(w), sites, articles);
    }
  }

  /** A week whose job directories hold no articles at all is still acted
      on as written, while counting articles skips it. */
  lemma EmptyWeekActedOn(w: string, weekDirs: string -> seq<string>, sites: seq<string>,
                         articles: (string, string) -> seq<Object>, fileExists: string -> bool, overwrite: bool)
    requires |sites| > 0 && |weekDirs(w)| > 0
    requires forall dir, site :: articles(dir, site) == []
    ensures WeekTasksAsWritten([w], weekDirs, sites, articles, fileExists, overwrite)
         == [if fileExists(w) && !overwrite then Reuse(w) else Interpret(w)]
    ensures WeekTasks([w], weekDirs, sites, articles, fileExists, overwrite) == []
  {
    JobListsOfWeek(w, weekDirs, sites, articles);
    NoArticlesOfWeek(w, weekDirs, sites, articles);
    TasksOne(w, HasJobLists(weekDirs, sites, articles), fileExists, overwrite);
    TasksOne(w, HasArticles(weekDirs, sites, articles), fileExists, overwrite);
  }

  lemma JobListsOfWeek(w: string, weekDirs: string -> seq<string>, sites: seq<string>,
                        articles: (string, string) -> seq<Object>)
    requires |sites| > 0 && |weekDirs(w)| > 0
    ensures HasJobLists(weekDirs, sites, articles)(w)
  {
    GatheredJobLists(weekDirs(w), sites, articles);
  }

  lemma NoArticlesOfWeek(w: string, weekDirs: string -> seq<string>, sites: seq<string>,
                         articles: (string, string) -> seq<Object>)
    requires forall dir, site :: articles(dir, site) == []
    ensures !HasArticles(weekDirs, sites, articles)(w)
  {
    GatheredArticles(weekDirs(w), sites, articles);
  }

  lemma TasksOne(w: string, hasContent: string -> bool, fileExists: string -> bool, overwrite: bool)
    ensures Tasks([w], hasContent, fileExists, overwrite)
         == if hasContent(w) then [if fileExists(w) && !overwrite then Reuse(w) else Interpret(w)] else []
  {
    assert [w][1..] == [];
  }
}

=== FILE: job_index.dfy ===
/** Job directories (job_dir.py): a job is named by its `YYYY-MM-DD_HHMMSS`
    timestamp and lives either in a legacy flat directory of that name or
    under `jobs/YYYY/MM/DD/HHMMSS`. Jobs are equal, hashed and ordered by
    their timestamp text alone. */
module JobIndex {
  import opened Wrappers
  import opened Text
  import opened Lists
  import opened Calendar
  import opened Timestamps
  import opened Weeks
  import opened Zones

  /** A `JobDir`: where it is stored, its timestamp text, which layout it
      uses, the UTC time the text names, and its local week key. */
  datatype JobDir = JobDir(storagePath: string, timestampStr: string, isHierarchical: bool,
                           time: Timestamp, weekKey: string)

  /** The outcome of building a `JobDir`: the job, the `ValueError` that
      rejects the path or its timestamp, or the `OverflowError` of the week
      key's time-zone conversion. */
  datatype Parsed = Job(dir: JobDir) | Invalid(message: string) | Overflow(message: string)

  /** `JobDir(storage_path, timestamp_str, is_hierarchical)`: the timestamp
      is read with `strptime`, then its week key taken in `zone`. */
  function NewJobDir(path: string, ts: string, hierarchical: bool, zone: Zone): (r: Parsed)
    ensures r.Invalid? <==> ParseCompact(ts).Err?
    ensures r.Job? ==> ParseCompact(ts) == Ok(r.dir.time) && Valid(r.dir.time)
    ensures r.Job? ==> r.dir.storagePath == path && r.dir.timestampStr == ts && r.dir.isHierarchical == hierarchical
    ensures r.Job? ==> WeekKeyAt(zone, r.dir.time) == Ok(r.dir.weekKey)
  {
    match ParseCompact(ts)
    case Err(e) => Invalid(e)
    case Ok(t) =>
      match WeekKeyAt(zone, t)
      case Err(e) => Overflow(e)
      case Ok(k) => Job(JobDir(path, ts, hierarchical, t, k))
  }

  /** `path.strip().rstrip('/')`. */
  function Normalize(path: string): string {
    RStripSet(Strip(path), {'/'})
  }

  predicate SixDigits(s: string) {
    |s| == 6 && AllDigits(s)
  }

  /** `JobDir.from_path(path)`: the path is normalised, then read by
      `Classify`. */
  function FromPath(path: string, zone: Zone): (r: Parsed)
    ensures r.Job? ==> r.dir.storagePath == Normalize(path)
    ensures r.Job? ==> (r.dir.isHierarchical <==> StartsWith(Normalize(path), "jobs/"))
  {
    Classify(Normalize(path), zone)
  }

  /** The layout test of `from_path` on a normalised path `p`: a `jobs/`
      path of five parts ending in six digits, else a legacy name, else a
      `ValueError`. */
  function Classify(p: string, zone: Zone): (r: Parsed)
    ensures r.Job? ==> r.dir.storagePath == p
    ensures r.Job? ==> Valid(r.dir.time) && ParseCompact(r.dir.timestampStr) == Ok(r.dir.time)
    ensures r.Job? ==> (r.dir.isHierarchical <==> StartsWith(p, "jobs/"))
    ensures r.Job? && !r.dir.isHierarchical ==> r.dir.timestampStr == p == FormatCompact(r.dir.time)
    ensures r.Job? && r.dir.isHierarchical ==>
              var parts := Split(p, '/');
              |parts| == 5 && SixDigits(parts[4])
              && r.dir.timestampStr == StampOf(parts[1], parts[2], parts[3], parts[4])
  {
    var parts := Split(p, '/');
    if StartsWith(p, "jobs/") && |parts| == 5 then
      if SixDigits(parts[4]) then NewJobDir(p, StampOf(parts[1], parts[2], parts[3], parts[4]), true, zone)
      else Invalid("Invalid job directory format: " + p)
    else if LegacyMatch(p) then
      LegacyLeadingDigit(p);
      assert !StartsWith(p, "jobs/") by { assert p[0] != 'j'; }
      var r := NewJobDir(p, p, false, zone);
      if r.Job? then
        LegacyCanonical(p);
        r
      else r
    else Invalid("Invalid job directory format: " + p)
  }

  /** A `jobs/` path of five parts ending in six digits is read in the
      hierarchical layout. */
  lemma ClassifyHierarchical(p: string, zone: Zone)
    requires StartsWith(p, "jobs/")
    requires var parts := Split(p, '/'); |parts| == 5 && SixDigits(parts[4])
    ensures var parts := Split(p, '/');
            Classify(p, zone) == NewJobDir(p, StampOf(parts[1], parts[2], parts[3], parts[4]), true, zone)
  {
  }

  /** A legacy name that needs no normalising is read as itself. */
  lemma ClassifyLegacy(p: string, zone: Zone)
    requires LegacyMatch(p)
    ensures Classify(p, zone) == NewJobDir(p, p, false, zone)
  {
    LegacyLeadingDigit(p);
    assert !StartsWith(p, "jobs/") by { assert p[0] != 'j'; }
  }

  // ---------------------------------------------------------------------
  // Recognising the two layouts
  // ---------------------------------------------------------------------

  /** The hierarchical path of a job time, as `get_job_dir` writes it. */
  function HierarchicalPath(t: Timestamp): string
    requires Valid(t)
  {
    "jobs/" + Pad4(t.year) + "/" + Pad2(t.month) + "/" + Pad2(t.day) + "/" + (Pad2(t.hour) + Pad2(t.minute) + Pad2(t.second))
  }

  lemma NormalizedPath(p: string)
    requires |p| > 0 && !IsSpace(p[0]) && !IsSpace(p[|p| - 1]) && p[|p| - 1] != '/'
    ensures Normalize(p) == p
  {
    StripUnpadded(p);
  }

  /** `jobs/Y/M/D/T` with `T` six digits is read as the timestamp
      `Y-M-D_T` in the hierarchical layout, stored at the path itself;
      whether it is a job then depends on that timestamp alone. */
  lemma FromPathHierarchical(y: string, m: string, d: string, tp: string, zone: Zone)
    requires '/' !in y && '/' !in m && '/' !in d && SixDigits(tp)
    ensures var p := "jobs/" + y + "/" + m + "/" + d + "/" + tp;
            FromPath(p, zone) == NewJobDir(p, StampOf(y, m, d, tp), true, zone)
  {
    var p := "jobs/" + y + "/" + m + "/" + d + "/" + tp;
    JobsPathParts(y, m, d, tp);
    assert Normalize(p) == p by {
      assert p[|p| - 1] == tp[5];
      NormalizedPath(p);
    }
    assert StartsWith(p, "jobs/") by {
      assert p[..5] == "jobs/";
    }
    ClassifyHierarchical(p, zone);
  }

  lemma JobsPathParts(y: string, m: string, d: string, tp: string)
    requires '/' !in y && '/' !in m && '/' !in d && '/' !in tp
    ensures Split("jobs/" + y + "/" + m + "/" + d + "/" + tp, '/') == ["jobs", y, m, d, tp]
  {
    var parts := ["jobs", y, m, d, tp];
    JoinFive("jobs", y, m, d, tp, "/");
    assert "jobs/" == "jobs" + "/";
    assert '/' !in parts[0];
    assert forall i :: 0 <= i < |parts| ==> '/' !in parts[i];
    SplitJoin(parts, '/');
  }

  /** A zero-padded timestamp names a legacy job stored under that name,
      whose time is the one written. */
  lemma FromPathLegacy(t: Timestamp, zone: Zone)
    requires Valid(t) && LocalDate(zone, t).Ok?
    ensures var s := FormatCompact(t);
            FromPath(s, zone) == Job(JobDir(s, s, false, t, WeekKey(LocalDate(zone, t).value)))
  {
    var s := FormatCompact(t);
    assert s[0] == Pad4(t.year)[0] && s[16] == Pad2(t.second)[1];
    NormalizedPath(s);
    LegacyAccepts(t);
    ClassifyLegacy(s, zone);
    ParseFormatCompact(t);
  }

  /** The hierarchical path of a time names the same job time. */
  lemma FromPathOfHierarchicalPath(t: Timestamp, zone: Zone)
    requires Valid(t) && LocalDate(zone, t).Ok?
    ensures var p := HierarchicalPath(t);
            FromPath(p, zone) == Job(JobDir(p, FormatCompact(t), true, t, WeekKey(LocalDate(zone, t).value)))
  {
    var tp := Pad2(t.hour) + Pad2(t.minute) + Pad2(t.second);
    assert HierarchicalPath(t) == "jobs/" + Pad4(t.year) + "/" + Pad2(t.month) + "/" + Pad2(t.day) + "/" + tp;
    FromPathHierarchical(Pad4(t.year), Pad2(t.month), Pad2(t.day), tp, zone);
    StampOfFields(t);
    ParseFormatCompact(t);
  }

  /** Surrounding whitespace and trailing slashes do not change what a
      path names. */
  lemma FromPathPadded(pre: string, path: string, slashes: string, post: string, zone: Zone)
    requires |path| > 0 && !IsSpace(path[0]) && !IsSpace(path[|path| - 1]) && path[|path| - 1] != '/'
    requires forall i :: 0 <= i < |pre| ==> IsSpace(pre[i])
    requires forall i :: 0 <= i < |slashes| ==> slashes[i] == '/'
    requires forall i :: 0 <= i < |post| ==> IsSpace(post[i])
    ensures FromPath(pre + path + slashes + post, zone) == FromPath(path, zone)
  {
    var core := path + slashes;
    assert core[0] == path[0];
    assert !IsSpace(core[|core| - 1]) by {
      if |slashes| > 0 {
        assert core[|core| - 1] == slashes[|slashes| - 1];
      }
    }
    assert pre + path + slashes + post == pre + core + post;
    StripPadded(pre, core, post);
    RStripSetPadded(path, slashes, {'/'});
    NormalizedPath(path);
    assert Normalize(pre + path + slashes + post) == Normalize(path);
  }

  /** A `jobs/` path whose last part is not six digits is rejected, with no
      second try as a legacy name. */
  lemma FromPathBadTime(path: string, zone: Zone)
    requires StartsWith(Normalize(path), "jobs/")
    requires |Split(Normalize(path), '/')| != 5 || !SixDigits(Split(Normalize(path), '/')[4])
    ensures FromPath(path, zone).Invalid?
  {
    var p := Normalize(path);
    if LegacyMatch(p) {
      LegacyLeadingDigit(p);
      assert false;
    }
    assert FromPath(path, zone) == Classify(p, zone);
  }

  // ---------------------------------------------------------------------
  // Identity and order
  // ---------------------------------------------------------------------

  /** `__eq__` (and `__hash__`): the timestamp text alone. */
  predicate SameJob(a: JobDir, b: JobDir) {
    a.timestampStr == b.timestampStr
  }

  /** `__lt__`: string order on the timestamp text. */
  predicate JobLess(a: JobDir, b: JobDir) {
    LexLess(a.timestampStr, b.timestampStr)
  }

  /** The job's timestamp text is the zero-padded form of its time, as it
      is for every legacy job and every path `get_job_dir` writes. */
  predicate Canonical(j: JobDir) {
    Valid(j.time) && j.timestampStr == FormatCompact(j.time)
  }

  /** For canonical jobs, `<` is chronological and `==` is same instant. */
  lemma CanonicalOrder(a: JobDir, b: JobDir)
    requires Canonical(a) && Canonical(b)
    ensures JobLess(a, b) <==> InstantOf(a.time) < InstantOf(b.time)
    ensures SameJob(a, b) <==> a.time == b.time
  {
    CompactOrder(a.time, b.time);
    if SameJob(a, b) {
      ParseFormatCompact(a.time);
      ParseFormatCompact(b.time);
    }
  }

  /** A legacy directory and a hierarchical one for the same instant are
      the same job, though stored in different places. */
  lemma LayoutsAgree(t: Timestamp, zone: Zone)
    requires Valid(t) && LocalDate(zone, t).Ok?
    ensures FromPath(FormatCompact(t), zone).Job? && FromPath(HierarchicalPath(t), zone).Job?
    ensures SameJob(FromPath(FormatCompact(t), zone).dir, FromPath(HierarchicalPath(t), zone).dir)
    ensures FromPath(FormatCompact(t), zone).dir.storagePath != FromPath(HierarchicalPath(t), zone).dir.storagePath
  {
    FromPathLegacy(t, zone);
    FromPathOfHierarchicalPath(t, zone);
    assert FormatCompact(t)[0] != HierarchicalPath(t)[0] by {
      assert FormatCompact(t)[0] == Pad4(t.year)[0];
    }
  }

  // ---------------------------------------------------------------------
  // list_all, find_latest
  // ---------------------------------------------------------------------

  /** `from_path` applied to every listed name. */
  function ParseAll(dirs: seq<string>, zone: Zone): (ps: seq<Parsed>)
    ensures |ps| == |dirs|
  {
    seq(|dirs|, i requires 0 <= i < |dirs| => FromPath(dirs[i], zone))
  }

  /** The listing loop of `list_all`: each name that parses becomes a job,
      a `ValueError` skips the name, an `OverflowError` escapes. */
  function Gather(ps: seq<Parsed>): (r: Result<seq<JobDir>>)
    ensures r.Ok? <==> forall i :: 0 <= i < |ps| ==> !ps[i].Overflow?
  {
    if |ps| == 0 then Ok([])
    else
      var rest := Gather(ps[1..]);
      assert forall i :: 1 <= i < |ps| ==> ps[i] == ps[1..][i - 1];
      match ps[0]
      case Overflow(e) => Err(e)
      case Invalid(_) => rest
      case Job(j) => if rest.Err? then rest else Ok([j] + rest.value)
  }

  /** The jobs gathered are exactly the ones parsed. */
  lemma {:induction false} GatherMembers(ps: seq<Parsed>, j: JobDir)
    requires Gather(ps).Ok?
    ensures j in Gather(ps).value <==> Job(j) in ps
  {
    if |ps| > 0 {
      GatherMembers(ps[1..], j);
      assert ps == [ps[0]] + ps[1..];
    }
  }

  function Collect(dirs: seq<string>, zone: Zone): Result<seq<JobDir>> {
    Gather(ParseAll(dirs, zone))
  }

  /** The jobs collected are exactly those some listed name parses to. */
  lemma CollectMembers(dirs: seq<string>, zone: Zone, j: JobDir)
    requires Collect(dirs, zone).Ok?
    ensures j in Collect(dirs, zone).value <==> exists i :: 0 <= i < |dirs| && FromPath(dirs[i], zone) == Job(j)
  {
    var ps := ParseAll(dirs, zone);
    GatherMembers(ps, j);
    assert forall i :: 0 <= i < |dirs| ==> ps[i] == FromPath(dirs[i], zone);
    ImageMembers(dirs, zone, ps, Job(j));
  }

  /** A value is among the parsed names exactly when some name parses to
      it. */
  lemma ImageMembers(dirs: seq<string>, zone: Zone, ps: seq<Parsed>, p: Parsed)
    requires |ps| == |dirs|
    requires forall i :: 0 <= i < |dirs| ==> ps[i] == FromPath(dirs[i], zone)
    ensures p in ps <==> exists i :: 0 <= i < |dirs| && FromPath(dirs[i], zone) == p
  {
    if p in ps {
      var i :| 0 <= i < |ps| && ps[i] == p;
    }
  }

  function JobKey(j: JobDir): string {
    j.timestampStr
  }

  /** `JobDir.list_all(storage)` over the storage listing `dirs`. */
  function ListAll(dirs: seq<string>, zone: Zone): (r: Result<seq<JobDir>>)
    ensures r.Ok? <==> Collect(dirs, zone).Ok?
    ensures r.Ok? ==> multiset(r.value) == multiset(Collect(dirs, zone).value)
  {
    match Collect(dirs, zone)
    case Err(e) => Err(e)
    case Ok(js) => Ok(SortBy(js, JobKey, LexLess))
  }

  /** `list_all` holds exactly the jobs the listing names, oldest first. */
  lemma ListAllSorted(dirs: seq<string>, zone: Zone)
    requires ListAll(dirs, zone).Ok?
    ensures SortedBy(ListAll(dirs, zone).value, JobKey, LexLess)
    ensures forall j :: j in ListAll(dirs, zone).value <==> exists i :: 0 <= i < |dirs| && FromPath(dirs[i], zone) == Job(j)
  {
    var js := Collect(dirs, zone).value;
    forall i, j | 0 <= i < |js| && 0 <= j < |js| && LexLess(JobKey(js[i]), JobKey(js[j]))
      ensures !LexLess(JobKey(js[j]), JobKey(js[i]))
    {
      LexLessAsymmetric(JobKey(js[i]), JobKey(js[j]));
    }
    SortBySorted(js, JobKey, LexLess);
    var r := ListAll(dirs, zone).value;
    forall j ensures j in r <==> exists i :: 0 <= i < |dirs| && FromPath(dirs[i], zone) == Job(j) {
      assert j in r <==> j in multiset(r);
      CollectMembers(dirs, zone, j);
    }
  }

  /** Jobs with the same timestamp keep their listing order. */
  lemma ListAllStable(dirs: seq<string>, zone: Zone, ts: string)
    requires ListAll(dirs, zone).Ok?
    ensures Filter(ListAll(dirs, zone).value, KeyIs(JobKey, ts)) == Filter(Collect(dirs, zone).value, KeyIs(JobKey, ts))
  {
    var js := Collect(dirs, zone).value;
    forall i | 0 <= i < |js| ensures !LexLess(JobKey(js[i]), JobKey(js[i])) {
      LexLessIrreflexive(JobKey(js[i]));
    }
    SortByStable(js, JobKey, LexLess, ts);
  }

  /** `JobDir.find_latest(storage)`. */
  function FindLatest(dirs: seq<string>, zone: Zone): (r: Result<Option<JobDir>>)
    ensures r.Ok? <==> ListAll(dirs, zone).Ok?
    ensures r.Ok? ==> (r.value.None? <==> |ListAll(dirs, zone).value| == 0)
  {
    match ListAll(dirs, zone)
    case Err(e) => Err(e)
    case Ok(js) => Ok(if |js| > 0 then Some(js[|js| - 1]) else None)
  }

  /** In a list sorted by timestamp text, every job's text is at most the
      last one's. */
  lemma {:induction false} UpToLast(js: seq<JobDir>, i: nat)
    requires SortedBy(js, JobKey, LexLess) && i < |js|
    ensures LexLessEq(js[i].timestampStr, js[|js| - 1].timestampStr)
    decreases |js| - i
  {
    if i < |js| - 1 {
      UpToLast(js, i + 1);
      var a, b, c := js[i].timestampStr, js[i + 1].timestampStr, js[|js| - 1].timestampStr;
      assert !LexLess(b, a);
      if a != b {
        LexLessTotal(a, b);
        if b != c {
          LexLessTransitive(a, b, c);
        }
      }
    }
  }

  /** In a list sorted by timestamp text, no job is later than the last. */
  lemma LastIsLatest(js: seq<JobDir>)
    requires |js| > 0 && SortedBy(js, JobKey, LexLess)
    ensures forall k :: k in js ==> !JobLess(js[|js| - 1], k)
  {
    forall k | k in js ensures !JobLess(js[|js| - 1], k) {
      var i :| 0 <= i < |js| && js[i] == k;
      UpToLast(js, i);
      var a, c := js[i].timestampStr, js[|js| - 1].timestampStr;
      if a == c {
        LexLessIrreflexive(a);
      } else {
        LexLessAsymmetric(a, c);
      }
    }
  }

  /** `find_latest` is a listed job that no other listed job is later
      than, and there is none exactly when nothing parses. */
  lemma FindLatestIsLatest(dirs: seq<string>, zone: Zone)
    requires FindLatest(dirs, zone).Ok? && FindLatest(dirs, zone).value.Some?
    ensures var j := FindLatest(dirs, zone).value.value;
            (exists i :: 0 <= i < |dirs| && FromPath(dirs[i], zone) == Job(j))
            && forall k :: k in ListAll(dirs, zone).value ==> !JobLess(j, k)
  {
    var js := ListAll(dirs, zone).value;
    assert FindLatest(dirs, zone) == Ok(Some(js[|js| - 1]));
    ListAllSorted(dirs, zone);
    ListedLatest(dirs, zone, js);
  }

  lemma ListedLatest(dirs: seq<string>, zone: Zone, js: seq<JobDir>)
    requires |js| > 0 && SortedBy(js, JobKey, LexLess)
    requires forall j :: j in js <==> exists i :: 0 <= i < |dirs| && FromPath(dirs[i], zone) == Job(j)
    ensures exists i :: 0 <= i < |dirs| && FromPath(dirs[i], zone) == Job(js[|js| - 1])
    ensures forall k :: k in js ==> !JobLess(js[|js| - 1], k)
  {
    assert js[|js| - 1] in js;
    LastIsLatest(js);
  }

  // ---------------------------------------------------------------------
  // group_by_week
  // ---------------------------------------------------------------------

  function WeekOf(j: JobDir): string {
    j.weekKey
  }

  /** A dict from week key to jobs, with its keys in insertion order. */
  datatype WeekGroups = WeekGroups(order: seq<string>, buckets: map<string, seq<JobDir>>)

  /** The week key of every job, in job order. */
  function WeekKeys(jobs: seq<JobDir>): (ks: seq<string>)
    ensures |ks| == |jobs| && forall i :: 0 <= i < |jobs| ==> ks[i] == jobs[i].weekKey
  {
    seq(|jobs|, i requires 0 <= i < |jobs| => jobs[i].weekKey)
  }

  /** `JobDir.group_by_week(job_dirs)`: the loop, one job at a time. The
      dict's keys are the jobs' week keys, each once, in the order they
      first appear. */
  function GroupByWeek(jobs: seq<JobDir>): (g: WeekGroups)
    ensures forall k :: k in g.buckets <==> k in g.order
    ensures Distinct(g.order)
  {
    if |jobs| == 0 then WeekGroups([], map[])
    else
      var prev := GroupByWeek(jobs[..|jobs| - 1]);
      var j := jobs[|jobs| - 1];
      WeekGroups(AppendNew(prev.order, j.weekKey), AddToBucket(prev.buckets, j))
  }

  /** The dict's keys are the distinct week keys in order of first
      appearance, the same list `Dedup` gives. */
  lemma {:induction false} GroupByWeekOrder(jobs: seq<JobDir>)
    ensures GroupByWeek(jobs).order == Dedup(WeekKeys(jobs))
  {
    if |jobs| > 0 {
      var init := jobs[..|jobs| - 1];
      GroupByWeekOrder(init);
      assert WeekKeys(jobs)[..|jobs| - 1] == WeekKeys(init);
    }
  }

  /** `groups.setdefault(week_key, []).append(job)`. */
  function AddToBucket(buckets: map<string, seq<JobDir>>, j: JobDir): map<string, seq<JobDir>> {
    var bucket := if j.weekKey in buckets then buckets[j.weekKey] else [];
    buckets[j.weekKey := bucket + [j]]
  }

  /** Every job is in exactly the bucket of its week key, buckets keep the
      input order, and no bucket is empty. */
  lemma {:induction false} GroupByWeekBuckets(jobs: seq<JobDir>)
    ensures var g := GroupByWeek(jobs);
            (forall k :: k in g.buckets ==> g.buckets[k] == Filter(jobs, KeyIs(WeekOf, k)) && |g.buckets[k]| > 0)
            && (forall i :: 0 <= i < |jobs| ==> jobs[i].weekKey in g.buckets)
  {
    if |jobs| > 0 {
      var init := jobs[..|jobs| - 1];
      var j := jobs[|jobs| - 1];
      GroupByWeekBuckets(init);
      assert jobs == init + [j];
      var g := GroupByWeek(jobs);
      var prev := GroupByWeek(init);
      assert g.buckets == AddToBucket(prev.buckets, j);
      forall k | k in g.buckets
        ensures g.buckets[k] == Filter(jobs, KeyIs(WeekOf, k)) && |g.buckets[k]| > 0
      {
        GroupStep(init, j, k, prev.buckets);
      }
      forall i | 0 <= i < |jobs| ensures jobs[i].weekKey in g.buckets {
        if i < |jobs| - 1 {
          assert jobs[i] == init[i];
        }
      }
    }
  }

  /** One step of the loop: appending `j` extends `j`'s bucket and leaves
      the others as they were. */
  lemma GroupStep(init: seq<JobDir>, j: JobDir, k: string, buckets: map<string, seq<JobDir>>)
    requires forall k :: k in buckets ==> buckets[k] == Filter(init, KeyIs(WeekOf, k))
    requires forall i :: 0 <= i < |init| ==> init[i].weekKey in buckets
    requires k in AddToBucket(buckets, j)
    ensures AddToBucket(buckets, j)[k] == Filter(init + [j], KeyIs(WeekOf, k))
  {
    var keep := KeyIs(WeekOf, k);
    FilterConcat(init, [j], keep);
    FilterSingle(j, keep);
    var r := AddToBucket(buckets, j);
    if k == j.weekKey {
      var was := if k in buckets then buckets[k] else [];
      assert was == Filter(init, keep) by {
        if k !in buckets {
          NoneInWeek(init, k, buckets);
        }
      }
      assert keep(j);
      assert r[k] == was + [j];
      assert Filter(init + [j], keep) == was + [j];
    } else {
      assert !keep(j);
      assert r[k] == buckets[k];
      assert Filter(init + [j], keep) == Filter(init, keep) + [];
    }
  }

  lemma NoneInWeek(init: seq<JobDir>, k: string, buckets: map<string, seq<JobDir>>)
    requires forall i :: 0 <= i < |init| ==> init[i].weekKey in buckets
    requires k !in buckets
    ensures Filter(init, KeyIs(WeekOf, k)) == []
  {
    var f := Filter(init, KeyIs(WeekOf, k));
    if |f| > 0 {
      FilterMembers(init, KeyIs(WeekOf, k), f[0]);
      assert false;
    }
  }
}

=== FILE: json.dfy ===
/** JSON objects as the model sees them: string keys and string values. */
module Json {

  /** A decoded JSON object whose values are all strings. */
  type Object = map<string, string>

  /** `d.get(key, '')`. */
  function Get(d: Object, key: string): string {
    if key in d then d[key] else ""
  }
}

=== FILE: lists.dfy ===
/** Order-keeping list operations used throughout the model: list
    comprehension filters, the subsequence relation, appending without
    duplicates, and the stable sort that Python's `list.sort` and `sorted`
    perform. */
module Lists {

  // ---------------------------------------------------------------------
  // Subsequences and filters
  // ---------------------------------------------------------------------

  /** `a` is `b` with some elements left out, in the same order. */
  predicate IsSubsequence<T(==)>(a: seq<T>, b: seq<T>)
    decreases |b|
  {
    if |a| == 0 then true
    else if |b| == 0 then false
    else if a[0] == b[0] then IsSubsequence(a[1..], b[1..])
    else IsSubsequence(a, b[1..])
  }

  /** `[x for x in s if keep(x)]`. */
  function Filter<T>(s: seq<T>, keep: T -> bool): (r: seq<T>)
    ensures |r| <= |s|
    ensures forall i :: 0 <= i < |r| ==> keep(r[i])
  {
    if |s| == 0 then []
    else (if keep(s[0]) then [s[0]] else []) + Filter(s[1..], keep)
  }

  /** An element survives the filter exactly when it was there and passes. */
  lemma {:induction false} FilterMembers<T>(s: seq<T>, keep: T -> bool, x: T)
    ensures x in Filter(s, keep) <==> x in s && keep(x)
  {
    if |s| > 0 {
      FilterMembers(s[1..], keep, x);
      assert s == [s[0]] + s[1..];
    }
  }

  /** Any reordering of a filter holds what the filter holds. */
  lemma FilterPermutationMembers<T>(r: seq<T>, s: seq<T>, keep: T -> bool, x: T)
    requires multiset(r) == multiset(Filter(s, keep))
    ensures x in r <==> x in s && keep(x)
  {
    assert x in r <==> x in multiset(r);
    assert x in Filter(s, keep) <==> x in multiset(Filter(s, keep));
    FilterMembers(s, keep, x);
  }

  lemma {:induction false} SubsequenceCons<T>(x: T, a: seq<T>, b: seq<T>)
    requires IsSubsequence(a, b)
    ensures IsSubsequence(a, [x] + b)
    decreases |b|, 1
  {
    var xb := [x] + b;
    assert xb[1..] == b;
    if |a| > 0 && a[0] == x {
      SubsequenceDropHead(a, b);
    }
  }

  lemma {:induction false} SubsequenceDropHead<T>(a: seq<T>, b: seq<T>)
    requires |a| > 0 && IsSubsequence(a, b)
    ensures IsSubsequence(a[1..], b)
    decreases |b|, 0
  {
    if |b| > 0 {
      if a[0] == b[0] {
        SubsequenceCons(b[0], a[1..], b[1..]);
        assert [b[0]] + b[1..] == b;
      } else {
        SubsequenceDropHead(a, b[1..]);
        SubsequenceCons(b[0], a[1..], b[1..]);
        assert [b[0]] + b[1..] == b;
      }
    }
  }

  lemma {:induction false} SubsequencePrepend<T>(p: seq<T>, a: seq<T>, b: seq<T>)
    requires IsSubsequence(a, b)
    ensures IsSubsequence(a, p + b)
    decreases |p|
  {
    if |p| > 0 {
      SubsequencePrepend(p[1..], a, b);
      SubsequenceCons(p[0], a, p[1..] + b);
      assert [p[0]] + (p[1..] + b) == p + b;
    } else {
      assert p + b == b;
    }
  }

  /** One element taken from `pre`, then a subsequence of `post`. */
  lemma {:induction false} SubsequenceHead<T>(x: T, a: seq<T>, pre: seq<T>, post: seq<T>)
    requires x in pre && IsSubsequence(a, post)
    ensures IsSubsequence([x] + a, pre + post)
    decreases |pre|
  {
    var xa, b := [x] + a, pre + post;
    assert xa[1..] == a && b[1..] == pre[1..] + post;
    if pre[0] == x {
      SubsequencePrepend(pre[1..], a, post);
    } else {
      SubsequenceHead(x, a, pre[1..], post);
    }
  }

  /** Filtering keeps the order of what it keeps. */
  lemma {:induction false} FilterIsSubsequence<T>(s: seq<T>, keep: T -> bool)
    ensures IsSubsequence(Filter(s, keep), s)
  {
    if |s| > 0 {
      var rest := Filter(s[1..], keep);
      FilterIsSubsequence(s[1..], keep);
      if keep(s[0]) {
        assert Filter(s, keep) == [s[0]] + rest;
        assert ([s[0]] + rest)[1..] == rest;
      } else {
        assert Filter(s, keep) == rest;
        SubsequenceCons(s[0], rest, s[1..]);
        assert [s[0]] + s[1..] == s;
      }
    }
  }

  lemma {:induction false} FilterConcat<T>(a: seq<T>, b: seq<T>, keep: T -> bool)
    ensures Filter(a + b, keep) == Filter(a, keep) + Filter(b, keep)
  {
    if |a| > 0 {
      FilterConcat(a[1..], b, keep);
      assert (a + b)[1..] == a[1..] + b;
    } else {
      assert a + b == b;
    }
  }

  lemma FilterSingle<T>(x: T, keep: T -> bool)
    ensures Filter([x], keep) == if keep(x) then [x] else []
  {
    assert [x][1..] == [];
  }

  /** The first position whose element satisfies `p`. */
  function FirstWhere<T>(s: seq<T>, p: T -> bool): (i: nat)
    requires exists k :: 0 <= k < |s| && p(s[k])
    ensures i < |s| && p(s[i])
    ensures forall k :: 0 <= k < i ==> !p(s[k])
  {
    if p(s[0]) then 0
    else
      assert forall k :: 1 <= k < |s| ==> s[k] == s[1..][k - 1];
      1 + FirstWhere(s[1..], p)
  }

  /** The index of the last element satisfying `p`, or -1 when there is
      none. */
  function LastWhere<T>(s: seq<T>, p: T -> bool): (i: int)
    ensures -1 <= i < |s| && (i >= 0 ==> p(s[i]))
    ensures forall k :: i < k < |s| ==> !p(s[k])
  {
    if |s| == 0 then -1
    else if p(s[|s| - 1]) then |s| - 1
    else
      assert forall k :: 0 <= k < |s| - 1 ==> s[..|s| - 1][k] == s[k];
      LastWhere(s[..|s| - 1], p)
  }

  /** Lists that agree on `p` everywhere have the same last match. */
  lemma {:induction false} LastWhereSame<T>(a: seq<T>, b: seq<T>, p: T -> bool)
    requires |a| == |b| && forall k :: 0 <= k < |a| ==> p(a[k]) == p(b[k])
    ensures LastWhere(a, p) == LastWhere(b, p)
    decreases |a|
  {
    if |a| > 0 && !p(a[|a| - 1]) {
      var n := |a| - 1;
      assert forall k :: 0 <= k < n ==> a[..n][k] == a[k] && b[..n][k] == b[k];
      LastWhereSame(a[..n], b[..n], p);
    }
  }

  /** Python's `s[:n]`, where a negative `n` counts from the end. */
  function Take<T>(s: seq<T>, n: int): (r: seq<T>)
    ensures 0 <= n <= |s| ==> |r| == n
    ensures n > |s| ==> |r| == |s|
    ensures n < 0 ==> |r| == if |s| + n < 0 then 0 else |s| + n
    ensures r == s[..|r|]
  {
    if n > |s| then s
    else if n >= 0 then s[..n]
    else if |s| + n < 0 then []
    else s[..|s| + n]
  }

  /** Filtering a prefix gives a prefix of the filtered whole. */
  lemma FilterPrefix<T>(s: seq<T>, n: nat, keep: T -> bool)
    requires n <= |s|
    ensures |Filter(s[..n], keep)| <= |Filter(s, keep)|
    ensures Filter(s, keep)[..|Filter(s[..n], keep)|] == Filter(s[..n], keep)
  {
    assert s == s[..n] + s[n..];
    FilterConcat(s[..n], s[n..], keep);
  }

  /** Filtering keeps the relative order of first appearances. */
  lemma {:induction false} FilterIndexOrder<T>(s: seq<T>, keep: T -> bool, x: T, y: T)
    requires x in Filter(s, keep) && y in Filter(s, keep)
    requires IndexOf(Filter(s, keep), x) < IndexOf(Filter(s, keep), y)
    ensures x in s && y in s && IndexOf(s, x) < IndexOf(s, y)
  {
    FilterMembers(s, keep, x);
    FilterMembers(s, keep, y);
    var f, rest := Filter(s, keep), Filter(s[1..], keep);
    if keep(s[0]) {
      assert f == [s[0]] + rest;
      if x != s[0] {
        assert y != s[0];
        assert IndexOf(f, x) == 1 + IndexOf(rest, x);
        assert IndexOf(f, y) == 1 + IndexOf(rest, y);
        FilterIndexOrder(s[1..], keep, x, y);
      }
    } else {
      assert f == rest;
      FilterIndexOrder(s[1..], keep, x, y);
    }
  }

  /** A filter every element passes keeps the whole list. */
  lemma {:induction false} FilterAll<T>(s: seq<T>, keep: T -> bool)
    requires forall i :: 0 <= i < |s| ==> keep(s[i])
    ensures Filter(s, keep) == s
  {
    if |s| > 0 {
      FilterAll(s[1..], keep);
      assert s == [s[0]] + s[1..];
    }
  }

  /** Python's `s.index(x)`: the first position holding `x`. */
  function IndexOf<T(==)>(s: seq<T>, x: T): (i: int)
    requires x in s
    ensures 0 <= i < |s| && s[i] == x && x !in s[..i]
  {
    if s[0] == x then 0
    else
      var i := IndexOf(s[1..], x) + 1;
      assert s[..i] == [s[0]] + s[1..][..i - 1];
      i
  }

  // ---------------------------------------------------------------------
  // Appending without duplicates
  // ---------------------------------------------------------------------

  /** A subset is no larger than its superset. */
  lemma {:induction false} SubsetSize<T>(a: set<T>, b: set<T>)
    requires a <= b
    ensures |a| <= |b|
    decreases |a|
  {
    if a != {} {
      var x :| x in a;
      SubsetSize(a - {x}, b - {x});
    }
  }

  predicate Distinct<T(==)>(s: seq<T>) {
    forall i, j :: 0 <= i < j < |s| ==> s[i] != s[j]
  }

  /** `if x not in s: s.append(x)`. */
  function AppendNew<T(==)>(s: seq<T>, x: T): (r: seq<T>)
    ensures x in r && forall i :: 0 <= i < |r| ==> r[i] in s || r[i] == x
    ensures Distinct(s) ==> Distinct(r)
    ensures IsSubsequence(s, r)
    ensures |s| <= |r| <= |s| + 1 && r[..|s|] == s
    ensures forall i :: 0 <= i < |s| ==> s[i] in r
  {
    if x in s then
      SubsequenceRefl(s);
      s
    else
      SubsequenceAppend(s, [x]);
      s + [x]
  }

  /** The distinct elements of `s` in order of first appearance: the list
      `if x not in r: r.append(x)` builds over `s`. */
  function Dedup<T(==)>(s: seq<T>): (r: seq<T>)
    ensures Distinct(r)
    ensures forall i :: 0 <= i < |r| ==> r[i] in s
    ensures forall i :: 0 <= i < |s| ==> s[i] in r
  {
    if |s| == 0 then [] else AppendNew(Dedup(s[..|s| - 1]), s[|s| - 1])
  }

  /** `Dedup` lists elements in the order they first appear in `s`. */
  lemma {:induction false} DedupOrder<T>(s: seq<T>, i: int, j: int)
    requires 0 <= i < j < |Dedup(s)|
    ensures IndexOf(s, Dedup(s)[i]) < IndexOf(s, Dedup(s)[j])
    decreases |s|
  {
    var init, x := s[..|s| - 1], s[|s| - 1];
    assert s == init + [x];
    var d := Dedup(init);
    var a, b := Dedup(s)[i], Dedup(s)[j];
    assert Dedup(s) == AppendNew(d, x);
    if j < |d| {
      DedupOrder(init, i, j);
      IndexOfAppend(init, x, a);
      IndexOfAppend(init, x, b);
    } else {
      assert b == x && x !in d && a in d;
      IndexOfAppend(init, x, a);
      IndexOfLast(init, x);
    }
  }

  lemma IndexOfAppend<T>(s: seq<T>, x: T, y: T)
    requires y in s
    ensures IndexOf(s + [x], y) == IndexOf(s, y)
  {
    var i, k := IndexOf(s, y), IndexOf(s + [x], y);
    assert (s + [x])[..|s|] == s;
  }

  lemma IndexOfLast<T>(s: seq<T>, x: T)
    requires x !in s
    ensures IndexOf(s + [x], x) == |s|
  {
    var k := IndexOf(s + [x], x);
    assert forall j :: 0 <= j < |s| ==> (s + [x])[j] == s[j];
  }

  lemma {:induction false} SubsequenceRefl<T>(s: seq<T>)
    ensures IsSubsequence(s, s)
  {
    if |s| > 0 {
      SubsequenceRefl(s[1..]);
    }
  }

  lemma {:induction false} SubsequenceAppend<T>(s: seq<T>, extra: seq<T>)
    ensures IsSubsequence(s, s + extra)
  {
    if |s| > 0 {
      SubsequenceAppend(s[1..], extra);
      assert (s + extra)[1..] == s[1..] + extra;
    }
  }

  // ---------------------------------------------------------------------
  // Stable sorting
  // ---------------------------------------------------------------------

  /** No element compares below the one before it. */
  predicate SortedBy<T, K>(s: seq<T>, key: T -> K, less: (K, K) -> bool) {
    forall i :: 0 < i < |s| ==> !less(key(s[i]), key(s[i - 1]))
  }

  /** `x` goes in front of the first element that is not below it, so it
      stays ahead of the elements it ties with. */
  function Insert<T, K>(x: T, t: seq<T>, key: T -> K, less: (K, K) -> bool): (r: seq<T>)
    ensures |r| == |t| + 1
    ensures r[0] == x || (|t| > 0 && r[0] == t[0])
    ensures multiset(r) == multiset(t) + multiset{x}
  {
    if |t| == 0 then [x]
    else if less(key(t[0]), key(x)) then
      var rest := Insert(x, t[1..], key, less);
      assert t == [t[0]] + t[1..];
      [t[0]] + rest
    else [x] + t
  }

  /** `sorted(s, key=key)` with the comparison `less`: a stable insertion
      sort, which for a strict weak order gives the same list as Python's
      Timsort. */
  function SortBy<T, K>(s: seq<T>, key: T -> K, less: (K, K) -> bool): (r: seq<T>)
    ensures multiset(r) == multiset(s)
  {
    if |s| == 0 then []
    else
      assert s == [s[0]] + s[1..];
      Insert(s[0], SortBy(s[1..], key, less), key, less)
  }

  /** `less` never holds both ways between keys of `s`. */
  predicate AsymmetricOn<T, K>(s: seq<T>, key: T -> K, less: (K, K) -> bool) {
    forall i, j :: 0 <= i < |s| && 0 <= j < |s| && less(key(s[i]), key(s[j])) ==> !less(key(s[j]), key(s[i]))
  }

  lemma {:induction false} InsertSorted<T, K>(x: T, t: seq<T>, key: T -> K, less: (K, K) -> bool)
    requires SortedBy(t, key, less)
    requires forall j :: 0 <= j < |t| && less(key(t[j]), key(x)) ==> !less(key(x), key(t[j]))
    ensures SortedBy(Insert(x, t, key, less), key, less)
  {
    if |t| > 0 && less(key(t[0]), key(x)) {
      var rest := Insert(x, t[1..], key, less);
      InsertSorted(x, t[1..], key, less);
      var r := [t[0]] + rest;
      assert r == Insert(x, t, key, less);
      forall i | 0 < i < |r|
        ensures !less(key(r[i]), key(r[i - 1]))
      {
        if i > 1 {
          assert r[i] == rest[i - 1] && r[i - 1] == rest[i - 2];
        } else if rest[0] != x {
          assert rest[0] == t[1];
        }
      }
    }
  }

  /** The sort's output is in order whenever the comparison is asymmetric on
      the input. */
  lemma {:induction false} SortBySorted<T, K>(s: seq<T>, key: T -> K, less: (K, K) -> bool)
    requires AsymmetricOn(s, key, less)
    ensures SortedBy(SortBy(s, key, less), key, less)
  {
    if |s| > 0 {
      var t := SortBy(s[1..], key, less);
      assert AsymmetricOn(s[1..], key, less) by {
        forall i, j | 0 <= i < |s| - 1 && 0 <= j < |s| - 1 && less(key(s[1..][i]), key(s[1..][j]))
          ensures !less(key(s[1..][j]), key(s[1..][i]))
        {
          assert s[1..][i] == s[i + 1] && s[1..][j] == s[j + 1];
        }
      }
      SortBySorted(s[1..], key, less);
      forall j | 0 <= j < |t| && less(key(t[j]), key(s[0]))
        ensures !less(key(s[0]), key(t[j]))
      {
        assert t[j] in multiset(s[1..]);
        var k :| 0 <= k < |s[1..]| && s[1..][k] == t[j];
        assert s[k + 1] == t[j];
      }
      InsertSorted(s[0], t, key, less);
    }
  }

  /** The filter keeping the elements whose key is `k`. */
  function KeyIs<T, K(==)>(key: T -> K, k: K): T -> bool {
    y => key(y) == k
  }

  /** Inserting an element of another key leaves a key's run untouched. */
  lemma {:induction false} InsertOtherKey<T, K>(x: T, t: seq<T>, key: T -> K, less: (K, K) -> bool, k: K)
    requires key(x) != k
    ensures Filter(Insert(x, t, key, less), KeyIs(key, k)) == Filter(t, KeyIs(key, k))
  {
    if |t| > 0 && less(key(t[0]), key(x)) {
      InsertOtherKey(x, t[1..], key, less, k);
      assert ([t[0]] + Insert(x, t[1..], key, less))[1..] == Insert(x, t[1..], key, less);
    } else if |t| > 0 {
      assert ([x] + t)[1..] == t;
    }
  }

  /** Inserting an element of key `k` puts it at the head of `k`'s run,
      provided no key compares below itself. */
  lemma {:induction false} InsertSameKey<T, K>(x: T, t: seq<T>, key: T -> K, less: (K, K) -> bool)
    requires !less(key(x), key(x))
    ensures Filter(Insert(x, t, key, less), KeyIs(key, key(x))) == [x] + Filter(t, KeyIs(key, key(x)))
  {
    var k := key(x);
    if |t| > 0 && less(key(t[0]), k) {
      assert key(t[0]) != k;
      InsertSameKey(x, t[1..], key, less);
      assert ([t[0]] + Insert(x, t[1..], key, less))[1..] == Insert(x, t[1..], key, less);
    } else if |t| > 0 {
      assert ([x] + t)[1..] == t;
    }
  }

  /** Stability: the elements sharing a key come out in their input order. */
  lemma {:induction false} SortByStable<T, K>(s: seq<T>, key: T -> K, less: (K, K) -> bool, k: K)
    requires forall i :: 0 <= i < |s| ==> !less(key(s[i]), key(s[i]))
    ensures Filter(SortBy(s, key, less), KeyIs(key, k)) == Filter(s, KeyIs(key, k))
  {
    if |s| > 0 {
      var t := SortBy(s[1..], key, less);
      SortByStable(s[1..], key, less, k);
      if key(s[0]) == k {
        InsertSameKey(s[0], t, key, less);
      } else {
        InsertOtherKey(s[0], t, key, less, k);
      }
    }
  }

  // ---------------------------------------------------------------------
  // Flattening
  // ---------------------------------------------------------------------

  /** The lists of `ss` one after another. */
  function Flatten<T>(ss: seq<seq<T>>): seq<T> {
    if |ss| == 0 then [] else ss[0] + Flatten(ss[1..])
  }

  /** `f` applied to every element, the results one after another:
      `[y for x in s for y in f(x)]`. */
  function FlatMap<A, B>(s: seq<A>, f: A -> seq<B>): seq<B> {
    if |s| == 0 then [] else f(s[0]) + FlatMap(s[1..], f)
  }

  lemma FlatMapStep<A, B>(s: seq<A>, f: A -> seq<B>, head: seq<B>)
    requires |s| > 0 && f(s[0]) == head
    ensures FlatMap(s, f) == head + FlatMap(s[1..], f)
  {
  }

  lemma FilterStep<T>(s: seq<T>, keep: T -> bool, b: bool)
    requires |s| > 0 && keep(s[0]) == b
    ensures Filter(s, keep) == (if b then [s[0]] else []) + Filter(s[1..], keep)
  {
  }

  /** An element is in the result exactly when some element's list holds
      it. */
  lemma {:induction false} FlatMapMembers<A, B>(s: seq<A>, f: A -> seq<B>, y: B)
    ensures y in FlatMap(s, f) <==> exists i :: 0 <= i < |s| && y in f(s[i])
  {
    if |s| > 0 {
      FlatMapMembers(s[1..], f, y);
      if y in FlatMap(s, f) && y !in f(s[0]) {
        var i :| 0 <= i < |s[1..]| && y in f(s[1..][i]);
        assert s[1..][i] == s[i + 1];
      }
      if exists i :: 0 <= i < |s| && y in f(s[i]) {
        var i :| 0 <= i < |s| && y in f(s[i]);
        if i > 0 {
          assert s[1..][i - 1] == s[i];
        }
      }
    }
  }

  /** Flattening per-element lists that are themselves flattened over `ys`:
      an element is found exactly when some pair holds it. */
  lemma FlatMapNested<A, B, C>(xs: seq<A>, ys: seq<B>, outer: A -> seq<C>, inner: A -> B -> seq<C>, c: C)
    requires forall x :: x in xs ==> outer(x) == FlatMap(ys, inner(x))
    ensures c in FlatMap(xs, outer) <==> exists x, y :: x in xs && y in ys && c in inner(x)(y)
  {
    FlatMapMembers(xs, outer, c);
    if c in FlatMap(xs, outer) {
      var i :| 0 <= i < |xs| && c in outer(xs[i]);
      assert xs[i] in xs;
      FlatMapMembers(ys, inner(xs[i]), c);
      var k :| 0 <= k < |ys| && c in inner(xs[i])(ys[k]);
      assert ys[k] in ys;
    }
    if exists x, y :: x in xs && y in ys && c in inner(x)(y) {
      var x, y :| x in xs && y in ys && c in inner(x)(y);
      var i :| 0 <= i < |xs| && xs[i] == x;
      var k :| 0 <= k < |ys| && ys[k] == y;
      FlatMapMembers(ys, inner(x), c);
    }
  }

  // ---------------------------------------------------------------------
  // Slices
  // ---------------------------------------------------------------------

  lemma DropFront<T>(a: seq<T>, b: seq<T>)
    ensures (a + b)[|a|..] == b && (a + b)[..|a|] == a
  {
  }

  lemma SliceShift<T>(s: seq<T>, a: nat, x: nat, y: nat)
    requires x <= y && a + y <= |s|
    ensures s[a..][x..y] == s[a + x..a + y]
  {
  }

  lemma DropTake<T>(s: seq<T>, a: nat, b: nat)
    requires a <= b <= |s|
    ensures s[a..][..b - a] == s[..b][a..]
  {
  }
}

=== FILE: migration.dfy ===
/** The one-off move of a working tree from the flat layout to the
    hierarchical one (migrate_directory_structure.py). In the flat layout
    each job is a `YYYY-MM-DD_HHMMSS` directory, and interpreted and HTML
    files lie at the root. The storage is given as its two root listings
    and as the outcome of each listing, directory creation, copy and
    delete the migration would ask of it. */
module Migration {
  import opened Wrappers
  import opened Text
  import opened Lists
  import opened Timestamps
  import opened Paths
  import opened Patterns
  import Directories
  import JobIndex
  import Auditor

  /** What the migration sees of the storage. `listing(d)` is
      `list_files(d)`, or None when it raises. `createOk(d)` says that
      `create_directory(d)` succeeds. `copyOk(from, to)` says that reading
      `from` and writing its bytes to `to` both succeed. `deleteFile` and
      `deleteDir` give the result of `delete_file` and of a recursive
      `delete_directory`, or the error they raise. */
  datatype Storage = Storage(
    dirs: seq<string>,
    files: seq<string>,
    listing: string -> Option<seq<string>>,
    createOk: string -> bool,
    copyOk: (string, string) -> bool,
    deleteFile: string -> Result<bool>,
    deleteDir: string -> Result<bool>)

  /** One file written: the bytes of `from` stored at `to`. */
  datatype Copy = Copy(from: string, to: string)

  // ---------------------------------------------------------------------
  // Legacy directories
  // ---------------------------------------------------------------------

  /** `re.match(r'^\d{4}-\d{2}-\d{2}_\d{6}$', name)`. In Python `$` also
      matches just before a final newline, so one trailing `\n` is let
      through. */
  predicate IsLegacyName(name: string) {
    Auditor.StampShape(name) || (|name| == 18 && Auditor.StampShape(name[..17]) && name[17] == '\n')
  }

  /** `discover_legacy_directories`: the root directories with a legacy
      name, in increasing order. */
  function LegacyDirectories(dirs: seq<string>): (r: seq<string>)
    ensures SortedBy(r, Directories.Identity, LexLess)
    ensures multiset(r) == multiset(Filter(dirs, IsLegacyName))
    ensures forall d :: d in r <==> d in dirs && IsLegacyName(d)
  {
    var kept := Filter(dirs, IsLegacyName);
    Directories.SortStrings(kept);
    var r := SortBy(kept, Directories.Identity, LexLess);
    forall d
      ensures d in r <==> d in dirs && IsLegacyName(d)
    {
      FilterPermutationMembers(r, dirs, IsLegacyName, d);
    }
    r
  }

  /** A name with a trailing newline passes the anchored pattern but is not
      a timestamp `strptime` accepts. */
  lemma NewlineNameFailsToParse()
    ensures IsLegacyName("2025-06-01_120000\n")
    ensures ParseCompact("2025-06-01_120000\n").Err?
  {
    var s := "2025-06-01_120000\n";
    assert s[..17] == "2025-06-01_120000";
    assert AllDigits(s[..4]) by { assert s[..4] == "2025"; }
    assert AllDigits(s[5..7]) by { assert s[5..7] == "06"; }
    assert AllDigits(s[8..10]) by { assert s[8..10] == "01"; }
    assert AllDigits(s[11..17]) by { assert s[11..17] == "120000"; }
    assert s[..17][..4] == s[..4] && s[..17][5..7] == s[5..7] && s[..17][8..10] == s[8..10];
    assert s[..17][11..] == s[11..17];
    CompactEndsInDigit(s);
  }

  /** Whatever `strptime` accepts in the compact format ends in a digit of
      the seconds field. */
  lemma CompactEndsInDigit(s: string)
    ensures ParseCompact(s).Ok? ==> |s| > 0 && IsDigit(s[|s| - 1])
  {
    if ParseCompact(s).Ok? {
      var ps := Strptime(CompactFormat, s).value;
      assert ItemFits(CompactFormat[8], ps[8]);
      SecondsEndInDigit(ps[8]);
      FlattenLast(ps);
      LastOfConcat(Flatten(ps[..8]), ps[8]);
    }
  }

  lemma LastOfConcat(a: string, b: string)
    requires |b| > 0
    ensures (a + b)[|a + b| - 1] == b[|b| - 1]
  {
  }

  lemma SecondsEndInDigit(piece: string)
    requires ItemFits(SecondField, piece)
    ensures |piece| > 0 && IsDigit(piece[|piece| - 1])
  {
    var j :| 0 <= j < |SecondField.alts| && PatternFits(SecondField.alts[j], piece);
    assert InClass(piece[|piece| - 1], SecondField.alts[j][|piece| - 1]);
  }

  // ---------------------------------------------------------------------
  // Loose files
  // ---------------------------------------------------------------------

  /** Where `discover_loose_files` puts a root file. */
  datatype Bucket = Interpreted | WeeklyInterpreted | Html | Other

  const InterpretedSuffix := "-interpreted.json"
  const WeeklyPrefix := "weekly-"
  const HtmlSuffix := ".html"
  const HtmlPrefix := "medialens"

  /** The classification, branch by branch as `discover_loose_files`
      tests it. */
  function BucketOf(path: string): Bucket {
    if '/' in path then Other
    else if EndsWith(path, InterpretedSuffix) && !StartsWith(path, WeeklyPrefix) then Interpreted
    else if StartsWith(path, WeeklyPrefix) && EndsWith(path, InterpretedSuffix) then WeeklyInterpreted
    else if EndsWith(path, HtmlSuffix) && StartsWith(path, HtmlPrefix) then Html
    else Other
  }

  /** A name cannot end in both `.html` and `-interpreted.json`. */
  lemma SuffixesExclusive(path: string)
    ensures !(EndsWith(path, HtmlSuffix) && EndsWith(path, InterpretedSuffix))
  {
    if EndsWith(path, HtmlSuffix) && |InterpretedSuffix| <= |path| {
      assert path[|path| - 1] == HtmlSuffix[4] == 'l';
      assert path[|path| - |InterpretedSuffix|..][16] == path[|path| - 1];
    }
  }

  /** Each bucket on its own terms: the order of the tests does not
      matter, since no root file qualifies for two buckets. */
  lemma BucketCharacterised(path: string)
    ensures BucketOf(path) == Interpreted <==>
      '/' !in path && EndsWith(path, InterpretedSuffix) && !StartsWith(path, WeeklyPrefix)
    ensures BucketOf(path) == WeeklyInterpreted <==>
      '/' !in path && EndsWith(path, InterpretedSuffix) && StartsWith(path, WeeklyPrefix)
    ensures BucketOf(path) == Html <==>
      '/' !in path && EndsWith(path, HtmlSuffix) && StartsWith(path, HtmlPrefix)
  {
    SuffixesExclusive(path);
  }

  function InBucket(b: Bucket): string -> bool {
    p => BucketOf(p) == b
  }

  /** The three lists of `discover_loose_files`, in the dictionary's
      order; each keeps the listing's order. */
  datatype Loose = Loose(interpreted: seq<string>, html: seq<string>, weekly: seq<string>)

  function DiscoverLoose(files: seq<string>): (r: Loose)
    ensures forall p :: p in r.interpreted <==> p in files && BucketOf(p) == Interpreted
    ensures forall p :: p in r.html <==> p in files && BucketOf(p) == Html
    ensures forall p :: p in r.weekly <==> p in files && BucketOf(p) == WeeklyInterpreted
    ensures IsSubsequence(r.interpreted, files) && IsSubsequence(r.html, files) && IsSubsequence(r.weekly, files)
  {
    FilterIsSubsequence(files, InBucket(Interpreted));
    FilterIsSubsequence(files, InBucket(Html));
    FilterIsSubsequence(files, InBucket(WeeklyInterpreted));
    forall p
      ensures p in Filter(files, InBucket(Interpreted)) <==> p in files && BucketOf(p) == Interpreted
      ensures p in Filter(files, InBucket(Html)) <==> p in files && BucketOf(p) == Html
      ensures p in Filter(files, InBucket(WeeklyInterpreted)) <==> p in files && BucketOf(p) == WeeklyInterpreted
    {
      FilterMembers(files, InBucket(Interpreted), p);
      FilterMembers(files, InBucket(Html), p);
      FilterMembers(files, InBucket(WeeklyInterpreted), p);
    }
    Loose(Filter(files, InBucket(Interpreted)), Filter(files, InBucket(Html)),
          Filter(files, InBucket(WeeklyInterpreted)))
  }

  /** The loose files in the order the cleanup visits them. */
  function AllLoose(l: Loose): seq<string> {
    l.interpreted + l.html + l.weekly
  }

  /** No root file is counted twice: the three lists together are no
      longer than the listing. */
  lemma {:induction false} LooseCount(files: seq<string>)
    ensures |AllLoose(DiscoverLoose(files))| <= |files|
  {
    if |files| > 0 {
      LooseCount(files[1..]);
    }
  }

  /** `not legacy_dirs and not any(loose_files.values())`. */
  predicate NothingToMigrate(store: Storage) {
    (forall i :: 0 <= i < |store.dirs| ==> !IsLegacyName(store.dirs[i])) &&
    (forall i :: 0 <= i < |store.files| ==> BucketOf(store.files[i]) == Other)
  }

  // ---------------------------------------------------------------------
  // One legacy directory
  // ---------------------------------------------------------------------

  /** `file_path.startswith(legacy_dir + "/")`. */
  predicate Under(dir: string, path: string) {
    StartsWith(path, dir + "/")
  }

  function UnderDir(dir: string): string -> bool {
    p => Under(dir, p)
  }

  predicate AllUnder(dir: string, paths: seq<string>) {
    forall i :: 0 <= i < |paths| ==> Under(dir, paths[i])
  }

  /** `f"{target}/{file_path[len(dir) + 1:]}"`: the file's path relative to
      `dir`, placed under `target`. */
  function Relocate(dir: string, target: string, path: string): (r: string)
    requires Under(dir, path)
    ensures Under(target, r)
    ensures r[|target| + 1..] == path[|dir| + 1..]
  {
    var r := target + "/" + path[|dir| + 1..];
    assert r[..|target + "/"|] == target + "/";
    r
  }

  /** Two files under one directory never land on the same path. */
  lemma RelocateInjective(dir: string, target: string, p: string, q: string)
    requires Under(dir, p) && Under(dir, q)
    requires Relocate(dir, target, p) == Relocate(dir, target, q)
    ensures p == q
  {
    assert p == p[..|dir| + 1] + p[|dir| + 1..];
    assert q == q[..|dir| + 1] + q[|dir| + 1..];
  }

  /** Every file under `dir` can be copied to its place under `target`. */
  predicate AllCopy(dir: string, target: string, srcs: seq<string>, copyOk: (string, string) -> bool)
    requires AllUnder(dir, srcs)
  {
    forall k :: 0 <= k < |srcs| ==> copyOk(srcs[k], Relocate(dir, target, srcs[k]))
  }

  /** The copy loop of `migrate_job_directory`: the files under `dir` are
      copied in order, and the first failure ends the loop. The flag says
      whether every file was copied. */
  function MoveAll(dir: string, target: string, srcs: seq<string>, copyOk: (string, string) -> bool): (r: (bool, seq<Copy>))
    requires AllUnder(dir, srcs)
    ensures |r.1| <= |srcs|
    ensures forall k :: 0 <= k < |r.1| ==>
      r.1[k] == Copy(srcs[k], Relocate(dir, target, srcs[k])) && copyOk(srcs[k], r.1[k].to)
    ensures r.0 <==> AllCopy(dir, target, srcs, copyOk)
    ensures r.0 <==> |r.1| == |srcs|
    ensures !r.0 ==> !copyOk(srcs[|r.1|], Relocate(dir, target, srcs[|r.1|]))
  {
    if |srcs| == 0 then (true, [])
    else
      var c := Copy(srcs[0], Relocate(dir, target, srcs[0]));
      if !copyOk(c.from, c.to) then (false, [])
      else
        var rest := MoveAll(dir, target, srcs[1..], copyOk);
        assert forall k :: 1 <= k < |srcs| ==> srcs[k] == srcs[1..][k - 1];
        (rest.0, [c] + rest.1)
  }

  /** The files of `dir` that the loop visits. */
  function FilesUnder(dir: string, listed: seq<string>): (r: seq<string>)
    ensures AllUnder(dir, r)
    ensures forall p :: p in r <==> p in listed && Under(dir, p)
  {
    forall p
      ensures p in Filter(listed, UnderDir(dir)) <==> p in listed && Under(dir, p)
    {
      FilterMembers(listed, UnderDir(dir), p);
    }
    Filter(listed, UnderDir(dir))
  }

  /** `storage.get_job_directory(legacy_dir)`. */
  function JobDirOf(dm: Directories.DirectoryManager, legacy: string, now: Timestamp): (r: Result<string>)
    requires WellFormed(dm.base) && Valid(now)
    ensures r.Ok? <==> ParseCompact(legacy).Ok?
  {
    Directories.GetJobDir(dm, Some(legacy), now)
  }

  /** The outcome of one `migrate_job_directory` call. */
  datatype JobOutcome = JobOutcome(ok: bool, copies: seq<Copy>)

  /** `migrate_job_directory`. The name must parse as a timestamp; a dry
      run stops there. Otherwise the job directory is created, the legacy
      directory listed and each file under it copied to the same relative
      path under the job directory. */
  function MigrateJob(dm: Directories.DirectoryManager, store: Storage, dryRun: bool, legacy: string, now: Timestamp): (r: JobOutcome)
    requires WellFormed(dm.base) && Valid(now)
    ensures ParseCompact(legacy).Err? ==> r == JobOutcome(false, [])
    ensures dryRun ==> r.copies == [] && (r.ok <==> ParseCompact(legacy).Ok?)
    ensures !dryRun && ParseCompact(legacy).Ok? ==>
      var job := JobDirOf(dm, legacy, now).value;
      (r.ok <==> store.createOk(job) && store.listing(legacy).Some? &&
                 AllCopy(legacy, job, FilesUnder(legacy, store.listing(legacy).value), store.copyOk))
    ensures r.ok && !dryRun ==> |r.copies| == |FilesUnder(legacy, store.listing(legacy).value)|
    ensures forall k :: 0 <= k < |r.copies| ==>
      JobDirOf(dm, legacy, now).Ok? && Under(legacy, r.copies[k].from) &&
      r.copies[k].to == Relocate(legacy, JobDirOf(dm, legacy, now).value, r.copies[k].from) &&
      store.listing(legacy).Some? && r.copies[k].from in store.listing(legacy).value
  {
    match JobDirOf(dm, legacy, now)
    case Err(_) => JobOutcome(false, [])
    case Ok(job) =>
      if dryRun then JobOutcome(true, [])
      else if !store.createOk(job) then JobOutcome(false, [])
      else
        match store.listing(legacy)
        case None => JobOutcome(false, [])
        case Some(listed) =>
          var moved := MoveAll(legacy, job, FilesUnder(legacy, listed), store.copyOk);
          JobOutcome(moved.0, moved.1)
  }

  /** A file named `name` inside `dir` keeps its name under `target`. */
  lemma RelocateName(dir: string, target: string, name: string)
    ensures Under(dir, dir + "/" + name)
    ensures Relocate(dir, target, dir + "/" + name) == target + "/" + name
  {
    var p := dir + "/" + name;
    assert p[..|dir + "/"|] == dir + "/";
    assert p[|dir| + 1..] == name;
  }

  const ExampleLegacy := "2025-06-01_120000"
  const ExampleJob := "jobs/2025/06/01/120000"
  const ExamplePage := "www.test1.com.html"

  /** The first directory of test_migration.py: its page lands under
      `jobs/2025/06/01/120000` with its name unchanged. */
  lemma MigrateJobExample(now: Timestamp)
    requires Valid(now)
    ensures JobDirOf(Directories.NewManager(""), ExampleLegacy, now) == Ok(ExampleJob)
    ensures Relocate(ExampleLegacy, ExampleJob, ExampleLegacy + "/" + ExamplePage) == ExampleJob + "/" + ExamplePage
  {
    ExampleJobDir(now);
    RelocateName(ExampleLegacy, ExampleJob, ExamplePage);
  }

  lemma ExampleJobDir(now: Timestamp)
    requires Valid(now)
    ensures JobDirOf(Directories.NewManager(""), "2025-06-01_120000", now) == Ok("jobs/2025/06/01/120000")
  {
    ExampleTexts();
    JobDirOfCompact("2025-06-01_120000", Timestamp(2025, 6, 1, 12, 0, 0), now);
  }

  lemma ExampleTexts()
    ensures FormatCompact(Timestamp(2025, 6, 1, 12, 0, 0)) == "2025-06-01_120000"
    ensures JobIndex.HierarchicalPath(Timestamp(2025, 6, 1, 12, 0, 0)) == "jobs/2025/06/01/120000"
  {
    ExampleCompact();
    ExampleHierarchical();
  }

  lemma ExampleCompact()
    ensures FormatCompact(Timestamp(2025, 6, 1, 12, 0, 0)) == "2025-06-01_120000"
  {
    ExamplePads();
  }

  lemma ExampleHierarchical()
    ensures JobIndex.HierarchicalPath(Timestamp(2025, 6, 1, 12, 0, 0)) == "jobs/2025/06/01/120000"
  {
    ExamplePads();
  }

  lemma JobDirOfCompact(legacy: string, t: Timestamp, now: Timestamp)
    requires Valid(t) && Valid(now) && legacy == FormatCompact(t)
    ensures JobDirOf(Directories.NewManager(""), legacy, now) == Ok(JobIndex.HierarchicalPath(t))
  {
    Directories.JobDirIsHierarchical(t, now);
  }

  lemma ExamplePads()
    ensures Pad4(2025) == "2025" && Pad2(6) == "06" && Pad2(1) == "01" && Pad2(12) == "12" && Pad2(0) == "00"
  {
    ExampleYear();
    ExampleTwoDigits();
  }

  lemma ExampleYear()
    ensures Pad4(2025) == "2025"
  {
    assert PadDigits(2, 1) == "2";
    assert PadDigits(20, 2) == "20";
    assert PadDigits(202, 3) == "202";
  }

  lemma ExampleTwoDigits()
    ensures Pad2(6) == "06" && Pad2(1) == "01" && Pad2(12) == "12" && Pad2(0) == "00"
  {
    assert PadDigits(0, 1) == "0" && PadDigits(1, 1) == "1";
  }

  // ---------------------------------------------------------------------
  // The loop over the legacy directories
  // ---------------------------------------------------------------------

  /** `migrate_job_directory` for each directory, as a total function. */
  function JobStep(dm: Directories.DirectoryManager, store: Storage, dryRun: bool, now: Timestamp): (step: string -> JobOutcome)
    requires WellFormed(dm.base) && Valid(now)
    ensures forall d :: step(d) == MigrateJob(dm, store, dryRun, d, now)
  {
    d => MigrateJob(dm, store, dryRun, d, now)
  }

  /** The copies of the directories `ds`, one after the other. */
  function CopiesOf(step: string -> JobOutcome, ds: seq<string>): seq<Copy> {
    if |ds| == 0 then [] else step(ds[0]).copies + CopiesOf(step, ds[1..])
  }

  /** How far the loop of `migrate` got: `done` directories succeeded, and
      if `failed` the next one failed and nothing after it was tried. */
  datatype JobsOutcome = JobsOutcome(done: nat, failed: bool, copies: seq<Copy>)

  function Tried(r: JobsOutcome): nat {
    if r.failed then r.done + 1 else r.done
  }

  function MigrateJobs(step: string -> JobOutcome, legacy: seq<string>): (r: JobsOutcome)
    ensures Tried(r) <= |legacy|
    ensures !r.failed <==> r.done == |legacy|
    ensures forall j :: 0 <= j < r.done ==> step(legacy[j]).ok
    ensures r.failed ==> !step(legacy[r.done]).ok
    ensures r.copies == CopiesOf(step, legacy[..Tried(r)])
  {
    if |legacy| == 0 then JobsOutcome(0, false, [])
    else
      var first := step(legacy[0]);
      if !first.ok then
        assert legacy[..1][1..] == [];
        JobsOutcome(0, true, first.copies)
      else
        var rest := MigrateJobs(step, legacy[1..]);
        CopiesStep(step, legacy, Tried(rest));
        assert forall j :: 1 <= j < |legacy| ==> legacy[j] == legacy[1..][j - 1];
        JobsOutcome(rest.done + 1, rest.failed, first.copies + rest.copies)
  }

  lemma CopiesStep(step: string -> JobOutcome, ds: seq<string>, n: nat)
    requires n < |ds|
    ensures CopiesOf(step, ds[..n + 1]) == step(ds[0]).copies + CopiesOf(step, ds[1..][..n])
  {
    var pre := ds[..n + 1];
    assert pre[0] == ds[0];
    assert pre[1..] == ds[1..][..n];
  }

  /** A dry run copies nothing, whatever directories it visits. */
  lemma {:induction false} DryCopiesNothing(dm: Directories.DirectoryManager, store: Storage, dryRun: bool, now: Timestamp, ds: seq<string>)
    requires WellFormed(dm.base) && Valid(now)
    ensures dryRun ==> CopiesOf(JobStep(dm, store, dryRun, now), ds) == []
  {
    if |ds| > 0 {
      DryCopiesNothing(dm, store, dryRun, now, ds[1..]);
    }
  }

  // ---------------------------------------------------------------------
  // The job an interpreted file belongs to
  // ---------------------------------------------------------------------

  /** The directories `_find_job_for_interpreted_file` looks at: legacy
      names, and `jobs/` paths of at least five `/`-separated parts. */
  predicate JobShaped(d: string) {
    IsLegacyName(d) || (StartsWith(d, "jobs/") && |Split(d, '/')| >= 5)
  }

  /** The timestamp text of a job directory: read from a `jobs/` path, or
      the legacy name itself. */
  function JobStamp(d: string): Result<string> {
    if StartsWith(d, "jobs/") then Directories.ParseJobTimestamp(d) else Ok(d)
  }

  function JobTime(d: string): Result<Timestamp> {
    match JobStamp(d)
    case Err(e) => Err(e)
    case Ok(ts) => ParseCompact(ts)
  }

  /** `site_name in f and "clean-article" in f`. */
  predicate SiteFile(site: string, f: string) {
    Contains(f, site) && Contains(f, "clean-article")
  }

  /** `d` is collected for `site`: it has the right shape, it lists, it
      holds a cleaned article of the site and its time parses. A listing
      or parse that raises only skips the directory. */
  predicate Candidate(store: Storage, site: string, d: string) {
    JobShaped(d) && store.listing(d).Some? &&
    (exists f :: f in store.listing(d).value && SiteFile(site, f)) &&
    JobTime(d).Ok?
  }

  /** The instant a collected directory is sorted by. */
  function JobInstant(store: Storage, site: string, d: string): int {
    if Candidate(store, site, d) then InstantOf(JobTime(d).value) else 0
  }

  function Collected(store: Storage, site: string): (c: string -> bool)
    ensures forall d :: c(d) == Candidate(store, site, d)
  {
    d => Candidate(store, site, d)
  }

  function SortKey(store: Storage, site: string): (k: string -> int)
    ensures forall d :: k(d) == JobInstant(store, site, d)
  {
    d => JobInstant(store, site, d)
  }

  predicate NoneCollected(cand: string -> bool, dirs: seq<string>) {
    forall j :: 0 <= j < |dirs| ==> !cand(dirs[j])
  }

  /** `dirs[i]` is what the search returns: collected, no collected
      directory later than it, and every collected one listed before it
      strictly earlier. */
  predicate LatestAt(cand: string -> bool, key: string -> int, dirs: seq<string>, i: nat) {
    i < |dirs| && cand(dirs[i]) &&
    (forall j :: 0 <= j < |dirs| && cand(dirs[j]) ==> key(dirs[j]) <= key(dirs[i])) &&
    (forall j :: 0 <= j < i && cand(dirs[j]) ==> key(dirs[j]) < key(dirs[i]))
  }

  /** Collect, sort by key with `reverse=True` (a stable sort), take the
      first: the earliest listed of the latest. */
  function Latest(cand: string -> bool, key: string -> int, dirs: seq<string>): (r: Option<nat>)
    ensures r.None? <==> NoneCollected(cand, dirs)
    ensures r.Some? ==> LatestAt(cand, key, dirs, r.value)
  {
    if |dirs| == 0 then None
    else
      var rest := Latest(cand, key, dirs[1..]);
      if !cand(dirs[0]) then
        SkipHead(cand, key, dirs, rest);
        if rest.None? then None else Some(rest.value + 1)
      else if rest.None? || key(dirs[1..][rest.value]) <= key(dirs[0]) then
        TakeHead(cand, key, dirs, rest);
        Some(0)
      else
        KeepRest(cand, key, dirs, rest.value);
        Some(rest.value + 1)
  }

  lemma SkipHead(cand: string -> bool, key: string -> int, dirs: seq<string>, rest: Option<nat>)
    requires |dirs| > 0 && !cand(dirs[0])
    requires rest.None? <==> NoneCollected(cand, dirs[1..])
    requires rest.Some? ==> LatestAt(cand, key, dirs[1..], rest.value)
    ensures rest.None? ==> NoneCollected(cand, dirs)
    ensures rest.Some? ==> LatestAt(cand, key, dirs, rest.value + 1)
  {
    assert forall j :: 1 <= j < |dirs| ==> dirs[j] == dirs[1..][j - 1];
  }

  lemma TakeHead(cand: string -> bool, key: string -> int, dirs: seq<string>, rest: Option<nat>)
    requires |dirs| > 0 && cand(dirs[0])
    requires rest.None? <==> NoneCollected(cand, dirs[1..])
    requires rest.Some? ==> LatestAt(cand, key, dirs[1..], rest.value)
    requires rest.None? || key(dirs[1..][rest.value]) <= key(dirs[0])
    ensures LatestAt(cand, key, dirs, 0)
  {
    forall j | 1 <= j < |dirs| && cand(dirs[j])
      ensures key(dirs[j]) <= key(dirs[0])
    {
      assert dirs[j] == dirs[1..][j - 1];
    }
  }

  lemma KeepRest(cand: string -> bool, key: string -> int, dirs: seq<string>, i: nat)
    requires |dirs| > 0 && cand(dirs[0])
    requires LatestAt(cand, key, dirs[1..], i)
    requires key(dirs[0]) < key(dirs[1..][i])
    ensures LatestAt(cand, key, dirs, i + 1)
  {
    forall j | 1 <= j < |dirs| && cand(dirs[j])
      ensures key(dirs[j]) <= key(dirs[i + 1])
    {
      assert dirs[j] == dirs[1..][j - 1];
    }
    forall j | 1 <= j < i + 1 && cand(dirs[j])
      ensures key(dirs[j]) < key(dirs[i + 1])
    {
      assert dirs[j] == dirs[1..][j - 1];
    }
  }

  /** `_find_job_for_interpreted_file`: the index of the most recent
      collected directory, the first listed among equals; None when
      nothing is collected. */
  function FindJob(store: Storage, site: string, dirs: seq<string>): (r: Option<nat>)
    ensures r.None? <==> forall j :: 0 <= j < |dirs| ==> !Candidate(store, site, dirs[j])
    ensures r.Some? ==> r.value < |dirs| && Candidate(store, site, dirs[r.value])
    ensures r.Some? ==> forall j :: 0 <= j < |dirs| && Candidate(store, site, dirs[j]) ==>
      JobInstant(store, site, dirs[j]) <= JobInstant(store, site, dirs[r.value])
    ensures r.Some? ==> forall j :: 0 <= j < r.value && Candidate(store, site, dirs[j]) ==>
      JobInstant(store, site, dirs[j]) < JobInstant(store, site, dirs[r.value])
  {
    Latest(Collected(store, site), SortKey(store, site), dirs)
  }

  /** A directory strictly later than every other collected one is the
      answer wherever it is listed. */
  lemma FindJobUnique(store: Storage, site: string, dirs: seq<string>, i: nat)
    requires i < |dirs| && Candidate(store, site, dirs[i])
    requires forall j :: 0 <= j < |dirs| && j != i && Candidate(store, site, dirs[j]) ==>
      JobInstant(store, site, dirs[j]) < JobInstant(store, site, dirs[i])
    ensures FindJob(store, site, dirs) == Some(i)
  {
    var r := FindJob(store, site, dirs);
    assert r.Some?;
  }

  // ---------------------------------------------------------------------
  // Organizing the loose files
  // ---------------------------------------------------------------------

  /** `file_path.replace(sub, "")`: every occurrence, left to right, without
      overlaps. */
  function RemoveAll(s: string, sub: string): (r: string)
    requires |sub| > 0
    ensures |r| <= |s|
    decreases |s|
  {
    if |s| < |sub| then s
    else if OccursAt(s, sub, 0) then RemoveAll(s[|sub|..], sub)
    else [s[0]] + RemoveAll(s[1..], sub)
  }

  /** A text without `sub` is left alone. */
  lemma {:induction false} RemoveAbsent(s: string, sub: string)
    requires |sub| > 0 && forall j :: 0 <= j < |s| ==> !OccursAt(s, sub, j)
    ensures RemoveAll(s, sub) == s
    decreases |s|
  {
    if |s| >= |sub| {
      assert !OccursAt(s, sub, 0);
      forall j | 0 <= j < |s| - 1
        ensures !OccursAt(s[1..], sub, j)
      {
        assert !OccursAt(s, sub, j + 1);
        if j + |sub| <= |s| - 1 {
          assert s[1..][j..j + |sub|] == s[j + 1..j + 1 + |sub|];
        }
      }
      RemoveAbsent(s[1..], sub);
      assert s == [s[0]] + s[1..];
    }
  }

  /** The site of `<site>-interpreted.json`, when the suffix is the only
      place the text occurs. */
  lemma {:induction false} RemoveSuffix(site: string, sub: string)
    requires |sub| > 0
    requires forall j :: 0 <= j < |site| ==> !OccursAt(site + sub, sub, j)
    ensures RemoveAll(site + sub, sub) == site
    decreases |site|
  {
    var s := site + sub;
    if |site| == 0 {
      assert s == sub && OccursAt(s, sub, 0);
      assert s[|sub|..] == [];
    } else {
      assert !OccursAt(s, sub, 0);
      forall j | 0 <= j < |site| - 1
        ensures !OccursAt(site[1..] + sub, sub, j)
      {
        assert !OccursAt(s, sub, j + 1);
        assert (site[1..] + sub)[j..j + |sub|] == s[j + 1..j + 1 + |sub|];
      }
      RemoveSuffix(site[1..], sub);
      assert s[1..] == site[1..] + sub;
      assert site == [site[0]] + site[1..];
    }
  }

  /** One file to be written into `dir` under its own name. */
  datatype Planned = Planned(dir: string, file: string)

  function TargetOf(p: Planned): string {
    p.dir + "/" + p.file
  }

  /** The storage takes the write: the directory is created and the file
      read and written. */
  predicate Lands(store: Storage, p: Planned) {
    store.createOk(p.dir) && store.copyOk(p.file, TargetOf(p))
  }

  predicate AllLand(store: Storage, plan: seq<Planned>) {
    forall k :: 0 <= k < |plan| ==> Lands(store, plan[k])
  }

  /** Counts and copies of one organizing pass. */
  datatype Moved = Moved(moved: nat, errors: nat, copies: seq<Copy>)

  /** The body shared by the three organizing loops: a dry run counts
      every file as moved; otherwise each file is moved or counted as an
      error, and the loop goes on. */
  function Transfer(store: Storage, dryRun: bool, plan: seq<Planned>): (r: Moved)
    ensures r.moved + r.errors == |plan|
    ensures dryRun ==> r.moved == |plan| && r.errors == 0 && r.copies == []
    ensures !dryRun ==> r.moved == |r.copies|
    ensures !dryRun ==> (r.errors == 0 <==> AllLand(store, plan))
    ensures forall c :: c in r.copies <==>
      !dryRun && exists k :: 0 <= k < |plan| && Lands(store, plan[k]) && c == Copy(plan[k].file, TargetOf(plan[k]))
  {
    if |plan| == 0 then Moved(0, 0, [])
    else
      var rest := Transfer(store, dryRun, plan[1..]);
      assert forall k :: 1 <= k < |plan| ==> plan[k] == plan[1..][k - 1];
      if dryRun then Moved(rest.moved + 1, 0, [])
      else if Lands(store, plan[0]) then
        Moved(rest.moved + 1, rest.errors, [Copy(plan[0].file, TargetOf(plan[0]))] + rest.copies)
      else Moved(rest.moved, rest.errors + 1, rest.copies)
  }

  /** Every file into one directory. */
  function Into(dir: string, files: seq<string>): (r: seq<Planned>)
    ensures |r| == |files|
    ensures forall k :: 0 <= k < |files| ==> r[k] == Planned(dir, files[k])
  {
    seq(|files|, k requires 0 <= k < |files| => Planned(dir, files[k]))
  }

  function SiteOf(file: string): string {
    RemoveAll(file, InterpretedSuffix)
  }

  /** Where an interpreted file goes: the intermediate directory named by
      its job's timestamp, if a job is found. */
  function InterpretedDir(dm: Directories.DirectoryManager, store: Storage, file: string): (r: Option<string>)
    ensures r.None? <==> FindJob(store, SiteOf(file), store.dirs).None?
  {
    match FindJob(store, SiteOf(file), store.dirs)
    case None => None
    case Some(i) =>
      var d := store.dirs[i];
      Some(Directories.IntermediateDir(dm, JobStamp(d).value))
  }

  function HasJob(dm: Directories.DirectoryManager, store: Storage): string -> bool {
    f => InterpretedDir(dm, store, f).Some?
  }

  /** The plan of `organize_interpreted_files`: a file with no matching
      job is only logged. */
  function InterpretedPlan(dm: Directories.DirectoryManager, store: Storage, files: seq<string>): (r: seq<Planned>)
    ensures var found := Filter(files, HasJob(dm, store));
      |r| == |found| &&
      forall k :: 0 <= k < |r| ==> r[k].file == found[k] && InterpretedDir(dm, store, found[k]) == Some(r[k].dir)
  {
    var found := Filter(files, HasJob(dm, store));
    seq(|found|, k requires 0 <= k < |found| => Planned(InterpretedDir(dm, store, found[k]).value, found[k]))
  }

  // ---------------------------------------------------------------------
  // Backup
  // ---------------------------------------------------------------------

  const BackupDir := "migration_backup"

  /** The copies that succeed of a list of attempted ones; a failed backup
      copy is only logged. */
  function Written(store: Storage, cs: seq<Copy>): (r: seq<Copy>)
    ensures forall c :: c in r <==> c in cs && store.copyOk(c.from, c.to)
  {
    if |cs| == 0 then []
    else (if store.copyOk(cs[0].from, cs[0].to) then [cs[0]] else []) + Written(store, cs[1..])
  }

  /** The relocation of each file under `dir` into `target`. */
  function RelocateAll(dir: string, target: string, srcs: seq<string>): (r: seq<Copy>)
    requires AllUnder(dir, srcs)
    ensures |r| == |srcs|
    ensures forall k :: 0 <= k < |srcs| ==> r[k] == Copy(srcs[k], Relocate(dir, target, srcs[k]))
  {
    seq(|srcs|, k requires 0 <= k < |srcs| => Copy(srcs[k], Relocate(dir, target, srcs[k])))
  }

  /** What `create_backup` leaves: the copies written, in order, and
      whether it raised. Copies written before the raise stay written. */
  datatype Backed = Backed(copies: seq<Copy>, aborted: bool)

  /** Creating the backup of legacy directory `d`, or listing `d`, raises. */
  predicate LegacyFails(store: Storage, d: string) {
    !store.createOk(BackupDir + "/" + d) || store.listing(d).None?
  }

  /** The copies of one legacy directory's files into its backup. */
  function LegacyCopies(store: Storage, d: string): (r: seq<Copy>)
    requires !LegacyFails(store, d)
    ensures forall c :: c in r ==> StartsWith(c.to, BackupDir + "/")
  {
    var target := BackupDir + "/" + d;
    var here := Written(store, RelocateAll(d, target, FilesUnder(d, store.listing(d).value)));
    UnderBackup(target, d);
    here
  }

  /** The legacy part of `create_backup`: each directory is created under
      the backup directory and its files copied there, in turn. A directory
      that cannot be created or listed aborts the backup, after the copies
      of the directories before it. */
  function BackupLegacy(store: Storage, legacy: seq<string>): (r: Backed)
    ensures forall c :: c in r.copies ==> StartsWith(c.to, BackupDir + "/")
    ensures r.aborted <==> exists j :: 0 <= j < |legacy| && LegacyFails(store, legacy[j])
  {
    if |legacy| == 0 then Backed([], false)
    else if LegacyFails(store, legacy[0]) then Backed([], true)
    else
      var rest := BackupLegacy(store, legacy[1..]);
      assert forall j :: 1 <= j < |legacy| ==> legacy[j] == legacy[1..][j - 1];
      Backed(LegacyCopies(store, legacy[0]) + rest.copies, rest.aborted)
  }

  lemma UnderBackup(target: string, d: string)
    requires target == BackupDir + "/" + d
    ensures forall s :: Under(target, s) ==> StartsWith(s, BackupDir + "/")
  {
    forall s | Under(target, s)
      ensures StartsWith(s, BackupDir + "/")
    {
      assert s[..|BackupDir + "/"|] == (target + "/")[..|BackupDir + "/"|];
    }
  }

  /** When directory `k` is the first to fail, the backup aborts with
      exactly the copies of the directories before it. */
  lemma {:induction false} LegacyAbortKeepsEarlier(store: Storage, legacy: seq<string>, k: nat)
    requires k < |legacy| && LegacyFails(store, legacy[k])
    requires forall j :: 0 <= j < k ==> !LegacyFails(store, legacy[j])
    ensures BackupLegacy(store, legacy) == Backed(BackupLegacy(store, legacy[..k]).copies, true)
    ensures !BackupLegacy(store, legacy[..k]).aborted
  {
    if k > 0 {
      assert legacy[1..][..k - 1] == legacy[..k][1..];
      assert legacy[..k][0] == legacy[0];
      LegacyAbortKeepsEarlier(store, legacy[1..], k - 1);
    }
  }

  /** The loose files of one category copied into `loose_<category>`; the
      directory that cannot be created aborts. */
  function BackupCategory(store: Storage, category: string, files: seq<string>): (r: Backed)
    ensures forall c :: c in r.copies ==> StartsWith(c.to, BackupDir + "/")
    ensures r.aborted ==> r.copies == []
  {
    var dir := BackupDir + "/loose_" + category;
    if !store.createOk(dir) then Backed([], true)
    else
      var cs := seq(|files|, k requires 0 <= k < |files| => Copy(files[k], dir + "/" + files[k]));
      forall c | c in cs
        ensures StartsWith(c.to, BackupDir + "/")
      {
        assert c.to[..|BackupDir + "/"|] == BackupDir + "/";
      }
      Backed(Written(store, cs), false)
  }

  /** One part of the backup after another: the second runs only if the
      first did not raise. */
  function Then(a: Backed, b: Backed): (r: Backed)
    ensures r.aborted <==> a.aborted || b.aborted
    ensures a.aborted ==> r == a
  {
    if a.aborted then a else Backed(a.copies + b.copies, b.aborted)
  }

  /** `create_backup`: the legacy directories, then the loose files by
      category. Every copy lies under the backup directory. A directory it
      cannot create or list raises, which ends the migration; the copies
      already written stay. */
  function Backup(store: Storage, legacy: seq<string>, loose: Loose): (r: Backed)
    ensures forall c :: c in r.copies ==> StartsWith(c.to, BackupDir + "/")
    ensures !store.createOk(BackupDir) ==> r == Backed([], true)
    ensures r.aborted <==> !store.createOk(BackupDir) || BackupLegacy(store, legacy).aborted
                           || BackupCategory(store, "interpreted", loose.interpreted).aborted
                           || BackupCategory(store, "html", loose.html).aborted
                           || BackupCategory(store, "weekly_interpreted", loose.weekly).aborted
    ensures store.createOk(BackupDir) ==> BackupLegacy(store, legacy).copies <= r.copies
  {
    if !store.createOk(BackupDir) then Backed([], true)
    else
      var a := BackupLegacy(store, legacy);
      var r := Then(Then(Then(a, BackupCategory(store, "interpreted", loose.interpreted)),
                         BackupCategory(store, "html", loose.html)),
                    BackupCategory(store, "weekly_interpreted", loose.weekly));
      ThenKeeps(a, BackupCategory(store, "interpreted", loose.interpreted),
                BackupCategory(store, "html", loose.html), BackupCategory(store, "weekly_interpreted", loose.weekly));
      r
  }

  lemma ThenKeeps(a: Backed, b: Backed, c: Backed, d: Backed)
    ensures a.copies <= Then(Then(Then(a, b), c), d).copies
  {
    var ab := Then(a, b);
    var abc := Then(ab, c);
    assert ab.copies[..|a.copies|] == a.copies;
    assert abc.copies[..|ab.copies|] == ab.copies;
    assert Then(abc, d).copies[..|abc.copies|] == abc.copies;
  }

  // ---------------------------------------------------------------------
  // Cleanup
  // ---------------------------------------------------------------------

  /** Paths deleted and deletions that raised. */
  datatype Deletions = Deletions(deleted: seq<string>, failed: nat)

  /** One cleanup loop: a delete that reports False is only logged, one
      that raises is an error, and the loop goes on. */
  function DeleteEach(paths: seq<string>, delete: string -> Result<bool>): (r: Deletions)
    ensures forall p :: p in r.deleted <==> p in paths && delete(p) == Ok(true)
    ensures r.failed == 0 <==> forall k :: 0 <= k < |paths| ==> delete(paths[k]).Ok?
    ensures |r.deleted| + r.failed <= |paths|
  {
    if |paths| == 0 then Deletions([], 0)
    else
      var rest := DeleteEach(paths[1..], delete);
      assert forall k :: 1 <= k < |paths| ==> paths[k] == paths[1..][k - 1];
      match delete(paths[0])
      case Err(_) => Deletions(rest.deleted, rest.failed + 1)
      case Ok(true) => Deletions([paths[0]] + rest.deleted, rest.failed)
      case Ok(false) => rest
  }

  datatype Options = Options(dryRun: bool, backup: bool, deleteOld: bool)

  /** `cleanup_legacy_structure`: nothing on a dry run or without
      `delete_old`; otherwise the loose files, then the legacy
      directories. */
  function Cleanup(store: Storage, opts: Options, legacy: seq<string>, loose: Loose): (r: (Deletions, Deletions))
    ensures opts.dryRun || !opts.deleteOld ==> r == (Deletions([], 0), Deletions([], 0))
    ensures forall p :: p in r.0.deleted <==>
      !opts.dryRun && opts.deleteOld && p in AllLoose(loose) && store.deleteFile(p) == Ok(true)
    ensures forall d :: d in r.1.deleted <==>
      !opts.dryRun && opts.deleteOld && d in legacy && store.deleteDir(d) == Ok(true)
  {
    if opts.dryRun || !opts.deleteOld then (Deletions([], 0), Deletions([], 0))
    else (DeleteEach(AllLoose(loose), store.deleteFile), DeleteEach(legacy, store.deleteDir))
  }

  // ---------------------------------------------------------------------
  // The whole migration
  // ---------------------------------------------------------------------

  /** `migration_stats`. */
  datatype Stats = Stats(jobDirsMigrated: nat, interpretedMoved: nat, htmlMoved: nat,
                         filesDeleted: nat, dirsDeleted: nat, errors: nat)

  const NoStats := Stats(0, 0, 0, 0, 0, 0)

  /** What `migrate` returns and leaves behind: its result, the counters,
      the backup copies, the copies of the move itself, and what it
      deleted. */
  datatype Outcome = Outcome(ok: bool, stats: Stats, backups: seq<Copy>, copies: seq<Copy>,
                             deletedFiles: seq<string>, deletedDirs: seq<string>)

  /** A legacy directory of the root that `migrate_job_directory` fails on. */
  predicate SomeJobFails(dm: Directories.DirectoryManager, store: Storage, dryRun: bool, now: Timestamp)
    requires WellFormed(dm.base) && Valid(now)
  {
    var step := JobStep(dm, store, dryRun, now);
    exists i :: 0 <= i < |store.dirs| && IsLegacyName(store.dirs[i]) && !step(store.dirs[i]).ok
  }

  /** The three organizing passes together. */
  datatype Organized = Organized(interpretedMoved: nat, htmlMoved: nat, errors: nat, copies: seq<Copy>)

  /** `organize_interpreted_files`, `organize_weekly_files` and
      `organize_html_files`, in that order: interpreted files go to the
      intermediate directory of their job, weekly files to the
      intermediate directory, pages to the staging directory. */
  function OrganizeLoose(dm: Directories.DirectoryManager, store: Storage, dryRun: bool, loose: Loose): (r: Organized)
    ensures dryRun ==> r.copies == [] && r.errors == 0
    ensures dryRun ==> (r.htmlMoved == |loose.html| &&
      r.interpretedMoved == |InterpretedPlan(dm, store, loose.interpreted)| + |loose.weekly|)
    ensures !dryRun ==> r.interpretedMoved + r.htmlMoved == |r.copies|
    ensures !dryRun ==> (r.errors == 0 <==>
      AllLand(store, InterpretedPlan(dm, store, loose.interpreted)) &&
      AllLand(store, Into(Directories.IntermediateDir(dm, ""), loose.weekly)) &&
      AllLand(store, Into(Directories.StagingDir(dm, ""), loose.html)))
  {
    var interpreted := Transfer(store, dryRun, InterpretedPlan(dm, store, loose.interpreted));
    var weekly := Transfer(store, dryRun, Into(Directories.IntermediateDir(dm, ""), loose.weekly));
    var html := Transfer(store, dryRun, Into(Directories.StagingDir(dm, ""), loose.html));
    Organized(interpreted.moved + weekly.moved, html.moved, interpreted.errors + weekly.errors + html.errors,
              interpreted.copies + weekly.copies + html.copies)
  }

  /** A dry run copies nothing in any directory. */
  lemma DryStep(dm: Directories.DirectoryManager, store: Storage, dryRun: bool, now: Timestamp)
    requires WellFormed(dm.base) && Valid(now)
    ensures dryRun ==> forall d :: JobStep(dm, store, dryRun, now)(d).copies == []
  {
  }

  lemma {:induction false} NoCopies(step: string -> JobOutcome, dryRun: bool, ds: seq<string>)
    requires dryRun ==> forall d :: step(d).copies == []
    ensures dryRun ==> CopiesOf(step, ds) == []
  {
    if |ds| > 0 {
      NoCopies(step, dryRun, ds[1..]);
    }
  }

  /** The migration after discovery and backup: the job directories until
      the first failure, then the organizing passes, then the cleanup
      unless it is a dry run. */
  function MoveAndClean(step: string -> JobOutcome, dm: Directories.DirectoryManager, store: Storage, opts: Options,
                        legacy: seq<string>, loose: Loose, backups: seq<Copy>): (r: Outcome)
    requires opts.dryRun ==> forall d :: step(d).copies == []
    ensures r.backups == backups
    ensures r.ok <==> r.stats.errors == 0
    ensures opts.dryRun ==> r.copies == [] && r.deletedFiles == [] && r.deletedDirs == [] && r.stats.jobDirsMigrated == 0
    ensures !opts.deleteOld ==> r.deletedFiles == [] && r.deletedDirs == []
    ensures forall p :: p in r.deletedFiles ==> p in AllLoose(loose) && store.deleteFile(p) == Ok(true)
    ensures forall d :: d in r.deletedDirs ==> d in legacy && store.deleteDir(d) == Ok(true)
    ensures (exists j :: 0 <= j < |legacy| && !step(legacy[j]).ok) ==>
      r.stats.errors == 1 && r.deletedFiles == [] && r.deletedDirs == [] &&
      r.stats.interpretedMoved == 0 && r.stats.htmlMoved == 0
    ensures r.ok && !opts.dryRun ==> r.stats.jobDirsMigrated == |legacy|
  {
    var jobs := MigrateJobs(step, legacy);
    var migrated := if opts.dryRun then 0 else jobs.done;
    NoCopies(step, opts.dryRun, legacy[..Tried(jobs)]);
    if jobs.failed then Outcome(false, NoStats.(jobDirsMigrated := migrated, errors := 1), backups, jobs.copies, [], [])
    else
      var moved := OrganizeLoose(dm, store, opts.dryRun, loose);
      var clean := if opts.dryRun then (Deletions([], 0), Deletions([], 0)) else Cleanup(store, opts, legacy, loose);
      var errors := moved.errors + clean.0.failed + clean.1.failed;
      Outcome(errors == 0,
              Stats(migrated, moved.interpretedMoved, moved.htmlMoved, |clean.0.deleted|, |clean.1.deleted|, errors),
              backups, jobs.copies + moved.copies, clean.0.deleted, clean.1.deleted)
  }

  /** `create_backup` raises, which makes `migrate` return False. */
  predicate BackupAborts(store: Storage, opts: Options) {
    opts.backup && !NothingToMigrate(store) &&
    Backup(store, LegacyDirectories(store.dirs), DiscoverLoose(store.files)).aborted
  }

  lemma EmptyIff<T>(r: seq<T>, s: seq<T>, keep: T -> bool)
    requires forall x :: x in r <==> x in s && keep(x)
    ensures r == [] <==> forall i :: 0 <= i < |s| ==> !keep(s[i])
  {
    if r != [] {
      assert r[0] in r;
    } else {
      forall i | 0 <= i < |s|
        ensures !keep(s[i])
      {
        assert s[i] !in r;
      }
    }
  }

  /** With nothing to migrate the discovered lists are empty, and the
      other way round. */
  lemma NothingFound(store: Storage)
    ensures NothingToMigrate(store) <==>
      LegacyDirectories(store.dirs) == [] && AllLoose(DiscoverLoose(store.files)) == []
  {
    EmptyIff(LegacyDirectories(store.dirs), store.dirs, IsLegacyName);
    NoLooseFiles(store.files, DiscoverLoose(store.files));
  }

  lemma NoLooseFiles(files: seq<string>, loose: Loose)
    requires forall p :: p in loose.interpreted <==> p in files && BucketOf(p) == Interpreted
    requires forall p :: p in loose.html <==> p in files && BucketOf(p) == Html
    requires forall p :: p in loose.weekly <==> p in files && BucketOf(p) == WeeklyInterpreted
    ensures AllLoose(loose) == [] <==> forall i :: 0 <= i < |files| ==> BucketOf(files[i]) == Other
  {
    EmptyIff(loose.interpreted, files, InBucket(Interpreted));
    EmptyIff(loose.html, files, InBucket(Html));
    EmptyIff(loose.weekly, files, InBucket(WeeklyInterpreted));
  }

  lemma ListedFailure(step: string -> JobOutcome, dirs: seq<string>, legacy: seq<string>)
    requires forall d :: d in legacy <==> d in dirs && IsLegacyName(d)
    ensures (exists i :: 0 <= i < |dirs| && IsLegacyName(dirs[i]) && !step(dirs[i]).ok) ==>
      exists j :: 0 <= j < |legacy| && !step(legacy[j]).ok
  {
    if exists i :: 0 <= i < |dirs| && IsLegacyName(dirs[i]) && !step(dirs[i]).ok {
      var i :| 0 <= i < |dirs| && IsLegacyName(dirs[i]) && !step(dirs[i]).ok;
      assert dirs[i] in legacy;
      var j :| 0 <= j < |legacy| && legacy[j] == dirs[i];
    }
  }

  lemma LooseFromRoot(files: seq<string>, loose: Loose)
    requires forall p :: p in loose.interpreted <==> p in files && BucketOf(p) == Interpreted
    requires forall p :: p in loose.html <==> p in files && BucketOf(p) == Html
    requires forall p :: p in loose.weekly <==> p in files && BucketOf(p) == WeeklyInterpreted
    ensures forall p :: p in AllLoose(loose) ==> p in files && BucketOf(p) != Other
  {
  }

  /** `migrate` once something was found: the backup if asked for, then
      the move and the cleanup. */
  function Proceed(step: string -> JobOutcome, dm: Directories.DirectoryManager, store: Storage, opts: Options,
                   legacy: seq<string>, loose: Loose): (r: Outcome)
    requires forall d :: d in legacy <==> d in store.dirs && IsLegacyName(d)
    requires forall p :: p in AllLoose(loose) ==> p in store.files && BucketOf(p) != Other
    requires opts.dryRun ==> forall d :: step(d).copies == []
    ensures r.ok <==> r.stats.errors == 0 && !(opts.backup && Backup(store, legacy, loose).aborted)
    ensures opts.dryRun ==> r.copies == [] && r.deletedFiles == [] && r.deletedDirs == []
    ensures !opts.deleteOld ==> r.deletedFiles == [] && r.deletedDirs == []
    ensures forall p :: p in r.deletedFiles ==>
      p in store.files && BucketOf(p) != Other && store.deleteFile(p) == Ok(true)
    ensures forall d :: d in r.deletedDirs ==> d in store.dirs && IsLegacyName(d) && store.deleteDir(d) == Ok(true)
    ensures (exists i :: 0 <= i < |store.dirs| && IsLegacyName(store.dirs[i]) && !step(store.dirs[i]).ok) ==>
      !r.ok && r.deletedFiles == [] && r.deletedDirs == [] && r.stats.interpretedMoved == 0 && r.stats.htmlMoved == 0
    ensures r.ok && !opts.dryRun ==> r.stats.jobDirsMigrated == |legacy|
    ensures !opts.backup ==> r.backups == []
    ensures forall c :: c in r.backups ==> StartsWith(c.to, BackupDir + "/")
    ensures opts.backup ==> r.backups == Backup(store, legacy, loose).copies
    ensures opts.backup && Backup(store, legacy, loose).aborted ==>
      r.stats == NoStats && r.copies == [] && r.deletedFiles == [] && r.deletedDirs == []
  {
    var backups := if opts.backup then Backup(store, legacy, loose) else Backed([], false);
    if backups.aborted then Outcome(false, NoStats, backups.copies, [], [], [])
    else
      ListedFailure(step, store.dirs, legacy);
      MoveAndClean(step, dm, store, opts, legacy, loose, backups.copies)
  }

  /** `MigrationTool.migrate`. */
  function Migrate(dm: Directories.DirectoryManager, store: Storage, opts: Options, now: Timestamp): (r: Outcome)
    requires WellFormed(dm.base) && Valid(now)
    ensures NothingToMigrate(store) ==> r == Outcome(true, NoStats, [], [], [], [])
    ensures r.ok <==> r.stats.errors == 0 && !BackupAborts(store, opts)
    ensures opts.dryRun ==> r.copies == [] && r.deletedFiles == [] && r.deletedDirs == []
    ensures !opts.deleteOld ==> r.deletedFiles == [] && r.deletedDirs == []
    ensures forall p :: p in r.deletedFiles ==>
      p in store.files && BucketOf(p) != Other && store.deleteFile(p) == Ok(true)
    ensures forall d :: d in r.deletedDirs ==> d in store.dirs && IsLegacyName(d) && store.deleteDir(d) == Ok(true)
    ensures SomeJobFails(dm, store, opts.dryRun, now) ==>
      !r.ok && r.deletedFiles == [] && r.deletedDirs == [] && r.stats.interpretedMoved == 0 && r.stats.htmlMoved == 0
    ensures r.ok && !opts.dryRun ==> r.stats.jobDirsMigrated == |LegacyDirectories(store.dirs)|
    ensures !opts.backup ==> r.backups == []
    ensures forall c :: c in r.backups ==> StartsWith(c.to, BackupDir + "/")
    ensures opts.backup && !NothingToMigrate(store) ==>
      r.backups == Backup(store, LegacyDirectories(store.dirs), DiscoverLoose(store.files)).copies
    ensures BackupAborts(store, opts) ==>
      r.stats == NoStats && r.copies == [] && r.deletedFiles == [] && r.deletedDirs == []
  {
    var legacy := LegacyDirectories(store.dirs);
    var loose := DiscoverLoose(store.files);
    NothingFound(store);
    if legacy == [] && AllLoose(loose) == [] then
      NothingFails(dm, store, opts, now);
      Outcome(true, NoStats, [], [], [], [])
    else
      DryStep(dm, store, opts.dryRun, now);
      LooseFromRoot(store.files, loose);
      Proceed(JobStep(dm, store, opts.dryRun, now), dm, store, opts, legacy, loose)
  }

  /** With nothing to migrate, no job fails and no backup is attempted. */
  lemma NothingFails(dm: Directories.DirectoryManager, store: Storage, opts: Options, now: Timestamp)
    requires WellFormed(dm.base) && Valid(now) && NothingToMigrate(store)
    ensures !SomeJobFails(dm, store, opts.dryRun, now) && !BackupAborts(store, opts)
  {
  }
}

=== FILE: paths.dfy ===
/** The part of `pathlib.PurePosixPath` the directory layout relies on:
    splitting a path into its parts, joining with `/`, and printing. */
module Paths {
  import opened Text
  import opened Lists

  /** The root part of an absolute path. */
  const Root: string := "/"

  /** A part `pathlib` keeps: not empty, no separator, not `.`. */
  predicate IsComponent(c: string) {
    |c| > 0 && '/' !in c && c != "."
  }

  /** What `Path(...).parts` can hold: components, after an optional root. */
  predicate WellFormed(ps: seq<string>) {
    forall i :: 0 <= i < |ps| ==> IsComponent(ps[i]) || (i == 0 && ps[i] == Root)
  }

  /** `Path(s).parts`: the text cut at `/`, empty and `.` pieces dropped,
      and a leading `/` kept as the root. */
  function Parts(s: string): (ps: seq<string>)
    ensures WellFormed(ps)
    ensures (|ps| > 0 && ps[0] == Root) <==> StartsWith(s, "/")
  {
    var comps := Filter(Split(s, '/'), IsComponent);
    assert forall i :: 0 <= i < |comps| ==> comps[i] != Root;
    if StartsWith(s, "/") then [Root] + comps else comps
  }

  /** `str(path)` of a path with parts `ps`; the empty path prints as `.`. */
  function Str(ps: seq<string>): string {
    if |ps| == 0 then "."
    else if ps[0] == Root then "/" + Join(ps[1..], "/")
    else Join(ps, "/")
  }

  /** `path / s`: an absolute `s` replaces the path. */
  function Append(ps: seq<string>, s: string): (r: seq<string>)
    ensures WellFormed(ps) && |ps| > 0 ==> WellFormed(r)
    ensures !StartsWith(s, "/") ==> r == ps + Parts(s)
  {
    if StartsWith(s, "/") then Parts(s) else ps + Parts(s)
  }

  lemma JoinFirstChar(ps: seq<string>)
    requires |ps| > 0 && |ps[0]| > 0
    ensures |Join(ps, "/")| > 0 && Join(ps, "/")[0] == ps[0][0]
  {
  }

  /** Printing a path and reading it back gives the same parts. */
  lemma PartsOfStr(ps: seq<string>)
    requires WellFormed(ps)
    ensures Parts(Str(ps)) == ps
  {
    if |ps| == 0 {
      SplitNoSep(".", '/');
      assert Filter(["."], IsComponent) == [];
    } else if ps[0] == Root {
      var rest := ps[1..];
      assert forall i :: 0 <= i < |rest| ==> IsComponent(rest[i]) by {
        forall i | 0 <= i < |rest| ensures IsComponent(rest[i]) {
          assert rest[i] == ps[i + 1];
        }
      }
      RootedPartsOfStr(rest);
      assert ps == [Root] + rest;
    } else {
      RelativePartsOfStr(ps);
    }
  }

  lemma RootedPartsOfStr(rest: seq<string>)
    requires forall i :: 0 <= i < |rest| ==> IsComponent(rest[i])
    ensures Parts("/" + Join(rest, "/")) == [Root] + rest
  {
    var j := Join(rest, "/");
    var s := "/" + j;
    SplitAfterSep(j);
    var pieces := Split(j, '/');
    assert Filter([""] + pieces, IsComponent) == Filter(pieces, IsComponent);
    if |rest| == 0 {
      assert pieces == [""];
      assert Filter(pieces, IsComponent) == [];
    } else {
      SplitJoin(rest, '/');
      FilterAll(rest, IsComponent);
    }
  }

  lemma SplitAfterSep(j: string)
    ensures Split("/" + j, '/') == [""] + Split(j, '/')
    ensures StartsWith("/" + j, "/")
  {
    assert ("/" + j)[1..] == j;
  }

  lemma RelativePartsOfStr(ps: seq<string>)
    requires |ps| > 0 && forall i :: 0 <= i < |ps| ==> IsComponent(ps[i])
    ensures Parts(Join(ps, "/")) == ps
  {
    SplitJoin(ps, '/');
    FilterAll(ps, IsComponent);
    JoinFirstChar(ps);
  }

  /** Reading a path's parts normalises it once and for all. */
  lemma PartsIdempotent(s: string)
    ensures Parts(Str(Parts(s))) == Parts(s)
  {
    PartsOfStr(Parts(s));
  }
}

=== FILE: patterns.dfy ===
/** The fragment of Python's `re` the system's timestamp formats use: a
    sequence of literal characters and capture groups, each group a list of
    fixed-length alternatives tried in order with backtracking, matched at
    the start of the text (`re.match`). `_strptime` compiles its formats to
    exactly such patterns. */
module Patterns {
  import opened Wrappers
  import opened Text
  import opened Lists

  /** A character class: a range, or the union of two classes. */
  datatype Class = Range(lo: char, hi: char) | Union(left: Class, right: Class)

  predicate InClass(c: char, k: Class) {
    match k
    case Range(lo, hi) => lo <= c <= hi
    case Union(a, b) => InClass(c, a) || InClass(c, b)
  }

  function One(c: char): Class {
    Range(c, c)
  }

  /** A literal letter under `re.IGNORECASE`. */
  function Letter(upper: char, lower: char): Class {
    Union(One(upper), One(lower))
  }

  /** `\d`, restricted to ASCII digits. */
  const Digit: Class := Range('0', '9')

  /** A fixed-length alternative: one class per character. */
  type Pattern = seq<Class>

  predicate PatternFits(p: Pattern, piece: string) {
    |p| == |piece| && forall i :: 0 <= i < |p| ==> InClass(piece[i], p[i])
  }

  datatype Item = Lit(k: Class) | Group(alts: seq<Pattern>)

  /** `piece` is text the item can match on its own. */
  predicate ItemFits(item: Item, piece: string) {
    match item
    case Lit(k) => |piece| == 1 && InClass(piece[0], k)
    case Group(alts) => exists j :: 0 <= j < |alts| && PatternFits(alts[j], piece)
  }

  /** The last piece comes last in the text. */
  lemma {:induction false} FlattenLast(ps: seq<string>)
    requires |ps| > 0
    ensures Flatten(ps) == Flatten(ps[..|ps| - 1]) + ps[|ps| - 1]
    decreases |ps|
  {
    if |ps| == 1 {
      assert ps[1..] == [] && ps[..0] == [];
    } else {
      FlattenLast(ps[1..]);
      assert ps[1..][..|ps| - 2] == ps[..|ps| - 1][1..];
    }
  }

  /** What a successful match promises: one piece per item, each piece
      matched by its item, and the pieces spell a prefix of the text. */
  predicate Sound(items: seq<Item>, s: string, pieces: seq<string>) {
    |pieces| == |items|
    && StartsWith(s, Flatten(pieces))
    && forall k :: 0 <= k < |items| ==> ItemFits(items[k], pieces[k])
  }

  lemma SoundCons(item: Item, rest: seq<Item>, s: string, piece: string, ps: seq<string>)
    requires StartsWith(s, piece) && ItemFits(item, piece)
    requires Sound(rest, s[|piece|..], ps)
    ensures Sound([item] + rest, s, [piece] + ps)
  {
    var items := [item] + rest;
    var pieces := [piece] + ps;
    assert pieces[1..] == ps;
    assert Flatten(pieces) == piece + Flatten(ps);
    assert s == piece + s[|piece|..];
    assert s[..|Flatten(pieces)|] == piece + s[|piece|..][..|Flatten(ps)|];
    forall k | 0 <= k < |items|
      ensures ItemFits(items[k], pieces[k])
    {
      if k > 0 {
        assert items[k] == rest[k - 1] && pieces[k] == ps[k - 1];
      }
    }
  }

  /** The first match of `items` at the start of `s`, in the order Python's
      backtracking matcher explores: the pieces each item matched. */
  function MatchItems(items: seq<Item>, s: string): (r: Option<seq<string>>)
    ensures r.Some? ==> Sound(items, s, r.value)
    decreases |items|, 1
  {
    if |items| == 0 then Some([])
    else
      assert items == [items[0]] + items[1..];
      match items[0]
      case Lit(k) =>
        if |s| > 0 && InClass(s[0], k) then
          match MatchItems(items[1..], s[1..])
          case None => None
          case Some(ps) =>
            SoundCons(items[0], items[1..], s, s[..1], ps);
            Some([s[..1]] + ps)
        else None
      case Group(alts) => TryAlts(alts, 0, items[1..], s)
  }

  /** Alternatives `i..` of a group followed by `rest`: the first alternative
      whose continuation also matches wins. */
  function TryAlts(alts: seq<Pattern>, i: nat, rest: seq<Item>, s: string): (r: Option<seq<string>>)
    requires i <= |alts|
    ensures r.Some? ==> Sound([Group(alts)] + rest, s, r.value)
    decreases |rest| + 1, 0, |alts| - i
  {
    if i == |alts| then None
    else
      var n := |alts[i]|;
      if n <= |s| && PatternFits(alts[i], s[..n]) then
        match MatchItems(rest, s[n..])
        case Some(ps) =>
          SoundCons(Group(alts), rest, s, s[..n], ps);
          Some([s[..n]] + ps)
        case None => TryAlts(alts, i + 1, rest, s)
      else TryAlts(alts, i + 1, rest, s)
  }

  // ---------------------------------------------------------------------
  // Completeness for canonical text
  // ---------------------------------------------------------------------

  /** Scanning the alternatives from `i`, every one has the piece's length
      until one matches it: the matcher settles on that one. */
  predicate Leads(alts: seq<Pattern>, i: nat, piece: string)
    decreases |alts| - i
  {
    i < |alts| && |alts[i]| == |piece|
    && (PatternFits(alts[i], piece) || Leads(alts, i + 1, piece))
  }

  predicate Canonical(item: Item, piece: string) {
    match item
    case Lit(k) => |piece| == 1 && InClass(piece[0], k)
    case Group(alts) => Leads(alts, 0, piece)
  }

  lemma {:induction false} TryAltsLeads(alts: seq<Pattern>, i: nat, rest: seq<Item>, piece: string, tail: string, ps: seq<string>)
    requires Leads(alts, i, piece)
    requires MatchItems(rest, tail) == Some(ps)
    ensures TryAlts(alts, i, rest, piece + tail) == Some([piece] + ps)
    decreases |alts| - i
  {
    var s := piece + tail;
    assert s[..|piece|] == piece && s[|piece|..] == tail;
    if !PatternFits(alts[i], piece) {
      TryAltsLeads(alts, i + 1, rest, piece, tail, ps);
    }
  }

  /** Text made of canonical pieces, followed by anything, matches with
      exactly those pieces. */
  lemma {:induction false} MatchCanonical(items: seq<Item>, pieces: seq<string>, tail: string)
    requires |pieces| == |items|
    requires forall k :: 0 <= k < |items| ==> Canonical(items[k], pieces[k])
    ensures MatchItems(items, Flatten(pieces) + tail) == Some(pieces)
  {
    if |items| > 0 {
      assert Canonical(items[0], pieces[0]);
      assert forall k :: 0 <= k < |items| - 1 ==> Canonical(items[1..][k], pieces[1..][k]) by {
        forall k | 0 <= k < |items| - 1
          ensures Canonical(items[1..][k], pieces[1..][k])
        {
          assert Canonical(items[k + 1], pieces[k + 1]);
        }
      }
      MatchCanonical(items[1..], pieces[1..], tail);
      FlattenFirst(pieces, tail);
      HeadAndRest(pieces);
      CanonicalStep(items, pieces[0], Flatten(pieces[1..]) + tail, pieces[1..]);
    }
  }

  lemma FlattenFirst(pieces: seq<string>, tail: string)
    requires |pieces| > 0
    ensures Flatten(pieces) + tail == pieces[0] + (Flatten(pieces[1..]) + tail)
  {
    var a, b := pieces[0], Flatten(pieces[1..]);
    assert Flatten(pieces) == a + b;
    Associative(a, b, tail);
  }

  lemma Associative(a: string, b: string, c: string)
    ensures (a + b) + c == a + (b + c)
  {
  }

  lemma HeadAndRest(pieces: seq<string>)
    requires |pieces| > 0
    ensures pieces == [pieces[0]] + pieces[1..]
  {
  }

  /** A canonical first piece, then text the other items match. */
  lemma CanonicalStep(items: seq<Item>, piece: string, after: string, ps: seq<string>)
    requires |items| > 0 && Canonical(items[0], piece)
    requires MatchItems(items[1..], after) == Some(ps)
    ensures MatchItems(items, piece + after) == Some([piece] + ps)
  {
    var s := piece + after;
    match items[0]
    case Lit(k) =>
      assert s[0] == piece[0] && s[..1] == piece && s[1..] == after;
    case Group(alts) =>
      TryAltsLeads(alts, 0, items[1..], piece, after, ps);
  }

  // ---------------------------------------------------------------------
  // Stepping the matcher one item at a time
  // ---------------------------------------------------------------------

  /** The alternative matches the start of the text. */
  predicate FitsPrefix(p: Pattern, s: string) {
    |p| <= |s| && PatternFits(p, s[..|p|])
  }

  /** The matcher takes alternative `k` of a group when every earlier one
      fails at the start of the text and the rest matches after it. */
  lemma {:induction false} TryAltsFirst(alts: seq<Pattern>, i: nat, k: nat, rest: seq<Item>, piece: string, tail: string, ps: seq<string>)
    requires i <= k < |alts| && PatternFits(alts[k], piece)
    requires forall j :: i <= j < k ==> !FitsPrefix(alts[j], piece + tail)
    requires MatchItems(rest, tail) == Some(ps)
    ensures TryAlts(alts, i, rest, piece + tail) == Some([piece] + ps)
    decreases k - i
  {
    var s := piece + tail;
    assert s[..|piece|] == piece && s[|piece|..] == tail;
    if i < k {
      TryAltsFirst(alts, i + 1, k, rest, piece, tail, ps);
    }
  }

  lemma GroupStep(items: seq<Item>, k: nat, piece: string, tail: string, ps: seq<string>)
    requires |items| > 0 && items[0].Group? && k < |items[0].alts| && PatternFits(items[0].alts[k], piece)
    requires forall j :: 0 <= j < k ==> !FitsPrefix(items[0].alts[j], piece + tail)
    requires MatchItems(items[1..], tail) == Some(ps)
    ensures MatchItems(items, piece + tail) == Some([piece] + ps)
    ensures Flatten([piece] + ps) == piece + Flatten(ps)
  {
    assert ([piece] + ps)[1..] == ps;
    TryAltsFirst(items[0].alts, 0, k, items[1..], piece, tail, ps);
  }

  /** `GroupStep` for the third alternative, with the two earlier failures
      given one by one. */
  lemma ThirdStep(items: seq<Item>, piece: string, tail: string, ps: seq<string>)
    requires |items| > 0 && items[0].Group? && 2 < |items[0].alts| && PatternFits(items[0].alts[2], piece)
    requires !FitsPrefix(items[0].alts[0], piece + tail) && !FitsPrefix(items[0].alts[1], piece + tail)
    requires MatchItems(items[1..], tail) == Some(ps)
    ensures MatchItems(items, piece + tail) == Some([piece] + ps)
  {
    assert forall j :: 0 <= j < 2 ==> !FitsPrefix(items[0].alts[j], piece + tail) by {
      forall j | 0 <= j < 2 ensures !FitsPrefix(items[0].alts[j], piece + tail) {
        if j == 0 { } else { }
      }
    }
    GroupStep(items, 2, piece, tail, ps);
  }

  /** `GroupStep` for the fourth alternative, with the three earlier
      failures given one by one. */
  lemma FourthStep(items: seq<Item>, piece: string, tail: string, ps: seq<string>)
    requires |items| > 0 && items[0].Group? && 3 < |items[0].alts| && PatternFits(items[0].alts[3], piece)
    requires !FitsPrefix(items[0].alts[0], piece + tail) && !FitsPrefix(items[0].alts[1], piece + tail)
    requires !FitsPrefix(items[0].alts[2], piece + tail)
    requires MatchItems(items[1..], tail) == Some(ps)
    ensures MatchItems(items, piece + tail) == Some([piece] + ps)
  {
    assert forall j :: 0 <= j < 3 ==> !FitsPrefix(items[0].alts[j], piece + tail) by {
      forall j | 0 <= j < 3 ensures !FitsPrefix(items[0].alts[j], piece + tail) {
        if j == 0 { } else if j == 1 { } else { }
      }
    }
    GroupStep(items, 3, piece, tail, ps);
  }

  lemma SepStep(items: seq<Item>, c: char, tail: string, ps: seq<string>)
    requires |items| > 0 && items[0].Lit? && InClass(c, items[0].k)
    requires MatchItems(items[1..], tail) == Some(ps)
    ensures MatchItems(items, [c] + tail) == Some([[c]] + ps)
    ensures Flatten([[c]] + ps) == [c] + Flatten(ps)
  {
    assert ([[c]] + ps)[1..] == ps;
    var s := [c] + tail;
    assert s[..1] == [c] && s[1..] == tail;
  }

  /** An alternative fails at the start of the text once one of its
      characters does. */
  lemma FailsAt(p: Pattern, s: string, j: nat)
    requires j < |p| && j < |s| && !InClass(s[j], p[j])
    ensures !FitsPrefix(p, s)
  {
    if |p| <= |s| {
      assert s[..|p|][j] == s[j];
    }
  }
}

=== FILE: run_state.dfy ===
/** The process-wide run state of common.py: one stop flag shared by every
    run, and the id of the run that last reset it. */
module RunState {
  import opened Wrappers

  datatype State = State(shouldStop: bool, currentRunId: Option<string>)

  /** The class attributes before any run: no stop requested, no run id. */
  const Initial: State := State(false, None)

  /** `RunState.stop_requested()`. */
  function StopRequested(s: State): bool {
    s.shouldStop
  }

  /** `RunState.request_stop()`: raises the flag, whoever's run is current.
      Asking again while the flag is up changes nothing. */
  function RequestStop(s: State): (r: State)
    ensures StopRequested(r)
    ensures RunId(r) == RunId(s)
    ensures r == s <==> StopRequested(s)
  {
    s.(shouldStop := true)
  }

  /** `RunState.reset(run_id)`: lowers the flag and records the new id. It
      forgets everything before it, stop requests included: the state is
      the one before any run, with the new id. */
  function Reset(s: State, runId: Option<string>): (r: State)
    ensures !StopRequested(r)
    ensures RunId(r) == runId
    ensures r == Initial.(currentRunId := runId)
  {
    State(false, runId)
  }

  /** `RunState.get_run_id()`. */
  function RunId(s: State): Option<string> {
    s.currentRunId
  }
}

=== FILE: runner.dfy ===
/** The pipeline driver of runner.py: which steps a run executes and in what
    order, how a stop request or an exception ends it, which weeks the
    weekly interpretation and the re-interpretation take, and which cursors
    the `reset-cursor` command resets. The work each step does (scraping,
    cleaning, LLM calls, uploads) is outside the model: its outcome is an
    input. */
module Runner {
  import opened Wrappers
  import opened Lists
  import opened Calendar
  import opened Timestamps
  import opened Instants
  import opened Zones
  import JobIndex

  // ---------------------------------------------------------------------
  // Steps
  // ---------------------------------------------------------------------

  /** The `Steps` enum. */
  datatype Step = Harvest | Scrape | Clean | Reharvest | Extract | Interpret
                | InterpretWeekly | SummarizeDaily | Format | Deploy

  /** The enum's values, as `completed_steps` records them. */
  function Name(s: Step): string {
    match s
    case Harvest => "harvest"
    case Scrape => "harvest_scrape"
    case Clean => "harvest_clean"
    case Reharvest => "re-harvest"
    case Extract => "extract"
    case Interpret => "interpret"
    case InterpretWeekly => "interpret_weekly"
    case SummarizeDaily => "summarize_daily"
    case Format => "format"
    case Deploy => "deploy"
  }

  const AllSteps: seq<Step> := [Harvest, Scrape, Clean, Reharvest, Extract, Interpret,
                                InterpretWeekly, SummarizeDaily, Format, Deploy]

  /** `Steps(value)`: the member with that value, `None` where the enum
      raises `ValueError`. */
  function FromName(n: string): (r: Option<Step>)
    ensures r.Some? ==> Name(r.value) == n
  {
    if n == "harvest" then Some(Harvest)
    else if n == "harvest_scrape" then Some(Scrape)
    else if n == "harvest_clean" then Some(Clean)
    else if n == "re-harvest" then Some(Reharvest)
    else if n == "extract" then Some(Extract)
    else if n == "interpret" then Some(Interpret)
    else if n == "interpret_weekly" then Some(InterpretWeekly)
    else if n == "summarize_daily" then Some(SummarizeDaily)
    else if n == "format" then Some(Format)
    else if n == "deploy" then Some(Deploy)
    else None
  }

  /** Every step is found again from its value, so values identify steps. */
  lemma FromNameOfName(s: Step)
    ensures FromName(Name(s)) == Some(s)
  {
  }

  lemma NameInjective(a: Step, b: Step)
    requires Name(a) == Name(b)
    ensures a == b
  {
    FromNameOfName(a);
    FromNameOfName(b);
  }

  // ---------------------------------------------------------------------
  // validate_step_combinations
  // ---------------------------------------------------------------------

  const ScrapeConflict: string := "Cannot combine 'harvest' with 'harvest_scrape' - harvest includes scraping"
  const CleanConflict: string := "Cannot combine 'harvest' with 'harvest_clean' - harvest includes cleaning"

  /** The names of the requested steps, as the validation compares them. */
  function Names(steps: seq<Step>): (r: seq<string>)
    ensures |r| == |steps|
    ensures forall i :: 0 <= i < |r| ==> r[i] == Name(steps[i])
  {
    if |steps| == 0 then [] else [Name(steps[0])] + Names(steps[1..])
  }

  lemma NameRequested(steps: seq<Step>, s: Step)
    ensures Name(s) in Names(steps) <==> s in steps
  {
    if Name(s) in Names(steps) {
      var i :| 0 <= i < |steps| && Names(steps)[i] == Name(s);
      NameInjective(steps[i], s);
    }
  }

  /** `validate_step_combinations(steps)`: the `ValueError` it raises, if any.
      `harvest_clean` without a scrape only logs a warning. */
  function Validate(steps: seq<Step>): (r: Result<()>)
    ensures r.Err? <==> Harvest in steps && (Scrape in steps || Clean in steps)
    ensures r.Err? ==> r.error == if Scrape in steps then ScrapeConflict else CleanConflict
  {
    var values := Names(steps);
    NameRequested(steps, Harvest);
    NameRequested(steps, Scrape);
    NameRequested(steps, Clean);
    if "harvest" in values && "harvest_scrape" in values then Err(ScrapeConflict)
    else if "harvest" in values && "harvest_clean" in values then Err(CleanConflict)
    else Ok(())
  }

  // ---------------------------------------------------------------------
  // run: the step chain
  // ---------------------------------------------------------------------

  /** The stop flag as the chain sees it. It is lowered by `RunState.reset`
      at the start of the run and raised, at most once, by a stop request
      from elsewhere; `stopAt == Some(k)` says it is up from the moment `k`
      steps have completed (a request made while a step runs is first seen
      after it). */
  predicate StopSeen(stopAt: Option<nat>, completed: nat) {
    stopAt.Some? && stopAt.value <= completed
  }

  const NoJobDirMessage: string :=
    "No job directory available for cleaning. Run harvest_scrape first or specify job_dir."

  /** Python's truth value of `artifacts_dir`: absent and empty are false. */
  predicate HasDir(artifacts: Option<string>) {
    artifacts.Some? && artifacts.value != ""
  }

  /** The chain so far: the steps completed, the current `artifacts_dir`
      and the exception that ended the chain, if one did. */
  datatype Progress = Progress(done: seq<Step>, artifacts: Option<string>, error: Option<string>)

  /** Step outcomes the model takes as inputs: `fails(s)` is the message of
      the exception step `s` raises, `None` when it succeeds; `newDir` is the
      job directory a harvest or a scrape returns. */
  datatype Effects = Effects(fails: Step -> Option<string>, newDir: string)

  /** The exception starting step `s` ends with: the missing-directory check
      of `harvest_clean` comes before any work. */
  function StepError(s: Step, artifacts: Option<string>, fx: Effects): Option<string> {
    if s == Clean && !HasDir(artifacts) then Some(NoJobDirMessage) else fx.fails(s)
  }

  /** Running one step: on success it is appended to `completed_steps`, and a
      harvest or scrape replaces `artifacts_dir` with the new job directory. */
  function Attempt(p: Progress, s: Step, fx: Effects): Progress {
    match StepError(s, p.artifacts, fx)
    case Some(e) => p.(error := Some(e))
    case None =>
      Progress(p.done + [s], if s == Harvest || s == Scrape then Some(fx.newDir) else p.artifacts, None)
  }

  /** The `if / elif / elif` over harvest, harvest_scrape and re-harvest. */
  function HarvestStage(p: Progress, steps: seq<Step>, stopAt: Option<nat>, fx: Effects): Progress {
    if Harvest in steps && !StopSeen(stopAt, |p.done|) then Attempt(p, Harvest, fx)
    else if Scrape in steps && !StopSeen(stopAt, |p.done|) then Attempt(p, Scrape, fx)
    else if Reharvest in steps && !StopSeen(stopAt, |p.done|) then Attempt(p, Reharvest, fx)
    else p
  }

  lemma LaterStepsNoHarvest()
    ensures forall i :: 0 <= i < |LaterSteps| ==> LaterSteps[i] != Harvest && LaterSteps[i] != Scrape
  {
  }

  /** The steps after the harvest group, each behind its own
      `if step in steps and not RunState.stop_requested()`. */
  const LaterSteps: seq<Step> := [Clean, Extract, Interpret, InterpretWeekly, SummarizeDaily, Format, Deploy]

  /** The `if` blocks for `order`, in turn; an exception skips the rest. */
  function Stages(p: Progress, order: seq<Step>, steps: seq<Step>, stopAt: Option<nat>, fx: Effects): Progress
    decreases |order|
  {
    if |order| == 0 || p.error.Some? then p
    else
      var next := if order[0] in steps && !StopSeen(stopAt, |p.done|) then Attempt(p, order[0], fx) else p;
      Stages(next, order[1..], steps, stopAt, fx)
  }

  datatype Status = Success | Stopped | Failed

  /** The `status` strings of the result dictionary. */
  function StatusName(s: Status): string {
    match s
    case Success => "success"
    case Stopped => "stopped"
    case Failed => "error"
  }

  /** The dictionary `run` returns. */
  datatype RunResult = RunResult(runId: string, status: Status, completed: seq<Step>, error: Option<string>)

  /** The `job_dir` keyword: absent or `"latest"` picks the latest listed
      job; anything else must be a job path. A `ValueError` of `from_path`
      is raised again with the path in its message; the `OverflowError` of
      the week key is not a `ValueError` and passes through. */
  function StartDir(jobDir: Option<string>, dirs: seq<string>, zone: Zone): Result<Option<string>> {
    if jobDir.None? || jobDir.value == "latest" then
      match JobIndex.FindLatest(dirs, zone)
      case Err(e) => Err(e)
      case Ok(latest) => Ok(if latest.Some? then Some(latest.value.storagePath) else None)
    else
      match JobIndex.FromPath(jobDir.value, zone)
      case Job(j) => Ok(Some(j.storagePath))
      case Invalid(_) => Err("Invalid job directory format: " + jobDir.value)
      case Overflow(e) => Err(e)
  }

  /** The step chain of `run`, from the `try` on, once the job directory
      `start` is known. */
  function Execute(steps: seq<Step>, runId: string, start: Option<string>, stopAt: Option<nat>, fx: Effects): (r: RunResult)
    ensures r.runId == runId && (r.status == Failed <==> r.error.Some?)
  {
    Report(runId, Stages(HarvestStage(Progress([], start, None), steps, stopAt, fx), LaterSteps, steps, stopAt, fx), stopAt)
  }

  /** The result dictionary once the chain has ended as `p`: an exception
      gives `error`, else a stop seen at the end gives `stopped`. */
  function Report(runId: string, p: Progress, stopAt: Option<nat>): (r: RunResult)
    ensures r.runId == runId && (r.status == Failed <==> r.error.Some?)
  {
    var status := if p.error.Some? then Failed else if StopSeen(stopAt, |p.done|) then Stopped else Success;
    RunResult(runId, status, p.done, p.error)
  }

  /** `run(steps, run_id=runId, job_dir=...)`: `Err` is an exception `run`
      itself raises (validation or job directory, before the step chain);
      an exception inside the chain becomes status `error`. `dirs` is the
      storage listing `find_latest` reads. */
  function Run(steps: seq<Step>, runId: string, jobDir: Option<string>, dirs: seq<string>, zone: Zone,
               stopAt: Option<nat>, fx: Effects): (r: Result<RunResult>)
    ensures r.Err? <==> Validate(steps).Err? || StartDir(jobDir, dirs, zone).Err?
    ensures Validate(steps).Err? ==> r == Err(Validate(steps).error)
    ensures r.Ok? ==> r.value.runId == runId && (r.value.status == Failed <==> r.value.error.Some?)
  {
    match Validate(steps)
    case Err(e) => Err(e)
    case Ok(_) =>
      match StartDir(jobDir, dirs, zone)
      case Err(e) => Err(e)
      case Ok(start) => Ok(Execute(steps, runId, start, stopAt, fx))
  }

  // ---------------------------------------------------------------------
  // run: what the chain promises
  // ---------------------------------------------------------------------

  /** The harvest-type step a run would execute: harvest before
      harvest_scrape before re-harvest. */
  function HarvestPick(steps: seq<Step>): Option<Step> {
    if Harvest in steps then Some(Harvest)
    else if Scrape in steps then Some(Scrape)
    else if Reharvest in steps then Some(Reharvest)
    else None
  }

  function Requested(steps: seq<Step>): Step -> bool {
    s => s in steps
  }

  /** The requested later steps, in their fixed order. */
  function Later(steps: seq<Step>): (r: seq<Step>)
    ensures forall i :: 0 <= i < |r| ==> !IsHarvestKind(r[i]) && r[i] in steps
  {
    var r := Filter(LaterSteps, Requested(steps));
    assert forall j :: 0 <= j < |LaterSteps| ==> !IsHarvestKind(LaterSteps[j]);
    forall i | 0 <= i < |r| ensures !IsHarvestKind(r[i]) && r[i] in steps {
      RequestedMember(LaterSteps, steps, r[i]);
    }
    r
  }

  /** A step that survives filtering by the request is requested, and is
      of a kind the filtered list holds. */
  lemma RequestedMember(s: seq<Step>, steps: seq<Step>, x: Step)
    requires forall j :: 0 <= j < |s| ==> !IsHarvestKind(s[j])
    requires x in Filter(s, Requested(steps))
    ensures !IsHarvestKind(x) && x in steps
  {
    FilterMembers(s, Requested(steps), x);
  }

  /** The plan's head: the chosen harvest-type step, if any. */
  function Head(steps: seq<Step>): (r: seq<Step>)
    ensures |r| <= 1
    ensures |r| == 1 ==> HarvestPick(steps) == Some(r[0]) && r[0] in steps
  {
    if HarvestPick(steps).Some? then [HarvestPick(steps).value] else []
  }

  /** Reference definition of the run's plan: the chosen harvest-type step,
      then the requested later steps in their fixed order. */
  function Plan(steps: seq<Step>): seq<Step> {
    Head(steps) + Later(steps)
  }

  /** `artifacts_dir` once `done` has completed: the directory a harvest or
      scrape returned, else the one the run started with. */
  function DirAfter(done: seq<Step>, start: Option<string>, fx: Effects): Option<string> {
    if |done| > 0 && (done[0] == Harvest || done[0] == Scrape) then Some(fx.newDir) else start
  }

  predicate IsHarvestKind(s: Step) {
    s == Harvest || s == Scrape || s == Reharvest
  }

  const HarvestSteps: seq<Step> := [Harvest, Scrape, Reharvest]
  const CanonicalOrder: seq<Step> := HarvestSteps + LaterSteps

  /** The plan keeps the fixed order. */
  lemma PlanOrdered(steps: seq<Step>)
    ensures IsSubsequence(Plan(steps), CanonicalOrder)
  {
    FilterIsSubsequence(LaterSteps, Requested(steps));
    assert Head(steps) == [] || Head(steps)[0] in HarvestSteps;
    HeadThenLater(Head(steps), Later(steps), HarvestSteps, LaterSteps);
  }

  /** At most one element of `hs` followed by a subsequence of `ls` is a
      subsequence of `hs + ls`. */
  lemma HeadThenLater(head: seq<Step>, later: seq<Step>, hs: seq<Step>, ls: seq<Step>)
    requires |head| <= 1 && (|head| == 1 ==> head[0] in hs)
    requires IsSubsequence(later, ls)
    ensures IsSubsequence(head + later, hs + ls)
  {
    if head == [] {
      assert head + later == later;
      SubsequencePrepend(hs, later, ls);
    } else {
      assert head == [head[0]];
      SubsequenceHead(head[0], later, hs, ls);
    }
  }

  /** The plan holds only requested steps, and at most one harvest-type
      step: the one with priority, at its head. */
  lemma PlanSteps(steps: seq<Step>)
    ensures forall i :: 0 <= i < |Plan(steps)| ==> Plan(steps)[i] in steps
    ensures forall i :: 0 <= i < |Plan(steps)| && IsHarvestKind(Plan(steps)[i]) ==>
              i == 0 && HarvestPick(steps) == Some(Plan(steps)[i])
  {
    forall i | 0 <= i < |Plan(steps)|
      ensures Plan(steps)[i] in steps
      ensures IsHarvestKind(Plan(steps)[i]) ==> i == 0 && HarvestPick(steps) == Some(Plan(steps)[i])
    {
      PlanAt(steps, i);
    }
  }

  lemma PlanAt(steps: seq<Step>, i: int)
    requires 0 <= i < |Plan(steps)|
    ensures Plan(steps)[i] in steps
    ensures IsHarvestKind(Plan(steps)[i]) ==> i == 0 && HarvestPick(steps) == Some(Plan(steps)[i])
  {
    var head, later := Head(steps), Later(steps);
    if i >= |head| {
      assert Plan(steps)[i] == later[i - |head|];
    } else {
      assert Plan(steps)[i] == head[0];
    }
  }

  /** Once the flag is seen, no further step starts. */
  lemma {:induction false} StagesStopped(p: Progress, order: seq<Step>, steps: seq<Step>, stopAt: Option<nat>, fx: Effects)
    requires StopSeen(stopAt, |p.done|)
    ensures Stages(p, order, steps, stopAt, fx) == p
    decreases |order|
  {
    if |order| > 0 && p.error.None? {
      StagesStopped(p, order[1..], steps, stopAt, fx);
    }
  }

  /** Chain `p` ended as `q` after running the first steps of `plan`: all of
      them, or up to the point the flag was seen, or up to the step that
      raised; no step started after the flag was seen. */
  predicate Outcome(p: Progress, q: Progress, plan: seq<Step>, stopAt: Option<nat>, fx: Effects) {
    q.artifacts == p.artifacts
    && |p.done| <= |q.done| <= |p.done| + |plan|
    && q.done == p.done + plan[..|q.done| - |p.done|]
    && (|q.done| > 0 ==> !StopSeen(stopAt, |q.done| - 1))
    && (q.error.None? ==> |q.done| == |p.done| + |plan| || StopSeen(stopAt, |q.done|))
    && (q.error.Some? ==> |q.done| < |p.done| + |plan| && !StopSeen(stopAt, |q.done|)
                          && q.error == StepError(plan[|q.done| - |p.done|], p.artifacts, fx))
  }

  lemma OutcomeStopped(p: Progress, plan: seq<Step>, stopAt: Option<nat>, fx: Effects)
    requires p.error.None? && StopSeen(stopAt, |p.done|)
    requires |p.done| > 0 ==> !StopSeen(stopAt, |p.done| - 1)
    ensures Outcome(p, p, plan, stopAt, fx)
  {
    assert p.done + plan[..0] == p.done;
  }

  lemma OutcomeFailed(p: Progress, s: Step, tail: seq<Step>, stopAt: Option<nat>, fx: Effects)
    requires p.error.None? && !StopSeen(stopAt, |p.done|) && StepError(s, p.artifacts, fx).Some?
    requires |p.done| > 0 ==> !StopSeen(stopAt, |p.done| - 1)
    ensures Outcome(p, p.(error := StepError(s, p.artifacts, fx)), [s] + tail, stopAt, fx)
  {
    assert p.done + ([s] + tail)[..0] == p.done;
  }

  lemma OutcomeCons(p: Progress, q: Progress, s: Step, tail: seq<Step>, stopAt: Option<nat>, fx: Effects)
    requires p.error.None? && !StopSeen(stopAt, |p.done|)
    requires Outcome(Progress(p.done + [s], p.artifacts, None), q, tail, stopAt, fx)
    ensures Outcome(p, q, [s] + tail, stopAt, fx)
  {
    var plan := [s] + tail;
    var k := |q.done| - |p.done| - 1;
    assert plan[..k + 1] == [s] + tail[..k];
    assert q.done == p.done + plan[..k + 1];
    if q.error.Some? {
      assert plan[k + 1] == tail[k];
    }
  }

  /** The later stages run the requested steps of `order` as `Outcome`
      describes. */
  lemma {:induction false} StagesOutcome(p: Progress, order: seq<Step>, steps: seq<Step>, stopAt: Option<nat>, fx: Effects)
    requires p.error.None?
    requires forall i :: 0 <= i < |order| ==> order[i] != Harvest && order[i] != Scrape
    requires |p.done| > 0 ==> !StopSeen(stopAt, |p.done| - 1)
    ensures Outcome(p, Stages(p, order, steps, stopAt, fx), Filter(order, Requested(steps)), stopAt, fx)
    decreases |order|
  {
    var q := Stages(p, order, steps, stopAt, fx);
    var plan := Filter(order, Requested(steps));
    if |order| == 0 {
      assert p.done + plan[..0] == p.done;
    } else {
      var s := order[0];
      var tail := Filter(order[1..], Requested(steps));
      assert plan == (if s in steps then [s] else []) + tail;
      if s !in steps {
        assert plan == tail && q == Stages(p, order[1..], steps, stopAt, fx);
        StagesOutcome(p, order[1..], steps, stopAt, fx);
      } else if StopSeen(stopAt, |p.done|) {
        StagesStopped(p, order[1..], steps, stopAt, fx);
        OutcomeStopped(p, plan, stopAt, fx);
      } else {
        var next := Attempt(p, s, fx);
        assert q == Stages(next, order[1..], steps, stopAt, fx);
        if next.error.Some? {
          OutcomeFailed(p, s, tail, stopAt, fx);
        } else {
          StagesOutcome(next, order[1..], steps, stopAt, fx);
          OutcomeCons(p, q, s, tail, stopAt, fx);
        }
      }
    }
  }

  /** The harvest group runs the plan's head, if it has one and the flag is
      not up. */
  lemma HarvestOutcome(p0: Progress, steps: seq<Step>, stopAt: Option<nat>, fx: Effects)
    requires p0.done == [] && p0.error.None?
    ensures var p1 := HarvestStage(p0, steps, stopAt, fx);
            var head := Head(steps);
            (p1 == p0 && (head == [] || StopSeen(stopAt, 0)))
            || (head != [] && !StopSeen(stopAt, 0) && p1.error.Some? && p1.done == []
                && p1.error == StepError(head[0], p0.artifacts, fx))
            || (head != [] && !StopSeen(stopAt, 0) && p1.error.None? && p1.done == head
                && p1.artifacts == DirAfter(head, p0.artifacts, fx))
  {
  }

  /** What a run reports, against its plan: its completed steps are the
      first steps of the plan, no step started once the flag was seen, and
      the status says why the chain ended: `success` after the whole plan
      with no stop seen, `stopped` when the flag was seen, `error` with the
      message of the step that raised. */
  predicate Reports(r: RunResult, plan: seq<Step>, start: Option<string>, stopAt: Option<nat>, fx: Effects) {
    |r.completed| <= |plan| && r.completed == plan[..|r.completed|]
    && (|r.completed| > 0 ==> !StopSeen(stopAt, |r.completed| - 1))
    && (r.status == Success ==> r.completed == plan && !StopSeen(stopAt, |plan|))
    && (r.status == Stopped ==> StopSeen(stopAt, |r.completed|))
    && (r.status == Failed ==> |r.completed| < |plan| && !StopSeen(stopAt, |r.completed|)
                               && r.error == StepError(plan[|r.completed|], DirAfter(r.completed, start, fx), fx))
  }

  lemma ExecuteOutcome(steps: seq<Step>, runId: string, start: Option<string>, stopAt: Option<nat>, fx: Effects)
    ensures Reports(Execute(steps, runId, start, stopAt, fx), Plan(steps), start, stopAt, fx)
  {
    var p0 := Progress([], start, None);
    var p1 := HarvestStage(p0, steps, stopAt, fx);
    var q := Stages(p1, LaterSteps, steps, stopAt, fx);
    var head, later := Head(steps), Later(steps);
    assert Plan(steps) == head + later;
    assert Execute(steps, runId, start, stopAt, fx) == Report(runId, q, stopAt);
    HarvestOutcome(p0, steps, stopAt, fx);
    if p1.error.Some? {
      assert q == p1;
      ReportsAtStart(runId, q, head + later, start, stopAt, fx);
    } else if p1 == p0 && head != [] {
      StagesStopped(p0, LaterSteps, steps, stopAt, fx);
      ReportsAtStart(runId, q, head + later, start, stopAt, fx);
    } else {
      assert p1.done == head && p1.artifacts == DirAfter(head, start, fx);
      LaterStepsNoHarvest();
      StagesOutcome(p1, LaterSteps, steps, stopAt, fx);
      assert later == Filter(LaterSteps, Requested(steps));
      RunFromOutcome(runId, start, p1, q, head, later, stopAt, fx);
    }
  }

  /** A chain that ended before completing anything: stopped before the
      first step, or failed in it. */
  lemma ReportsAtStart(runId: string, q: Progress, plan: seq<Step>, start: Option<string>, stopAt: Option<nat>, fx: Effects)
    requires q.done == [] && |plan| > 0
    requires q.error.None? ==> StopSeen(stopAt, 0)
    requires q.error.Some? ==> !StopSeen(stopAt, 0) && q.error == StepError(plan[0], start, fx)
    ensures Reports(Report(runId, q, stopAt), plan, start, stopAt, fx)
  {
    assert plan[..0] == [];
  }

  /** A run that gets past validation and the job directory reports as
      `Reports` describes, against the plan of its steps. */
  lemma RunOutcome(steps: seq<Step>, runId: string, jobDir: Option<string>, dirs: seq<string>, zone: Zone,
                   stopAt: Option<nat>, fx: Effects)
    requires Run(steps, runId, jobDir, dirs, zone, stopAt, fx).Ok?
    ensures Reports(Run(steps, runId, jobDir, dirs, zone, stopAt, fx).value, Plan(steps),
                    StartDir(jobDir, dirs, zone).value, stopAt, fx)
  {
    var start := StartDir(jobDir, dirs, zone).value;
    assert Run(steps, runId, jobDir, dirs, zone, stopAt, fx).value == Execute(steps, runId, start, stopAt, fx);
    ExecuteOutcome(steps, runId, start, stopAt, fx);
  }

  /** Putting the harvest group and the later stages together. */
  lemma RunFromOutcome(runId: string, start: Option<string>, p1: Progress, q: Progress, head: seq<Step>, later: seq<Step>,
                       stopAt: Option<nat>, fx: Effects)
    requires |head| <= 1 && p1.done == head && p1.error.None?
    requires head != [] ==> !StopSeen(stopAt, 0)
    requires p1.artifacts == DirAfter(head, start, fx)
    requires forall i :: 0 <= i < |later| ==> !IsHarvestKind(later[i])
    requires Outcome(p1, q, later, stopAt, fx)
    ensures Reports(Report(runId, q, stopAt), head + later, start, stopAt, fx)
  {
    var plan := head + later;
    var k := |q.done| - |head|;
    assert plan[..|head| + k] == head + later[..k];
    if q.error.Some? {
      assert plan[|q.done|] == later[k];
    }
    if |q.done| > 0 {
      assert q.done[0] == plan[0];
      if head == [] {
        assert !IsHarvestKind(later[0]);
      }
    }
    assert DirAfter(q.done, start, fx) == DirAfter(head, start, fx);
  }

  // ---------------------------------------------------------------------
  // interpret_weekly: which weeks to process
  // ---------------------------------------------------------------------

  /** Python's `weekday()` of the date of `m`'s wall reading. */
  function DayOf(m: Moment): int
    requires ValidMoment(m)
  {
    Ordinal(DateOf(m.wall))
  }

  /** The file a processed week leaves in the intermediate directory. */
  function WeeklyFile(intermediateDir: string, week: string): string {
    intermediateDir + "/weekly-" + week + "-interpreted.json"
  }

  /** What `interpret_weekly` settles before interpreting: the weeks to
      process and whether calendar week boundaries are preferred. */
  datatype WeeklyPlan = WeeklyPlan(weeks: seq<string>, calendarBoundaries: bool)

  /** `weeks_to_process`: the given weeks, then the current week if
      `addCurrent`, then the previous week if `addPrevious`, each added only
      when not already listed. */
  function AddWeeks(specific: seq<string>, current: string, previous: string, addCurrent: bool, addPrevious: bool): (r: seq<string>)
    ensures |specific| <= |r| <= |specific| + 2 && r[..|specific|] == specific
    ensures forall i :: |specific| <= i < |r| ==> r[i] !in specific
    ensures Distinct(specific) ==> Distinct(r)
    ensures forall i :: 0 <= i < |r| ==> r[i] in specific || (addCurrent && r[i] == current) || (addPrevious && r[i] == previous)
    ensures addCurrent ==> current in r
    ensures addPrevious ==> previous in r
    ensures forall i :: 0 <= i < |specific| ==> specific[i] in r
  {
    AddWeeksContents(specific, current, previous, addCurrent, addPrevious);
    AppendIf(AppendIf(specific, current, addCurrent), previous, addPrevious)
  }

  lemma AddWeeksContents(specific: seq<string>, current: string, previous: string, addCurrent: bool, addPrevious: bool)
    ensures var r := AppendIf(AppendIf(specific, current, addCurrent), previous, addPrevious);
            (forall i :: |specific| <= i < |r| ==> r[i] !in specific)
            && (forall i :: 0 <= i < |r| ==> r[i] in specific || (addCurrent && r[i] == current) || (addPrevious && r[i] == previous))
            && (addCurrent ==> current in r)
            && (forall i :: 0 <= i < |specific| ==> specific[i] in r)
            && r[..|specific|] == specific
  {
    var withCurrent := AppendIf(specific, current, addCurrent);
    var r := AppendIf(withCurrent, previous, addPrevious);
    assert r[..|specific|] == withCurrent[..|specific|];
    forall i | |specific| <= i < |r| ensures r[i] !in specific {
      if i >= |withCurrent| {
        assert r[i] == previous && previous !in withCurrent;
        assert forall j :: 0 <= j < |specific| ==> specific[j] == withCurrent[j];
      }
    }
    forall i | 0 <= i < |r|
      ensures r[i] in specific || (addCurrent && r[i] == current) || (addPrevious && r[i] == previous)
    {
      if i < |withCurrent| {
        assert r[i] == withCurrent[i];
      }
    }
    assert forall i :: 0 <= i < |specific| ==> specific[i] == withCurrent[i] && withCurrent[i] == r[i];
    if addCurrent {
      assert current in withCurrent;
      var j :| 0 <= j < |withCurrent| && withCurrent[j] == current;
      assert r[j] == current;
    }
  }

  /** `if add and x not in s: s.append(x)`. */
  function AppendIf(s: seq<string>, x: string, add: bool): (r: seq<string>)
    ensures |s| <= |r| <= |s| + 1 && r[..|s|] == s
    ensures |r| > |s| ==> r[|s|] == x && x !in s
    ensures add ==> x in r
    ensures !add ==> r == s
    ensures Distinct(s) ==> Distinct(r)
  {
    if add then AppendNew(s, x) else s
  }

  /** The three answers of `is_last_day_of_week()` in `interpret_weekly`.
      Each call reads the clock afresh, so a run that crosses midnight can
      see a Sunday at one test and a Monday at the next: `gate` is the
      early-return test, `add` the current-week test, `bounds` the
      calendar-boundary test. */
  datatype SundayReadings = SundayReadings(gate: bool, add: bool, bounds: bool)

  /** The week selection of `interpret_weekly`, with `now` the reading
      that gives `today` and `sunday` the later readings: `None` when it
      returns early (not a Sunday, no weeks given, no overwrite), else the
      current week joins on a Sunday with `currentWeekOnly`, the week seven
      days back joins when its file is missing and no weeks were given, and
      calendar boundaries are preferred on a Sunday with no weeks given.
      `Err` is the `OverflowError` of a week key or of going back seven
      days. `fileExists` is the storage's `file_exists`. */
  function WeeklySelection(now: Moment, sunday: SundayReadings, zone: Zone, currentWeekOnly: bool, overwrite: bool,
                           specific: seq<string>, intermediateDir: string, fileExists: string -> bool)
    : (r: Result<Option<WeeklyPlan>>)
    requires ValidMoment(now) && now.offset == Some(0)
    ensures WeekKeyAt(zone, now.wall).Err? ==> r.Err?
    ensures r.Ok? ==> (r.value.None? <==> !sunday.gate && |specific| == 0 && !overwrite)
    ensures r.Ok? && r.value.Some? ==>
              AddDaysTo(now, -7).Ok? && WeekKeyAt(zone, AddDaysTo(now, -7).value.wall).Ok?
              && var previous := WeekKeyAt(zone, AddDaysTo(now, -7).value.wall).value;
                 r.value.value == WeeklyPlan(
                   AddWeeks(specific, WeekKeyAt(zone, now.wall).value, previous,
                            sunday.add && currentWeekOnly,
                            |specific| == 0 && !fileExists(WeeklyFile(intermediateDir, previous))),
                   sunday.bounds && |specific| == 0)
  {
    match WeekKeyAt(zone, now.wall)
    case Err(e) => Err(e)
    case Ok(current) =>
      if !sunday.gate && |specific| == 0 && !overwrite then Ok(None)
      else
        match AddDaysTo(now, -7)
        case Err(e) => Err(e)
        case Ok(back) =>
          match WeekKeyAt(zone, back.wall)
          case Err(e) => Err(e)
          case Ok(previous) =>
            var missing := !fileExists(WeeklyFile(intermediateDir, previous)) && |specific| == 0;
            Ok(Some(WeeklyPlan(AddWeeks(specific, current, previous, sunday.add && currentWeekOnly, missing),
                               sunday.bounds && |specific| == 0)))
  }

  /** A run that passes the Sunday gate and then reads a Monday does not
      add the current week: with no weeks given, the plan holds at most the
      previous week. */
  lemma MidnightCrossing(now: Moment, zone: Zone, intermediateDir: string, fileExists: string -> bool)
    requires ValidMoment(now) && now.offset == Some(0)
    requires WeeklySelection(now, SundayReadings(true, false, false), zone, true, false, [], intermediateDir, fileExists).Ok?
    ensures var r := WeeklySelection(now, SundayReadings(true, false, false), zone, true, false, [], intermediateDir, fileExists);
      r.value.Some? && |r.value.value.weeks| <= 1 && !r.value.value.calendarBoundaries
      && forall w :: w in r.value.value.weeks ==> w == WeekKeyAt(zone, AddDaysTo(now, -7).value.wall).value
  {
  }

  // ---------------------------------------------------------------------
  // reinterpret_weeks_from_date
  // ---------------------------------------------------------------------

  /** `(6 - weekday) % 7`, or 7 when that is 0: the days to the first Sunday
      strictly after a day with weekday `w`. */
  function DaysToNextSunday(w: int): int
    requires 0 <= w < 7
  {
    var d := (6 - w) % 7;
    if d == 0 then 7 else d
  }

  /** `m + timedelta(days=DaysToNextSunday(m.weekday()))`: the first Sunday
      strictly after `m`'s day, at the same time of day. */
  function NextSunday(m: Moment): (r: Result<Moment>)
    requires ValidMoment(m)
    ensures r.Err? <==> DayOf(m) + DaysToNextSunday(Weekday(DayOf(m))) > MaxOrdinal
    ensures r.Ok? ==> ValidMoment(r.value) && r.value.offset == m.offset
    ensures r.Ok? ==> DayOf(m) < DayOf(r.value) <= DayOf(m) + 7 && IsSunday(DayOf(r.value))
    ensures r.Ok? ==> forall k :: DayOf(m) < k < DayOf(r.value) ==> !IsSunday(k)
    ensures r.Ok? ==> WallMicros(r.value) == WallMicros(m) + (DayOf(r.value) - DayOf(m)) * MicrosPerDay
  {
    var days := DaysToNextSunday(Weekday(DayOf(m)));
    var r := AddDaysTo(m, days);
    ValidRange(DateOf(m.wall));
    assert r.Err? <==> DayOf(m) + days > MaxOrdinal by {
      WallBound(m, days);
    }
    SundayGap(DayOf(m));
    r
  }

  /** Going forward `days` days stays within the calendar exactly when the
      day reached does. */
  lemma WallBound(m: Moment, days: int)
    requires ValidMoment(m) && 0 <= days
    ensures 0 <= WallMicros(m) + days * MicrosPerDay < WallLimit <==> DayOf(m) + days <= MaxOrdinal
  {
    ValidRange(DateOf(m.wall));
    var n := DayOf(m);
    var rest := SecondOfDay(m.wall) * MicrosPerSecond + m.micro;
    assert WallMicros(m) == (n - 1) * MicrosPerDay + rest;
    assert 0 <= rest < MicrosPerDay;
    assert WallLimit == MaxOrdinal * MicrosPerDay;
  }

  /** The gap to the next Sunday holds no other Sunday. */
  lemma SundayGap(n: int)
    ensures var g := DaysToNextSunday(Weekday(n));
            1 <= g <= 7 && IsSunday(n + g) && forall k :: n < k < n + g ==> !IsSunday(k)
  {
    var w := Weekday(n);
    var g := DaysToNextSunday(w);
    var q := (n + 6) / 7;
    assert n + 6 == 7 * q + w;
    forall k | n < k < n + g ensures !IsSunday(k) {
      if w == 6 {
        ModOf(k + 6, q + 1, k - n - 1);
      } else {
        ModOf(k + 6, q, w + (k - n));
      }
    }
    if w == 6 {
      ModOf(n + g + 6, q + 1, 6);
    } else {
      ModOf(n + g + 6, q, 6);
    }
  }

  lemma ModOf(x: int, q: int, r: int)
    requires x == 7 * q + r && 0 <= r < 7
    ensures x % 7 == r
  {
  }

  /** `start_date.replace(tzinfo=timezone.utc)` for a naive start date. */
  function AsUtc(m: Moment): (r: Moment)
    requires m.offset.None? || m.offset == Some(0)
    ensures ValidMoment(m) ==> ValidMoment(r) && WallMicros(r) == WallMicros(m)
    ensures r.offset == Some(0)
  {
    if m.offset.None? then m.(offset := Some(0)) else m
  }

  predicate AllValid(ds: seq<Moment>) {
    forall i :: 0 <= i < |ds| ==> ValidMoment(ds[i])
  }

  /** `b` is the first Sunday after `a`'s day, later on the clock too. */
  ghost predicate Follows(a: Moment, b: Moment)
    requires ValidMoment(a) && ValidMoment(b)
  {
    IsSunday(DayOf(b)) && DayOf(a) < DayOf(b) && WallMicros(a) < WallMicros(b)
    && forall k :: DayOf(a) < k < DayOf(b) ==> !IsSunday(k)
  }

  /** Each date after the first is the first Sunday after the one before. */
  ghost predicate SundayChain(ds: seq<Moment>)
    requires AllValid(ds)
  {
    forall i, j :: 0 <= i < j < |ds| && j == i + 1 ==> Follows(ds[i], ds[j])
  }

  /** `[f(x) for x in s]` where `f` may raise: the results in order, or
      the first error. */
  function TryMap<T, U>(s: seq<T>, f: T --> Result<U>): (r: Result<seq<U>>)
    requires forall i :: 0 <= i < |s| ==> f.requires(s[i])
    ensures r.Ok? <==> forall i :: 0 <= i < |s| ==> f(s[i]).Ok?
    ensures r.Ok? ==> |r.value| == |s| && forall i :: 0 <= i < |s| ==> r.value[i] == f(s[i]).value
  {
    if |s| == 0 then Ok([])
    else
      var init, last := s[..|s| - 1], s[|s| - 1];
      assert forall i :: 0 <= i < |init| ==> init[i] == s[i];
      match TryMap(init, f)
      case Err(e) => Err(e)
      case Ok(us) =>
        match f(last)
        case Err(e) => Err(e)
        case Ok(u) => Ok(us + [u])
  }

  /** Mapping one more element: the results so far and its result, or the
      error. */
  lemma TryMapAppend<T, U>(s: seq<T>, x: T, f: T --> Result<U>)
    requires forall i :: 0 <= i < |s| ==> f.requires(s[i])
    requires f.requires(x) && TryMap(s, f).Ok?
    ensures f(x).Err? ==> TryMap(s + [x], f).Err?
    ensures f(x).Ok? ==> TryMap(s + [x], f) == Ok(TryMap(s, f).value + [f(x).value])
  {
    assert (s + [x])[..|s|] == s;
  }

  /** The week key of one UTC datetime. */
  function KeyOfDate(zone: Zone): Moment --> Result<string> {
    (m: Moment) requires Valid(m.wall) => WeekKeyAt(zone, m.wall)
  }

  /** The week keys of UTC datetimes, or the first `OverflowError`. */
  function KeysOf(ds: seq<Moment>, zone: Zone): (r: Result<seq<string>>)
    requires forall i :: 0 <= i < |ds| ==> Valid(ds[i].wall)
    ensures r.Ok? <==> forall i :: 0 <= i < |ds| ==> WeekKeyAt(zone, ds[i].wall).Ok?
    ensures r.Ok? ==> |r.value| == |ds| && forall i :: 0 <= i < |ds| ==> r.value[i] == WeekKeyAt(zone, ds[i].wall).value
  {
    TryMap(ds, KeyOfDate(zone))
  }

  /** The datetimes the re-interpretation loop has visited: all UTC, none
      after `now`, the first one the start date, each later one the first
      Sunday after the one before. */
  ghost predicate Trail(start: Moment, now: Moment, dates: seq<Moment>)
    requires ValidMoment(now) && now.offset == Some(0) && (start.offset.None? || start.offset == Some(0))
  {
    AllValid(dates) && SundayChain(dates)
    && (forall i :: 0 <= i < |dates| ==> dates[i].offset == Some(0) && UtcMicros(dates[i]) <= UtcMicros(now))
    && (|dates| > 0 ==> dates[0] == AsUtc(start))
  }

  /** `reinterpret_weeks_from_date` up to the call of
      `process_weekly_content`: the week keys to reinterpret, collected from
      the start date and then every following Sunday (at the start's time of
      day) up to `now`. `dates` are the datetimes the loop visits. */
  method ReinterpretWeeks(start: Moment, now: Moment, zone: Zone) returns (r: Result<seq<string>>, dates: seq<Moment>)
    requires ValidMoment(start) && (start.offset.None? || start.offset == Some(0))
    requires ValidMoment(now) && now.offset == Some(0)
    ensures Trail(start, now, dates)
    ensures r.Ok? ==> KeysOf(dates, zone).Ok? && r.value == Dedup(KeysOf(dates, zone).value)
    ensures r.Ok? ==> Complete(start, now, dates)
    ensures r.Err? ==> Stuck(dates, zone)
  {
    var week := AsUtc(start);
    var keys: seq<string> := [];
    dates := [];
    while UtcMicros(week) <= UtcMicros(now)
      invariant Cursor(start, now, zone, dates, week, keys)
      decreases UtcMicros(now) - UtcMicros(week)
    {
      var key := WeekKeyAt(zone, week.wall);
      CursorVisit(start, now, zone, dates, week, keys);
      ghost var visited, collected := dates, keys;
      dates := dates + [week];
      if key.Err? {
        return Err(key.error), dates;
      }
      keys := AppendNew(keys, key.value);
      var next := NextSunday(week);
      if next.Err? {
        return Err(next.error), dates;
      }
      CursorAdvance(start, now, zone, visited, week, collected, key.value, next.value);
      week := next.value;
    }
    CursorDone(start, now, zone, dates, week, keys);
    r := Ok(keys);
  }

  /** The loop's state: the trail so far, the next datetime to visit (the
      start, or the first Sunday after the last visited one) and the keys
      collected, without repeats, in order of first appearance. */
  ghost predicate Cursor(start: Moment, now: Moment, zone: Zone, dates: seq<Moment>, week: Moment, keys: seq<string>)
    requires ValidMoment(now) && now.offset == Some(0) && (start.offset.None? || start.offset == Some(0))
  {
    Trail(start, now, dates) && ValidMoment(week) && week.offset == Some(0)
    && Upcoming(start, dates, week) && Collected(dates, zone, keys)
  }

  /** `week` is where the loop goes next: the start, or the first Sunday
      after the last visited datetime. */
  ghost predicate Upcoming(start: Moment, dates: seq<Moment>, week: Moment)
    requires AllValid(dates) && (start.offset.None? || start.offset == Some(0))
  {
    (|dates| == 0 ==> week == AsUtc(start))
    && (|dates| > 0 ==> NextSunday(dates[|dates| - 1]) == Ok(week))
  }

  /** `keys` are the keys of `dates` without repeats, in order of first
      appearance. */
  ghost predicate Collected(dates: seq<Moment>, zone: Zone, keys: seq<string>)
    requires AllValid(dates)
  {
    KeysOf(dates, zone).Ok? && keys == Dedup(KeysOf(dates, zone).value)
  }

  /** The trail reaches `now`: the next datetime it would visit is after
      `now`. */
  ghost predicate Complete(start: Moment, now: Moment, dates: seq<Moment>)
    requires ValidMoment(now) && now.offset == Some(0) && (start.offset.None? || start.offset == Some(0))
    requires ValidMoment(start) && Trail(start, now, dates)
  {
    if |dates| == 0 then UtcMicros(AsUtc(start)) > UtcMicros(now)
    else
      var last := dates[|dates| - 1];
      NextSunday(last).Ok? && UtcMicros(NextSunday(last).value) > UtcMicros(now)
  }

  /** The loop raised: a week key of the trail failed, or going on to the
      Sunday after its last datetime did. */
  ghost predicate Stuck(dates: seq<Moment>, zone: Zone)
    requires AllValid(dates)
  {
    KeysOf(dates, zone).Err? || (|dates| > 0 && NextSunday(dates[|dates| - 1]).Err?)
  }

  /** Leaving the loop, the trail is complete. */
  lemma CursorDone(start: Moment, now: Moment, zone: Zone, dates: seq<Moment>, week: Moment, keys: seq<string>)
    requires ValidMoment(now) && now.offset == Some(0) && (start.offset.None? || start.offset == Some(0))
    requires ValidMoment(start) && Cursor(start, now, zone, dates, week, keys) && UtcMicros(week) > UtcMicros(now)
    ensures Complete(start, now, dates)
  {
  }

  /** Visiting `week` extends the trail, and a failing key or a failing
      step to the next Sunday leaves the loop stuck there. */
  lemma CursorVisit(start: Moment, now: Moment, zone: Zone, dates: seq<Moment>, week: Moment, keys: seq<string>)
    requires ValidMoment(now) && now.offset == Some(0) && (start.offset.None? || start.offset == Some(0))
    requires Cursor(start, now, zone, dates, week, keys) && UtcMicros(week) <= UtcMicros(now)
    ensures Trail(start, now, dates + [week])
    ensures WeekKeyAt(zone, week.wall).Err? || NextSunday(week).Err? ==> Stuck(dates + [week], zone)
  {
    var ds := dates + [week];
    TrailExtend(start, now, dates, week);
    KeysExtend(dates, week, zone);
    assert ds[|ds| - 1] == week;
  }

  /** Visiting `week` with key `k` adds `k` to the keys, and the first
      Sunday after `week` is the next to visit. */
  lemma CursorAdvance(start: Moment, now: Moment, zone: Zone, dates: seq<Moment>, week: Moment, keys: seq<string>,
                      k: string, next: Moment)
    requires ValidMoment(now) && now.offset == Some(0) && (start.offset.None? || start.offset == Some(0))
    requires Cursor(start, now, zone, dates, week, keys) && UtcMicros(week) <= UtcMicros(now)
    requires WeekKeyAt(zone, week.wall) == Ok(k) && NextSunday(week) == Ok(next)
    ensures Cursor(start, now, zone, dates + [week], next, AppendNew(keys, k))
  {
    TrailExtend(start, now, dates, week);
    UpcomingAdvance(start, dates, week, next);
    CollectedAdvance(dates, week, zone, keys, k);
  }

  /** After visiting `week`, the loop goes on to the first Sunday after
      it. */
  lemma UpcomingAdvance(start: Moment, dates: seq<Moment>, week: Moment, next: Moment)
    requires AllValid(dates) && ValidMoment(week) && NextSunday(week) == Ok(next)
    requires start.offset.None? || start.offset == Some(0)
    ensures Upcoming(start, dates + [week], next)
  {
    var ds := dates + [week];
    assert ds[|ds| - 1] == week;
  }

  /** Visiting `week` with key `k` adds `k` to the keys if it is new. */
  lemma CollectedAdvance(dates: seq<Moment>, week: Moment, zone: Zone, keys: seq<string>, k: string)
    requires AllValid(dates) && ValidMoment(week) && Collected(dates, zone, keys)
    requires WeekKeyAt(zone, week.wall) == Ok(k)
    ensures Collected(dates + [week], zone, AppendNew(keys, k))
  {
    KeysExtend(dates, week, zone);
  }

  /** One more step of the loop keeps its trail. */
  lemma TrailExtend(start: Moment, now: Moment, dates: seq<Moment>, week: Moment)
    requires ValidMoment(now) && now.offset == Some(0) && (start.offset.None? || start.offset == Some(0))
    requires Trail(start, now, dates)
    requires ValidMoment(week) && week.offset == Some(0) && UtcMicros(week) <= UtcMicros(now)
    requires |dates| == 0 ==> week == AsUtc(start)
    requires |dates| > 0 ==> NextSunday(dates[|dates| - 1]) == Ok(week)
    ensures Trail(start, now, dates + [week])
  {
    var ds := dates + [week];
    ChainExtend(dates, week);
    assert forall i :: 0 <= i < |dates| ==> ds[i] == dates[i];
    assert ds[|dates|] == week;
  }

  /** The first Sunday after the last date extends the chain. */
  lemma ChainExtend(dates: seq<Moment>, week: Moment)
    requires AllValid(dates) && SundayChain(dates) && ValidMoment(week)
    requires |dates| > 0 ==> NextSunday(dates[|dates| - 1]) == Ok(week)
    ensures AllValid(dates + [week]) && SundayChain(dates + [week])
  {
    var ds := dates + [week];
    AllValidAppend(dates, week);
    if |dates| > 0 {
      NextSundayFollows(dates[|dates| - 1], week);
    }
    forall i, j | 0 <= i < j < |ds| && j == i + 1 ensures Follows(ds[i], ds[j]) {
      if j < |dates| {
        assert ds[i] == dates[i] && ds[j] == dates[j];
      } else {
        assert ds[i] == dates[|dates| - 1] && ds[j] == week;
      }
    }
  }

  lemma AllValidAppend(dates: seq<Moment>, week: Moment)
    requires AllValid(dates) && ValidMoment(week)
    ensures AllValid(dates + [week])
  {
    assert forall i :: 0 <= i < |dates| ==> (dates + [week])[i] == dates[i];
  }

  lemma NextSundayFollows(m: Moment, next: Moment)
    requires ValidMoment(m) && NextSunday(m) == Ok(next)
    ensures Follows(m, next)
  {
    var d := DayOf(next) - DayOf(m);
    assert d * MicrosPerDay >= MicrosPerDay;
  }

  /** The keys of one more datetime: the keys so far and its key, or the
      error. */
  lemma KeysExtend(dates: seq<Moment>, week: Moment, zone: Zone)
    requires AllValid(dates) && ValidMoment(week) && KeysOf(dates, zone).Ok?
    ensures WeekKeyAt(zone, week.wall).Err? ==> KeysOf(dates + [week], zone).Err?
    ensures WeekKeyAt(zone, week.wall).Ok? ==>
              var k := WeekKeyAt(zone, week.wall).value;
              KeysOf(dates + [week], zone) == Ok(KeysOf(dates, zone).value + [k])
              && Dedup(KeysOf(dates + [week], zone).value) == AppendNew(Dedup(KeysOf(dates, zone).value), k)
  {
    TryMapAppend(dates, week, KeyOfDate(zone));
    var before := KeysOf(dates, zone).value;
    if WeekKeyAt(zone, week.wall).Ok? {
      var k := WeekKeyAt(zone, week.wall).value;
      assert (before + [k])[..|before|] == before;
    }
  }

  /** The chain of visited dates passes through every Sunday between its
      first and last date. */
  lemma {:induction false} ChainCoversSundays(ds: seq<Moment>, k: int)
    requires AllValid(ds) && SundayChain(ds) && |ds| > 0
    requires DayOf(ds[0]) < k <= DayOf(ds[|ds| - 1]) && IsSunday(k)
    ensures exists i :: 0 < i < |ds| && DayOf(ds[i]) == k
    decreases |ds|
  {
    var n := |ds|;
    var init := ds[..n - 1];
    assert AllValid(init) && SundayChain(init) by {
      assert forall i :: 0 <= i < n - 1 ==> init[i] == ds[i];
    }
    if k <= DayOf(ds[n - 2]) {
      ChainCoversSundays(init, k);
      var i :| 0 < i < |init| && DayOf(init[i]) == k;
      assert DayOf(ds[i]) == k;
    } else {
      assert DayOf(ds[n - 1]) == k;
    }
  }

  /** The weeks `reinterpret_weeks_from_date` hands on are processed as
      given: `interpret_weekly` with `current_week_only=False` and those
      weeks adds neither the current nor the previous week. */
  lemma ReinterpretSelection(now: Moment, sunday: SundayReadings, zone: Zone, overwrite: bool, weeks: seq<string>,
                             intermediateDir: string, fileExists: string -> bool)
    requires ValidMoment(now) && now.offset == Some(0) && |weeks| > 0
    requires WeeklySelection(now, sunday, zone, false, overwrite, weeks, intermediateDir, fileExists).Ok?
    ensures WeeklySelection(now, sunday, zone, false, overwrite, weeks, intermediateDir, fileExists)
            == Ok(Some(WeeklyPlan(weeks, false)))
  {
    var prev := WeekKeyAt(zone, AddDaysTo(now, -7).value.wall).value;
    var r := AddWeeks(weeks, WeekKeyAt(zone, now.wall).value, prev, false, false);
    assert r == weeks;
  }

  // ---------------------------------------------------------------------
  // reset-cursor
  // ---------------------------------------------------------------------

  /** Which cursors `reset-cursor` resets, from its `--all`, `--format` and
      `--deploy` flags: `(format, deploy)`. */
  function ResetCursorChoice(all: bool, format: bool, deploy: bool): (r: (bool, bool))
    ensures r.0 <==> all || format || !deploy
    ensures r.1 <==> all || deploy || !format
    ensures r.0 || r.1
    ensures r.0 && r.1 <==> all || format == deploy
  {
    if all || (!format && !deploy) then (true, true)
    else (format, deploy)
  }

  // ---------------------------------------------------------------------
  // summarize
  // ---------------------------------------------------------------------

  const SummaryFile: string := "/daily_news.txt"

  /** `summarize_all(force)`: the directories whose name starts with a
      legacy job timestamp and that have no `daily_news.txt` yet, or all of
      them when `force`. `fileExists` is the storage's `file_exists`. */
  function SummarizeTargets(dirs: seq<string>, fileExists: string -> bool, force: bool): (r: set<string>)
    ensures forall d :: d in r ==> d in dirs && LegacyMatch(d)
    ensures forall d :: d in r && !force ==> !fileExists(d + SummaryFile)
    ensures forall i :: 0 <= i < |dirs| && LegacyMatch(dirs[i]) && (force || !fileExists(dirs[i] + SummaryFile))
                        ==> dirs[i] in r
  {
    if |dirs| == 0 then {}
    else
      var d := dirs[|dirs| - 1];
      var rest := SummarizeTargets(dirs[..|dirs| - 1], fileExists, force);
      if LegacyMatch(d) && (force || !fileExists(d + SummaryFile)) then rest + {d} else rest
  }

  /** Forcing only adds directories: those already summarised. */
  lemma {:induction false} ForceWidens(dirs: seq<string>, fileExists: string -> bool)
    ensures SummarizeTargets(dirs, fileExists, false) <= SummarizeTargets(dirs, fileExists, true)
    ensures forall d :: d in SummarizeTargets(dirs, fileExists, true) - SummarizeTargets(dirs, fileExists, false)
                        ==> fileExists(d + SummaryFile)
  {
    if |dirs| > 0 {
      ForceWidens(dirs[..|dirs| - 1], fileExists);
    }
  }

  /** The `summarize` command as written: both branches of `if force` call
      `summarize_all()` without passing `force`. */
  function SummarizeCommandAsWritten(dirs: seq<string>, fileExists: string -> bool, force: bool): (r: set<string>)
    ensures r == SummarizeTargets(dirs, fileExists, false)
  {
    if force then SummarizeTargets(dirs, fileExists, false) else SummarizeTargets(dirs, fileExists, false)
  }

  /** The `summarize` command as intended: `--force` reaches `summarize_all`. */
  function SummarizeCommand(dirs: seq<string>, fileExists: string -> bool, force: bool): (r: set<string>)
    ensures force ==> forall i :: 0 <= i < |dirs| && LegacyMatch(dirs[i]) ==> dirs[i] in r
  {
    SummarizeTargets(dirs, fileExists, force)
  }

  /** With `--force`, a job directory that already has its summary is
      skipped as written, though it is resummarised as intended. */
  lemma ForceIgnored(t: Timestamp)
    requires Valid(t)
    ensures var d := FormatCompact(t);
            var all := (f: string) => true;
            d !in SummarizeCommandAsWritten([d], all, true) && d in SummarizeCommand([d], all, true)
  {
    LegacyAccepts(t);
  }
}

=== FILE: text.dfy ===
/** String helpers with Python's semantics: digit tests, fixed-width decimal
    fields, code-point order (`<` on `str`), `split`/`join`, `find`, and
    whitespace stripping. */
module Text {

  // ---------------------------------------------------------------------
  // Digits and fixed-width decimal fields
  // ---------------------------------------------------------------------

  predicate IsDigit(c: char) { '0' <= c <= '9' }

  predicate AllDigits(s: string) {
    forall i :: 0 <= i < |s| ==> IsDigit(s[i])
  }

  function DigitValue(c: char): (v: nat)
    requires IsDigit(c)
    ensures v < 10
  {
    c as int - '0' as int
  }

  function DigitChar(v: nat): (c: char)
    requires v < 10
    ensures IsDigit(c) && DigitValue(c) == v
  {
    ('0' as int + v) as char
  }

  function Pow10(w: nat): (p: nat)
    ensures p >= 1
  {
    if w == 0 then 1 else 10 * Pow10(w - 1)
  }

  /** The value of a string of decimal digits, most significant first. */
  function DecimalValue(s: string): (v: nat)
    requires AllDigits(s)
    ensures v < Pow10(|s|)
  {
    if |s| == 0 then 0
    else 10 * DecimalValue(s[..|s| - 1]) + DigitValue(s[|s| - 1])
  }

  /** `n` written with exactly `w` digits, zero-padded on the left
      (Python's `%0wd` / strftime's `%Y`, `%m`, `%d`, `%H`, ...). */
  function PadDigits(n: nat, w: nat): (s: string)
    requires n < Pow10(w)
    ensures |s| == w && AllDigits(s)
  {
    if w == 0 then [] else PadDigits(n / 10, w - 1) + [DigitChar(n % 10)]
  }

  function Pad2(n: nat): (s: string)
    requires n < 100
    ensures |s| == 2 && AllDigits(s)
  {
    PadDigits(n, 2)
  }

  function Pad4(n: nat): (s: string)
    requires n < 10000
    ensures |s| == 4 && AllDigits(s)
  {
    PadDigits(n, 4)
  }

  function Pad6(n: nat): (s: string)
    requires n < 1000000
    ensures |s| == 6 && AllDigits(s)
  {
    PadDigits(n, 6)
  }

  /** Reading back a padded field gives the number that was written. */
  lemma {:induction false} DecimalOfPad(n: nat, w: nat)
    requires n < Pow10(w)
    ensures DecimalValue(PadDigits(n, w)) == n
  {
    if w > 0 {
      var s := PadDigits(n, w);
      assert s[..|s| - 1] == PadDigits(n / 10, w - 1);
      DecimalOfPad(n / 10, w - 1);
    }
  }

  /** Writing back a parsed field reproduces the digits that were read. */
  lemma {:induction false} PadOfDecimal(s: string)
    requires AllDigits(s)
    ensures PadDigits(DecimalValue(s), |s|) == s
  {
    if |s| > 0 {
      var init := s[..|s| - 1];
      var v := DecimalValue(s);
      assert AllDigits(init);
      PadOfDecimal(init);
      assert v / 10 == DecimalValue(init) && v % 10 == DigitValue(s[|s| - 1]);
      assert s == init + [s[|s| - 1]];
    }
  }

  lemma PadInjective(a: nat, b: nat, w: nat)
    requires a < Pow10(w) && b < Pow10(w)
    requires PadDigits(a, w) == PadDigits(b, w)
    ensures a == b
  {
    DecimalOfPad(a, w);
    DecimalOfPad(b, w);
  }

  // ---------------------------------------------------------------------
  // Code-point order, as Python compares `str` values
  // ---------------------------------------------------------------------

  predicate LexLess(a: string, b: string)
    decreases |a|
  {
    if |a| == 0 then |b| > 0
    else if |b| == 0 then false
    else if a[0] != b[0] then a[0] < b[0]
    else LexLess(a[1..], b[1..])
  }

  /** `a <= b` on Python strings. */
  predicate LexLessEq(a: string, b: string) {
    a == b || LexLess(a, b)
  }

  lemma {:induction false} LexLessIrreflexive(a: string)
    ensures !LexLess(a, a)
  {
    if |a| > 0 {
      LexLessIrreflexive(a[1..]);
    }
  }

  lemma {:induction false} LexLessAsymmetric(a: string, b: string)
    requires LexLess(a, b)
    ensures !LexLess(b, a)
  {
    if |a| > 0 && |b| > 0 && a[0] == b[0] {
      LexLessAsymmetric(a[1..], b[1..]);
    }
  }

  lemma {:induction false} LexLessTransitive(a: string, b: string, c: string)
    requires LexLess(a, b) && LexLess(b, c)
    ensures LexLess(a, c)
  {
    if |a| > 0 && a[0] == b[0] && b[0] == c[0] {
      LexLessTransitive(a[1..], b[1..], c[1..]);
    }
  }

  lemma {:induction false} LexLessTotal(a: string, b: string)
    requires a != b
    ensures LexLess(a, b) || LexLess(b, a)
  {
    if |a| > 0 && |b| > 0 && a[0] == b[0] {
      assert a == [a[0]] + a[1..] && b == [b[0]] + b[1..];
      LexLessTotal(a[1..], b[1..]);
    }
  }

  /** Comparing two strings that share the split point compares the heads
      first and the tails only on a tie. */
  lemma {:induction false} LexLessConcat(a: string, b: string, c: string, d: string)
    requires |a| == |c|
    ensures LexLess(a + b, c + d) <==> LexLess(a, c) || (a == c && LexLess(b, d))
  {
    if |a| > 0 {
      assert (a + b)[0] == a[0] && (c + d)[0] == c[0];
      assert (a + b)[1..] == a[1..] + b && (c + d)[1..] == c[1..] + d;
      LexLessConcat(a[1..], b, c[1..], d);
      if a[0] == c[0] {
        assert a == c <==> a[1..] == c[1..];
      }
    } else {
      assert a + b == b && c + d == d;
    }
  }

  /** On fields of equal width, string order is numeric order. */
  lemma {:induction false} PadOrder(a: nat, b: nat, w: nat)
    requires a < Pow10(w) && b < Pow10(w)
    ensures LexLess(PadDigits(a, w), PadDigits(b, w)) <==> a < b
  {
    if w > 0 {
      PadOrder(a / 10, b / 10, w - 1);
      LexLessConcat(PadDigits(a / 10, w - 1), [DigitChar(a % 10)],
                    PadDigits(b / 10, w - 1), [DigitChar(b % 10)]);
      if PadDigits(a / 10, w - 1) == PadDigits(b / 10, w - 1) {
        PadInjective(a / 10, b / 10, w - 1);
      }
    }
  }

  // ---------------------------------------------------------------------
  // Prefixes, suffixes and substring search
  // ---------------------------------------------------------------------

  predicate StartsWith(s: string, prefix: string) {
    |prefix| <= |s| && s[..|prefix|] == prefix
  }

  predicate EndsWith(s: string, suffix: string) {
    |suffix| <= |s| && s[|s| - |suffix|..] == suffix
  }

  predicate OccursAt(s: string, sub: string, i: int) {
    0 <= i && i + |sub| <= |s| && s[i..i + |sub|] == sub
  }

  /** Python's `s.find(sub)`: the first index where `sub` occurs, or -1. */
  function Find(s: string, sub: string): (r: int)
    ensures r == -1 || OccursAt(s, sub, r)
    ensures forall j :: 0 <= j && (r == -1 || j < r) ==> !OccursAt(s, sub, j)
    decreases |s|
  {
    if OccursAt(s, sub, 0) then 0
    else if |s| == 0 then -1
    else
      var r := Find(s[1..], sub);
      assert forall j :: 1 <= j ==> (OccursAt(s, sub, j) <==> OccursAt(s[1..], sub, j - 1)) by {
        forall j | 1 <= j
          ensures OccursAt(s, sub, j) <==> OccursAt(s[1..], sub, j - 1)
        {
          if j + |sub| <= |s| {
            assert s[1..][j - 1..j - 1 + |sub|] == s[j..j + |sub|];
          }
        }
      }
      if r == -1 then -1 else r + 1
  }

  /** Python's `sub in s`. */
  predicate Contains(s: string, sub: string) {
    Find(s, sub) >= 0
  }

  lemma ContainsIff(s: string, sub: string)
    ensures Contains(s, sub) <==> exists i :: OccursAt(s, sub, i)
  {
  }

  // ---------------------------------------------------------------------
  // split / join
  // ---------------------------------------------------------------------

  /** Python's `s.split(sep)` for a one-character separator. */
  function Split(s: string, sep: char): (parts: seq<string>)
    ensures |parts| >= 1
    ensures forall i :: 0 <= i < |parts| ==> sep !in parts[i]
  {
    if |s| == 0 then [""]
    else
      var rest := Split(s[1..], sep);
      if s[0] == sep then [""] + rest
      else [[s[0]] + rest[0]] + rest[1..]
  }

  /** Python's `sep.join(parts)`. */
  function Join(parts: seq<string>, sep: string): string {
    if |parts| == 0 then ""
    else if |parts| == 1 then parts[0]
    else parts[0] + sep + Join(parts[1..], sep)
  }

  lemma {:induction false} JoinSplit(s: string, sep: char)
    ensures Join(Split(s, sep), [sep]) == s
  {
    if |s| > 0 {
      var rest := Split(s[1..], sep);
      JoinSplit(s[1..], sep);
      if s[0] == sep {
        assert s == [sep] + s[1..];
      } else {
        if |rest| == 1 {
          assert s == [s[0]] + rest[0];
        } else {
          assert rest == [rest[0]] + rest[1..];
          assert Join(rest, [sep]) == rest[0] + [sep] + Join(rest[1..], [sep]);
          assert s == [s[0]] + s[1..];
        }
      }
    }
  }

  lemma {:induction false} SplitJoin(parts: seq<string>, sep: char)
    requires |parts| >= 1
    requires forall i :: 0 <= i < |parts| ==> sep !in parts[i]
    ensures Split(Join(parts, [sep]), sep) == parts
    decreases |parts|, |parts[0]|
  {
    var p := parts[0];
    if |parts| == 1 {
      SplitNoSep(p, sep);
    } else if |p| == 0 {
      var tail := Join(parts[1..], [sep]);
      assert Join(parts, [sep]) == [sep] + tail;
      assert ([sep] + tail)[1..] == tail;
      SplitJoin(parts[1..], sep);
      assert parts == [""] + parts[1..];
    } else {
      var shorter := [p[1..]] + parts[1..];
      assert Join(shorter, [sep]) == p[1..] + [sep] + Join(parts[1..], [sep]);
      assert Join(parts, [sep]) == [p[0]] + Join(shorter, [sep]);
      assert forall i :: 0 <= i < |shorter| ==> sep !in shorter[i] by {
        assert forall i :: 1 <= i < |shorter| ==> shorter[i] == parts[i];
      }
      SplitJoin(shorter, sep);
      assert ([p[0]] + Join(shorter, [sep]))[1..] == Join(shorter, [sep]);
      assert p[0] != sep by { assert p[0] in parts[0]; }
      assert shorter[1..] == parts[1..];
      assert parts[0] == [p[0]] + p[1..];
      assert parts == [parts[0]] + parts[1..];
    }
  }

  lemma {:induction false} SplitNoSep(s: string, sep: char)
    requires sep !in s
    ensures Split(s, sep) == [s]
  {
    if |s| > 0 {
      assert sep !in s[1..];
      SplitNoSep(s[1..], sep);
      assert s == [s[0]] + s[1..];
    }
  }

  /** Python's `s.split(sep)` for a separator of any non-zero length,
      cutting at the leftmost non-overlapping occurrences. */
  function SplitOn(s: string, sep: string): (parts: seq<string>)
    requires |sep| > 0
    ensures |parts| >= 1
    decreases |s|
  {
    if StartsWith(s, sep) then [""] + SplitOn(s[|sep|..], sep)
    else if |s| == 0 then [""]
    else
      var rest := SplitOn(s[1..], sep);
      [[s[0]] + rest[0]] + rest[1..]
  }

  lemma {:induction false} JoinSplitOn(s: string, sep: string)
    requires |sep| > 0
    ensures Join(SplitOn(s, sep), sep) == s
    decreases |s|
  {
    if StartsWith(s, sep) {
      JoinSplitOn(s[|sep|..], sep);
      JoinSplitOnAtSep(s, sep);
    } else if |s| > 0 {
      JoinSplitOn(s[1..], sep);
      JoinSplitOnAtChar(s, sep);
    }
  }

  lemma JoinSplitOnAtSep(s: string, sep: string)
    requires |sep| > 0 && StartsWith(s, sep)
    requires Join(SplitOn(s[|sep|..], sep), sep) == s[|sep|..]
    ensures Join(SplitOn(s, sep), sep) == s
  {
    SplitOnAtSep(s, sep);
    JoinEmptyHead(SplitOn(s[|sep|..], sep), sep);
    StartsWithSplit(s, sep);
  }

  lemma SplitOnAtSep(s: string, sep: string)
    requires |sep| > 0 && StartsWith(s, sep)
    ensures SplitOn(s, sep) == [""] + SplitOn(s[|sep|..], sep)
  {
  }

  lemma JoinEmptyHead(rest: seq<string>, sep: string)
    requires |rest| >= 1
    ensures Join([""] + rest, sep) == sep + Join(rest, sep)
  {
    JoinCons("", rest, sep);
  }

  lemma StartsWithSplit(s: string, prefix: string)
    requires StartsWith(s, prefix)
    ensures s == prefix + s[|prefix|..]
  {
  }

  lemma JoinSplitOnAtChar(s: string, sep: string)
    requires |sep| > 0 && !StartsWith(s, sep) && |s| > 0
    requires Join(SplitOn(s[1..], sep), sep) == s[1..]
    ensures Join(SplitOn(s, sep), sep) == s
  {
    var rest := SplitOn(s[1..], sep);
    assert SplitOn(s, sep) == [[s[0]] + rest[0]] + rest[1..];
    JoinHead(s[0], rest, sep);
    assert s == [s[0]] + s[1..];
  }

  lemma JoinCons(p: string, rest: seq<string>, sep: string)
    requires |rest| >= 1
    ensures Join([p] + rest, sep) == p + sep + Join(rest, sep)
  {
    assert ([p] + rest)[1..] == rest;
  }

  /** Five pieces joined, written out. */
  lemma JoinFive(a: string, b: string, c: string, d: string, e: string, sep: string)
    ensures Join([a, b, c, d, e], sep) == a + sep + b + sep + c + sep + d + sep + e
  {
    JoinCons(d, [e], sep);
    assert [d] + [e] == [d, e];
    JoinCons(c, [d, e], sep);
    assert [c] + [d, e] == [c, d, e];
    JoinCons(b, [c, d, e], sep);
    assert [b] + [c, d, e] == [b, c, d, e];
    JoinCons(a, [b, c, d, e], sep);
    assert [a] + [b, c, d, e] == [a, b, c, d, e];
    var de := d + sep + e;
    var cde := c + sep + de;
    assert c + sep + d + sep + e == cde;
    var bcde := b + sep + cde;
    assert b + sep + c + sep + d + sep + e == bcde;
    assert a + sep + b + sep + c + sep + d + sep + e == a + sep + bcde;
  }

  /** Prepending a character to the first piece prepends it to the join. */
  lemma JoinHead(c: char, parts: seq<string>, sep: string)
    requires |parts| >= 1
    ensures Join([[c] + parts[0]] + parts[1..], sep) == [c] + Join(parts, sep)
  {
    var q := [[c] + parts[0]] + parts[1..];
    if |parts| > 1 {
      assert q[1..] == parts[1..];
    }
  }

  /** A join cut after its `k`-th piece: the first `k` pieces, one
      separator, and the rest. */
  lemma {:induction false} JoinSplitAt(parts: seq<string>, sep: string, k: nat)
    requires 1 <= k < |parts|
    ensures Join(parts, sep) == Join(parts[..k], sep) + sep + Join(parts[k..], sep)
    decreases k
  {
    if k == 1 {
      assert parts[..1] == [parts[0]];
      assert parts[1..] == parts[k..];
    } else {
      JoinSplitAt(parts[1..], sep, k - 1);
      assert parts[..k][1..] == parts[1..][..k - 1];
      assert parts[1..][k - 1..] == parts[k..];
    }
  }

  /** Where the `k`-th piece of a split ends in the text. */
  function PieceEnd(s: string, sep: string, k: nat): nat
    requires |sep| > 0 && k <= |SplitOn(s, sep)|
  {
    |Join(SplitOn(s, sep)[..k], sep)|
  }

  /** Cutting a text right after its `k`-th piece and splitting the cut
      gives back exactly the first `k` pieces. */
  lemma {:induction false} SplitOnPrefix(s: string, sep: string, k: nat)
    requires |sep| > 0 && 1 <= k <= |SplitOn(s, sep)|
    ensures PieceEnd(s, sep, k) <= |s| && SplitOn(s[..PieceEnd(s, sep, k)], sep) == SplitOn(s, sep)[..k]
    decreases |s|
  {
    if StartsWith(s, sep) {
      SplitOnAtSep(s, sep);
      if k > 1 {
        SplitOnPrefix(s[|sep|..], sep, k - 1);
        SplitOnPrefixAtSep(s, sep, k);
      }
    } else if |s| > 0 {
      SplitOnPrefix(s[1..], sep, k);
      SplitOnPrefixAtChar(s, sep, k);
    }
  }

  lemma ConsPrefix<T>(x: T, r: seq<T>, k: nat)
    requires 1 <= k <= |r| + 1
    ensures ([x] + r)[..k] == [x] + r[..k - 1]
  {
  }

  lemma HeadPrefix<T>(x: T, r: seq<T>, k: nat)
    requires 1 <= k <= |r|
    ensures ([x] + r[1..])[..k] == [x] + r[..k][1..]
  {
  }

  lemma SliceOfSlice<T>(s: seq<T>, a: nat, c: nat)
    requires a <= c <= |s|
    ensures s[..c][..a] == s[..a] && s[..c][a..] == s[a..][..c - a]
  {
  }

  /** The step of `SplitOnPrefix` for a text opening with the separator. */
  lemma SplitOnPrefixAtSep(s: string, sep: string, k: nat)
    requires |sep| > 0 && StartsWith(s, sep) && 1 < k <= |SplitOn(s, sep)|
    requires PieceEnd(s[|sep|..], sep, k - 1) <= |s| - |sep|
    requires SplitOn(s[|sep|..][..PieceEnd(s[|sep|..], sep, k - 1)], sep) == SplitOn(s[|sep|..], sep)[..k - 1]
    ensures PieceEnd(s, sep, k) <= |s| && SplitOn(s[..PieceEnd(s, sep, k)], sep) == SplitOn(s, sep)[..k]
  {
    var parts := SplitOn(s, sep);
    var rest := SplitOn(s[|sep|..], sep);
    var j := Join(rest[..k - 1], sep);
    var c := |sep| + |j|;
    var x := s[..c];
    SplitOnAtSep(s, sep);
    assert parts == [""] + rest;
    ConsPrefix("", rest, k);
    assert parts[..k] == [""] + rest[..k - 1];
    JoinCons("", rest[..k - 1], sep);
    assert Join(parts[..k], sep) == "" + sep + j;
    assert PieceEnd(s, sep, k) == c;
    SliceOfSlice(s, |sep|, c);
    assert StartsWith(x, sep);
    SplitOnAtSep(x, sep);
    assert x[|sep|..] == s[|sep|..][..|j|];
    assert SplitOn(x[|sep|..], sep) == rest[..k - 1];
    assert SplitOn(x, sep) == parts[..k];
    assert c <= |s|;
  }

  /** `SplitOn` on a text that does not open with the separator. */
  lemma SplitOnAtChar(s: string, sep: string)
    requires |sep| > 0 && !StartsWith(s, sep) && |s| > 0
    ensures var rest := SplitOn(s[1..], sep); SplitOn(s, sep) == [[s[0]] + rest[0]] + rest[1..]
  {
  }

  /** The step of `SplitOnPrefix` for a text opening with another character. */
  lemma SplitOnPrefixAtChar(s: string, sep: string, k: nat)
    requires |sep| > 0 && !StartsWith(s, sep) && |s| > 0 && 1 <= k <= |SplitOn(s, sep)|
    requires PieceEnd(s[1..], sep, k) <= |s| - 1
    requires SplitOn(s[1..][..PieceEnd(s[1..], sep, k)], sep) == SplitOn(s[1..], sep)[..k]
    ensures PieceEnd(s, sep, k) <= |s| && SplitOn(s[..PieceEnd(s, sep, k)], sep) == SplitOn(s, sep)[..k]
  {
    var parts := SplitOn(s, sep);
    var rest := SplitOn(s[1..], sep);
    var j := Join(rest[..k], sep);
    var c := 1 + |j|;
    var x := s[..c];
    assert PieceEnd(s[1..], sep, k) == |j|;
    assert parts[..k] == [[s[0]] + rest[..k][0]] + rest[..k][1..] by {
      SplitOnAtChar(s, sep);
      HeadPrefix([s[0]] + rest[0], rest, k);
    }
    assert PieceEnd(s, sep, k) == c by {
      JoinHead(s[0], rest[..k], sep);
    }
    assert x[1..] == s[1..][..|j|] && x[0] == s[0] by {
      SliceOfSlice(s, 1, c);
    }
    assert !StartsWith(x, sep) by {
      if |sep| <= c { SliceOfSlice(s, |sep|, c); }
    }
    assert SplitOn(x, sep) == [[x[0]] + SplitOn(x[1..], sep)[0]] + SplitOn(x[1..], sep)[1..] by {
      SplitOnAtChar(x, sep);
    }
  }

  /** Joining the first `k` pieces of a split gives a prefix of the text. */
  lemma {:induction false} JoinPrefixIsPrefix(parts: seq<string>, sep: string, k: nat)
    requires 1 <= k <= |parts|
    ensures StartsWith(Join(parts, sep), Join(parts[..k], sep))
    decreases k
  {
    if k > 1 {
      JoinPrefixIsPrefix(parts[1..], sep, k - 1);
      assert parts[..k][1..] == parts[1..][..k - 1];
      var whole := Join(parts[1..], sep);
      var part := Join(parts[1..][..k - 1], sep);
      assert whole == part + whole[|part|..];
      assert Join(parts, sep) == parts[0] + sep + part + whole[|part|..];
    } else {
      assert parts[..1] == [parts[0]];
      if |parts| > 1 {
        assert Join(parts, sep) == parts[0] + (sep + Join(parts[1..], sep));
      }
    }
  }

  // ---------------------------------------------------------------------
  // Whitespace and stripping
  // ---------------------------------------------------------------------

  /** Python's `str.isspace()` for a single character, which is also the set
      `str.strip()` removes and the set regex `\s` matches. */
  predicate IsSpace(c: char) {
    ('\U{0009}' <= c <= '\U{000D}') || ('\U{001C}' <= c <= '\U{001F}') || c == ' '
    || c == '\U{0085}' || c == '\U{00A0}' || c == '\U{1680}'
    || ('\U{2000}' <= c <= '\U{200A}') || c == '\U{2028}' || c == '\U{2029}'
    || c == '\U{202F}' || c == '\U{205F}' || c == '\U{3000}'
  }

  /** Python's `s.rstrip(chars)`: drop trailing characters in `chars`. */
  function RStripSet(s: string, chars: set<char>): (r: string)
    ensures StartsWith(s, r)
    ensures |r| == 0 || r[|r| - 1] !in chars
    ensures forall i :: |r| <= i < |s| ==> s[i] in chars
  {
    if |s| > 0 && s[|s| - 1] in chars then RStripSet(s[..|s| - 1], chars) else s
  }

  /** Python's `s.lstrip(chars)`: drop leading characters in `chars`. */
  function LStripSet(s: string, chars: set<char>): (r: string)
    ensures EndsWith(s, r)
    ensures |r| == 0 || r[0] !in chars
    ensures forall i :: 0 <= i < |s| - |r| ==> s[i] in chars
  {
    if |s| > 0 && s[0] in chars then LStripSet(s[1..], chars) else s
  }

  function RStripSpace(s: string): (r: string)
    ensures StartsWith(s, r)
    ensures |r| == 0 || !IsSpace(r[|r| - 1])
    ensures forall i :: |r| <= i < |s| ==> IsSpace(s[i])
  {
    if |s| > 0 && IsSpace(s[|s| - 1]) then RStripSpace(s[..|s| - 1]) else s
  }

  function LStripSpace(s: string): (r: string)
    ensures EndsWith(s, r)
    ensures |r| == 0 || !IsSpace(r[0])
    ensures forall i :: 0 <= i < |s| - |r| ==> IsSpace(s[i])
  {
    if |s| > 0 && IsSpace(s[0]) then LStripSpace(s[1..]) else s
  }

  /** Python's `s.strip()`: the longest infix with no whitespace at either end. */
  function Strip(s: string): (r: string)
    ensures |r| <= |s|
    ensures |r| == 0 || (!IsSpace(r[0]) && !IsSpace(r[|r| - 1]))
  {
    LStripSpace(RStripSpace(s))
  }

  /** `strip()` keeps the middle of the text and drops only whitespace: the
      result sits at some offset `a`, and everything before `a` and after
      the result is whitespace. With the ends `Strip` guarantees, this
      fixes the result; an all-whitespace text strips to nothing. */
  lemma StripInfix(s: string)
    ensures exists a :: AmidSpace(s, Strip(s), a)
    ensures (forall i :: 0 <= i < |s| ==> IsSpace(s[i])) ==> Strip(s) == ""
  {
    var right := RStripSpace(s);
    var r := Strip(s);
    var a := |right| - |r|;
    assert right == s[..|right|];
    assert r == right[a..];
    assert r == s[a..a + |r|];
    assert forall i :: 0 <= i < a ==> IsSpace(s[i]) by {
      forall i | 0 <= i < a ensures IsSpace(s[i]) {
        assert s[i] == right[i];
      }
    }
    assert AmidSpace(s, r, a);
  }

  /** `r` is the part of `s` from offset `a` on, with nothing but whitespace
      before and after it. */
  predicate AmidSpace(s: string, r: string, a: int) {
    0 <= a <= |s| - |r| && r == s[a..a + |r|]
    && (forall i :: 0 <= i < a ==> IsSpace(s[i]))
    && (forall i :: a + |r| <= i < |s| ==> IsSpace(s[i]))
  }

  lemma StripIdempotent(s: string)
    ensures Strip(Strip(s)) == Strip(s)
  {
    var r := Strip(s);
    if |r| > 0 {
      assert RStripSpace(r) == r;
      assert LStripSpace(r) == r;
    }
  }

  /** Stripping does not touch a string that has no surrounding whitespace. */
  lemma StripUnpadded(s: string)
    requires |s| == 0 || (!IsSpace(s[0]) && !IsSpace(s[|s| - 1]))
    ensures Strip(s) == s
  {
  }

  /** `rstrip()` removes exactly the whitespace appended to a text that
      ends in a non-space. */
  lemma {:induction false} RStripSpacePadded(s: string, post: string)
    requires |s| > 0 && !IsSpace(s[|s| - 1])
    requires forall i :: 0 <= i < |post| ==> IsSpace(post[i])
    ensures RStripSpace(s + post) == s
  {
    if |post| > 0 {
      var shorter := post[..|post| - 1];
      assert (s + post)[..|s + post| - 1] == s + shorter;
      RStripSpacePadded(s, shorter);
    } else {
      assert s + post == s;
    }
  }

  /** `lstrip()` removes exactly the whitespace prepended to a text that
      starts with a non-space. */
  lemma {:induction false} LStripSpacePadded(pre: string, s: string)
    requires |s| > 0 && !IsSpace(s[0])
    requires forall i :: 0 <= i < |pre| ==> IsSpace(pre[i])
    ensures LStripSpace(pre + s) == s
  {
    if |pre| > 0 {
      assert (pre + s)[1..] == pre[1..] + s;
      LStripSpacePadded(pre[1..], s);
    } else {
      assert pre + s == s;
    }
  }

  /** `strip()` removes exactly the whitespace around a text that neither
      starts nor ends with whitespace. */
  lemma StripPadded(pre: string, s: string, post: string)
    requires |s| > 0 && !IsSpace(s[0]) && !IsSpace(s[|s| - 1])
    requires forall i :: 0 <= i < |pre| ==> IsSpace(pre[i])
    requires forall i :: 0 <= i < |post| ==> IsSpace(post[i])
    ensures Strip(pre + s + post) == s
  {
    assert pre + s + post == (pre + s) + post;
    RStripSpacePadded(pre + s, post);
    LStripSpacePadded(pre, s);
  }

  /** `rstrip(chars)` removes exactly the characters of `chars` appended to
      a text that ends outside `chars`. */
  lemma {:induction false} RStripSetPadded(s: string, post: string, chars: set<char>)
    requires |s| > 0 && s[|s| - 1] !in chars
    requires forall i :: 0 <= i < |post| ==> post[i] in chars
    ensures RStripSet(s + post, chars) == s
  {
    if |post| > 0 {
      var shorter := post[..|post| - 1];
      assert (s + post)[..|s + post| - 1] == s + shorter;
      RStripSetPadded(s, shorter, chars);
    } else {
      assert s + post == s;
    }
  }
}

=== FILE: timestamps.dfy ===
/** Job timestamps: the `%Y-%m-%d_%H%M%S` text that names a job, read with
    Python's `datetime.strptime` (which accepts one-digit fields and a
    space-padded day) and written with `strftime` (always zero-padded). */
module Timestamps {
  import opened Wrappers
  import opened Text
  import opened Calendar
  import opened Patterns
  import opened Lists

  /** A naive date and time to the second, as `strptime` builds it. */
  datatype Timestamp = Timestamp(year: int, month: int, day: int, hour: int, minute: int, second: int)

  function DateOf(t: Timestamp): Date {
    Date(t.year, t.month, t.day)
  }

  /** What `datetime(...)` accepts. */
  predicate Valid(t: Timestamp) {
    IsValidDate(DateOf(t)) && 0 <= t.hour < 24 && 0 <= t.minute < 60 && 0 <= t.second < 60
  }

  // ---------------------------------------------------------------------
  // The regular expressions `_strptime` builds for each directive
  // ---------------------------------------------------------------------

  /** `%Y`: four digits. */
  const YearField: Item := Group([[Digit, Digit, Digit, Digit]])
  /** `%m`: `1[0-2]|0[1-9]|[1-9]`. */
  const MonthField: Item := Group([[One('1'), Range('0', '2')], [One('0'), Range('1', '9')], [Range('1', '9')]])
  /** `%d`: `3[01]|[12]\d|0[1-9]|[1-9]| [1-9]`. */
  const DayField: Item := Group([[One('3'), Range('0', '1')], [Range('1', '2'), Digit], [One('0'), Range('1', '9')],
                                 [Range('1', '9')], [One(' '), Range('1', '9')]])
  /** `%H`: `2[0-3]|[0-1]\d|\d`. */
  const HourField: Item := Group([[One('2'), Range('0', '3')], [Range('0', '1'), Digit], [Digit]])
  /** `%M`: `[0-5]\d|\d`. */
  const MinuteField: Item := Group([[Range('0', '5'), Digit], [Digit]])
  /** `%S`: `6[0-1]|[0-5]\d|\d` (60 and 61 pass the pattern; `datetime` rejects them). */
  const SecondField: Item := Group([[One('6'), Range('0', '1')], [Range('0', '5'), Digit], [Digit]])

  function Sep(c: char): Item {
    Lit(One(c))
  }

  /** `%Y-%m-%d_%H%M%S`, the job timestamp format. */
  const CompactFormat: seq<Item> :=
    [YearField, Sep('-'), MonthField, Sep('-'), DayField, Sep('_'), HourField, MinuteField, SecondField]

  /** `%Y-%m-%d`, the format of command-line and range dates. */
  const DateFormat: seq<Item> := [YearField, Sep('-'), MonthField, Sep('-'), DayField]

  /** `%Y-%m-%dT%H:%M:%S+00:00`; the `T` matches either case. */
  const UtcFormat: seq<Item> :=
    [YearField, Sep('-'), MonthField, Sep('-'), DayField, Lit(Letter('T', 't')), HourField, Sep(':'),
     MinuteField, Sep(':'), SecondField, Sep('+'), Sep('0'), Sep('0'), Sep(':'), Sep('0'), Sep('0')]

  /** The legacy job-directory pattern, used with `re.match` (so anchored
      at the start only): month 01-12, day 01-31, hour 00-23, minute and
      second 00-59. */
  const LegacyPattern: seq<Item> :=
    [YearField, Sep('-'),
     Group([[One('0'), Range('1', '9')], [One('1'), Range('0', '2')]]), Sep('-'),
     Group([[One('0'), Range('1', '9')], [Range('1', '2'), Digit], [One('3'), Range('0', '1')]]), Sep('_'),
     Group([[Range('0', '1'), Digit], [One('2'), Range('0', '3')]]),
     Group([[Range('0', '5'), Digit]]),
     Group([[Range('0', '5'), Digit]])]

  /** `re.match(UTC_REGEX_PATTERN_BW_COMPAT, s)` succeeds. */
  predicate LegacyMatch(s: string) {
    MatchItems(LegacyPattern, s).Some?
  }

  // ---------------------------------------------------------------------
  // strptime
  // ---------------------------------------------------------------------

  /** `int()` of a matched field: digits, possibly after one space. */
  function FieldValue(s: string): (v: nat)
    ensures AllDigits(s) ==> v == DecimalValue(s)
  {
    if |s| == 0 then 0
    else
      var last := s[|s| - 1];
      assert AllDigits(s) ==> AllDigits(s[..|s| - 1]);
      10 * FieldValue(s[..|s| - 1]) + (if IsDigit(last) then DigitValue(last) else 0)
  }

  /** The pattern step of `strptime`: the matched field texts, or the
      `ValueError` it raises. */
  function Strptime(format: seq<Item>, s: string): (r: Result<seq<string>>)
    ensures r.Ok? ==> Sound(format, s, r.value) && Flatten(r.value) == s
  {
    match MatchItems(format, s)
    case None => Err("time data does not match format")
    case Some(ps) =>
      if |Flatten(ps)| != |s| then Err("unconverted data remains") else Ok(ps)
  }

  /** The `ValueError` `datetime(...)` raises, if any. */
  function Check(t: Timestamp): (r: Result<Timestamp>)
    ensures r.Ok? <==> Valid(t)
    ensures r.Ok? ==> r.value == t
  {
    if !(MinYear <= t.year <= MaxYear) then Err("year is out of range")
    else if !IsCalendarDate(DateOf(t)) then Err("day is out of range for month")
    else if !(0 <= t.second < 60) then Err("second must be in 0..59")
    else if !(0 <= t.hour < 24 && 0 <= t.minute < 60) then Err("hour or minute out of range")
    else Ok(t)
  }

  /** `datetime.strptime(s, "%Y-%m-%d_%H%M%S")`, the core of
      `get_utc_datetime_from_timestamp`. */
  function ParseCompact(s: string): (r: Result<Timestamp>)
    ensures r.Ok? ==> Valid(r.value)
  {
    match Strptime(CompactFormat, s)
    case Err(e) => Err(e)
    case Ok(ps) =>
      Check(Timestamp(FieldValue(ps[0]), FieldValue(ps[2]), FieldValue(ps[4]),
                      FieldValue(ps[6]), FieldValue(ps[7]), FieldValue(ps[8])))
  }

  /** `datetime.strptime(s, "%Y-%m-%d")`: midnight of that day. */
  function ParseDate(s: string): (r: Result<Date>)
    ensures r.Ok? ==> IsValidDate(r.value)
  {
    match Strptime(DateFormat, s)
    case Err(e) => Err(e)
    case Ok(ps) =>
      match Check(Timestamp(FieldValue(ps[0]), FieldValue(ps[2]), FieldValue(ps[4]), 0, 0, 0))
      case Err(e) => Err(e)
      case Ok(t) => Ok(DateOf(t))
  }

  /** `datetime.strptime(s, "%Y-%m-%dT%H:%M:%S+00:00")`. */
  function ParseUtc(s: string): (r: Result<Timestamp>)
    ensures r.Ok? ==> Valid(r.value)
  {
    match Strptime(UtcFormat, s)
    case Err(e) => Err(e)
    case Ok(ps) =>
      Check(Timestamp(FieldValue(ps[0]), FieldValue(ps[2]), FieldValue(ps[4]),
                      FieldValue(ps[6]), FieldValue(ps[8]), FieldValue(ps[10])))
  }

  // ---------------------------------------------------------------------
  // strftime
  // ---------------------------------------------------------------------

  /** `strftime("%Y-%m-%d_%H%M%S")`, nested so that each field can be
      compared in turn. */
  function FormatCompact(t: Timestamp): (s: string)
    requires Valid(t)
    ensures |s| == 17
  {
    Pad4(t.year) + ("-" + (Pad2(t.month) + ("-" + (Pad2(t.day) + ("_" + (Pad2(t.hour) + (Pad2(t.minute) + Pad2(t.second))))))))
  }

  /** The nine pieces the compact format's items match in `FormatCompact(t)`. */
  function CompactPieces(t: Timestamp): (ps: seq<string>)
    requires Valid(t)
    ensures |ps| == 9 && Flatten(ps) == FormatCompact(t)
  {
    var ps := [Pad4(t.year), "-", Pad2(t.month), "-", Pad2(t.day), "_", Pad2(t.hour), Pad2(t.minute), Pad2(t.second)];
    FlattenNine(ps);
    ps
  }

  lemma FlattenNine(ps: seq<string>)
    requires |ps| == 9
    ensures Flatten(ps) == ps[0] + (ps[1] + (ps[2] + (ps[3] + (ps[4] + (ps[5] + (ps[6] + (ps[7] + ps[8])))))))
  {
    assert ps[1..][1..][1..][1..][1..][1..][1..][1..][1..] == [];
    assert Flatten(ps[8..]) == ps[8] by {
      assert ps[8..][1..] == [];
    }
    assert ps[1..] == ps[1..];
    calc {
      Flatten(ps);
      ps[0] + Flatten(ps[1..]);
      { assert ps[1..][1..] == ps[2..]; }
      ps[0] + (ps[1] + Flatten(ps[2..]));
      { assert ps[2..][1..] == ps[3..]; }
      ps[0] + (ps[1] + (ps[2] + Flatten(ps[3..])));
      { assert ps[3..][1..] == ps[4..]; }
      ps[0] + (ps[1] + (ps[2] + (ps[3] + Flatten(ps[4..]))));
      { assert ps[4..][1..] == ps[5..]; }
      ps[0] + (ps[1] + (ps[2] + (ps[3] + (ps[4] + Flatten(ps[5..])))));
      { assert ps[5..][1..] == ps[6..]; }
      ps[0] + (ps[1] + (ps[2] + (ps[3] + (ps[4] + (ps[5] + Flatten(ps[6..]))))));
      { assert ps[6..][1..] == ps[7..]; }
      ps[0] + (ps[1] + (ps[2] + (ps[3] + (ps[4] + (ps[5] + (ps[6] + Flatten(ps[7..])))))));
      { assert ps[7..][1..] == ps[8..]; }
      ps[0] + (ps[1] + (ps[2] + (ps[3] + (ps[4] + (ps[5] + (ps[6] + (ps[7] + Flatten(ps[8..]))))))));
    }
  }

  // ---------------------------------------------------------------------
  // Round trip: strptime reads back what strftime wrote
  // ---------------------------------------------------------------------

  lemma Pad2Chars(n: nat)
    requires n < 100
    ensures Pad2(n) == [DigitChar(n / 10), DigitChar(n % 10)]
  {
    assert PadDigits(n / 10, 1) == PadDigits(n / 100, 0) + [DigitChar((n / 10) % 10)];
  }

  /** A two-character digit string is the padding of its value. */
  lemma TwoDigitText(p: string)
    requires |p| == 2 && IsDigit(p[0]) && IsDigit(p[1])
    ensures DecimalValue(p) == 10 * DigitValue(p[0]) + DigitValue(p[1])
    ensures Pad2(DecimalValue(p)) == p
  {
    assert AllDigits(p);
    assert p[..1][..0] == [];
    PadOfDecimal(p);
  }

  lemma YearCanonical(y: nat)
    requires y < 10000
    ensures Canonical(YearField, Pad4(y))
  {
    assert PatternFits([Digit, Digit, Digit, Digit], Pad4(y));
  }

  lemma MonthCanonical(m: nat)
    requires 1 <= m <= 12
    ensures Canonical(MonthField, Pad2(m))
  {
    Pad2Chars(m);
    var alts := MonthField.alts;
    var p := Pad2(m);
    if m < 10 {
      assert PatternFits(alts[1], p);
      assert Leads(alts, 1, p);
    } else {
      assert PatternFits(alts[0], p);
    }
  }

  lemma DayCanonical(d: nat)
    requires 1 <= d <= 31
    ensures Canonical(DayField, Pad2(d))
  {
    Pad2Chars(d);
    var alts := DayField.alts;
    var p := Pad2(d);
    if d < 10 {
      assert PatternFits(alts[2], p);
      assert Leads(alts, 2, p);
      assert Leads(alts, 1, p);
    } else if d < 30 {
      assert PatternFits(alts[1], p);
      assert Leads(alts, 1, p);
    } else {
      assert PatternFits(alts[0], p);
    }
  }

  lemma HourCanonical(h: nat)
    requires h < 24
    ensures Canonical(HourField, Pad2(h))
  {
    Pad2Chars(h);
    var alts := HourField.alts;
    var p := Pad2(h);
    if h < 20 {
      assert PatternFits(alts[1], p);
      assert Leads(alts, 1, p);
    } else {
      assert PatternFits(alts[0], p);
    }
  }

  lemma MinuteCanonical(x: nat)
    requires x < 60
    ensures Canonical(MinuteField, Pad2(x))
  {
    Pad2Chars(x);
    assert PatternFits(MinuteField.alts[0], Pad2(x));
  }

  lemma SecondCanonical(x: nat)
    requires x < 60
    ensures Canonical(SecondField, Pad2(x))
  {
    Pad2Chars(x);
    var alts := SecondField.alts;
    assert PatternFits(alts[1], Pad2(x));
    assert Leads(alts, 1, Pad2(x));
  }

  lemma CompactCanonical(t: Timestamp)
    requires Valid(t)
    ensures forall k :: 0 <= k < 9 ==> Canonical(CompactFormat[k], CompactPieces(t)[k])
  {
    var ps := CompactPieces(t);
    YearCanonical(t.year);
    MonthCanonical(t.month);
    DayCanonical(t.day);
    HourCanonical(t.hour);
    MinuteCanonical(t.minute);
    SecondCanonical(t.second);
    assert Canonical(CompactFormat[1], ps[1]) && Canonical(CompactFormat[3], ps[3]) && Canonical(CompactFormat[5], ps[5]);
  }

  lemma PadValues(t: Timestamp)
    requires Valid(t)
    ensures FieldValue(Pad4(t.year)) == t.year && FieldValue(Pad2(t.month)) == t.month
    ensures FieldValue(Pad2(t.day)) == t.day && FieldValue(Pad2(t.hour)) == t.hour
    ensures FieldValue(Pad2(t.minute)) == t.minute && FieldValue(Pad2(t.second)) == t.second
  {
    DecimalOfPad(t.year, 4);
    DecimalOfPad(t.month, 2);
    DecimalOfPad(t.day, 2);
    DecimalOfPad(t.hour, 2);
    DecimalOfPad(t.minute, 2);
    DecimalOfPad(t.second, 2);
  }

  /** `strptime` reads back every timestamp `strftime` writes. */
  lemma ParseFormatCompact(t: Timestamp)
    requires Valid(t)
    ensures ParseCompact(FormatCompact(t)) == Ok(t)
  {
    var ps := CompactPieces(t);
    CompactCanonical(t);
    MatchCanonical(CompactFormat, ps, "");
    assert Flatten(ps) + "" == FormatCompact(t);
    PadValues(t);
  }

  // ---------------------------------------------------------------------
  // The legacy pattern accepts exactly the zero-padded timestamps
  // ---------------------------------------------------------------------

  lemma LegacyMonthCanonical(m: nat)
    requires 1 <= m <= 12
    ensures Canonical(LegacyPattern[2], Pad2(m))
  {
    Pad2Chars(m);
    var alts, p := LegacyPattern[2].alts, Pad2(m);
    if m >= 10 {
      assert PatternFits(alts[1], p);
      assert Leads(alts, 1, p);
    } else {
      assert PatternFits(alts[0], p);
    }
  }

  lemma LegacyDayCanonical(d: nat)
    requires 1 <= d <= 31
    ensures Canonical(LegacyPattern[4], Pad2(d))
  {
    Pad2Chars(d);
    var alts, p := LegacyPattern[4].alts, Pad2(d);
    if d >= 30 {
      assert PatternFits(alts[2], p);
      assert Leads(alts, 2, p);
      assert Leads(alts, 1, p);
    } else if d >= 10 {
      assert PatternFits(alts[1], p);
      assert Leads(alts, 1, p);
    } else {
      assert PatternFits(alts[0], p);
    }
  }

  lemma LegacyTimeCanonical(h: nat, m: nat, sec: nat)
    requires h < 24 && m < 60 && sec < 60
    ensures Canonical(LegacyPattern[6], Pad2(h)) && Canonical(LegacyPattern[7], Pad2(m))
    ensures Canonical(LegacyPattern[8], Pad2(sec))
  {
    Pad2Chars(h);
    Pad2Chars(m);
    Pad2Chars(sec);
    var alts, p := LegacyPattern[6].alts, Pad2(h);
    if h >= 20 {
      assert PatternFits(alts[1], p);
      assert Leads(alts, 1, p);
    } else {
      assert PatternFits(alts[0], p);
    }
    assert PatternFits(LegacyPattern[7].alts[0], Pad2(m));
    assert PatternFits(LegacyPattern[8].alts[0], Pad2(sec));
  }

  lemma LegacyFieldsCanonical(t: Timestamp)
    requires Valid(t)
    ensures forall k :: 0 <= k < 9 ==> Canonical(LegacyPattern[k], CompactPieces(t)[k])
  {
    YearCanonical(t.year);
    LegacyMonthCanonical(t.month);
    LegacyDayCanonical(t.day);
    LegacyTimeCanonical(t.hour, t.minute, t.second);
  }

  /** Every zero-padded timestamp of a valid instant matches the legacy
      pattern. */
  lemma LegacyAccepts(t: Timestamp)
    requires Valid(t)
    ensures LegacyMatch(FormatCompact(t))
  {
    LegacyFieldsCanonical(t);
    MatchCanonical(LegacyPattern, CompactPieces(t), "");
    assert Flatten(CompactPieces(t)) + "" == FormatCompact(t);
  }

  /** Two digits between `lo` and `hi` (inclusive), as text. */
  predicate TwoDigitsIn(p: string, lo: nat, hi: nat) {
    |p| == 2 && IsDigit(p[0]) && IsDigit(p[1])
    && lo <= 10 * DigitValue(p[0]) + DigitValue(p[1]) <= hi
  }

  lemma LegacyPieces(s: string, q: seq<string>)
    requires Sound(LegacyPattern, s, q)
    ensures |q[0]| == 4 && AllDigits(q[0])
    ensures TwoDigitsIn(q[2], 1, 12) && TwoDigitsIn(q[4], 1, 31) && TwoDigitsIn(q[6], 0, 23)
    ensures TwoDigitsIn(q[7], 0, 59) && TwoDigitsIn(q[8], 0, 59)
    ensures q[1] == "-" && q[3] == "-" && q[5] == "_"
  {
    assert ItemFits(LegacyPattern[0], q[0]);
    assert ItemFits(LegacyPattern[1], q[1]) && ItemFits(LegacyPattern[3], q[3]) && ItemFits(LegacyPattern[5], q[5]);
    assert ItemFits(LegacyPattern[2], q[2]);
    assert ItemFits(LegacyPattern[4], q[4]);
    assert ItemFits(LegacyPattern[6], q[6]);
    assert ItemFits(LegacyPattern[7], q[7]) && ItemFits(LegacyPattern[8], q[8]);
  }

  /** A two-digit field in range reads as the compact format would read it. */
  lemma TwoDigitCanonical(p: string, lo: nat, hi: nat, item: Item)
    requires TwoDigitsIn(p, lo, hi)
    requires (item == MonthField && lo == 1 && hi == 12)
          || (item == DayField && lo == 1 && hi == 31)
          || (item == HourField && lo == 0 && hi == 23)
          || (item == MinuteField && lo == 0 && hi == 59)
          || (item == SecondField && lo == 0 && hi == 59)
    ensures Canonical(item, p) && FieldValue(p) == DecimalValue(p) && Pad2(DecimalValue(p)) == p
    ensures lo <= DecimalValue(p) <= hi
  {
    TwoDigitText(p);
    var v := DecimalValue(p);
    if item == MonthField { MonthCanonical(v); }
    else if item == DayField { DayCanonical(v); }
    else if item == HourField { HourCanonical(v); }
    else if item == MinuteField { MinuteCanonical(v); }
    else { SecondCanonical(v); }
  }

  lemma LegacyPiecesCanonical(s: string, q: seq<string>)
    requires Sound(LegacyPattern, s, q)
    ensures forall k :: 0 <= k < 9 ==> Canonical(CompactFormat[k], q[k])
  {
    LegacyPieces(s, q);
    TwoDigitCanonical(q[2], 1, 12, MonthField);
    TwoDigitCanonical(q[4], 1, 31, DayField);
    TwoDigitCanonical(q[6], 0, 23, HourField);
    TwoDigitCanonical(q[7], 0, 59, MinuteField);
    TwoDigitCanonical(q[8], 0, 59, SecondField);
    assert PatternFits([Digit, Digit, Digit, Digit], q[0]);
  }

  /** Text the legacy pattern matches is matched the same way by the
      compact format, piece for piece. */
  lemma LegacyMatchesCompact(s: string)
    requires LegacyMatch(s)
    ensures MatchItems(CompactFormat, s) == MatchItems(LegacyPattern, s)
  {
    var q := MatchItems(LegacyPattern, s).value;
    LegacyPiecesCanonical(s, q);
    var tail := s[|Flatten(q)|..];
    assert s == Flatten(q) + tail;
    MatchCanonical(CompactFormat, q, tail);
  }

  lemma LegacyValues(s: string, q: seq<string>)
    requires Sound(LegacyPattern, s, q)
    ensures var t := Timestamp(FieldValue(q[0]), FieldValue(q[2]), FieldValue(q[4]),
                               FieldValue(q[6]), FieldValue(q[7]), FieldValue(q[8]));
            Valid(t) ==> CompactPieces(t) == q
  {
    LegacyPieces(s, q);
    TwoDigitCanonical(q[2], 1, 12, MonthField);
    TwoDigitCanonical(q[4], 1, 31, DayField);
    TwoDigitCanonical(q[6], 0, 23, HourField);
    TwoDigitCanonical(q[7], 0, 59, MinuteField);
    TwoDigitCanonical(q[8], 0, 59, SecondField);
    PadOfDecimal(q[0]);
  }

  /** What the legacy pattern and `strptime` both accept is exactly the
      zero-padded form of the instant read. */
  lemma LegacyCanonical(s: string)
    requires LegacyMatch(s) && ParseCompact(s).Ok?
    ensures FormatCompact(ParseCompact(s).value) == s
  {
    var q := MatchItems(LegacyPattern, s).value;
    LegacyMatchesCompact(s);
    LegacyValues(s, q);
    assert Strptime(CompactFormat, s) == Ok(q);
  }

  /** Whatever the legacy pattern matches starts with a digit. */
  lemma LegacyLeadingDigit(s: string)
    requires LegacyMatch(s)
    ensures |s| > 0 && IsDigit(s[0])
  {
    var ps := MatchItems(LegacyPattern, s).value;
    assert ItemFits(LegacyPattern[0], ps[0]);
    assert PatternFits([Digit, Digit, Digit, Digit], ps[0]);
    assert Flatten(ps) == ps[0] + Flatten(ps[1..]);
    assert s[..|Flatten(ps)|] == Flatten(ps);
    assert s[0] == ps[0][0];
  }

  /** `f"{year}-{month}-{day}_{time}"`: a timestamp assembled from the
      parts of a hierarchical path. */
  function StampOf(year: string, month: string, day: string, time: string): string {
    year + "-" + month + "-" + day + "_" + time
  }

  /** The zero-padded fields of a time assemble to its compact text. */
  lemma StampOfFields(t: Timestamp)
    requires Valid(t)
    ensures StampOf(Pad4(t.year), Pad2(t.month), Pad2(t.day), Pad2(t.hour) + Pad2(t.minute) + Pad2(t.second)) == FormatCompact(t)
  {
    var y, m, d := Pad4(t.year), Pad2(t.month), Pad2(t.day);
    var tp := Pad2(t.hour) + Pad2(t.minute) + Pad2(t.second);
    assert tp == Pad2(t.hour) + (Pad2(t.minute) + Pad2(t.second));
    assert y + "-" + m + "-" + d + "_" + tp == y + ("-" + (m + ("-" + (d + ("_" + tp)))));
  }

  // ---------------------------------------------------------------------
  // Instants, and why string order on job timestamps is time order
  // ---------------------------------------------------------------------

  const MicrosPerSecond: int := 1000000
  const SecondsPerDay: int := 86400
  const MicrosPerDay: int := 86400000000

  function SecondOfDay(t: Timestamp): int {
    3600 * t.hour + 60 * t.minute + t.second
  }

  /** The UTC instant of `t`, in microseconds since 0001-01-01T00:00:00. */
  function InstantOf(t: Timestamp): int
    requires Valid(t)
  {
    (Ordinal(DateOf(t)) - 1) * MicrosPerDay + SecondOfDay(t) * MicrosPerSecond
  }

  /** Field-by-field order: year, month, day, hour, minute, second. */
  predicate FieldsLess(a: Timestamp, b: Timestamp) {
    DateLess(DateOf(a), DateOf(b))
    || (DateOf(a) == DateOf(b) && SecondOfDay(a) < SecondOfDay(b))
  }

  lemma PadStep(x1: nat, x2: nat, w: nat, r1: string, r2: string)
    requires x1 < Pow10(w) && x2 < Pow10(w)
    ensures LexLess(PadDigits(x1, w) + r1, PadDigits(x2, w) + r2) <==> x1 < x2 || (x1 == x2 && LexLess(r1, r2))
  {
    LexLessConcat(PadDigits(x1, w), r1, PadDigits(x2, w), r2);
    PadOrder(x1, x2, w);
    if PadDigits(x1, w) == PadDigits(x2, w) {
      PadInjective(x1, x2, w);
    }
  }

  lemma LitStep(c: string, r1: string, r2: string)
    ensures LexLess(c + r1, c + r2) <==> LexLess(r1, r2)
  {
    LexLessConcat(c, r1, c, r2);
    LexLessIrreflexive(c);
  }

  lemma TimeOrder(a: Timestamp, b: Timestamp)
    requires Valid(a) && Valid(b)
    ensures LexLess(Pad2(a.hour) + (Pad2(a.minute) + Pad2(a.second)), Pad2(b.hour) + (Pad2(b.minute) + Pad2(b.second)))
            <==> SecondOfDay(a) < SecondOfDay(b)
  {
    PadStep(a.hour, b.hour, 2, Pad2(a.minute) + Pad2(a.second), Pad2(b.minute) + Pad2(b.second));
    PadStep(a.minute, b.minute, 2, Pad2(a.second), Pad2(b.second));
    PadOrder(a.second, b.second, 2);
  }

  /** Comparing two zero-padded timestamps as strings compares them field
      by field. */
  lemma CompactFieldOrder(a: Timestamp, b: Timestamp)
    requires Valid(a) && Valid(b)
    ensures LexLess(FormatCompact(a), FormatCompact(b)) <==> FieldsLess(a, b)
  {
    var ta, tb := Pad2(a.hour) + (Pad2(a.minute) + Pad2(a.second)), Pad2(b.hour) + (Pad2(b.minute) + Pad2(b.second));
    var da, db := Pad2(a.day) + ("_" + ta), Pad2(b.day) + ("_" + tb);
    var ma, mb := Pad2(a.month) + ("-" + da), Pad2(b.month) + ("-" + db);
    TimeOrder(a, b);
    LitStep("_", ta, tb);
    PadStep(a.day, b.day, 2, "_" + ta, "_" + tb);
    LitStep("-", da, db);
    PadStep(a.month, b.month, 2, "-" + da, "-" + db);
    LitStep("-", ma, mb);
    PadStep(a.year, b.year, 4, "-" + ma, "-" + mb);
  }

  lemma InstantFieldOrder(a: Timestamp, b: Timestamp)
    requires Valid(a) && Valid(b)
    ensures InstantOf(a) < InstantOf(b) <==> FieldsLess(a, b)
  {
    OrdinalOrder(DateOf(a), DateOf(b));
    OrdinalOrder(DateOf(b), DateOf(a));
    if DateOf(a) != DateOf(b) && Ordinal(DateOf(a)) == Ordinal(DateOf(b)) {
      OrdinalInjective(DateOf(a), DateOf(b));
    }
  }

  /** String order on zero-padded job timestamps is chronological order. */
  lemma CompactOrder(a: Timestamp, b: Timestamp)
    requires Valid(a) && Valid(b)
    ensures LexLess(FormatCompact(a), FormatCompact(b)) <==> InstantOf(a) < InstantOf(b)
  {
    CompactFieldOrder(a, b);
    InstantFieldOrder(a, b);
  }

  /** Distinct instants have distinct zero-padded timestamps. */
  lemma InstantInjective(a: Timestamp, b: Timestamp)
    requires Valid(a) && Valid(b) && InstantOf(a) == InstantOf(b)
    ensures a == b
  {
    InstantFieldOrder(a, b);
    InstantFieldOrder(b, a);
    if DateOf(a) != DateOf(b) {
      OrdinalOrder(DateOf(a), DateOf(b));
      OrdinalOrder(DateOf(b), DateOf(a));
      assert false;
    }
  }

  // ---------------------------------------------------------------------
  // strptime's leniency
  // ---------------------------------------------------------------------

  /** The compact text with month and day written as single digits, as
      `strptime` also accepts. */
  function UnpaddedCompact(t: Timestamp): (s: string)
    requires Valid(t) && t.month < 10 && t.day < 10
  {
    Pad4(t.year) + ("-" + ([DigitChar(t.month)] + ("-" + ([DigitChar(t.day)]
      + ("_" + (Pad2(t.hour) + (Pad2(t.minute) + Pad2(t.second))))))))
  }

  /** A single non-zero digit before `next` is a whole `%d` field. */
  lemma OneDigitDay(items: seq<Item>, c: char, tail: string, ps: seq<string>)
    requires |items| > 0 && items[0] == DayField && '1' <= c <= '9'
    requires |tail| > 0 && !IsDigit(tail[0])
    requires MatchItems(items[1..], tail) == Some(ps)
    ensures MatchItems(items, [c] + tail) == Some([[c]] + ps)
  {
    DayAltsFail(c, tail);
    FourthStep(items, [c], tail, ps);
  }

  /** The three two-digit `%d` alternatives all miss a lone digit, and the
      unpadded one takes it. */
  lemma DayAltsFail(c: char, tail: string)
    requires '1' <= c <= '9' && |tail| > 0 && !IsDigit(tail[0])
    ensures !FitsPrefix(DayField.alts[0], [c] + tail) && !FitsPrefix(DayField.alts[1], [c] + tail)
    ensures !FitsPrefix(DayField.alts[2], [c] + tail) && PatternFits(DayField.alts[3], [c])
  {
    var s := [c] + tail;
    var day := DayField.alts;
    assert s[0] == c && s[1] == tail[0];
    if c == '3' { FailsAt(day[0], s, 1); } else { FailsAt(day[0], s, 0); }
    if c == '1' || c == '2' { FailsAt(day[1], s, 1); } else { FailsAt(day[1], s, 0); }
    FailsAt(day[2], s, 0);
  }

  /** A single non-zero digit before a non-digit is a whole `%m` field. */
  lemma OneDigitMonth(items: seq<Item>, c: char, tail: string, ps: seq<string>)
    requires |items| > 0 && items[0] == MonthField && '1' <= c <= '9'
    requires |tail| > 0 && !IsDigit(tail[0])
    requires MatchItems(items[1..], tail) == Some(ps)
    ensures MatchItems(items, [c] + tail) == Some([[c]] + ps)
  {
    MonthAltsFail(c, tail);
    ThirdStep(items, [c], tail, ps);
  }

  /** The two-digit `%m` alternative misses a lone digit, and the unpadded
      one takes it. */
  lemma MonthAltsFail(c: char, tail: string)
    requires '1' <= c <= '9' && |tail| > 0 && !IsDigit(tail[0])
    ensures !FitsPrefix(MonthField.alts[0], [c] + tail) && !FitsPrefix(MonthField.alts[1], [c] + tail)
    ensures PatternFits(MonthField.alts[2], [c])
  {
    var s := [c] + tail;
    var month := MonthField.alts;
    assert s[0] == c && s[1] == tail[0];
    if c == '1' { FailsAt(month[0], s, 1); } else { FailsAt(month[0], s, 0); }
    FailsAt(month[1], s, 0);
  }

  lemma CanonicalTime(t: Timestamp)
    requires Valid(t)
    ensures MatchItems(CompactFormat[5..], "_" + (Pad2(t.hour) + (Pad2(t.minute) + Pad2(t.second))))
         == Some(["_", Pad2(t.hour), Pad2(t.minute), Pad2(t.second)])
  {
    var f := CompactFormat[5..];
    var time := [Pad2(t.hour), Pad2(t.minute), Pad2(t.second)];
    HourCanonical(t.hour);
    MinuteCanonical(t.minute);
    SecondCanonical(t.second);
    assert f[1..] == CompactFormat[6..];
    assert forall k :: 0 <= k < 3 ==> Canonical(f[1..][k], time[k]);
    MatchCanonical(f[1..], time, "");
    var s6 := Pad2(t.hour) + (Pad2(t.minute) + Pad2(t.second));
    assert Flatten(time) + "" == s6 by {
      assert time[1..][1..] == time[2..] && time[2..][1..] == [];
      assert Flatten(time[2..]) == Pad2(t.second);
      assert Flatten(time[1..]) == Pad2(t.minute) + Pad2(t.second);
    }
    SepStep(f, '_', s6, time);
    assert [['_']] + time == ["_", Pad2(t.hour), Pad2(t.minute), Pad2(t.second)];
  }

  /** `M-D` before text the rest of the format matches. */
  lemma UnpaddedMonthDay(f: seq<Item>, m: char, d: char, tail: string, ps: seq<string>)
    requires |f| >= 3 && f[0] == MonthField && f[1] == Sep('-') && f[2] == DayField
    requires '1' <= m <= '9' && '1' <= d <= '9'
    requires |tail| > 0 && !IsDigit(tail[0]) && MatchItems(f[3..], tail) == Some(ps)
    ensures MatchItems(f, [m] + ("-" + ([d] + tail))) == Some([[m], "-", [d]] + ps)
  {
    assert f[2..][1..] == f[3..] && f[1..][1..] == f[2..];
    var s2, p2 := [d] + tail, [[d]] + ps;
    OneDigitDay(f[2..], d, tail, ps);
    var s1, p1 := ['-'] + s2, [['-']] + p2;
    SepStep(f[1..], '-', s2, p2);
    OneDigitMonth(f, m, s1, p1);
    assert [[m]] + p1 == [[m], "-", [d]] + ps;
  }

  /** A four-digit year and a `-` before text the rest matches. */
  lemma YearStep(f: seq<Item>, y: nat, rest: string, ps: seq<string>)
    requires |f| >= 2 && f[0] == YearField && f[1] == Sep('-') && y < 10000
    requires MatchItems(f[2..], rest) == Some(ps)
    ensures MatchItems(f, Pad4(y) + ("-" + rest)) == Some([Pad4(y), "-"] + ps)
  {
    assert f[1..][1..] == f[2..];
    SepStep(f[1..], '-', rest, ps);
    assert PatternFits(YearField.alts[0], Pad4(y));
    GroupStep(f, 0, Pad4(y), ['-'] + rest, [['-']] + ps);
    assert [Pad4(y)] + ([['-']] + ps) == [Pad4(y), "-"] + ps;
  }

  lemma UnpaddedMatch(f: seq<Item>, t: Timestamp)
    requires f == CompactFormat
    requires Valid(t) && t.month < 10 && t.day < 10
    ensures MatchItems(f, UnpaddedCompact(t)) == Some(UnpaddedPieces(t))
  {
    var rest := [DigitChar(t.month)] + ("-" + ([DigitChar(t.day)] + ("_" + (Pad2(t.hour) + (Pad2(t.minute) + Pad2(t.second))))));
    var ps := UnpaddedPieces(t)[2..];
    UnpaddedRest(f[2..], t);
    YearStep(f, t.year, rest, ps);
    assert [Pad4(t.year), "-"] + ps == UnpaddedPieces(t);
  }

  /** What follows the year in `UnpaddedCompact(t)` matches field by field. */
  lemma UnpaddedRest(f: seq<Item>, t: Timestamp)
    requires f == CompactFormat[2..]
    requires Valid(t) && t.month < 10 && t.day < 10
    ensures MatchItems(f, [DigitChar(t.month)] + ("-" + ([DigitChar(t.day)] + ("_" + (Pad2(t.hour) + (Pad2(t.minute) + Pad2(t.second)))))))
         == Some(UnpaddedPieces(t)[2..])
  {
    var m, d := DigitChar(t.month), DigitChar(t.day);
    var tail := "_" + (Pad2(t.hour) + (Pad2(t.minute) + Pad2(t.second)));
    var time := ["_", Pad2(t.hour), Pad2(t.minute), Pad2(t.second)];
    CanonicalTime(t);
    assert f[3..] == CompactFormat[5..];
    UnpaddedMonthDay(f, m, d, tail, time);
    UnpaddedAfterYear(t);
  }

  lemma UnpaddedAfterYear(t: Timestamp)
    requires Valid(t) && t.month < 10 && t.day < 10
    ensures [[DigitChar(t.month)], "-", [DigitChar(t.day)]] + ["_", Pad2(t.hour), Pad2(t.minute), Pad2(t.second)]
         == UnpaddedPieces(t)[2..]
  {
  }

  /** The fields `strptime` reads from `UnpaddedCompact(t)`. */
  function UnpaddedPieces(t: Timestamp): (ps: seq<string>)
    requires Valid(t) && t.month < 10 && t.day < 10
    ensures |ps| == 9
  {
    [Pad4(t.year), "-", [DigitChar(t.month)], "-", [DigitChar(t.day)], "_", Pad2(t.hour), Pad2(t.minute), Pad2(t.second)]
  }

  /** `strptime` reads single-digit month and day fields too: the same
      instant has more than one accepted spelling. */
  lemma ParseUnpadded(t: Timestamp)
    requires Valid(t) && t.month < 10 && t.day < 10
    ensures ParseCompact(UnpaddedCompact(t)) == Ok(t)
    ensures UnpaddedCompact(t) != FormatCompact(t)
  {
    UnpaddedMatch(CompactFormat, t);
    var ps := UnpaddedPieces(t);
    FlattenNine(ps);
    UnpaddedValues(t);
    ParseOfMatch(UnpaddedCompact(t), ps);
    assert |UnpaddedCompact(t)| == 15;
  }

  lemma UnpaddedValues(t: Timestamp)
    requires Valid(t) && t.month < 10 && t.day < 10
    ensures FieldValue([DigitChar(t.month)]) == t.month && FieldValue([DigitChar(t.day)]) == t.day
    ensures FieldValue(Pad4(t.year)) == t.year && FieldValue(Pad2(t.hour)) == t.hour
    ensures FieldValue(Pad2(t.minute)) == t.minute && FieldValue(Pad2(t.second)) == t.second
  {
    PadValues(t);
    assert [DigitChar(t.month)][..0] == [] && [DigitChar(t.day)][..0] == [];
  }

  /** Once the format has matched the whole text, the parse is the check
      of the fields read. */
  lemma ParseOfMatch(s: string, ps: seq<string>)
    requires MatchItems(CompactFormat, s) == Some(ps) && Flatten(ps) == s
    ensures |ps| == 9
    ensures ParseCompact(s) == Check(Timestamp(FieldValue(ps[0]), FieldValue(ps[2]), FieldValue(ps[4]),
                                               FieldValue(ps[6]), FieldValue(ps[7]), FieldValue(ps[8])))
  {
  }
}

=== FILE: weeks.dfy ===
/** Week keys (`"%Y-W%U"`, common.py) and their display headings.
    `%U` numbers weeks from Sunday: days before the year's first Sunday are
    week 00, and every Sunday starts the next week. */
module Weeks {
  import opened Wrappers
  import opened Text
  import opened Calendar

  /** `%U` of day `n` in a year whose January 1 is day `jan1`. */
  function WeekNumberAt(n: int, jan1: int): int {
    var sundayBased := (Weekday(n) + 1) % 7;
    (n - jan1 + 7 - sundayBased) / 7
  }

  /** strftime's `%U` for a calendar day. */
  function WeekNumber(d: Date): (w: int)
    requires IsCalendarDate(d)
    ensures 0 <= w <= 53
  {
    OrdinalWithinYear(d);
    DaysBeforeYearStep(d.year);
    WeekNumberAt(Ordinal(d), DaysBeforeYear(d.year) + 1)
  }

  /** Reference definition: how many days in `a..b` (inclusive) are Sundays. */
  function SundaysBetween(a: int, b: int): nat
    decreases b - a + 1
  {
    if b < a then 0 else SundaysBetween(a, b - 1) + (if IsSunday(b) then 1 else 0)
  }

  /** Moving one day on adds one to the week number exactly on a Sunday. */
  lemma WeekNumberAtStep(n: int, j: int)
    ensures WeekNumberAt(n, j) == WeekNumberAt(n - 1, j) + (if IsSunday(n) then 1 else 0)
  {
    var k, r := n / 7, n % 7;
    assert (Weekday(n) + 1) % 7 == r;
    if r == 0 {
      assert (Weekday(n - 1) + 1) % 7 == 6;
      assert WeekNumberAt(n, j) == (7 * k - j + 7) / 7;
      assert WeekNumberAt(n - 1, j) == (7 * k - j) / 7;
    } else {
      assert (Weekday(n - 1) + 1) % 7 == r - 1;
      assert WeekNumberAt(n - 1, j) == (7 * k - j + 7) / 7;
    }
  }

  lemma {:induction false} SundayCount(j: int, n: int)
    requires j <= n
    ensures WeekNumberAt(n, j) == SundaysBetween(j, n)
    decreases n - j
  {
    if j < n {
      SundayCount(j, n - 1);
      WeekNumberAtStep(n, j);
    } else {
      assert (Weekday(n) + 1) % 7 == n % 7;
    }
  }

  /** `%U` counts the Sundays from January 1 up to and including the day. */
  lemma WeekNumberCountsSundays(d: Date)
    requires IsCalendarDate(d)
    ensures WeekNumber(d) == SundaysBetween(DaysBeforeYear(d.year) + 1, Ordinal(d))
  {
    OrdinalWithinYear(d);
    SundayCount(DaysBeforeYear(d.year) + 1, Ordinal(d));
  }

  lemma {:induction false} SundaysBetweenMonotone(a: int, b: int, c: int)
    requires b <= c
    ensures SundaysBetween(a, b) <= SundaysBetween(a, c)
    decreases c - b
  {
    if b < c {
      SundaysBetweenMonotone(a, b, c - 1);
    }
  }

  /** Within one year, a later day never has a smaller week number. */
  lemma WeekNumberMonotone(d: Date, e: Date)
    requires IsCalendarDate(d) && IsCalendarDate(e)
    requires d.year == e.year && Ordinal(d) <= Ordinal(e)
    ensures WeekNumber(d) <= WeekNumber(e)
  {
    WeekNumberCountsSundays(d);
    WeekNumberCountsSundays(e);
    SundaysBetweenMonotone(DaysBeforeYear(d.year) + 1, Ordinal(d), Ordinal(e));
  }

  /** Python's `get_week_key` applied to a local calendar day. */
  function WeekKey(d: Date): (k: string)
    requires IsValidDate(d)
    ensures |k| == 8
  {
    Pad4(d.year) + "-W" + Pad2(WeekNumber(d))
  }

  /** Week keys sort in calendar order. */
  lemma WeekKeyOrder(d: Date, e: Date)
    requires IsValidDate(d) && IsValidDate(e)
    requires Ordinal(d) <= Ordinal(e)
    ensures LexLessEq(WeekKey(d), WeekKey(e))
  {
    OrdinalOrder(e, d);
    if d.year == e.year {
      WeekNumberMonotone(d, e);
    }
    KeyFieldsOrder(d.year, WeekNumber(d), e.year, WeekNumber(e));
  }

  lemma KeyFieldsOrder(y1: nat, w1: nat, y2: nat, w2: nat)
    requires y1 < 10000 && y2 < 10000 && w1 < 100 && w2 < 100
    requires y1 < y2 || (y1 == y2 && w1 <= w2)
    ensures LexLessEq(Pad4(y1) + "-W" + Pad2(w1), Pad4(y2) + "-W" + Pad2(w2))
  {
    var t1, t2 := "-W" + Pad2(w1), "-W" + Pad2(w2);
    assert Pad4(y1) + "-W" + Pad2(w1) == Pad4(y1) + t1;
    assert Pad4(y2) + "-W" + Pad2(w2) == Pad4(y2) + t2;
    LexLessConcat(Pad4(y1), t1, Pad4(y2), t2);
    PadOrder(y1, y2, 4);
    if y1 == y2 && w1 < w2 {
      PadOrder(w1, w2, 2);
      LexLessConcat("-W", Pad2(w1), "-W", Pad2(w2));
    }
  }

  // ---------------------------------------------------------------------
  // Reading a week key back (get_week_display's parsing)
  // ---------------------------------------------------------------------

  /** Python's `int(s)` on a plain decimal numeral. */
  function ParseNat(s: string): (r: Result<nat>)
    ensures r.Ok? <==> |s| > 0 && AllDigits(s)
  {
    if |s| > 0 && AllDigits(s) then Ok(DecimalValue(s)) else Err("invalid literal for int()")
  }

  /** `int(key.split('-W')[0])` and `int(key.split('-W')[1])`. */
  function ParseWeekKey(key: string): (r: Result<(nat, nat)>)
  {
    var parts := SplitOn(key, "-W");
    if |parts| < 2 then Err("list index out of range")
    else
      match (ParseNat(parts[0]), ParseNat(parts[1]))
      case (Ok(y), Ok(w)) => Ok((y, w))
      case (Err(e), _) => Err(e)
      case (_, Err(e)) => Err(e)
  }

  lemma {:induction false} SplitOnNoLead(a: string, t: string, sep: string)
    requires |sep| > 0
    requires forall i :: 0 <= i < |a| ==> a[i] != sep[0]
    ensures SplitOn(a + t, sep) == [a + SplitOn(t, sep)[0]] + SplitOn(t, sep)[1..]
  {
    if |a| > 0 {
      var s := a + t;
      assert s[0] == a[0];
      assert !StartsWith(s, sep);
      assert s[1..] == a[1..] + t;
      SplitOnNoLead(a[1..], t, sep);
      assert [a[0]] + (a[1..] + SplitOn(t, sep)[0]) == a + SplitOn(t, sep)[0];
    } else {
      var parts := SplitOn(t, sep);
      assert a + t == t;
      assert a + parts[0] == parts[0];
      assert parts == [parts[0]] + parts[1..];
    }
  }

  lemma DigitsSplit(a: string, b: string)
    requires AllDigits(a) && AllDigits(b)
    ensures SplitOn(a + "-W" + b, "-W") == [a, b]
  {
    SplitOnNoLead(b, "", "-W");
    assert b + "" == b;
    var tail := "-W" + b;
    assert StartsWith(tail, "-W");
    assert tail[2..] == b;
    assert SplitOn(tail, "-W") == ["", b];
    SplitOnNoLead(a, tail, "-W");
    assert a + "-W" + b == a + tail;
    assert a + "" == a;
  }

  /** A week key reads back as the year and week it was built from. */
  lemma ParseWeekKeyRoundTrip(d: Date)
    requires IsValidDate(d)
    ensures ParseWeekKey(WeekKey(d)) == Ok((d.year, WeekNumber(d)))
  {
    DigitsSplit(Pad4(d.year), Pad2(WeekNumber(d)));
    DecimalOfPad(d.year, 4);
    DecimalOfPad(WeekNumber(d), 2);
  }

  // ---------------------------------------------------------------------
  // get_week_display
  // ---------------------------------------------------------------------

  function MonthAbbrev(m: int): string
    requires 1 <= m <= 12
  {
    ["Jan", "Feb", "Mar", "Apr", "May", "Jun",
     "Jul", "Aug", "Sep", "Oct", "Nov", "Dec"][m - 1]
  }

  /** strftime `"Week of %b %d, %Y"`. */
  function DisplayText(d: Date): string
    requires IsValidDate(d)
  {
    "Week of " + MonthAbbrev(d.month) + " " + Pad2(d.day) + ", " + Pad4(d.year)
  }

  /** Ordinal of January 1 of `year`. */
  function Jan1(year: int): int {
    DaysBeforeYear(year) + 1
  }

  lemma Jan1Ordinal(year: int)
    ensures Jan1(year) == Ordinal(Date(year, 1, 1))
  {
  }

  /** Day `j` moved forward `weeks` weeks and back to that week's Monday. */
  function MondayAfter(j: int, weeks: int): (n: int)
    ensures IsSunday(n - 1)
    ensures n <= j + 7 * weeks <= n + 6
  {
    j + 7 * weeks - Weekday(j)
  }

  /** Ordinal of the Monday `get_week_display` picks, as written: the offset
      `7 * week - weekday(Jan 1)` is pushed forward a week when negative. */
  function DisplayMondayAsWritten(year: int, week: nat): (n: int)
    ensures IsSunday(n - 1)
  {
    var jan1 := Jan1(year);
    if 7 * week < Weekday(jan1) then MondayAfter(jan1, week + 1) else MondayAfter(jan1, week)
  }

  /** The Monday of the Sunday-to-Saturday week that `%U` numbers `week`,
      which for week 00 can fall in December of the year before. */
  function DisplayMonday(year: int, week: nat): (n: int)
    ensures IsSunday(n - 1)
  {
    MondayAfter(Jan1(year), week)
  }

  /** The day `get_week_display(key)` formats, as written, or the error it
      raises: a malformed key, a year outside 1..9999, or a Monday past the
      last representable day. */
  function WeekStartAsWritten(key: string): (r: Result<int>)
    ensures r.Ok? ==> MinOrdinal <= r.value <= MaxOrdinal && IsSunday(r.value - 1)
  {
    match ParseWeekKey(key)
    case Err(e) => Err(e)
    case Ok((y, w)) =>
      if !(MinYear <= y <= MaxYear) then Err("year is out of range")
      else
        var n := DisplayMondayAsWritten(y, w);
        DaysBeforeYearGrows(MinYear, y);
        if n > MaxOrdinal then Err("date value out of range") else Ok(n)
  }

  /** The day the heading of `key` should name: the Monday of the week the
      key numbers. */
  function WeekStart(key: string): (r: Result<int>)
    ensures r.Ok? ==> MinOrdinal <= r.value <= MaxOrdinal && IsSunday(r.value - 1)
  {
    match ParseWeekKey(key)
    case Err(e) => Err(e)
    case Ok((y, w)) =>
      if !(MinYear <= y <= MaxYear) then Err("year is out of range")
      else
        var n := DisplayMonday(y, w);
        if !(MinOrdinal <= n <= MaxOrdinal) then Err("date value out of range") else Ok(n)
  }

  function Heading(start: Result<int>): (r: Result<string>)
    requires start.Ok? ==> MinOrdinal <= start.value <= MaxOrdinal
    ensures r.Ok? <==> start.Ok?
  {
    match start
    case Err(e) => Err(e)
    case Ok(n) =>
      var d := FromOrdinal(n);
      ValidRange(d);
      Ok(DisplayText(d))
  }

  /** `get_week_display(key)` as written. */
  function WeekDisplayAsWritten(key: string): (r: Result<string>)
  {
    Heading(WeekStartAsWritten(key))
  }

  /** `get_week_display(key)` naming the Monday of the key's own week. */
  function WeekDisplay(key: string): (r: Result<string>)
  {
    Heading(WeekStart(key))
  }

  lemma WeekStartOfParsed(key: string, y: int, wk: nat)
    requires ParseWeekKey(key) == Ok((y, wk))
    requires MinYear <= y <= MaxYear
    requires MinOrdinal <= DisplayMonday(y, wk) <= MaxOrdinal
    ensures WeekStart(key) == Ok(DisplayMonday(y, wk))
  {
  }

  /** The heading of a key that `get_week_key` produced is the corrected
      Monday of that day's week, whenever that Monday is representable. */
  lemma WeekStartOfKey(d: Date)
    requires IsValidDate(d)
    ensures var m := DisplayMonday(d.year, WeekNumber(d));
      MinOrdinal <= m ==> WeekStart(WeekKey(d)) == Ok(m)
  {
    var m := DisplayMonday(d.year, WeekNumber(d));
    ParseWeekKeyRoundTrip(d);
    DisplayMondayContainsDay(d);
    ValidRange(d);
    if MinOrdinal <= m {
      WeekStartOfParsed(WeekKey(d), d.year, WeekNumber(d));
    }
  }

  /** The corrected Monday lies in the Sunday-to-Saturday week of every day
      whose key names that week, and never past the last representable day. */
  lemma DisplayMondayContainsDay(d: Date)
    requires IsValidDate(d)
    ensures var m := DisplayMonday(d.year, WeekNumber(d));
      m - 1 <= Ordinal(d) <= m + 5 && m <= MaxOrdinal
  {
    OrdinalWithinYear(d);
    MondayOfWeek(Ordinal(d), DaysBeforeYear(d.year) + 1);
    ValidRange(d);
    assert !IsSunday(MaxOrdinal);
  }

  lemma MondayOfWeek(n: int, j: int)
    ensures var m := j + 7 * WeekNumberAt(n, j) - Weekday(j);
      m - 1 <= n <= m + 5 && (IsSunday(n) || m <= n)
  {
    var q, r := n / 7, n % 7;
    var p, s := j / 7, j % 7;
    assert (Weekday(n) + 1) % 7 == r;
    assert n - j + 7 - r == 7 * (q - p) + 7 - s;
    assert WeekNumberAt(n, j) == q - p + (if s == 0 then 1 else 0);
  }

  /** For every week from 01 on, and whenever January 1 is a Monday, the
      as-written Monday is the corrected one. */
  lemma AsWrittenAgrees(year: int, week: nat)
    requires week >= 1 || Weekday(Ordinal(Date(year, 1, 1))) == 0
    ensures DisplayMondayAsWritten(year, week) == DisplayMonday(year, week)
  {
  }

  lemma Key2025(week: nat)
    requires week <= 9
    ensures ParseWeekKey("2025-W0" + [DigitChar(week)]) == Ok((2025, week))
  {
    var key := "2025-W0" + [DigitChar(week)];
    assert Pad2(week) == "0" + [DigitChar(week)];
    assert key == Pad4(2025) + "-W" + Pad2(week);
    DigitsSplit(Pad4(2025), Pad2(week));
    DecimalOfPad(2025, 4);
    DecimalOfPad(week, 2);
  }

  lemma KeyOfNewYear2025()
    ensures WeekKey(Date(2025, 1, 1)) == "2025-W00"
  {
    Concrete2025();
  }

  lemma Facts2025()
    ensures Jan1(2025) == 739252 && Weekday(739252) == 2
    ensures DisplayMondayAsWritten(2025, 0) == 739257
    ensures DisplayMondayAsWritten(2025, 1) == 739257
    ensures DisplayMonday(2025, 0) == 739250
    ensures Ordinal(Date(2025, 1, 6)) == 739257
    ensures Ordinal(Date(2024, 12, 30)) == 739250
    ensures Ordinal(Date(2025, 1, 1)) == 739252
  {
    Concrete2025();
    DaysBeforeYearClosedForm(2024);
  }

  lemma ParseW00()
    ensures ParseWeekKey("2025-W00") == Ok((2025, 0))
  {
    Key2025(0);
    assert "2025-W0" + [DigitChar(0)] == "2025-W00";
  }

  lemma ParseW01()
    ensures ParseWeekKey("2025-W01") == Ok((2025, 1))
  {
    Key2025(1);
    assert "2025-W0" + [DigitChar(1)] == "2025-W01";
  }

  /** Day 2025-01-01 gets key "2025-W00", but the as-written start of that
      key is Monday January 6, which does not begin the week holding it. */
  lemma AsWrittenMissesWeekZero()
    ensures WeekKey(Date(2025, 1, 1)) == "2025-W00"
    ensures WeekStartAsWritten("2025-W00") == Ok(Ordinal(Date(2025, 1, 6)))
    ensures !(Ordinal(Date(2025, 1, 6)) - 1 <= Ordinal(Date(2025, 1, 1)))
  {
    KeyOfNewYear2025();
    ParseW00();
    Facts2025();
  }

  /** Keys "2025-W00" and "2025-W01" get the same heading as written. */
  lemma AsWrittenHeadingsCollide()
    ensures WeekStartAsWritten("2025-W00") == WeekStartAsWritten("2025-W01")
    ensures WeekDisplayAsWritten("2025-W00") == WeekDisplayAsWritten("2025-W01")
  {
    ParseW00();
    ParseW01();
    Facts2025();
  }

  /** The corrected start of "2025-W00" is Monday December 30, 2024, the
      Monday of the week holding 2025-01-01. */
  lemma CorrectedWeekZero()
    ensures WeekStart("2025-W00") == Ok(Ordinal(Date(2024, 12, 30)))
  {
    ParseW00();
    Facts2025();
  }
}

=== FILE: wrappers.dfy ===
/** Failure-carrying wrappers shared by every module of the model.
    A Python exception becomes `Err(message)`; a Python `None` becomes `None`. */
module Wrappers {

  datatype Option<+T> = None | Some(value: T) {
    /** The wrapped value, or `default` when there is none. */
    function GetOr(default: T): T {
      match this
      case Some(v) => v
      case None => default
    }
  }

  datatype Result<+T> = Ok(value: T) | Err(error: string) {
    function ToOption(): Option<T> {
      match this
      case Ok(v) => Some(v)
      case Err(_) => None
    }
  }
}

=== FILE: zones.dfy ===
/** Converting a UTC job time to a local calendar date, as `astimezone`
    does before `get_week_key` formats the week. The zone's rules are an
    input: the offset in force at each UTC instant. */
module Zones {
  import opened Wrappers
  import opened Calendar
  import opened Timestamps
  import opened Instants
  import opened Weeks

  /** A time zone: the UTC offset, in minutes, in force at each UTC instant
      (microseconds since 0001-01-01T00:00). */
  type Zone = int -> int

  /** The message of the `OverflowError` `astimezone` raises when the local
      reading falls outside years 1 to 9999. */
  const OverflowMessage: string := "date value out of range"

  /** The local wall reading of UTC time `t`, in microseconds. */
  function LocalMicros(zone: Zone, t: Timestamp): int
    requires Valid(t)
  {
    InstantOf(t) + zone(InstantOf(t)) * MicrosPerMinute
  }

  /** The calendar date of `t.astimezone(zone)`: the day holding the local
      reading, or the `OverflowError`. */
  function LocalDate(zone: Zone, t: Timestamp): (r: Result<Date>)
    requires Valid(t)
    ensures r.Ok? ==> IsValidDate(r.value)
    ensures r.Ok? ==> (Ordinal(r.value) - 1) * MicrosPerDay <= LocalMicros(zone, t) < Ordinal(r.value) * MicrosPerDay
    ensures r.Err? <==> !(0 <= LocalMicros(zone, t) < WallLimit)
  {
    var n := LocalMicros(zone, t);
    if 0 <= n < WallLimit then
      var d := FromOrdinal(n / MicrosPerDay + 1);
      ValidRange(d);
      Ok(d)
    else Err(OverflowMessage)
  }

  /** Where the offset is zero, the local date is the UTC date. */
  lemma LocalDateAtZeroOffset(zone: Zone, t: Timestamp)
    requires Valid(t) && zone(InstantOf(t)) == 0
    ensures LocalDate(zone, t) == Ok(DateOf(t))
  {
    var d := DateOf(t);
    ValidRange(d);
    var r := LocalDate(zone, t);
    assert r.Ok?;
    var e := r.value;
    assert Ordinal(e) - 1 == Ordinal(d) - 1 by {
      var n := InstantOf(t);
      assert n == (Ordinal(d) - 1) * MicrosPerDay + SecondOfDay(t) * MicrosPerSecond;
      assert 0 <= SecondOfDay(t) * MicrosPerSecond < MicrosPerDay;
      DayOfMicros(Ordinal(d) - 1, Ordinal(e) - 1, n);
    }
    OrdinalInjective(d, e);
  }

  lemma DayOfMicros(a: int, b: int, n: int)
    requires a * MicrosPerDay <= n < (a + 1) * MicrosPerDay
    requires b * MicrosPerDay <= n < (b + 1) * MicrosPerDay
    ensures a == b
  {
  }

  /** `get_week_key(dt, zone)`: the `%Y-W%U` key of the local date. */
  function WeekKeyAt(zone: Zone, t: Timestamp): (r: Result<string>)
    requires Valid(t)
    ensures r.Ok? <==> LocalDate(zone, t).Ok?
    ensures r.Ok? ==> r.value == WeekKey(LocalDate(zone, t).value)
  {
    match LocalDate(zone, t)
    case Err(e) => Err(e)
    case Ok(d) => Ok(WeekKey(d))
  }
}
